=== FILE: README.md ===
# Dev card showcase: demo logic in Dafny

The dev-card-showcase repository collects small, unrelated browser demos and
browser-extension scripts. This project models the decision logic and state
changes of seventeen of them, one Dafny module each, and proves properties of
the model. Every operation is a pure function over immutable records; the
page's mutable variables become fields of a state record, and an event handler
becomes a step function from one state to the next.

| module | demo |
|---|---|
| `NotificationFilter` | mindful notification filter: notifications let through or held back by focus and stress level |
| `NutrientRisk` | nutrient deficiency risk scanner: per-nutrient scores, risk bands, overall score and dietary advice |
| `DatasetValidator` | autonomous dataset validator: upload check and the missing, duplicate, type, range and outlier checks |
| `AlgoBlocks` | AlgoBlocks: one array of node values read as a list, a stack or a queue |
| `ProbOracle` | probability oracle: three percentages kept summing to 100, nudged, jittered and collapsed |
| `SpaceSlingshot` | space slingshot: the rocket's phase machine, its 50-point trail, crashes, the goal and the sandbox |
| `BreakScheduler` | AI-powered break scheduler: work tracking, breaks, deadlines, energy advice and the two analysers |
| `EnergyOptimizer` | energy consumption optimizer: pricing, suggestions, efficiency score, top consumers, entries |
| `WallpaperRotator` | mood-boosting wallpaper rotator: wallpaper choice with fallbacks, history and mood analysis |
| `HabitTracker` | social habit tracker: users, groups, habits, challenges and the demo page's two buttons |
| `NarrativeGen` | narrative loom: story elements pulled from fragment lists and woven into sentences |
| `CognitiveTracker` | cognitive resilience tracker: stress bands, tasks, answer checking, results and sessions |
| `BreathingBuddy` | mindful breathing buddy: stress label, guide choice and the breathing session's timer |
| `Hydration` | hydration hero: intake against a 2000 ml goal, advice, reminder and the popup's log button |
| `ResonanceArchive` | resonance archive: pieces, play counts, weighted pick, blends, event log and the filtered list |
| `HarmonicOrb` | harmonic orb: sound parameters, the oscillator bank, drag mapping, labels, presets and zoom |
| `QuantumTypewriter` | quantum typewriter: a UTF-16 text buffer edited by keys, effects and random fluctuations |

Five helper modules hold what several demos share: `Options` (the optional
value of a lookup or parse that may fail), `Seqs` (filter, count,
sums, a stable descending sort, reversal, and the scaling of a
`Math.random()` draw to an index), `Strings` (`trim`, ASCII case mapping,
substring search, `join`, decimal formatting and the prefix parsers behind
`parseInt` and `parseFloat`), `Assoc` (association lists standing for
plain JavaScript objects used as dictionaries) and `Reals` (the facts about
multiplying and dividing reals that averages and percentages rely on).

Randomness, the clock and the local hour are parameters: a `Math.random()`
draw is a real in [0, 1), `Date.now()` an integer of milliseconds. JavaScript
numbers are modelled as exact `real`s or unbounded `int`s; where the source
relies on JavaScript semantics that differ from Dafny's (`%` taking the
dividend's sign, `parseInt` reading a prefix, comparisons with `undefined` or
`NaN` being false, a stable `Array.prototype.sort`), the model spells them
out. Text is `seq<char>`, except in the typewriter, whose buffer is a sequence
of UTF-16 code units because its backspace and reverse split surrogate pairs.

## Model

| member | source | states |
|---|---|---|
| NotificationFilter.AllowedOf | mindful-notification-filter/background.js:19-31 | every notification in the allowed list comes from the input and passes the focus/stress rule |
| NotificationFilter.HeldOf | mindful-notification-filter/background.js:19-31 | every notification in the filtered list comes from the input and fails the focus/stress rule |
| NotificationFilter.FilterNotifications | mindful-notification-filter/background.js:16-32 | the loop, with both lists started empty, builds exactly the allowed and filtered lists of the rule |
| NotificationFilter.Partition | mindful-notification-filter/background.js:19-32 | each notification lands in exactly one of the two lists: the lengths add up and the multisets combine to the input |
| NotificationFilter.AllowedKeepsOrder | mindful-notification-filter/background.js:19-31 | the allowed list is the input read at strictly increasing positions, so relative order is kept |
| NotificationFilter.ImportantAlwaysAllowed | mindful-notification-filter/background.js:20-31 | an important notification is allowed at every focus and stress level |
| NotificationFilter.RelaxedAllowsAll | mindful-notification-filter/background.js:29-31 | with focus other than 'deep' and stress other than 'high', everything is allowed and nothing is filtered |
| NotificationFilter.HighStressOnlyImportant | mindful-notification-filter/background.js:20-28 | under 'high' stress the allowed list is exactly the important notifications and the filtered list the rest, at any focus |
| NotificationFilter.DeepLowAllowsAll | mindful-notification-filter/background.js:23-25 | deep focus with 'low' stress allows everything |
| NotificationFilter.DeepOtherOnlyImportant | mindful-notification-filter/background.js:20-25 | deep focus with any stress other than 'low' allows exactly the important notifications |
| NotificationFilter.StoredOr | mindful-notification-filter/background.js:40-41 | a stored level is used when present and non-empty, otherwise the default |
| NotificationFilter.Refilter | mindful-notification-filter/background.js:16-32 | both lists are recomputed from scratch for the current levels, which are unchanged |
| NotificationFilter.UpdateFilter | mindful-notification-filter/background.js:37-44 | the 'updateFilter' message adopts the stored levels (defaults 'normal' and 'low') and refilters with them |
| NotificationFilter.OnInstalled | mindful-notification-filter/background.js:48-51 | installation refilters with the in-memory levels |
| NotificationFilter.UpdateIdempotent | mindful-notification-filter/background.js:17-18 | a second update with the same stored levels changes nothing |
| NotificationFilter.MissingLevelsAllowAll | mindful-notification-filter/background.js:40-42 | with no stored levels every notification is allowed |
| NutrientRisk.Lifestyle | nutrient-deficiency-risk-scanner/nutrient-deficiency-risk-scanner.js:173-181 | the lifestyle adjustment is between 0 and 4 |
| NutrientRisk.Score | nutrient-deficiency-risk-scanner/nutrient-deficiency-risk-scanner.js:156-184 | the score is the source weights plus the lifestyle adjustment, clamped to [0,10]: equal to the raw sum inside the range, 10 above it, 0 below it |
| NutrientRisk.FactorsCorrect | nutrient-deficiency-risk-scanner/nutrient-deficiency-risk-scanner.js:160-170 | the risk factors are texts of sources weighing at least 3, and every such source has its text listed |
| NutrientRisk.RiskLevel | nutrient-deficiency-risk-scanner/nutrient-deficiency-risk-scanner.js:214-219 | each band holds exactly for its score interval: at most 2 Low, up to 5 Moderate, up to 8 High, above Very High |
| NutrientRisk.RiskLevelMonotone | nutrient-deficiency-risk-scanner/nutrient-deficiency-risk-scanner.js:214-219 | a higher score never gets a lower band |
| NutrientRisk.OverallLevel | nutrient-deficiency-risk-scanner/nutrient-deficiency-risk-scanner.js:221-226 | each overall band holds exactly for its interval of the average, with bounds 2, 4 and 6 |
| NutrientRisk.OverallLevelMonotone | nutrient-deficiency-risk-scanner/nutrient-deficiency-risk-scanner.js:221-226 | a higher average never gets a lower overall band |
| NutrientRisk.Assess | nutrient-deficiency-risk-scanner/nutrient-deficiency-risk-scanner.js:186-193 | a nutrient's entry keeps its key and name, carries the nutrient's score, in [0,10], the band of that score and the factors found for it |
| NutrientRisk.TotalScore | nutrient-deficiency-risk-scanner/nutrient-deficiency-risk-scanner.js:195 | the total of n scores lies in [0, 10n] |
| NutrientRisk.HighRiskNames | nutrient-deficiency-risk-scanner/nutrient-deficiency-risk-scanner.js:208-210 | the list holds exactly the names of nutrients at level High, so Very High ones are excluded |
| NutrientRisk.CalculateRisks | nutrient-deficiency-risk-scanner/nutrient-deficiency-risk-scanner.js:149-211 | one entry per nutrient in table order, the overall band of the mean score, the rounded mean in [0,10], and the High list |
| NutrientRisk.CalculateNutrientRisks | nutrient-deficiency-risk-scanner/nutrient-deficiency-risk-scanner.js:149-211 | the nine nutrients of the table each get exactly one entry, their own assessment in table order; the overall score is the rounded mean, in [0,10], the overall band is the band of the mean, and the High list names exactly the nutrients at level High |
| NutrientRisk.OverallScore | nutrient-deficiency-risk-scanner/nutrient-deficiency-risk-scanner.js:199-206 | the mean rounded to one decimal stays within [0,10] and within 0.05 of the exact mean |
| NutrientRisk.UnlistedFrequencyCountsZero | nutrient-deficiency-risk-scanner/nutrient-deficiency-risk-scanner.js:161-164 | a frequency missing from a source's weight table (fish eaten daily) adds 0 to every nutrient |
| NutrientRisk.EmptyAnswersAreLowRisk | nutrient-deficiency-risk-scanner/nutrient-deficiency-risk-scanner.js:156-184 | with no answers a nutrient scores 0, is Low and has no risk factors |
| NutrientRisk.FiredRulesCorrect | nutrient-deficiency-risk-scanner/nutrient-deficiency-risk-scanner.js:331-357 | the rules whose advice is pushed are exactly the rules whose condition holds, each once and in the order the conditions are checked |
| NutrientRisk.DietaryAdvice | nutrient-deficiency-risk-scanner/nutrient-deficiency-risk-scanner.js:326-361 | the fallback sentence when no rule fires; when some rule fires, a non-empty list of the fired sentences joined with '. ' and ending with '.' |
| DatasetValidator.AcceptsIff | projects/autonomous-dataset-validator/autonomous-dataset-validator.js:241-247 | a file is accepted iff it has a '.' and its lowercased suffix from the last '.' is .csv, .json, .xlsx or .xls |
| Strings.LastIndexOf | projects/autonomous-dataset-validator/autonomous-dataset-validator.js:242 | the position found holds the character and none after it does; nothing is found only when the character is absent |
| Strings.LastIndexOfIs | projects/autonomous-dataset-validator/autonomous-dataset-validator.js:242 | an occurrence with no occurrence after it is the one found |
| DatasetValidator.NoDotNoExtension | projects/autonomous-dataset-validator/autonomous-dataset-validator.js:242-247 | a name without a '.' is rejected |
| DatasetValidator.CellIssuesInRow | projects/autonomous-dataset-validator/autonomous-dataset-validator.js:668-680 | within one row, exactly the headers whose cell fails the test are reported, with that row's number and the cell's value |
| DatasetValidator.CellIssues | projects/autonomous-dataset-validator/autonomous-dataset-validator.js:667-681 | one issue for exactly each failing (row, header) cell, numbered from 1, in row-major order |
| DatasetValidator.MissingIssues | projects/autonomous-dataset-validator/autonomous-dataset-validator.js:666-682 | one warning for exactly each (row, header) whose value is falsy, 0 included, with a 1-based row number, rows in order |
| DatasetValidator.TypeIssues | projects/autonomous-dataset-validator/autonomous-dataset-validator.js:709-726 | one error for exactly each truthy cell whose type is invalid, rows in order |
| DatasetValidator.NonStrictAcceptsAll | projects/autonomous-dataset-validator/autonomous-dataset-validator.js:772-783 | outside strict mode every value is valid, so the type check reports nothing |
| DatasetValidator.DuplicateIssuesCorrect | projects/autonomous-dataset-validator/autonomous-dataset-validator.js:685-706 | row i is reported iff some earlier row has the same key, with strictly increasing row numbers |
| DatasetValidator.FindDuplicates | projects/autonomous-dataset-validator/autonomous-dataset-validator.js:685-706 | the single pass with a set of seen keys reports exactly the rows of the reference definition |
| DatasetValidator.DuplicateStep | projects/autonomous-dataset-validator/autonomous-dataset-validator.js:693-704 | one more row adds an issue exactly when its key is among the keys seen so far |
| DatasetValidator.FirstOccurrenceNotFlagged | projects/autonomous-dataset-validator/autonomous-dataset-validator.js:693-704 | the first row with a given key is never reported |
| DatasetValidator.JoinedKeysConflate | projects/autonomous-dataset-validator/autonomous-dataset-validator.js:692 | two different rows whose cells contain the separator can join to the same key, and the second is reported as a duplicate |
| DatasetValidator.OutsideIssues | projects/autonomous-dataset-validator/autonomous-dataset-validator.js:731-744 | one issue for exactly each row whose value parses as a number outside [lo, hi]; values that do not parse are never reported |
| DatasetValidator.OutsideIssuesIff | projects/autonomous-dataset-validator/autonomous-dataset-validator.js:731-744 | an issue is produced iff it reports, at its own 1-based row and with its value, a number outside [lo, hi] |
| DatasetValidator.RangeIssues | projects/autonomous-dataset-validator/autonomous-dataset-validator.js:728-746 | an issue is reported iff some rule for its column finds that row's value to be a number outside the rule's bounds, and every issue is a range issue |
| DatasetValidator.RangeIssuesCorrect | projects/autonomous-dataset-validator/autonomous-dataset-validator.js:729-745 | the rules' issues concatenated in rule order contain exactly the issues breaking some rule for their column |
| Seqs.InConcatMap | projects/autonomous-dataset-validator/autonomous-dataset-validator.js:730-745 | an element is in the concatenated results iff it is in the result for some input |
| DatasetValidator.RangeFlagsIff | projects/autonomous-dataset-validator/autonomous-dataset-validator.js:732-733 | a rule reports a row iff its value parses as a number strictly below min or strictly above max |
| DatasetValidator.SortAsc | projects/autonomous-dataset-validator/autonomous-dataset-validator.js:791 | the result is ascending and a permutation of the values |
| DatasetValidator.IndicesOutside | projects/autonomous-dataset-validator/autonomous-dataset-validator.js:798-802 | exactly the indices whose value lies outside the fences, in ascending order |
| DatasetValidator.DetectOutliers | projects/autonomous-dataset-validator/autonomous-dataset-validator.js:785-806 | with 'iqr' the values come back sorted and the result is exactly the ascending indices into them lying strictly outside the fences; any other method returns nothing and leaves the values alone |
| DatasetValidator.NumbersCorrect | projects/autonomous-dataset-validator/autonomous-dataset-validator.js:751 | the numbers kept are as many as the values that parse, each row's number sits after those of earlier rows, and every number kept is some row's value |
| DatasetValidator.OutlierIssuesAsWritten | projects/autonomous-dataset-validator/autonomous-dataset-validator.js:750-765 | as written, each outlier is numbered by its index among the sorted numbers plus one, so the row lies between 1 and the count of numbers |
| DatasetValidator.AsWrittenReportsRanks | projects/autonomous-dataset-validator/autonomous-dataset-validator.js:752-765 | as written, an issue is reported iff it names a sorted rank (1-based) whose number lies outside the fences, carrying that number, with 'iqr' as method; ranks increase |
| DatasetValidator.AllOutlierIssuesAsWritten | projects/autonomous-dataset-validator/autonomous-dataset-validator.js:748-767 | as written, over every header: an issue is reported iff its column is a header and it is a rank issue of that column |
| DatasetValidator.OutlierIssues | projects/autonomous-dataset-validator/autonomous-dataset-validator.js:749-767 | corrected: a row is reported iff its own number lies outside the fences of its column |
| DatasetValidator.OutlierIssuesIff | projects/autonomous-dataset-validator/autonomous-dataset-validator.js:748-767 | corrected: an issue is reported iff it reports, at its own row, a number outside the fences of its column's sorted numbers, with 'iqr' as method; rows increase |
| DatasetValidator.AllOutlierIssues | projects/autonomous-dataset-validator/autonomous-dataset-validator.js:748-767 | corrected, over every header: an issue is reported iff its column is a header and it reports, at its own row, a number of that column outside the fences, the method being 'iqr' |
| DatasetValidator.SortedUnique | projects/autonomous-dataset-validator/autonomous-dataset-validator.js:791 | two ascending orders of the same numbers are equal, so the sort's result is determined |
| DatasetValidator.SkewedOutliers | projects/autonomous-dataset-validator/autonomous-dataset-validator.js:790-805 | for the column 100, 1, 2, 3, 4 the sorted values are 1, 2, 3, 4, 100 and only index 4 lies outside the fences -1 and 7 |
| DatasetValidator.AsWrittenSingle | projects/autonomous-dataset-validator/autonomous-dataset-validator.js:753-764 | as written, a single sorted index i becomes one issue at row i + 1 carrying the sorted value |
| DatasetValidator.OutlierRowIsSortedRank | projects/autonomous-dataset-validator/autonomous-dataset-validator.js:753-764 | as written, the 100 in row 1 is reported at row 5, whose own value is 4 |
| DatasetValidator.OutsideSingle | projects/autonomous-dataset-validator/autonomous-dataset-validator.js:731-744 | when exactly one value lies outside the bounds, exactly its row is reported |
| DatasetValidator.OutlierAtOwnRow | projects/autonomous-dataset-validator/autonomous-dataset-validator.js:749-767 | corrected, the 100 is reported at row 1, where it sits |
| DatasetValidator.Validate | projects/autonomous-dataset-validator/autonomous-dataset-validator.js:661-770 | as written: issues come grouped in check order (missing, duplicate, type, range, outlier), and no outlier issue appears when that check is disabled |
| DatasetValidator.ValidateByCheck | projects/autonomous-dataset-validator/autonomous-dataset-validator.js:661-770 | as written, the issues of each kind are exactly that check's issues when it is enabled and none when disabled, the outliers numbered by sorted rank |
| DatasetValidator.ValidateIntended | projects/autonomous-dataset-validator/autonomous-dataset-validator.js:661-770 | corrected: grouped in check order, and no outlier issue when that check is disabled |
| DatasetValidator.ValidateIntendedByCheck | projects/autonomous-dataset-validator/autonomous-dataset-validator.js:661-770 | corrected: the issues of each kind are exactly that check's issues when enabled, with every outlier at its own row, and none when disabled |
| DatasetValidator.ConcatGrouped | projects/autonomous-dataset-validator/autonomous-dataset-validator.js:662-769 | the five results appended in order are grouped by check, and an issue of a kind comes from that check's part |
| DatasetValidator.DefaultsReportNoTypeOrRange | projects/autonomous-dataset-validator/autonomous-dataset-validator.js:451-471 | with the default rules (no strict typing, no range rules) no type or range issue is reported |
| AlgoBlocks.SetMode | projects/algoblocks/script.js:31-58 | switching mode sets the mode and never touches the node values |
| AlgoBlocks.AddData | projects/algoblocks/script.js:65-76 | input that trims to nothing leaves everything unchanged; otherwise exactly the trimmed value is appended at the end |
| AlgoBlocks.RemoveData | projects/algoblocks/script.js:78-90 | an empty memory is unchanged; otherwise QUEUE removes the first value and every other mode the last, the rest keep their order, and the removed value plus the rest make up the old memory |
| AlgoBlocks.ClearAllData | projects/algoblocks/script.js:92-97 | the memory becomes empty and the mode stays |
| AlgoBlocks.GenerateRandomData | projects/algoblocks/script.js:99-107 | between 3 and 5 integers, each in [1,99], are appended after the existing values |
| AlgoBlocks.StackPushPop | projects/algoblocks/script.js:70-86 | outside QUEUE mode a push then a pop returns the pushed value and the memory as it was (last in, first out) |
| AlgoBlocks.QueueFifo | projects/algoblocks/script.js:70-84 | in QUEUE mode a dequeue after an enqueue returns the oldest value, and the two operations commute on a non-empty queue |
| AlgoBlocks.QueueOrder | projects/algoblocks/script.js:82-84 | dequeueing a whole queue returns its values in the order they were stored (first in, first out) |
| ProbOracle.Floor | projects/prob-oracle/script.js:38-39 | the result is the greatest integer not above the argument |
| ProbOracle.Normalise | projects/prob-oracle/script.js:37-40 | the three results add up to 100, yes and no are the floors of their exact shares, and all are non-negative for non-negative weights |
| ProbOracle.NormaliseValidIsIdentity | projects/prob-oracle/script.js:37-40 | with exact arithmetic, shares that already add up to 100 are kept |
| ProbOracle.RawWeight | projects/prob-oracle/script.js:32-34 | a fresh weight is an integer in [20,79], so the normalising total is positive |
| ProbOracle.Consult | projects/prob-oracle/script.js:26-43 | consulting gives three non-negative percentages that add up to 100 |
| ProbOracle.Certain | projects/prob-oracle/script.js:50-59 | a certain state is a valid state |
| ProbOracle.Collapse | projects/prob-oracle/script.js:45-65 | yes iff the draw is below the yes share, no iff it is below yes plus no but not below yes, maybe otherwise; the picked outcome becomes 100 and the others 0 |
| ProbOracle.CollapseIsStable | projects/prob-oracle/script.js:45-59 | collapsing a collapsed state again, with any draw in [0,100), gives the same outcome and state |
| ProbOracle.Reset | projects/prob-oracle/script.js:67-75 | reset restores 34, 33 and 33 |
| ProbOracle.Nudge | projects/prob-oracle/script.js:83-107 | an outcome-card click leaves three non-negative percentages adding up to 100 |
| ProbOracle.NudgedWeights | projects/prob-oracle/script.js:86-98 | the chosen weight rises by 10 capped at 90, each other falls by 5 floored at 5; any card other than yes and no counts as maybe |
| ProbOracle.NudgeRaisesChosen | projects/prob-oracle/script.js:86-104 | focusing on yes never lowers its share while the share is at most 80 |
| ProbOracle.ClampReal | projects/prob-oracle/script.js:122-124 | the clamped weight lies in [5,90] and a weight already inside is unchanged |
| ProbOracle.Tick | projects/prob-oracle/script.js:114-134 | an interval tick leaves three non-negative percentages adding up to 100, for any draws |
| ProbOracle.Step | projects/prob-oracle/script.js:26-134 | every event keeps the percentages non-negative and adding up to 100 |
| ProbOracle.RunKeepsValid | projects/prob-oracle/script.js:8-134 | from 34, 33, 33, any run of consults, collapses, resets, card clicks and ticks keeps the percentages valid |
| ProbOracle.RunFromValid | projects/prob-oracle/script.js:26-134 | from any valid state, any run of events keeps the percentages valid |
| SpaceSlingshot.InitLevel | projects/space-slingshot/script.js:171-179 | a new level is aiming on a canvas of the given size, with two planets, the rocket at rest at its start, an empty trail and no press |
| SpaceSlingshot.FreshLevelIsReset | projects/space-slingshot/script.js:68-75 | a fresh level is already in the state a reset gives |
| SpaceSlingshot.StartsOnScreen | projects/space-slingshot/script.js:171-179 | on a canvas at least 100 by 100 the rocket starts on it |
| SpaceSlingshot.Resize | projects/space-slingshot/script.js:188-191 | a resize sets the canvas size and changes nothing else; bodies, goal and rocket keep their coordinates |
| SpaceSlingshot.ShrinkLoses | projects/space-slingshot/script.js:102-115 | a resize that leaves a resting rocket off the canvas makes the next flight frame end LOST |
| SpaceSlingshot.Reset | projects/space-slingshot/script.js:68-75 | the rocket returns to its start at rest with an empty trail and the phase is AIMING; bodies, goal, mouse state and tool stay |
| SpaceSlingshot.ApplyGravity | projects/space-slingshot/script.js:77-100 | the phase becomes CRASHED iff some body lies within the sum of the radii (compared squared); position, trail, bodies and goal stay |
| SpaceSlingshot.PushTrail | projects/space-slingshot/script.js:104-105 | the old position becomes the newest trail point; below 50 points nothing is dropped, and from 50 on exactly the oldest is dropped so the length stays |
| SpaceSlingshot.TrailIsLastFifty | projects/space-slingshot/script.js:104-105 | from an empty trail, the trail holds the last 50 positions recorded, all of them while fewer, oldest first |
| SpaceSlingshot.Update | projects/space-slingshot/script.js:102-115 | outside FLIGHT nothing changes; in flight the position moves by the velocity after being recorded, and the phase becomes LOST iff the new position is off the canvas |
| SpaceSlingshot.CheckWin | projects/space-slingshot/script.js:155-161 | inside the goal radius the phase becomes WON whatever it was; outside, nothing changes |
| SpaceSlingshot.Frame | projects/space-slingshot/script.js:258-263 | outside FLIGHT nothing changes; in flight the rocket ends at its moved position (or in place after a crash), the frame ends WON inside the goal, else CRASHED after a collision, else LOST exactly when off the canvas and otherwise still in flight; without a crash the old position is recorded; bodies and goal stay |
| SpaceSlingshot.CrashInGoalWins | projects/space-slingshot/script.js:259-263 | a crash stops the move in the same frame, yet a crash inside the goal still ends WON, otherwise CRASHED |
| SpaceSlingshot.FrameRecordsTrail | projects/space-slingshot/script.js:259-263 | a flight frame without a crash records the old position as the newest trail point |
| SpaceSlingshot.MouseDown | projects/space-slingshot/script.js:193-212 | in the sandbox a planet (30, 1000) or black hole (15, 3000) is appended or the goal moves, by tool, and the rocket is untouched; when aiming or after a flight the rocket resets and a drag starts; in flight nothing happens |
| SpaceSlingshot.MouseUp | projects/space-slingshot/script.js:219-231 | a drag started while aiming launches with velocity (start minus release) times 0.05 and clears the press; otherwise nothing changes |
| SpaceSlingshot.SetModeAsWritten | projects/space-slingshot/script.js:234-236 | as written, the phase is assigned and then the reset sets AIMING, whatever the mode |
| SpaceSlingshot.SandboxButtonIgnored | projects/space-slingshot/script.js:193-236 | as written, after the sandbox button the game is aiming and the next click places no body |
| SpaceSlingshot.SetMode | projects/space-slingshot/script.js:234-236 | corrected: the rocket is reset and the phase is AIMING for 'PLAY' and SANDBOX for any other mode |
| SpaceSlingshot.SandboxPlacesPlanet | projects/space-slingshot/script.js:193-196 | corrected: after choosing the sandbox with the planet tool, a click places exactly one planet there |
| SpaceSlingshot.SandboxUnreachable | projects/space-slingshot/script.js:234-236 | as written, no sequence of events reaches the sandbox from outside it |
| SpaceSlingshot.TrailStaysBounded | projects/space-slingshot/script.js:104-105 | whatever the events, the trail never holds more than 50 points |
| BreakScheduler.Initial | ai-powered-break-scheduler/app.js:4-40 | a new scheduler has energy 100, the one-hour full and 15-minute micro intervals, tracking off, no suggestions, and the four lists read back from storage or empty when none was saved |
| BreakScheduler.RunInit | ai-powered-break-scheduler/app.js:21-25 | the calls complete exactly when every called method exists, leaving the object as it is; otherwise the first missing method is the one reported |
| BreakScheduler.ConstructAsWritten | ai-powered-break-scheduler/app.js:3-25 | the constructor throws exactly when `init()` calls a method the class does not declare |
| BreakScheduler.ConstructorThrows | ai-powered-break-scheduler/app.js:24 | as written, construction throws at `setupListeners` whatever storage holds |
| BreakScheduler.Construct | ai-powered-break-scheduler/app.js:4-40 | as intended, construction completes, with energy 100, tracking off and the four lists read back from storage |
| BreakScheduler.SuggestBreak | ai-powered-break-scheduler/app.js:82-95 | energy rises by 10 for a micro break and 20 for a full one, and exactly one break, one suggestion and one energy sample are appended; nothing else changes |
| BreakScheduler.IntervalFor | ai-powered-break-scheduler/app.js:100-104 | a deadline less than an hour away, or past, asks for 90 minutes, any other for 60 |
| BreakScheduler.AdaptToDeadlines | ai-powered-break-scheduler/app.js:96-106 | disabled or with no deadlines nothing changes; otherwise the full interval is the one the last deadline asks for |
| BreakScheduler.AdaptedInterval | ai-powered-break-scheduler/app.js:96-106 | the interval after adapting is still 60 or 90 minutes |
| BreakScheduler.OnlyLastDeadlineCounts | ai-powered-break-scheduler/app.js:99-105 | the deadlines before the last can be changed or dropped without changing the interval |
| BreakScheduler.AdaptToEnergyLevels | ai-powered-break-scheduler/app.js:107-114 | one low-energy tip below 40, one high-energy tip above 120, never both, and otherwise nothing |
| BreakScheduler.ScheduleBreaks | ai-powered-break-scheduler/app.js:66-81 | scheduling keeps the work log, deadlines and tracking flag, and keeps the intervals at 15 and 60 or 90 minutes |
| BreakScheduler.NoFullBreaks | ai-powered-break-scheduler/app.js:66-75 | a micro break is added exactly when more than 15 minutes have passed since the last break, and a full break never is |
| BreakScheduler.RecordWork | ai-powered-break-scheduler/app.js:58-61 | one work entry is appended, energy falls by 0.5 and one sample records the new energy |
| BreakScheduler.TrackWork | ai-powered-break-scheduler/app.js:56-65 | when not tracking nothing changes; otherwise one work entry is appended and the intervals stay valid |
| BreakScheduler.StartTracking | ai-powered-break-scheduler/app.js:47-51 | starting sets tracking and logs one work entry |
| BreakScheduler.StopTracking | ai-powered-break-scheduler/app.js:52-55 | after stopping, a work tick changes nothing |
| BreakScheduler.AddDeadline | ai-powered-break-scheduler/app.js:115-119 | exactly one deadline is appended and nothing else changes |
| BreakScheduler.BoostEnergy | ai-powered-break-scheduler/energy.js:15-20 | energy rises by exactly 30 and one sample records it; the work log, breaks, deadlines and suggestions are unchanged |
| BreakScheduler.BoostUnbounded | ai-powered-break-scheduler/energy.js:16 | k boosts add exactly 30k, so energy has no cap |
| BreakScheduler.BreakMinutes | ai-powered-break-scheduler/app.js:161-163 | the break minutes are 10 per full break plus 2 per micro break |
| BreakScheduler.AnalyzeWorkPatterns | ai-powered-break-scheduler/app.js:152-165 | too little data exactly below two entries; otherwise the summed gaps equal last minus first time, with the break minutes |
| BreakScheduler.SumGaps | ai-powered-break-scheduler/app.js:154-160 | the running sum of the gaps between consecutive log times is the last time minus the first |
| BreakScheduler.SumBreakMinutes | ai-powered-break-scheduler/app.js:161-163 | the loop over the breaks computes exactly the break minutes of the whole list |
| BreakScheduler.GapsTelescope | ai-powered-break-scheduler/ai.js:11-15 | the gaps add up to last minus first time |
| BreakScheduler.Classify | ai-powered-break-scheduler/ai.js:16-22 | exactly one class holds: short bursts below 10 minutes, long stretches above 30, balanced in between |
| BreakScheduler.AnalyzePatterns | ai-powered-break-scheduler/ai.js:7-23 | insufficient exactly below 10 entries; otherwise the class of (last minus first) divided by (n minus 1) |
| BreakScheduler.RecommendBreaks | ai-powered-break-scheduler/ai.js:24-34 | a 20-minute rest exactly below 30, deep work exactly above 110, a 5-minute microbreak otherwise |
| EnergyOptimizer.DailyConsumption | projects/energy-consumption-optimizer/energy-consumption-optimizer.js:415-417 | daily kWh times 1000 is the power rating times the daily hours, and is never negative for non-negative inputs |
| EnergyOptimizer.WrapAroundNeverPeak | projects/energy-consumption-optimizer/energy-consumption-optimizer.js:513-519 | a peak window whose start hour is after its end hour contains no hour at all |
| EnergyOptimizer.DefaultPeakHours | projects/energy-consumption-optimizer/energy-consumption-optimizer.js:513-519 | with the default 17:00-21:00 window, exactly the hours 17 to 20 are peak hours |
| EnergyOptimizer.PriceEntry | projects/energy-consumption-optimizer/energy-consumption-optimizer.js:504-510 | an entry is charged the peak rate inside the window and the standard rate outside it, its carbon scales with the non-renewable share, and nothing but cost and carbon changes |
| EnergyOptimizer.OffPeakRateUnused | projects/energy-consumption-optimizer/energy-consumption-optimizer.js:503-511 | changing the off-peak rate setting never changes any entry's price |
| EnergyOptimizer.RepricingIdempotent | projects/energy-consumption-optimizer/energy-consumption-optimizer.js:503-511 | repricing an already priced list changes nothing |
| EnergyOptimizer.UpgradeSuggestion | projects/energy-consumption-optimizer/energy-consumption-optimizer.js:689-704 | an upgrade saves (10 - efficiency) / 10 of thirty days of the device's use, priced at the standard rate and weighted by the carbon factor |
| EnergyOptimizer.UsageSuggestion | projects/energy-consumption-optimizer/energy-consumption-optimizer.js:638-650 | a usage cut saves thirty days of the device's consumption, priced at the standard rate and weighted by the carbon factor |
| EnergyOptimizer.SmartSuggestion | projects/energy-consumption-optimizer/energy-consumption-optimizer.js:653-664 | a smart upgrade saves a fifth of thirty days of the device's consumption |
| EnergyOptimizer.DeviceSuggestions | projects/energy-consumption-optimizer/energy-consumption-optimizer.js:622-665 | a device earns the upgrade suggestion iff its efficiency is below 6, the usage one iff it uses more than 5 kWh a day, the smart one iff it is a non-smart appliance, and nothing else |
| EnergyOptimizer.AllDeviceSuggestions | projects/energy-consumption-optimizer/energy-consumption-optimizer.js:622-665 | all devices together earn at most three suggestions each |
| EnergyOptimizer.AllDeviceSuggestionsIff | projects/energy-consumption-optimizer/energy-consumption-optimizer.js:622-665 | a suggestion is in the per-device list exactly when some device earns it |
| EnergyOptimizer.PeakEntries | projects/energy-consumption-optimizer/energy-consumption-optimizer.js:668 | every kept entry is at a peak hour and every entry at a peak hour is kept |
| EnergyOptimizer.PeakSavingsAtPeakRate | projects/energy-consumption-optimizer/energy-consumption-optimizer.js:669-683 | after repricing, the peak suggestion saves 30 percent of the peak entries' consumption priced at the peak rate |
| EnergyOptimizer.RunOptimization | projects/energy-consumption-optimizer/energy-consumption-optimizer.js:618-687 | the peak suggestion is present iff some entry is at a peak hour, every other suggestion is earned by some device, and every earned suggestion is present |
| EnergyOptimizer.UpgradeOfferedIff | projects/energy-consumption-optimizer/energy-consumption-optimizer.js:622-635 | for a device with its own id, its upgrade suggestion is offered exactly when its efficiency is below 6 |
| EnergyOptimizer.Share | projects/energy-consumption-optimizer/energy-consumption-optimizer.js:1029 | k out of n items as a fraction (n at least 1): never negative, zero only for k = 0, at most 1, and exactly 1 when all n count |
| EnergyOptimizer.EfficiencyScore | projects/energy-consumption-optimizer/energy-consumption-optimizer.js:1015-1042 | the cost, usage and smart scores lie in 0 to 10; the energy score is the capped mean efficiency, at most 10 and at least 0 for non-negative efficiencies; the carbon score is at most 10 and at least 0 for a non-negative renewable share and a carbon factor up to 10 |
| EnergyOptimizer.EnergyIsCappedMean | projects/energy-consumption-optimizer/energy-consumption-optimizer.js:1017-1018 | the energy score is never above the mean efficiency and equals it whenever it is below 10 |
| EnergyOptimizer.CarbonMonotone | projects/energy-consumption-optimizer/energy-consumption-optimizer.js:1025-1026 | a larger renewable share or a smaller carbon factor never lowers the carbon score |
| EnergyOptimizer.CarbonSaturates | projects/energy-consumption-optimizer/energy-consumption-optimizer.js:1025-1026 | with a non-negative renewable share, any carbon factor up to 5 gives the top carbon score of 10 |
| EnergyOptimizer.CostPerfectOffPeak | projects/energy-consumption-optimizer/energy-consumption-optimizer.js:1020-1023 | when no entry is at a peak hour, repriced entries average the standard rate and the cost score is 10 |
| EnergyOptimizer.UsagePerfectIffNoPeak | projects/energy-consumption-optimizer/energy-consumption-optimizer.js:1031-1033 | the usage score is 10 exactly when no entry is at a peak hour |
| EnergyOptimizer.UsageZeroIffAllPeak | projects/energy-consumption-optimizer/energy-consumption-optimizer.js:1031-1033 | the usage score is 0 exactly when there are entries and all of them are at peak hours |
| EnergyOptimizer.PeakEntriesBound | projects/energy-consumption-optimizer/energy-consumption-optimizer.js:1031-1032 | there are never more peak entries than entries |
| EnergyOptimizer.SmartPerfectIffAllSmart | projects/energy-consumption-optimizer/energy-consumption-optimizer.js:1028-1029 | the smart score is 10 exactly when there are devices and all of them are smart |
| EnergyOptimizer.NoEntriesFullCostScore | projects/energy-consumption-optimizer/energy-consumption-optimizer.js:1020-1023 | with no entries the average price is the standard rate, so the cost score is 10 |
| EnergyOptimizer.ConsumptionTable | projects/energy-consumption-optimizer/energy-consumption-optimizer.js:1070-1074 | one row per distinct device name, holding the consumption recorded for the last device of that name |
| EnergyOptimizer.TopConsumers | projects/energy-consumption-optimizer/energy-consumption-optimizer.js:1069-1079 | at most five rows, as many as the table allows, sorted by consumption largest first, a sub-multiset of the table, each row the consumption of the last device of its name |
| EnergyOptimizer.TopAreLargest | projects/energy-consumption-optimizer/energy-consumption-optimizer.js:1076-1078 | no row left out of the report consumed more than any row in it |
| EnergyOptimizer.TopConsumersStable | projects/energy-consumption-optimizer/energy-consumption-optimizer.js:1076-1078 | rows of equal consumption appear in the report in the table's order, as the stable sort leaves them |
| Seqs.SortDescStable | projects/energy-consumption-optimizer/energy-consumption-optimizer.js:1076 | the descending sort keeps the relative order of items with equal keys |
| EnergyOptimizer.AddEntry | projects/energy-consumption-optimizer/energy-consumption-optimizer.js:470-501 | the form is refused exactly when no device is chosen or the consumption or duration is zero or not a number; otherwise the new entry, stamped with the time and the parsed device id, goes first and every entry is priced; the device id is read as a radix-less `parseInt` |
| EnergyOptimizer.DeleteEntry | projects/energy-consumption-optimizer/energy-consumption-optimizer.js:544-545 | no entry with the id remains, every other entry remains, and nothing new appears |
| EnergyOptimizer.DeleteKeepsOrder | projects/energy-consumption-optimizer/energy-consumption-optimizer.js:544-545 | deleting splits over concatenation, so the kept entries keep their order |
| EnergyOptimizer.DeleteUnknownIsNoOp | projects/energy-consumption-optimizer/energy-consumption-optimizer.js:544-545 | deleting an id no entry has leaves the list unchanged |
| EnergyOptimizer.FindSuggestion | projects/energy-consumption-optimizer/energy-consumption-optimizer.js:746 | nothing is found iff no suggestion has the id; a found suggestion is in the list and has the id |
| EnergyOptimizer.ApplySuggestion | projects/energy-consumption-optimizer/energy-consumption-optimizer.js:745-759 | an unknown id changes nothing; otherwise the applied suggestion is returned and exactly the suggestions with other ids remain |
| WallpaperRotator.TimeOfDay | mood-boosting-wallpaper-rotator/background.js:17-23 | the hour maps to morning before 12, afternoon from 12 to 16, evening from 17 to 20 and night from 21, each label exactly on its range |
| WallpaperRotator.Pick | mood-boosting-wallpaper-rotator/wallpaper-ai.js:23-30 | the first image matching both mood and time wins; failing that the first with the mood; failing that the first image; the result is always a gallery URL, and only an empty gallery yields none |
| WallpaperRotator.SelectWallpaper | mood-boosting-wallpaper-rotator/background.js:25-31 | over the shipped gallery the choice is always a gallery URL and agrees with the recommendation rule |
| WallpaperRotator.Rotate | mood-boosting-wallpaper-rotator/background.js:33-39 | the wallpaper for the mood and time of day becomes current, the mood is kept, and exactly one history record with it and the time is appended |
| WallpaperRotator.Handle | mood-boosting-wallpaper-rotator/background.js:41-51 | 'setMood' stores the mood then rotates, 'rotateWallpaper' rotates, and any other message changes nothing |
| WallpaperRotator.RunShowsGalleryOnly | mood-boosting-wallpaper-rotator/background.js:41-51 | whatever messages arrive, every wallpaper shown, current or in the history, is a gallery image, and the history grows by one per mood or rotate message |
| WallpaperRotator.InitialShown | mood-boosting-wallpaper-rotator/background.js:13-15 | the starting state shows the first gallery image with an empty history |
| WallpaperRotator.FindByUrl | mood-boosting-wallpaper-rotator/wallpaper-ai.js:11 | nothing is found iff no image has the URL; a found image is the first one with that URL |
| WallpaperRotator.FindByUrlTail | mood-boosting-wallpaper-rotator/wallpaper-ai.js:11 | a first match in the rest of the gallery, behind a non-matching head, is a first match in the whole gallery |
| WallpaperRotator.Bump | mood-boosting-wallpaper-rotator/wallpaper-ai.js:13 | the mood's count becomes one more than before (1 when absent) and every other count is unchanged |
| WallpaperRotator.MoodCounts | mood-boosting-wallpaper-rotator/wallpaper-ai.js:9-15 | each mood's count is the number of history records whose URL first appears in the gallery with that mood, and moods never counted are absent |
| WallpaperRotator.FirstAttributed | mood-boosting-wallpaper-rotator/wallpaper-ai.js:10-14 | the position of the first history record counted for a mood, or the history's length when none is |
| WallpaperRotator.TallyIffAttributed | mood-boosting-wallpaper-rotator/wallpaper-ai.js:10-14 | a mood has a positive count exactly when some record is counted for it |
| WallpaperRotator.MoodCountsFirstUseOrder | mood-boosting-wallpaper-rotator/wallpaper-ai.js:9-16 | the keys of `moodCount` are exactly the counted moods, in the order of their first counted records, the order `Object.keys` hands to the reduction |
| WallpaperRotator.FirstUseStep | mood-boosting-wallpaper-rotator/wallpaper-ai.js:13 | counting one more record keeps that order: a mood already present keeps its place, a new one goes last |
| WallpaperRotator.FoldInvariant | mood-boosting-wallpaper-rotator/wallpaper-ai.js:16 | after each key, the reduction holds the last key with the largest count so far, or 'happy' while its own count is ahead |
| WallpaperRotator.FoldFirst | mood-boosting-wallpaper-rotator/wallpaper-ai.js:16 | the reduction's first step already keeps that invariant |
| WallpaperRotator.FoldStep | mood-boosting-wallpaper-rotator/wallpaper-ai.js:16 | each further step of the reduction keeps that invariant |
| WallpaperRotator.FoldStepFromMax | mood-boosting-wallpaper-rotator/wallpaper-ai.js:16 | a step taken from the current maximum keeps that invariant |
| WallpaperRotator.FoldStepFromHappy | mood-boosting-wallpaper-rotator/wallpaper-ai.js:16 | a step taken while 'happy' is ahead keeps that invariant |
| WallpaperRotator.MostUsedIsLastMaximum | mood-boosting-wallpaper-rotator/wallpaper-ai.js:16 | with no counted moods the most used mood is 'happy'; otherwise it is the last key with the largest count |
| WallpaperRotator.AnalyzeMood | mood-boosting-wallpaper-rotator/wallpaper-ai.js:7-22 | the result is one of the two messages, and it is the prefer message exactly when the mood is the most used one |
| WallpaperRotator.EmptyHistoryPrefersHappy | mood-boosting-wallpaper-rotator/wallpaper-ai.js:16-21 | with an empty history only 'happy' gets the prefer message |
| WallpaperRotator.PreferMeansMostCounted | mood-boosting-wallpaper-rotator/wallpaper-ai.js:9-21 | the prefer message means the mood was counted, no mood was counted more often, and every other mood with the same count was first counted earlier |
| WallpaperRotator.AnalyzeMoodIff | mood-boosting-wallpaper-rotator/wallpaper-ai.js:9-21 | the prefer message exactly when: with no record counted, the mood is 'happy'; otherwise the mood has the largest count and, among moods tying with it, was first counted last |
| WallpaperRotator.MostCountedIsMostUsed | mood-boosting-wallpaper-rotator/wallpaper-ai.js:16 | the reduction lands on the most counted mood that was first counted last |
| WallpaperRotator.StrictMaxPreferred | mood-boosting-wallpaper-rotator/wallpaper-ai.js:9-21 | a mood counted strictly more often than every other gets the prefer message |
| WallpaperRotator.SadNeverCounted | mood-boosting-wallpaper-rotator/background.js:5-9 | the 'sad' image shares its URL with the earlier 'calm' image, so no record is ever counted for 'sad' |
| HabitTracker.NewUser | social-habit-tracker/app.js:4-9 | a new user has the name and no habits, groups or progress reports |
| HabitTracker.NewGroup | social-habit-tracker/app.js:23-28 | a new group has the name and no members, challenges or rewards |
| HabitTracker.NewHabit | social-habit-tracker/app.js:43-47 | a new habit has the name and goal and no progress |
| HabitTracker.NewChallenge | social-habit-tracker/app.js:54-60 | a new challenge has the given name, description and reward, no participants and is not completed |
| HabitTracker.AddOnce | social-habit-tracker/app.js:30-32 | the identity is present afterwards, the list is unchanged when it was already there and otherwise gains it at the end, and a list without repeats stays without repeats |
| HabitTracker.AddOnceIdempotent | social-habit-tracker/app.js:30-32 | adding the same identity a second time changes nothing |
| HabitTracker.AddMember | social-habit-tracker/app.js:29-33 | the user is a member afterwards, appended only if new, and nothing but the member list changes |
| HabitTracker.AddParticipant | social-habit-tracker/app.js:61-65 | the user participates afterwards, appended only if new, and nothing but the participant list changes |
| HabitTracker.AddParticipantIdempotent | social-habit-tracker/app.js:61-65 | adding a participant twice is adding it once |
| HabitTracker.MembersStayDistinct | social-habit-tracker/app.js:29-33 | however many users are added, every one of them is a member and no member is listed twice |
| HabitTracker.JoinGroup | social-habit-tracker/app.js:13-16 | the group is appended to the user's list unconditionally while the group adds the user only if new |
| HabitTracker.JoinTwice | social-habit-tracker/app.js:13-16 | joining the same group twice lists it twice on the user's side and the user once on the group's side |
| HabitTracker.AddHabit | social-habit-tracker/app.js:10-12 | the habit is appended and nothing else about the user changes |
| HabitTracker.ShareProgress | social-habit-tracker/app.js:17-19 | one report with the habit, value and date is appended and nothing else about the user changes |
| HabitTracker.AddChallenge | social-habit-tracker/app.js:34-36 | the challenge's identity is appended and nothing else about the group changes |
| HabitTracker.AddReward | social-habit-tracker/app.js:37-39 | the reward is appended and nothing else about the group changes |
| HabitTracker.UpdateProgress | social-habit-tracker/app.js:48-50 | the progress grows by exactly the value and nothing else changes |
| HabitTracker.UpdatesAdd | social-habit-tracker/app.js:48-50 | two updates amount to one update by their sum |
| HabitTracker.Complete | social-habit-tracker/app.js:66-68 | the challenge is completed and nothing else changes |
| HabitTracker.CompleteIdempotent | social-habit-tracker/app.js:66-68 | completing a completed challenge changes nothing |
| HabitTracker.Setup | social-habit-tracker/app.js:79-87 | the demo user has the one habit and the one group, the group has the user as its only member, the challenge as its only challenge and the challenge's reward as its only reward, the user is the challenge's only participant, and nothing has progressed |
| HabitTracker.GroupSeesChallenge | social-habit-tracker/app.js:79-122 | whatever the clicks, the group lists the one challenge, whose participant is the user and which is completed exactly when Complete has been clicked |
| HabitTracker.UpdateHabitProgress | social-habit-tracker/app.js:115-120 | 'Mark as Done' adds one to the habit and appends one report of value 1, leaving the group and challenge alone |
| HabitTracker.CompleteChallenge | social-habit-tracker/app.js:121-124 | 'Complete Challenge' completes the challenge and changes nothing else |
| HabitTracker.ProgressMatchesReports | social-habit-tracker/app.js:79-124 | from the demo set-up, whatever buttons are clicked, the habit's progress equals the total the user has reported on it and counts the 'Mark as Done' clicks |
| HabitTracker.ClicksKeepSync | social-habit-tracker/app.js:115-124 | from any state whose habit progress equals the reported total, any clicks keep it so, and the progress grows by one per 'Mark as Done' click |
| NarrativeGen.SelectThread | projects/narrative-gen/script.js:23-29 | clicking a spool selects its thread and leaves the elements and the text alone |
| NarrativeGen.Weave | projects/narrative-gen/script.js:47-73 | with no elements the prompt to pull threads is shown |
| NarrativeGen.OnlyFiveWoven | projects/narrative-gen/script.js:56-70 | elements after the fifth never reach the story |
| NarrativeGen.FirstFiveAppear | projects/narrative-gen/script.js:56-70 | each of the first five elements appears in the story |
| NarrativeGen.OpeningMentions | projects/narrative-gen/script.js:56-62 | each of the first three elements appears in the opening sentence |
| NarrativeGen.OpeningOfThree | projects/narrative-gen/script.js:57 | with three or more elements, each of the first three appears in the 'Once' sentence |
| NarrativeGen.CodaMentions | projects/narrative-gen/script.js:65-70 | the fourth and fifth elements appear in the sentences added after the opening |
| NarrativeGen.ListFor | projects/narrative-gen/script.js:37 | the list for the element type is used when there is one, the list for the selected thread otherwise |
| NarrativeGen.ListsHaveFive | projects/narrative-gen/script.js:9-21 | every fragment list has five entries |
| NarrativeGen.AddElement | projects/narrative-gen/script.js:31-45 | with no thread selected only the select-a-thread message is shown; with no list nothing changes; otherwise exactly one fragment from the list is appended, the earlier elements are kept, and the story is rewoven |
| NarrativeGen.WeaveTime | projects/narrative-gen/script.js:75-96 | the elements are never changed; with none the weave-first message is shown, and an unknown tense leaves the text empty |
| NarrativeGen.TimeTaleMentionsAll | projects/narrative-gen/script.js:81-95 | a tale in the past, present or future mentions every element pulled |
| NarrativeGen.ResetWeave | projects/narrative-gen/script.js:98-101 | the double-click empties the elements, keeps the thread and shows the reset prompt |
| CognitiveTracker.IndicatorValue | projects/cognitive-resilience-tracker/cognitive-resilience-under-stress-tracker.js:27-35 | the bands '1-3', '4-6' and '7-10' set stress 2, 5 and 8, and anything else sets the default 5 |
| CognitiveTracker.SlideStress | projects/cognitive-resilience-tracker/cognitive-resilience-under-stress-tracker.js:18-21 | the slider sets the stress to its value and nothing else changes |
| CognitiveTracker.ClickIndicator | projects/cognitive-resilience-tracker/cognitive-resilience-under-stress-tracker.js:24-37 | clicking a known band's indicator sets a stress that highlights that band, and nothing else changes |
| CognitiveTracker.SlideHighlightsOneBand | projects/cognitive-resilience-tracker/cognitive-resilience-under-stress-tracker.js:18-54 | after sliding to a value in 1 to 10 exactly one band is highlighted |
| CognitiveTracker.ExactlyOneBandActive | projects/cognitive-resilience-tracker/cognitive-resilience-under-stress-tracker.js:44-54 | for stress between 1 and 10 some band is highlighted and no two bands are |
| CognitiveTracker.ClickHighlightsBand | projects/cognitive-resilience-tracker/cognitive-resilience-under-stress-tracker.js:26-37 | clicking a band's indicator sets a stress that highlights that same band |
| CognitiveTracker.MathTask | projects/cognitive-resilience-tracker/cognitive-resilience-under-stress-tracker.js:64-75 | a math task's operands lie in 1 to 20, so its answer lies between -19 and 400 |
| CognitiveTracker.GenerateMemorySequence | projects/cognitive-resilience-tracker/cognitive-resilience-under-stress-tracker.js:134-141 | the sequence has exactly five characters, each a capital letter 65 plus the floor of its draw times 26 |
| CognitiveTracker.MemoryEchoCorrect | projects/cognitive-resilience-tracker/cognitive-resilience-under-stress-tracker.js:161-163 | typing the memorised sequence, in upper or lower case, is correct |
| CognitiveTracker.MathEchoCorrect | projects/cognitive-resilience-tracker/cognitive-resilience-under-stress-tracker.js:158-160 | typing a non-negative answer in decimal is correct whatever non-digit text follows, except that after a lone 0 the text must not start with x or X, which parseInt would read as hexadecimal |
| Strings.ParseIntAuto | projects/cognitive-resilience-tracker/cognitive-resilience-under-stress-tracker.js:159 | parseInt without a radix: text without a 0x or 0X prefix after the sign reads as decimal, and with one it is NaN exactly when no hexadecimal digit follows |
| Strings.RadixlessReadsHex | projects/cognitive-resilience-tracker/cognitive-resilience-under-stress-tracker.js:159 | parseInt of '0x1f' without a radix is 31 |
| Strings.ParseIntAutoOfNatToStringThen | projects/cognitive-resilience-tracker/cognitive-resilience-under-stress-tracker.js:159 | a decimal numeral followed by text not starting with a digit (nor, after a lone 0, with x) reads back as its number |
| CognitiveTracker.HexAnswerAccepted | projects/cognitive-resilience-tracker/cognitive-resilience-under-stress-tracker.js:158-160 | answering '0x1f' is correct for an answer of 31 and wrong for 0 |
| CognitiveTracker.ReactionAnyCase | projects/cognitive-resilience-tracker/cognitive-resilience-under-stress-tracker.js:164-166 | 'READY' and 'ready' pass the reaction task and an empty answer does not |
| CognitiveTracker.StartTask | projects/cognitive-resilience-tracker/cognitive-resilience-under-stress-tracker.js:57-125 | a task becomes current; a math task's clock starts at once, while memory and reaction tasks keep the old start until their input appears; responses, sessions and stress are untouched |
| CognitiveTracker.ShowInput | projects/cognitive-resilience-tracker/cognitive-resilience-under-stress-tracker.js:98-104 | the delayed input of a memory or reaction task starts the clock and changes nothing else |
| CognitiveTracker.Submit | projects/cognitive-resilience-tracker/cognitive-resilience-under-stress-tracker.js:149-191 | without a current task and start time nothing changes; otherwise exactly one response with the task, stress, elapsed seconds and correctness of the trimmed input is appended, and the task and start time are cleared |
| CognitiveTracker.Round | projects/cognitive-resilience-tracker/cognitive-resilience-under-stress-tracker.js:204 | the rounded value lies within half of the argument, halves going up |
| CognitiveTracker.Percent | projects/cognitive-resilience-tracker/cognitive-resilience-under-stress-tracker.js:196-197 | the percentage times the total is 100 times the correct count, lies in 0 to 100, is 100 exactly when all are correct and 0 exactly when none is |
| CognitiveTracker.Mean | projects/cognitive-resilience-tracker/cognitive-resilience-under-stress-tracker.js:200 | the mean times the count is the total, and it is 0 exactly when the total is |
| CognitiveTracker.Resilience | projects/cognitive-resilience-tracker/cognitive-resilience-under-stress-tracker.js:203-205 | with a mean time of 0 the score is NaN when accuracy is 0 or stress is 20, and otherwise an infinity of the sign of accuracy times (20 - stress); with a non-zero mean it is accuracy times (20 - stress) over twice the mean, rounded |
| CognitiveTracker.ResilienceRisesWithAccuracy | projects/cognitive-resilience-tracker/cognitive-resilience-under-stress-tracker.js:203-205 | with a positive mean time and stress up to 20, higher accuracy never lowers the score |
| CognitiveTracker.ResilienceFallsWithStress | projects/cognitive-resilience-tracker/cognitive-resilience-under-stress-tracker.js:203-205 | with a positive mean time and non-negative accuracy, more stress never raises the score |
| CognitiveTracker.StoredScore | projects/cognitive-resilience-tracker/cognitive-resilience-under-stress-tracker.js:204-218 | a score reads back from storage as a number exactly when it is finite, and then as itself; NaN and the infinities read back as NaN |
| CognitiveTracker.UpdateResults | projects/cognitive-resilience-tracker/cognitive-resilience-under-stress-tracker.js:193-206 | accuracy lies in 0 to 100 and is 100 exactly when every response is correct, the mean time is the responses' mean, and the score is NaN, +Infinity or -Infinity exactly in the zero-total-time cases given by the correct count and the stress, otherwise the rounded formula |
| CognitiveTracker.MeanTime | projects/cognitive-resilience-tracker/cognitive-resilience-under-stress-tracker.js:200 | the mean response time times the number of responses is the total response time, and it is 0 exactly when the total is |
| CognitiveTracker.SaveSession | projects/cognitive-resilience-tracker/cognitive-resilience-under-stress-tracker.js:208-224 | with no responses nothing changes; otherwise one session with the id, the shown results, the score as it reads back from storage, a copy of the responses and their mean stress is appended, earlier sessions are kept and the responses are cleared |
| CognitiveTracker.EchoScoresCorrect | projects/cognitive-resilience-tracker/cognitive-resilience-under-stress-tracker.js:149-175 | submitting a non-negative math answer or the memorised sequence records a correct response |
| CognitiveTracker.SubmitThenSave | projects/cognitive-resilience-tracker/cognitive-resilience-under-stress-tracker.js:149-224 | every response since the last save, plus the one just submitted, ends up in order in the next saved session |
| BreathingBuddy.GuidesHaveThreePhases | mindful-breathing-buddy/app.js:11-15 | every guide has three phase lengths named Inhale, Hold and Exhale |
| BreathingBuddy.StressLabel | mindful-breathing-buddy/app.js:47-51 | level 1 is labelled Low, level 2 Medium, and every other level High, each both ways |
| BreathingBuddy.SelectGuideIndex | mindful-breathing-buddy/app.js:69-73 | level 3 selects guide 2, level 2 guide 1, and every other level guide 0, each both ways, always a valid index |
| BreathingBuddy.LabelAndGuideAgree | mindful-breathing-buddy/app.js:47-73 | on the slider's range Low goes with Calm, Medium with Focus and High with Relax, each both ways |
| BreathingBuddy.Display | mindful-breathing-buddy/app.js:75-88 | an inactive page shows the ready text; an active one shows the name and length of phase step mod 3 of the selected guide |
| BreathingBuddy.AdaptGuide | mindful-breathing-buddy/app.js:127-131 | the guide follows the new stress level and the step restarts, while the session and its timer run on |
| BreathingBuddy.StartSession | mindful-breathing-buddy/app.js:101-107 | the session becomes active at step 0 with an interval whose period is the guide's inhale length in milliseconds |
| BreathingBuddy.StopSession | mindful-breathing-buddy/app.js:109-115 | the session becomes inactive and its interval is cleared, keeping the guide and the step |
| BreathingBuddy.NextPhase | mindful-breathing-buddy/app.js:120-124 | each firing advances the step by one, and the interval clears itself once the session is inactive |
| BreathingBuddy.RunKeepsTimerWhileActive | mindful-breathing-buddy/app.js:101-131 | whatever the user and the timer do, an interval runs exactly while a session is active |
| BreathingBuddy.PeriodFixedAtStart | mindful-breathing-buddy/app.js:117-124 | once started, the tick period stays the inhale length of the guide chosen at the start, whatever the slider, selector and ticks do |
| BreathingBuddy.TicksWalkThePhases | mindful-breathing-buddy/app.js:86-124 | after n ticks from the start the page shows phase n mod 3 of the guide for that phase's length |
| BreathingBuddy.StopThenStart | mindful-breathing-buddy/app.js:101-115 | stopping shows the ready text again and a later start restarts at the inhale |
| Hydration.LogWater | hydration-hero/hydration.js:8-10 | the intake grows by exactly the amount logged and the reminder flag is untouched |
| Hydration.GetProgress | hydration-hero/hydration.js:12-14 | the progress reports the intake against the fixed 2000 ml goal |
| Hydration.Advice | hydration-hero/hydration.js:20-25 | hot weather or activity asks for more water; otherwise intake below half the goal asks to drink more, and anything else says keep hydrated |
| Hydration.GetSuggestion | hydration-hero/hydration.js:16-27 | the suggestion names one of the four weathers and one of the two activities and gives the advice for them |
| Hydration.LowIntakeNeverKeep | hydration-hero/hydration.js:20-25 | below half the goal the advice is never to keep going as is |
| Hydration.SetReminder | hydration-hero/hydration.js:29-32 | the reminder is set and the intake is untouched |
| Hydration.SetReminderIdempotent | hydration-hero/hydration.js:29-32 | setting the reminder twice is setting it once |
| Hydration.ReminderStatus | hydration-hero/hydration.js:34-36 | the status says set exactly when the reminder is set, and not set exactly when it is not |
| Hydration.Accepted | hydration-hero/popup.js:17-18 | the typed text is accepted exactly when it parses to an integer of at least 50, and then the parsed amount is used |
| Hydration.LogClick | hydration-hero/popup.js:16-22 | a refused amount changes nothing and an accepted one is logged |
| Hydration.AcceptedAmounts | hydration-hero/popup.js:17-18 | every amount the button accepts is at least 50 |
| Hydration.IntakeIsAcceptedSum | hydration-hero/popup.js:16-22 | through the popup the intake is the sum of the accepted amounts, so it is 0 or at least 50 |
| Hydration.IntakeNeverDecreases | hydration-hero/popup.js:16-22 | more clicks on the log button never lower the intake |
| ResonanceArchive.PadTwo | projects/resonance-archive-living-audio-anthology/script.js:713 | a text of two or more characters is kept, and a shorter one is left-padded to exactly two characters ending in it |
| ResonanceArchive.FormatDuration | projects/resonance-archive-living-audio-anthology/script.js:710-714 | a non-negative duration shows as whole minutes, a colon, and the whole seconds left over as two digits, minutes times 60 plus seconds being the whole seconds |
| ResonanceArchive.TwoDigits | projects/resonance-archive-living-audio-anthology/script.js:713 | a seconds count below 60, padded, is its tens digit followed by its units digit |
| ResonanceArchive.AddEvent | projects/resonance-archive-living-audio-anthology/script.js:735-745 | the new event comes first, the older ones follow in order, and the log is cut to twenty |
| ResonanceArchive.LogIsNewestTwenty | projects/resonance-archive-living-audio-anthology/script.js:735-745 | from an empty log, the log always holds the last twenty events, newest first |
| ResonanceArchive.StripExtension | projects/resonance-archive-living-audio-anthology/script.js:162 | the name is cut before a dot exactly when that dot is the last one, something follows it and no slash does; otherwise the name is kept |
| ResonanceArchive.StripsExtension | projects/resonance-archive-living-audio-anthology/script.js:162 | a name with a non-empty extension free of dots and slashes loses exactly the dot and the extension |
| ResonanceArchive.AddUpload | projects/resonance-archive-living-audio-anthology/script.js:142-172 | an uploaded file becomes a new original, user-contributed piece titled by its name without extension, with no plays or blends, and the addition is logged |
| ResonanceArchive.AddRecording | projects/resonance-archive-living-audio-anthology/script.js:217-224 | a finished recording becomes a new original, live-recorded piece titled 'Live Recording', and the addition is logged |
| ResonanceArchive.PlayResonance | projects/resonance-archive-living-audio-anthology/script.js:317-338 | the played piece's play count goes up by one and nothing else in the archive changes |
| ResonanceArchive.WeightedPick | projects/resonance-archive-living-audio-anthology/script.js:298-308 | the pick is the first piece whose running weight total reaches the draw, and nothing is picked only when there are no weights or the draw exceeds their total |
| ResonanceArchive.PrefixSumMonotone | projects/resonance-archive-living-audio-anthology/script.js:298-308 | running weight totals never shrink as more weights are added |
| ResonanceArchive.Scaled | projects/resonance-archive-living-audio-anthology/script.js:299 | a draw in [0, 1) times a positive total lies in [0, total) |
| ResonanceArchive.PrefixSumPositive | projects/resonance-archive-living-audio-anthology/script.js:298-308 | with every weight positive the running total over k weights is at least k |
| ResonanceArchive.PlayArchive | projects/resonance-archive-living-audio-anthology/script.js:291-315 | an empty archive is unchanged; otherwise the weighted pick always selects a piece, which is played, so the uniform fallback never runs |
| ResonanceArchive.MaxDuration | projects/resonance-archive-living-audio-anthology/script.js:422 | the blend length is the duration of one of the selected pieces and at least that of every other |
| ResonanceArchive.CreateBlend | projects/resonance-archive-living-audio-anthology/script.js:419-426 | with no sources nothing changes; otherwise the blend buffer is as long as the longest source |
| ResonanceArchive.ChangeBlendParameter | projects/resonance-archive-living-audio-anthology/script.js:521-543 | without a blend, or with the selection emptied, nothing changes; otherwise the blend is rebuilt from the current sources |
| ResonanceArchive.GenerateBlend | projects/resonance-archive-living-audio-anthology/script.js:384-396 | fewer than two pieces is refused; otherwise the first three pieces of the shuffle, or both when there are two, are selected, and the blend is as long as the longest of them, the pieces and log untouched |
| ResonanceArchive.RemoveSource | projects/resonance-archive-living-audio-anthology/script.js:410-413 | the remove button drops exactly that source, keeps the others in order and leaves the blend alone |
| ResonanceArchive.Occurrences | projects/resonance-archive-living-audio-anthology/script.js:511-513 | a piece occurs in the selection a positive number of times exactly when it is selected |
| ResonanceArchive.SaveBlend | projects/resonance-archive-living-audio-anthology/script.js:489-519 | without a blend nothing changes; otherwise the blend becomes a new piece recording its sources, each source's blend count rises by its selections, the event is logged and the selection is cleared while the buffer stays |
| ResonanceArchive.SaveRaisesSourcesByOne | projects/resonance-archive-living-audio-anthology/script.js:510-513 | with distinct sources each source's blend count rises by exactly one and the others stay |
| ResonanceArchive.OccursOnce | projects/resonance-archive-living-audio-anthology/script.js:511-513 | in a selection without repeats a piece occurs at most once |
| ResonanceArchive.SaveTwice | projects/resonance-archive-living-audio-anthology/script.js:489-519 | saving the same blend twice adds a second piece with no blend count and no sources |
| ResonanceArchive.Filtered | projects/resonance-archive-living-audio-anthology/script.js:619-645 | exactly the pieces whose title or a tag contains the search term are listed; for a known sort option they are in descending order of its key, otherwise in archive order |
| ResonanceArchive.FilteredStable | projects/resonance-archive-living-audio-anthology/script.js:619-645 | pieces with equal sort keys are listed in archive order |
| ResonanceArchive.EmptySearchMatchesAll | projects/resonance-archive-living-audio-anthology/script.js:623-626 | an empty search matches every piece |
| HarmonicOrb.Waveform | projects/harmonic-orb-tactile-tone-sculpture/script.js:208-211 | harmonic index i gets waveform i mod 4 of sine, triangle, sawtooth and square |
| HarmonicOrb.WaveformCycle | projects/harmonic-orb-tactile-tone-sculpture/script.js:208-211 | the waveforms repeat every four harmonics and four neighbouring harmonics all differ |
| HarmonicOrb.CreateOscillators | projects/harmonic-orb-tactile-tone-sculpture/script.js:177-206 | one oscillator per harmonic numbered from 1, none when the count is not positive, each with its waveform, base frequency times its number shifted by the timbre, and amplitude 0.3 over its number times the dynamics |
| HarmonicOrb.BankIsHarmonic | projects/harmonic-orb-tactile-tone-sculpture/script.js:187-205 | in a bank every frequency is a whole multiple of the first and the amplitude falls off as one over the harmonic number |
| HarmonicOrb.HigherHarmonicsQuieter | projects/harmonic-orb-tactile-tone-sculpture/script.js:195-197 | with positive dynamics every higher harmonic is quieter |
| HarmonicOrb.UpdateOscillators | projects/harmonic-orb-tactile-tone-sculpture/script.js:213-223 | each existing oscillator is retuned to the frequency and amplitude of its position, and the count and the waveforms stay |
| HarmonicOrb.UpdateIsRebuild | projects/harmonic-orb-tactile-tone-sculpture/script.js:213-223 | retuning a bank for new parameters with the same harmonic count gives the bank those parameters would build |
| HarmonicOrb.FromMorph | projects/harmonic-orb-tactile-tone-sculpture/script.js:337-364 | dragging sets 1 to 12 harmonics, 3 to 9 with dynamics 1 to 2 for a real drag, a timbre of fifty times the direction over pi, and keeps the base frequency |
| HarmonicOrb.FasterMeansMore | projects/harmonic-orb-tactile-tone-sculpture/script.js:341-355 | a faster drag never gives fewer harmonics or less dynamics |
| HarmonicOrb.Clamp4 | projects/harmonic-orb-tactile-tone-sculpture/script.js:494 | the index is clamped into 0 to 4 and kept when already inside |
| HarmonicOrb.TimbreIndex | projects/harmonic-orb-tactile-tone-sculpture/script.js:493-494 | the timbre label index is a valid index into the five labels |
| HarmonicOrb.DynamicsIndex | projects/harmonic-orb-tactile-tone-sculpture/script.js:497-498 | the dynamics label index is a valid index into the five labels |
| HarmonicOrb.TimbreLabel | projects/harmonic-orb-tactile-tone-sculpture/script.js:492-494 | the timbre label is always one of Cold, Neutral, Warm, Bright and Harsh |
| HarmonicOrb.DynamicsLabel | projects/harmonic-orb-tactile-tone-sculpture/script.js:496-498 | the dynamics label is always one of Soft, Medium, Loud, Punchy and Crushing |
| HarmonicOrb.LabelsMonotone | projects/harmonic-orb-tactile-tone-sculpture/script.js:491-498 | more timbre shift or more dynamics never moves a label down its list |
| HarmonicOrb.TimbreExtremes | projects/harmonic-orb-tactile-tone-sculpture/script.js:492-494 | the timbre slider's ends, -50 and 50, read Cold and Harsh |
| HarmonicOrb.FindPreset | projects/harmonic-orb-tactile-tone-sculpture/script.js:445-454 | nothing is found iff no preset has the name, and a found preset is listed under the name |
| HarmonicOrb.LoadPreset | projects/harmonic-orb-tactile-tone-sculpture/script.js:444-474 | a known preset name sets all four parameters to the preset's and an unknown name changes nothing |
| HarmonicOrb.PresetsInRange | projects/harmonic-orb-tactile-tone-sculpture/script.js:445-452 | every preset keeps the harmonic count within the slider's 1 to 12 |
| HarmonicOrb.Wheel | projects/harmonic-orb-tactile-tone-sculpture/script.js:277-282 | the camera moves by a thousandth of the wheel delta, always ends between 2 and 10, and nothing else changes |
| HarmonicOrb.Rebuild | projects/harmonic-orb-tactile-tone-sculpture/script.js:177-206 | the parameters are set and, with audio on, the oscillators are exactly the bank they build; without audio none are left |
| HarmonicOrb.Drag | projects/harmonic-orb-tactile-tone-sculpture/script.js:337-364 | without audio a drag changes nothing; with audio the parameters follow the drag, the oscillators are rebuilt for them, one per harmonic, and audio and camera stay |
| HarmonicOrb.Preset | projects/harmonic-orb-tactile-tone-sculpture/script.js:444-474 | an unknown preset changes nothing; a known one loads its parameters and, with audio on, rebuilds one oscillator per harmonic; audio and camera stay |
| HarmonicOrb.InitialConsistent | projects/harmonic-orb-tactile-tone-sculpture/script.js:31-35 | the constructed orb, with no audio and the camera at 5, is consistent and within the zoom range |
| HarmonicOrb.EnableAudio | projects/harmonic-orb-tactile-tone-sculpture/script.js:148-175 | enabling audio keeps the parameters and camera and builds exactly the bank of the current parameters, one oscillator per harmonic |
| HarmonicOrb.Slide | projects/harmonic-orb-tactile-tone-sculpture/script.js:366-402 | a slider sets the parameters and existing oscillators are retuned in place, keeping the oscillators the bank of the parameters |
| HarmonicOrb.SetBaseFrequency | projects/harmonic-orb-tactile-tone-sculpture/script.js:370-375 | the base-frequency slider changes only the base frequency and keeps the oscillators matching the parameters |
| HarmonicOrb.SetTimbreShift | projects/harmonic-orb-tactile-tone-sculpture/script.js:388-393 | the timbre slider changes only the timbre shift and keeps the oscillators matching the parameters |
| HarmonicOrb.SetDynamics | projects/harmonic-orb-tactile-tone-sculpture/script.js:397-402 | the dynamics slider changes only the dynamics and keeps the oscillators matching the parameters |
| HarmonicOrb.SetHarmonicCount | projects/harmonic-orb-tactile-tone-sculpture/script.js:379-384 | the harmonic slider changes only the count and rebuilds one oscillator per harmonic when audio is on |
| QuantumTypewriter.CharUnits | projects/quantum-typewriter/script.js:37 | a character below U+10000 is one code unit equal to it and no surrogate; any other is a high surrogate followed by a low one |
| QuantumTypewriter.Utf16 | projects/quantum-typewriter/script.js:37 | a string takes between one and two code units per character |
| QuantumTypewriter.Utf16Append | projects/quantum-typewriter/script.js:35-45 | encoding a concatenation concatenates the encodings |
| QuantumTypewriter.Pair | projects/quantum-typewriter/script.js:37 | a surrogate pair stands for a character outside the basic plane |
| QuantumTypewriter.CharRoundTrip | projects/quantum-typewriter/script.js:37 | decoding a character's code units before a rest gives the character before the rest's decoding |
| QuantumTypewriter.DecodeUtf16 | projects/quantum-typewriter/script.js:35-45 | decoding the code units of any string gives the string back |
| QuantumTypewriter.Utf16Decode | projects/quantum-typewriter/script.js:35-45 | code units that decode are exactly the encoding of what they decode to |
| QuantumTypewriter.DecodeAppend | projects/quantum-typewriter/script.js:35-45 | decoding distributes over a concatenation whose first part decodes |
| QuantumTypewriter.DropLast | projects/quantum-typewriter/script.js:37 | the text without its last code unit, the last unit put back giving the text; an empty text stays empty |
| QuantumTypewriter.ApplyEffect | projects/quantum-typewriter/script.js:56-85 | the spiral reverses the code units, infinity appends the text to itself, and the other effect keys leave it alone |
| QuantumTypewriter.PressKey | projects/quantum-typewriter/script.js:32-47 | return adds a line break, backspace drops the last code unit, the space key adds a space, the five effect keys add a tenth to the distortion and apply their effect, and any other key is typed |
| QuantumTypewriter.EnterThenBackspace | projects/quantum-typewriter/script.js:32-47 | return then backspace leaves the first three code units of the line break in the buffer |
| QuantumTypewriter.BackspaceUndoes | projects/quantum-typewriter/script.js:36-45 | backspace after a key of one code unit gives the typewriter back unchanged |
| QuantumTypewriter.BackspaceSplitsPair | projects/quantum-typewriter/script.js:36-37 | backspace after a character outside the basic plane leaves its high surrogate behind, so the text no longer decodes |
| QuantumTypewriter.SpiralTwice | projects/quantum-typewriter/script.js:72-74 | two spirals give the text back, two tenths more distorted |
| QuantumTypewriter.SpiralBreaksPair | projects/quantum-typewriter/script.js:72-74 | the spiral on a character outside the basic plane puts its low surrogate first, so the text no longer decodes |
| QuantumTypewriter.InfinityDoubles | projects/quantum-typewriter/script.js:75-76 | infinity on a text that decodes gives one that decodes to the old text twice |
| QuantumTypewriter.DistortionCountsEffects | projects/quantum-typewriter/script.js:40-43 | after any keys the distortion has grown by a tenth for each effect key among them |
| QuantumTypewriter.OrdinaryKeysType | projects/quantum-typewriter/script.js:44-45 | ordinary keys alone type their concatenation |
| QuantumTypewriter.Fluctuate | projects/quantum-typewriter/script.js:87-96 | texts of five code units or fewer stay; longer ones have exactly one code unit replaced by one of the eight symbols, growing by at most one unit |
| QuantumTypewriter.FluctuationIsLocal | projects/quantum-typewriter/script.js:90-94 | a fluctuation keeps every code unit before the hit position and every one after it |
| QuantumTypewriter.Press | projects/quantum-typewriter/script.js:32-54 | the key is handled, and only when the first draw exceeds 0.7 a fluctuation follows, which never touches the distortion |
| QuantumTypewriter.KeyFor | projects/quantum-typewriter/script.js:106-116 | a key of one code unit is typed upper-cased, Backspace and Enter map to their on-screen keys, and anything else is ignored |
| QuantumTypewriter.SpaceBarTypesSpace | projects/quantum-typewriter/script.js:106-116 | the space bar types a plain space, just as the on-screen space key does |

## Left out

- Rendering: DOM updates, `innerHTML` templates, CSS classes, Chart.js charts and the Three.js scene are presentation only; the model keeps the values they display.
- Storage and messaging: `localStorage`, `chrome.storage`, `chrome.runtime` messages, alarms and notifications, `FileReader`, Papa/JSON parsing and Blob downloads are I/O; only the data they carry is modelled, and stored values enter as parameters.
- Timers: `setTimeout`, `setInterval` and animation frames are modelled as the state change of one callback, not as scheduling.
- Randomness and the clock: each `Math.random()` draw, `Date.now()` and the local hour are parameters; a shuffle (the resonance archive's random sort) is a permutation parameter.
- Number formatting: `toFixed`, `toLocaleString` and date formatting are not modelled; JavaScript doubles are exact reals, so rounding error is not modelled.
- Case mapping: `toUpperCase`/`toLowerCase` map ASCII letters only; other scripts are left as they are.
- `parseFloat`: the model reads an optional sign, digits and a fraction; exponents and `Infinity` are not modelled. `parseInt` without a radix is modelled with its `0x` prefix (`Strings.ParseIntAuto`).
- Object keys: lookups in a plain object used as a dictionary (`storyFragments[type]`, `presets[name]`) do not model inherited prototype keys such as `constructor`, and `Object.keys` order is insertion order, ignoring the special order of integer-like keys.
- mindful-notification-filter/popup.js and the other popups are UI only, except the hydration popup's log guard, which is modelled.
- DatasetValidator.RangeIssues: the source's range rules are an object keyed by column, read with `Object.entries`; the model takes them as a list in that order, so one rule per column holds by construction there and is not required here.
- SpaceSlingshot.ApplyGravity: the gravity force (square roots and trigonometry on floats) is computed outside the model and enters as a velocity change; only the collision test is modelled.
- DatasetValidator.Validate: file parsing is not modelled, and a cell is held as its parsed JavaScript value; the strict type check's `Date.parse` test is not modelled, which changes nothing because a string passes anyway and no boolean or undefined value parses as a date.
- ProbOracle.NormaliseValidIsIdentity: holds on exact reals only. With the program's doubles, `Math.floor((29 / 100) * 100)` is 28, so the reachable shares (29, 36, 35) normalise to (28, 36, 36); consulting from weights 20, 43, 41 gives (19, 41, 40), and a 'yes' card then gives (29, 36, 35). Nothing else in the model relies on this lemma.
- ProbOracle.Tick: the three jitter draws are real parameters, and the `observing` guard is left out because nothing ever sets it, so every tick runs.
- BreakScheduler.Initial: the scheduler as the constructor would leave it if `init()` completed; as written it never does, because `init()` calls the undeclared `setupListeners` (see Findings), so every other BreakScheduler member describes the intended program.
- BreakScheduler.ScheduleBreaks: only the intervals and frame are stated here; that a full break never fires is the lemma `BreakScheduler.NoFullBreaks`.
- EnergyOptimizer.AddEntry: the timestamp enters as its local hour only; `updateDashboard`, the charts and the date bucketing are not modelled.
- EnergyOptimizer.EfficiencyScore: the source bounds the energy and carbon scores only above; the model states their lower bound of 0 only for non-negative efficiencies, and for a non-negative renewable share with a carbon factor up to 10, because negative settings make them negative.
- EnergyOptimizer.ConsumptionTable: devices sharing a name keep one row, the last device's, as the object assignment does.
- WallpaperRotator.MoodCountsFirstUseOrder: keys are ordered by first counted record, which is `Object.keys` order for the gallery's moods; a mood string that is an array index ('0', '1', …) would be listed first in numeric order, and that is not modelled.
- WallpaperRotator.Pick: the popup's rendering of the gallery and history is not modelled.
- NarrativeGen.Weave: its contract covers only the empty case; the content of longer stories is stated by `NarrativeGen.OnlyFiveWoven` and `NarrativeGen.FirstFiveAppear`.
- CognitiveTracker.UpdateResults: the score is computed on exact reals, so the floating-point rounding of `accuracy * (1 / avg) * (1 - stress / 20) * 10` is not modelled; the chart, statistics and session list are display only.
- CognitiveTracker.Submit: a start time of 0 would read as "no start time" in the source; the model treats any present start time as set.
- CognitiveTracker.StartTask: the task's `question` field, built by `generateMathQuestion` from separate draws and never read, is not modelled; the operands shown and the answer come from the same draws.
- Hydration.GetSuggestion: states that some weather and activity from the lists are named, not which draw picks which; hydration-hero/background.js and the reminder's message are not modelled.
- ResonanceArchive.CreateBlend: the mixing, echo, morphing and normalisation of samples are not modelled; a blend keeps only its duration, the chosen one, whereas the buffer holds `sampleRate * blendDuration` truncated to whole frames, so the blend actually lasts floor(sampleRate × duration) / sampleRate seconds.
- ResonanceArchive.Filtered: the search term is lower-cased with the ASCII mapping only.
- HarmonicOrb.TimbreIndex: states the clamp's bound, not the floor formula; ordering and the extremes are the lemmas `HarmonicOrb.LabelsMonotone` and `HarmonicOrb.TimbreExtremes`.
- HarmonicOrb.DynamicsIndex: states the clamp's bound, not the floor formula; ordering is the lemma `HarmonicOrb.LabelsMonotone`.
- HarmonicOrb.Rebuild: the geometry morphing, the spectral centroid, the orb's scale and the colour scheme are not modelled; `createOscillators` without audio throws after clearing the list, modelled as an empty bank.
- QuantumTypewriter.PressKey: the buffer is the display's `innerHTML`, so every write goes through the HTML parser and every read back serialises it; neither is modelled. The buffer holds the code units written: ⏎ then ⌫ leaves `<br` (lemma `QuantumTypewriter.EnterThenBackspace`), which the parser would drop as a partial tag, and `<`, `&` and `>` typed as keys are not escaped on read-back.
- QuantumTypewriter.KeyFor: upper-casing is the ASCII mapping only; the effect banner and the reality metrics are display only.
- ai-powered-break-scheduler/deadlines.js reads deadlines through `prompt()`; it is not part of this model, and `addDeadline` in app.js is modelled instead.
- projects/HSL-visulizer/app.js, focused-reading-mode, sleep-cycle-optimizer and projects/Emotion Diary/script.js are not part of this model: they are DOM wiring, browser APIs, storage or constant outputs with no decision logic.

## Findings

| source | as written | input that shows it | evidently intended | confidence | as-written member | corrected member |
|---|---|---|---|---|---|---|
| projects/space-slingshot/script.js:234-236 | `setMode` assigns the mode's phase and then calls `rocket.reset()`, which sets AIMING, so the game is AIMING after either button and the sandbox can never be entered | press the Sandbox button, then click the canvas with the planet tool: the rocket is reset and no planet is placed | SANDBOX after the Sandbox button, AIMING after Play, so sandbox clicks place bodies | high, not executed | SpaceSlingshot.SetModeAsWritten | SpaceSlingshot.SetMode |
| ai-powered-break-scheduler/app.js:24 | `init()` calls `this.setupListeners()`, which the class never declares, so `new BreakScheduler()` throws a TypeError; the script stops before the start and stop listeners are added, and the energy, AI and deadline managers never receive a scheduler | loading the page with any storage contents | `init()` loads and renders only (or `setupListeners` wires the buttons), so construction completes | high, not executed | BreakScheduler.ConstructAsWritten | BreakScheduler.Construct |
| projects/autonomous-dataset-validator/autonomous-dataset-validator.js:753-764 | the outlier issue's row is the outlier's index in the sorted numeric values plus one, because `detectOutliers` returns positions in the sorted copy | a column holding 100, 1, 2, 3, 4 in rows 1 to 5 with IQR threshold 1.5: the 100 is reported at row 5, whose value is 4 | the row the outlying value sits in, row 1 here | high, not executed | DatasetValidator.OutlierIssuesAsWritten | DatasetValidator.OutlierIssues |

The lemma `BreakScheduler.ConstructorThrows` exhibits the constructor failure, and `BreakScheduler.Construct` states the completed construction. The lemmas `SpaceSlingshot.SandboxUnreachable` and `SpaceSlingshot.SandboxButtonIgnored` exhibit the first discrepancy and `SpaceSlingshot.SandboxPlacesPlanet` proves the intended behaviour; `DatasetValidator.OutlierRowIsSortedRank` exhibits the second and `DatasetValidator.OutlierAtOwnRow` proves the corrected row. `DatasetValidator.Validate` is the validator as written, its outlier part stated by `DatasetValidator.AsWrittenReportsRanks` and `DatasetValidator.ValidateByCheck`; `DatasetValidator.ValidateIntended` is the corrected validator, stated by `DatasetValidator.OutlierIssuesIff` and `DatasetValidator.ValidateIntendedByCheck`.

=== FILE: algoblocks.dfy ===
/** AlgoBlocks: a visualiser whose memory is one array of node values, read
    as a linked list, a stack or a queue depending on the selected mode. */
module AlgoBlocks {
  import opened Options
  import opened Seqs
  import opened Strings

  /** A node value: typed text (trimmed input) or a generated integer. */
  datatype Item = Str(s: string) | Int(n: int)

  /** The selected mode ('SLL', 'DLL', 'CLL', 'STACK' or 'QUEUE') and the
      node values. */
  datatype Blocks = Blocks(mode: string, nodes: seq<Item>)

  const Initial: Blocks := Blocks("SLL", [])

  /** Switching structure only changes how the same values are read. */
  function SetMode(b: Blocks, mode: string): (r: Blocks)
    ensures r.mode == mode
    ensures r.nodes == b.nodes
  {
    b.(mode := mode)
  }

  /** Adds the trimmed input at the end; input that trims to nothing is
      refused and leaves the values alone. */
  function AddData(b: Blocks, input: string): (r: Blocks)
    ensures r.mode == b.mode
    ensures Trim(input) == "" ==> r == b
    ensures Trim(input) != "" ==> |r.nodes| == |b.nodes| + 1 && r.nodes[..|b.nodes|] == b.nodes
    ensures Trim(input) != "" ==> r.nodes[|b.nodes|] == Str(Trim(input))
  {
    var v := Trim(input);
    if v == "" then b
    else
      var r := b.(nodes := b.nodes + [Str(v)]);
      assert r.nodes[..|b.nodes|] == b.nodes;
      r
  }

  /** Removes one value: the front one in QUEUE mode, the last one in every
      other mode; nothing when the memory is empty. Also returns the removed
      value. */
  function RemoveData(b: Blocks): (res: (Blocks, Option<Item>))
    ensures res.0.mode == b.mode
    ensures |b.nodes| == 0 <==> res.1.None?
    ensures |b.nodes| == 0 ==> res.0 == b
    ensures res.1.Some? ==> multiset(res.0.nodes) + multiset{res.1.value} == multiset(b.nodes)
    ensures |b.nodes| > 0 && b.mode == "QUEUE" ==> res.1.value == b.nodes[0] && res.0.nodes == b.nodes[1..]
    ensures |b.nodes| > 0 && b.mode != "QUEUE" ==>
              res.1.value == b.nodes[|b.nodes| - 1] && res.0.nodes == b.nodes[..|b.nodes| - 1]
  {
    var ns := b.nodes;
    if |ns| == 0 then (b, None)
    else if b.mode == "QUEUE" then
      assert ns == [ns[0]] + ns[1..];
      (b.(nodes := ns[1..]), Some(ns[0]))
    else
      assert ns == ns[..|ns| - 1] + [ns[|ns| - 1]];
      (b.(nodes := ns[..|ns| - 1]), Some(ns[|ns| - 1]))
  }

  /** Purges the memory. */
  function ClearAllData(b: Blocks): (r: Blocks)
    ensures r.nodes == [] && r.mode == b.mode
  {
    b.(nodes := [])
  }

  /** Appends 3 to 5 integers in [1, 99]. `countDraw` and `valueDraws` stand
      for the successive `Math.random()` results, each in [0, 1). */
  method GenerateRandomData(b: Blocks, countDraw: real, valueDraws: seq<real>) returns (r: Blocks)
    requires 0.0 <= countDraw < 1.0
    requires |valueDraws| >= 5 && forall i :: 0 <= i < |valueDraws| ==> 0.0 <= valueDraws[i] < 1.0
    ensures r.mode == b.mode
    ensures |r.nodes| == |b.nodes| + RandomInt(countDraw, 3, 3)
    ensures 3 <= |r.nodes| - |b.nodes| <= 5
    ensures r.nodes[..|b.nodes|] == b.nodes
    ensures forall i :: |b.nodes| <= i < |r.nodes| ==> r.nodes[i].Int? && 1 <= r.nodes[i].n <= 99
    ensures forall i :: |b.nodes| <= i < |r.nodes| ==> r.nodes[i] == Int(RandomInt(valueDraws[i - |b.nodes|], 99, 1))
  {
    var count := RandomInt(countDraw, 3, 3);
    var ns := b.nodes;
    var i := 0;
    while i < count
      invariant 0 <= i <= count
      invariant |ns| == |b.nodes| + i
      invariant ns[..|b.nodes|] == b.nodes
      invariant forall j :: |b.nodes| <= j < |ns| ==> ns[j] == Int(RandomInt(valueDraws[j - |b.nodes|], 99, 1))
    {
      ns := ns + [Int(RandomInt(valueDraws[i], 99, 1))];
      i := i + 1;
    }
    r := b.(nodes := ns);
  }

  /** Outside QUEUE mode the memory is a stack: a push followed by a pop
      gives back the pushed value and the memory as it was. */
  lemma StackPushPop(b: Blocks, input: string)
    requires b.mode != "QUEUE" && Trim(input) != ""
    ensures RemoveData(AddData(b, input)) == (b, Some(Str(Trim(input))))
  {
    var a := AddData(b, input);
    assert a.nodes[..|a.nodes| - 1] == b.nodes;
  }

  /** In QUEUE mode the memory is a queue: on a non-empty queue, enqueueing
      and dequeueing commute, and the oldest value leaves first. */
  lemma QueueFifo(b: Blocks, input: string)
    requires b.mode == "QUEUE" && |b.nodes| > 0 && Trim(input) != ""
    ensures RemoveData(AddData(b, input)).1 == Some(b.nodes[0])
    ensures RemoveData(AddData(b, input)).0 == AddData(RemoveData(b).0, input)
  {
    var a := AddData(b, input);
    assert a.nodes == b.nodes + [Str(Trim(input))];
    assert a.nodes[1..] == b.nodes[1..] + [Str(Trim(input))];
  }

  /** A queue gives its values back in the order they were enqueued: |vs|
      dequeues from a queue holding `vs` return exactly `vs`. */
  lemma {:induction false} QueueOrder(vs: seq<Item>)
    ensures DrainQueue(Blocks("QUEUE", vs), |vs|) == vs
  {
    if |vs| > 0 {
      var b := Blocks("QUEUE", vs);
      assert RemoveData(b).0 == Blocks("QUEUE", vs[1..]);
      QueueOrder(vs[1..]);
    }
  }

  /** The values `n` successive removals return. */
  function DrainQueue(b: Blocks, n: nat): seq<Item>
    decreases n
  {
    if n == 0 then []
    else
      var (rest, removed) := RemoveData(b);
      (if removed.Some? then [removed.value] else []) + DrainQueue(rest, n - 1)
  }
}

=== FILE: assoc.dfy ===
/** Association lists keyed by strings: the model of a plain JavaScript
    object used as a dictionary, whose keys keep their insertion order. */
module Assoc {
  import opened Options

  /** The value stored under `k` in an association list, if any. */
  function Lookup<V>(t: seq<(string, V)>, k: string): Option<V>
  {
    if |t| == 0 then None else if t[0].0 == k then Some(t[0].1) else Lookup(t[1..], k)
  }

  /** No key occurs twice. */
  predicate UniqueKeys<V>(t: seq<(string, V)>)
  {
    forall i, j :: 0 <= i < j < |t| ==> t[i].0 != t[j].0
  }

  /** Assignment to a JavaScript object property: overwrite in place when
      the key exists (keeping its position), append otherwise. */
  function Upsert<V>(t: seq<(string, V)>, k: string, v: V): (r: seq<(string, V)>)
    requires UniqueKeys(t)
    ensures UniqueKeys(r)
    ensures Lookup(r, k) == Some(v)
    ensures forall k' :: k' != k ==> Lookup(r, k') == Lookup(t, k')
    ensures forall i :: 0 <= i < |r| ==> r[i].0 == k || exists j :: 0 <= j < |t| && t[j] == r[i]
  {
    if |t| == 0 then [(k, v)]
    else if t[0].0 == k then
      assert forall i :: 0 < i < |t| ==> t[i].0 != k;
      NotFound(t[1..], k);
      [(k, v)] + t[1..]
    else
      var rest := Upsert(t[1..], k, v);
      var r := [t[0]] + rest;
      forall i | 0 <= i < |rest|
        ensures rest[i].0 != t[0].0
      {
        if rest[i].0 != k {
          var j :| 0 <= j < |t[1..]| && t[1..][j] == rest[i];
          assert t[j + 1] == rest[i];
        }
      }
      forall i | 0 < i < |r|
        ensures r[i].0 == k || exists j :: 0 <= j < |t| && t[j] == r[i]
      {
        if rest[i - 1].0 != k {
          var j :| 0 <= j < |t[1..]| && t[1..][j] == rest[i - 1];
          assert t[j + 1] == r[i];
        }
      }
      r
  }

  /** Overwriting an existing key keeps every key in its position; a new
      key goes at the end. */
  lemma {:induction false} UpsertKeys<V>(t: seq<(string, V)>, k: string, v: V)
    requires UniqueKeys(t)
    ensures Lookup(t, k).Some? ==>
              |Upsert(t, k, v)| == |t| && forall i :: 0 <= i < |t| ==> Upsert(t, k, v)[i].0 == t[i].0
    ensures Lookup(t, k).None? ==> Upsert(t, k, v) == t + [(k, v)]
  {
    if |t| > 0 && t[0].0 != k {
      var rest := Upsert(t[1..], k, v);
      assert t == [t[0]] + t[1..];
      assert Upsert(t, k, v) == [t[0]] + rest;
      UpsertKeys(t[1..], k, v);
    }
  }

  lemma {:induction false} NotFound<V>(t: seq<(string, V)>, k: string)
    requires forall i :: 0 <= i < |t| ==> t[i].0 != k
    ensures Lookup(t, k) == None
  {
    if |t| > 0 {
      NotFound(t[1..], k);
    }
  }

  /** Every pair of a list with unique keys is what a lookup of its key gives. */
  lemma {:induction false} LookupMember<V>(t: seq<(string, V)>, i: nat)
    requires UniqueKeys(t) && i < |t|
    ensures Lookup(t, t[i].0) == Some(t[i].1)
  {
    if i > 0 {
      LookupMember(t[1..], i - 1);
    }
  }

  /** A key that a lookup finds is at some position. */
  lemma {:induction false} LookupSome<V>(t: seq<(string, V)>, k: string) returns (h: nat)
    requires Lookup(t, k).Some?
    ensures h < |t| && t[h].0 == k && Lookup(t, k) == Some(t[h].1)
  {
    if t[0].0 == k {
      h := 0;
    } else {
      var h' := LookupSome(t[1..], k);
      h := h' + 1;
    }
  }
}

=== FILE: break_scheduler.dfy ===
/** The AI-powered break scheduler: while tracking, every tick logs work,
    drains energy and may suggest a break; deadlines stretch the full-break
    interval, low or high energy adds advice, and two analysers summarise
    the work log. Times are milliseconds; the current time is a parameter. */
module BreakScheduler {
  import opened Options
  import opened Seqs
  import opened Strings

  const Minute: int := 60 * 1000
  const Hour: int := 60 * Minute
  const EnergyDecayRate: real := 0.5
  const EnergyBoost: real := 20.0

  datatype BreakType = Micro | Full

  datatype Break = Break(time: int, kind: BreakType)

  datatype Sample = Sample(time: int, energy: real)

  datatype Deadline = Deadline(time: int, name: string)

  datatype Suggestion = MicroBreakTip | FullBreakTip | EnergyLow | EnergyHigh

  datatype Scheduler = Scheduler(
    workLog: seq<int>,
    breaks: seq<Break>,
    energyLevels: seq<Sample>,
    deadlines: seq<Deadline>,
    tracking: bool,
    suggestions: seq<Suggestion>,
    energy: real,
    lastBreak: int,
    breakInterval: int,
    microBreakInterval: int,
    deadlineAdaptation: bool)

  /** A stored list if one was saved, otherwise the empty list. */
  function Load<T>(stored: Option<seq<T>>): (r: seq<T>)
    ensures stored.None? ==> r == []
    ensures stored.Some? ==> r == stored.value
  {
    if stored.Some? then stored.value else []
  }

  /** A freshly constructed scheduler at time `now`, with the work log,
      breaks, energy samples and deadlines read back from storage where
      they were saved. */
  function Initial(now: int, work: Option<seq<int>>, breaks: Option<seq<Break>>,
                   levels: Option<seq<Sample>>, deadlines: Option<seq<Deadline>>): (s: Scheduler)
    ensures Intervals(s) && s.breakInterval == Hour
    ensures s.energy == 100.0 && s.lastBreak == now && !s.tracking && s.deadlineAdaptation
    ensures s.suggestions == []
    ensures s.workLog == Load(work) && s.breaks == Load(breaks)
    ensures s.energyLevels == Load(levels) && s.deadlines == Load(deadlines)
  {
    Scheduler(Load(work), Load(breaks), Load(levels), Load(deadlines), false, [], 100.0, now, Hour, 15 * Minute, true)
  }

  /** The methods a `BreakScheduler` object has: exactly those its class
      declares. `setupListeners` is not among them. */
  const Methods: set<string> := {
    "init", "loadData", "saveData", "startTracking", "stopTracking", "trackWork",
    "scheduleBreaks", "suggestBreak", "adaptToDeadlines", "adaptToEnergyLevels",
    "addDeadline", "render", "renderStatus", "renderBreaks", "renderEnergy",
    "renderDeadlines", "renderSuggestions", "renderAnalysis", "analyzeWorkPatterns"}

  /** The calls `init()` makes, in order. */
  const InitCalls: seq<string> := ["loadData", "render", "setupListeners"]

  /** The calls `init()` is evidently meant to make: the start and stop
      buttons are wired by the script right after construction. */
  const IntendedInitCalls: seq<string> := ["loadData", "render"]

  /** The outcome of `new BreakScheduler()`: the object, or the TypeError
      thrown by calling a method the class does not have. */
  datatype Construction = Built(s: Scheduler) | Threw(missing: string)

  /** Running `calls` on the object `s`, whose lists `loadData` has already
      read back and which `render` only draws: the first call of a missing
      method throws, and nothing after it runs. */
  function RunInit(s: Scheduler, calls: seq<string>): (r: Construction)
    ensures r.Built? <==> forall i :: 0 <= i < |calls| ==> calls[i] in Methods
    ensures r.Built? ==> r.s == s
    ensures r.Threw? ==> exists i :: 0 <= i < |calls| && calls[i] == r.missing && calls[i] !in Methods &&
                                     forall j :: 0 <= j < i ==> calls[j] in Methods
    decreases |calls|
  {
    if |calls| == 0 then Built(s)
    else if calls[0] !in Methods then Threw(calls[0])
    else
      var r := RunInit(s, calls[1..]);
      assert forall i :: 1 <= i < |calls| ==> calls[i] == calls[1..][i - 1];
      r
  }

  /** The constructor as written: the fields are set and `init()` runs its
      three calls. */
  function ConstructAsWritten(now: int, work: Option<seq<int>>, breaks: Option<seq<Break>>,
                              levels: Option<seq<Sample>>, deadlines: Option<seq<Deadline>>): (r: Construction)
    ensures r.Threw? <==> exists i :: 0 <= i < |InitCalls| && InitCalls[i] !in Methods
  {
    RunInit(Initial(now, work, breaks, levels, deadlines), InitCalls)
  }

  /** As written, every construction throws at `setupListeners`, whatever
      storage holds, so the page never gets a scheduler and the button
      listeners registered after it never attach. */
  lemma ConstructorThrows(now: int, work: Option<seq<int>>, breaks: Option<seq<Break>>,
                          levels: Option<seq<Sample>>, deadlines: Option<seq<Deadline>>)
    ensures ConstructAsWritten(now, work, breaks, levels, deadlines) == Threw("setupListeners")
  {
    assert InitCalls[2] !in Methods;
    assert InitCalls[0] in Methods && InitCalls[1] in Methods;
  }

  /** The constructor as intended: `init()` loads and renders and returns
      the freshly loaded scheduler. */
  function Construct(now: int, work: Option<seq<int>>, breaks: Option<seq<Break>>,
                     levels: Option<seq<Sample>>, deadlines: Option<seq<Deadline>>): (r: Construction)
    ensures r.Built? && r.s.energy == 100.0 && r.s.lastBreak == now && !r.s.tracking
    ensures r.s.workLog == Load(work) && r.s.breaks == Load(breaks)
    ensures r.s.energyLevels == Load(levels) && r.s.deadlines == Load(deadlines)
  {
    assert IntendedInitCalls[0] in Methods && IntendedInitCalls[1] in Methods;
    RunInit(Initial(now, work, breaks, levels, deadlines), IntendedInitCalls)
  }

  /** The interval settings every operation keeps: the micro interval is 15
      minutes and the full interval is 60 or 90 minutes. */
  predicate Intervals(s: Scheduler)
  {
    s.microBreakInterval == 15 * Minute && (s.breakInterval == Hour || s.breakInterval == 90 * Minute)
  }

  /** `suggestBreak`: +10 energy for a micro break, +20 for a full one, and
      one break, one suggestion and one energy sample recorded. */
  function SuggestBreak(s: Scheduler, kind: BreakType, now: int): (r: Scheduler)
    ensures r.energy == s.energy + (if kind == Micro then EnergyBoost / 2.0 else EnergyBoost)
    ensures r.breaks == s.breaks + [Break(now, kind)]
    ensures r.suggestions == s.suggestions + [if kind == Micro then MicroBreakTip else FullBreakTip]
    ensures r.energyLevels == s.energyLevels + [Sample(now, r.energy)]
    ensures r.workLog == s.workLog && r.deadlines == s.deadlines && r.lastBreak == s.lastBreak
    ensures r.breakInterval == s.breakInterval && r.microBreakInterval == s.microBreakInterval
    ensures r.tracking == s.tracking && r.deadlineAdaptation == s.deadlineAdaptation
  {
    var e := s.energy + (if kind == Micro then EnergyBoost / 2.0 else EnergyBoost);
    s.(energy := e,
       breaks := s.breaks + [Break(now, kind)],
       suggestions := s.suggestions + [if kind == Micro then MicroBreakTip else FullBreakTip],
       energyLevels := s.energyLevels + [Sample(now, e)])
  }

  /** The full-break interval one deadline asks for: 90 minutes when it is
      less than an hour away (or already past), 60 minutes otherwise. */
  function IntervalFor(d: Deadline, now: int): (i: int)
    ensures d.time - now < Hour ==> i == 90 * Minute
    ensures d.time - now >= Hour ==> i == Hour
  {
    if d.time - now < Hour then 90 * Minute else Hour
  }

  /** `adaptToDeadlines`: the loop over the deadlines, each overwriting the
      interval set by the one before. */
  method AdaptToDeadlines(s: Scheduler, now: int) returns (r: Scheduler)
    ensures !s.deadlineAdaptation || |s.deadlines| == 0 ==> r == s
    ensures s.deadlineAdaptation && |s.deadlines| > 0 ==>
              r == s.(breakInterval := IntervalFor(s.deadlines[|s.deadlines| - 1], now))
  {
    if !s.deadlineAdaptation || |s.deadlines| == 0 {
      return s;
    }
    r := s;
    var i := 0;
    while i < |s.deadlines|
      invariant 0 <= i <= |s.deadlines|
      invariant r == s.(breakInterval := if i == 0 then s.breakInterval else IntervalFor(s.deadlines[i - 1], now))
    {
      var d := s.deadlines[i];
      if d.time - now < Hour {
        r := r.(breakInterval := 90 * Minute);
      } else {
        r := r.(breakInterval := Hour);
      }
      i := i + 1;
    }
  }

  /** The interval `adaptToDeadlines` leaves, as a function. */
  function AdaptedInterval(s: Scheduler, now: int): (i: int)
    ensures Intervals(s) ==> i == Hour || i == 90 * Minute
  {
    if !s.deadlineAdaptation || |s.deadlines| == 0 then s.breakInterval
    else IntervalFor(s.deadlines[|s.deadlines| - 1], now)
  }

  /** Only the last deadline matters: any deadlines before it can be
      dropped or changed without changing the interval. */
  lemma OnlyLastDeadlineCounts(s: Scheduler, earlier: seq<Deadline>, now: int)
    requires s.deadlineAdaptation && |s.deadlines| > 0
    ensures AdaptedInterval(s.(deadlines := earlier + [s.deadlines[|s.deadlines| - 1]]), now) == AdaptedInterval(s, now)
  {
  }

  /** `adaptToEnergyLevels`: a low-energy tip below 40, a high-energy tip
      above 120, never both. */
  function AdaptToEnergyLevels(s: Scheduler): (r: Scheduler)
    ensures r == s.(suggestions := r.suggestions)
    ensures s.energy < 40.0 ==> r.suggestions == s.suggestions + [EnergyLow]
    ensures s.energy > 120.0 ==> r.suggestions == s.suggestions + [EnergyHigh]
    ensures 40.0 <= s.energy <= 120.0 ==> r == s
  {
    var low := if s.energy < 40.0 then [EnergyLow] else [];
    var high := if s.energy > 120.0 then [EnergyHigh] else [];
    s.(suggestions := s.suggestions + low + high)
  }

  /** `scheduleBreaks`: a micro break when more than 15 minutes have passed
      since the last break, then a full break when more than the full
      interval has passed since the (possibly just updated) last break;
      then the deadline and energy adaptations. */
  function ScheduleBreaks(s: Scheduler, now: int): (r: Scheduler)
    ensures r.workLog == s.workLog && r.deadlines == s.deadlines && r.tracking == s.tracking
    ensures Intervals(s) ==> Intervals(r)
  {
    var s1 := if now - s.lastBreak > s.microBreakInterval then SuggestBreak(s, Micro, now).(lastBreak := now) else s;
    var s2 := if now - s1.lastBreak > s1.breakInterval then SuggestBreak(s1, Full, now).(lastBreak := now) else s1;
    var s3 := s2.(breakInterval := AdaptedInterval(s2, now));
    AdaptToEnergyLevels(s3)
  }

  /** The full-break branch never fires: right after a micro break the gap
      is 0, and otherwise it is at most 15 minutes, below the 60 or 90
      minute interval. A tick adds a micro break exactly when more than 15
      minutes have passed, and never a full one. */
  lemma NoFullBreaks(s: Scheduler, now: int)
    requires Intervals(s)
    ensures var r := ScheduleBreaks(s, now);
            && (now - s.lastBreak > 15 * Minute ==> r.breaks == s.breaks + [Break(now, Micro)] && r.lastBreak == now)
            && (now - s.lastBreak <= 15 * Minute ==> r.breaks == s.breaks && r.lastBreak == s.lastBreak)
  {
  }

  /** The work-tracking step before scheduling: one work entry, energy down
      by 0.5 and one energy sample with the new energy. */
  function RecordWork(s: Scheduler, now: int): (r: Scheduler)
    ensures r.workLog == s.workLog + [now]
    ensures r.energy == s.energy - EnergyDecayRate
    ensures r.energyLevels == s.energyLevels + [Sample(now, r.energy)]
    ensures r.breaks == s.breaks && r.suggestions == s.suggestions && r.deadlines == s.deadlines
    ensures r.lastBreak == s.lastBreak && r.breakInterval == s.breakInterval
    ensures r.microBreakInterval == s.microBreakInterval && r.tracking == s.tracking
  {
    var e := s.energy - EnergyDecayRate;
    s.(workLog := s.workLog + [now], energy := e, energyLevels := s.energyLevels + [Sample(now, e)])
  }

  /** `trackWork`: nothing when not tracking; otherwise record the work and
      schedule breaks (the 5-minute re-arming is left to the caller). */
  function TrackWork(s: Scheduler, now: int): (r: Scheduler)
    ensures !s.tracking ==> r == s
    ensures s.tracking ==> r.workLog == s.workLog + [now] && r.tracking
    ensures Intervals(s) ==> Intervals(r)
  {
    if !s.tracking then s else ScheduleBreaks(RecordWork(s, now), now)
  }

  function StartTracking(s: Scheduler, now: int): (r: Scheduler)
    ensures r.tracking && r.workLog == s.workLog + [now]
  {
    TrackWork(s.(tracking := true), now)
  }

  function StopTracking(s: Scheduler): (r: Scheduler)
    ensures !r.tracking
    ensures TrackWork(r, 0) == r
  {
    s.(tracking := false)
  }

  /** `addDeadline`: exactly one deadline appended. */
  function AddDeadline(s: Scheduler, time: int, name: string): (r: Scheduler)
    ensures r.deadlines == s.deadlines + [Deadline(time, name)]
    ensures r == s.(deadlines := r.deadlines)
  {
    s.(deadlines := s.deadlines + [Deadline(time, name)])
  }

  /** `EnergyManager.boostEnergy`: +30 energy and one sample recording it;
      nothing else changes. */
  function BoostEnergy(s: Scheduler, now: int): (r: Scheduler)
    ensures r.energy == s.energy + 30.0
    ensures r.energyLevels == s.energyLevels + [Sample(now, r.energy)]
    ensures r == s.(energy := r.energy, energyLevels := r.energyLevels)
  {
    s.(energy := s.energy + 30.0, energyLevels := s.energyLevels + [Sample(now, s.energy + 30.0)])
  }

  function Boosts(s: Scheduler, now: int, k: nat): Scheduler
  {
    if k == 0 then s else BoostEnergy(Boosts(s, now, k - 1), now)
  }

  /** There is no cap: k boosts add exactly 30k, so energy passes any bound. */
  lemma {:induction false} BoostUnbounded(s: Scheduler, now: int, k: nat)
    ensures Boosts(s, now, k).energy == s.energy + 30.0 * k as real
    ensures |Boosts(s, now, k).energyLevels| == |s.energyLevels| + k
  {
    if k > 0 {
      BoostUnbounded(s, now, k - 1);
    }
  }

  /** The summary `analyzeWorkPatterns` formats. */
  datatype Analysis = NotEnoughData | Totals(workMs: int, breakMinutes: int)

  /** Minutes a break stands for: 10 for a full break, 2 for a micro break. */
  function BreakMinutes(bs: seq<Break>): (m: int)
    ensures m == 10 * Count(bs, IsFull) + 2 * (|bs| - Count(bs, IsFull))
  {
    if |bs| == 0 then 0 else (if bs[0].kind == Full then 10 else 2) + BreakMinutes(bs[1..])
  }

  predicate IsFull(b: Break) { b.kind == Full }

  /** `analyzeWorkPatterns`: too little data below two entries; otherwise
      the sum of the gaps between consecutive entries, which telescopes to
      last minus first, and the break minutes. */
  method AnalyzeWorkPatterns(s: Scheduler) returns (a: Analysis)
    ensures |s.workLog| < 2 <==> a == NotEnoughData
    ensures |s.workLog| >= 2 ==>
              a == Totals(s.workLog[|s.workLog| - 1] - s.workLog[0], BreakMinutes(s.breaks))
  {
    if |s.workLog| < 2 {
      return NotEnoughData;
    }
    var totalWork := SumGaps(s.workLog);
    var totalBreaks := SumBreakMinutes(s.breaks);
    a := Totals(totalWork, totalBreaks);
  }

  /** The first loop of `analyzeWorkPatterns`: the running sum of the gaps
      between consecutive entries. */
  method SumGaps(log: seq<int>) returns (total: int)
    requires |log| >= 1
    ensures total == log[|log| - 1] - log[0]
  {
    total := 0;
    var lastTime := log[0];
    var i := 1;
    while i < |log|
      invariant 1 <= i <= |log|
      invariant lastTime == log[i - 1]
      invariant total == log[i - 1] - log[0]
    {
      total := total + (log[i] - lastTime);
      lastTime := log[i];
      i := i + 1;
    }
  }

  /** The second loop of `analyzeWorkPatterns`: 10 minutes per full break
      and 2 per micro break. */
  method SumBreakMinutes(bs: seq<Break>) returns (total: int)
    ensures total == BreakMinutes(bs)
  {
    total := 0;
    var j := 0;
    while j < |bs|
      invariant 0 <= j <= |bs|
      invariant total + BreakMinutes(bs[j..]) == BreakMinutes(bs)
    {
      assert bs[j..][1..] == bs[j + 1..];
      total := total + (if bs[j].kind == Full then 10 else 2);
      j := j + 1;
    }
  }

  /** The work pattern `WorkPatternAI.analyzePatterns` reports. */
  datatype Pattern = Insufficient | ShortBursts | LongStretches | Balanced

  /** The gaps between consecutive log entries. */
  function Gaps(log: seq<int>): (g: seq<int>)
    requires |log| >= 1
    ensures |g| == |log| - 1
    ensures forall i :: 0 <= i < |g| ==> g[i] == log[i + 1] - log[i]
  {
    seq(|log| - 1, i requires 0 <= i < |log| - 1 => log[i + 1] - log[i])
  }

  /** The gaps add up to last minus first. */
  lemma {:induction false} GapsTelescope(log: seq<int>)
    requires |log| >= 1
    ensures Sum(Gaps(log)) == log[|log| - 1] - log[0]
  {
    if |log| > 1 {
      var init := log[..|log| - 1];
      GapsTelescope(init);
      var g, gi, last := Gaps(log), Gaps(init), [log[|log| - 1] - log[|log| - 2]];
      forall k | 0 <= k < |g|
        ensures g[k] == (gi + last)[k]
      {
        if k < |gi| {
          assert gi[k] == init[k + 1] - init[k];
        }
      }
      assert g == gi + last;
      SumAppend(gi, last);
    }
  }

  /** Classification of the mean gap: below 10 minutes short bursts, above
      30 minutes long stretches, otherwise balanced. */
  function Classify(avg: real): (p: Pattern)
    ensures p != Insufficient
    ensures p == ShortBursts <==> avg < (10 * Minute) as real
    ensures p == LongStretches <==> avg > (30 * Minute) as real
    ensures p == Balanced <==> (10 * Minute) as real <= avg <= (30 * Minute) as real
  {
    if avg < (10 * Minute) as real then ShortBursts
    else if avg > (30 * Minute) as real then LongStretches
    else Balanced
  }

  /** `analyzePatterns`: insufficient below 10 entries, otherwise the class
      of the mean gap, which equals (last - first) / (n - 1). */
  function AnalyzePatterns(log: seq<int>): (p: Pattern)
    ensures |log| < 10 <==> p == Insufficient
    ensures |log| >= 10 ==> p == Classify((log[|log| - 1] - log[0]) as real / (|log| - 1) as real)
  {
    if |log| < 10 then Insufficient
    else
      var g := Gaps(log);
      GapsTelescope(log);
      Classify(Sum(g) as real / |g| as real)
  }

  /** What `recommendBreaks` recommends. */
  datatype Recommendation = Rest20 | DeepWork | MicroBreak5

  function RecommendBreaks(energy: real): (r: Recommendation)
    ensures r == Rest20 <==> energy < 30.0
    ensures r == DeepWork <==> energy > 110.0
    ensures r == MicroBreak5 <==> 30.0 <= energy <= 110.0
  {
    if energy < 30.0 then Rest20 else if energy > 110.0 then DeepWork else MicroBreak5
  }
}

=== FILE: breathing_buddy.dfy ===
/** The mindful breathing buddy: a stress level picks one of three
    breathing guides, and a session steps through the guide's inhale, hold
    and exhale phases on a timer. */
module BreathingBuddy {
  import opened Options
  import opened Strings

  /** A breathing guide: its name, the seconds of each phase and the
      phase names. */
  datatype Guide = Guide(name: string, pattern: seq<nat>, text: seq<string>)

  const Phases: seq<string> := ["Inhale", "Hold", "Exhale"]

  const Guides: seq<Guide> := [
    Guide("Calm", [4, 4, 6], Phases),
    Guide("Focus", [5, 2, 5], Phases),
    Guide("Relax", [6, 6, 8], Phases)
  ]

  /** An index the guide selector can hold. */
  type GuideIndex = i: nat | i < 3

  /** Every guide has three phases. */
  lemma GuidesHaveThreePhases(g: GuideIndex)
    ensures |Guides[g].pattern| == 3 && |Guides[g].text| == 3
    ensures Guides[g].text == Phases
  {
  }

  /** `stressLabel`. */
  function StressLabel(level: int): (s: string)
    ensures level == 1 <==> s == "Low"
    ensures level == 2 <==> s == "Medium"
    ensures level != 1 && level != 2 <==> s == "High"
  {
    if level == 1 then "Low" else if level == 2 then "Medium" else "High"
  }

  /** `selectGuideIndex`: high stress relaxes, medium focuses, anything
      else calms. */
  function SelectGuideIndex(level: int): (g: GuideIndex)
    ensures g == 2 <==> level == 3
    ensures g == 1 <==> level == 2
    ensures g == 0 <==> level != 2 && level != 3
  {
    if level == 3 then 2 else if level == 2 then 1 else 0
  }

  /** A stress level and the guide it selects carry the same word: the
      label 'High' goes with 'Relax' exactly when the level is 3. */
  lemma LabelAndGuideAgree(level: int)
    requires 1 <= level <= 3
    ensures StressLabel(level) == "Low" <==> Guides[SelectGuideIndex(level)].name == "Calm"
    ensures StressLabel(level) == "Medium" <==> Guides[SelectGuideIndex(level)].name == "Focus"
    ensures StressLabel(level) == "High" <==> Guides[SelectGuideIndex(level)].name == "Relax"
  {
  }

  /** The page state. `timer` holds the period (milliseconds) of the
      running interval, if one runs. */
  datatype Buddy = Buddy(stress: int, guide: GuideIndex, active: bool, step: nat, timer: Option<nat>)

  /** The page as first rendered. */
  const Initial: Buddy := Buddy(1, SelectGuideIndex(1), false, 0, None)

  const ReadyText := "Ready for your breathing session."

  /** The breathing-guide text. */
  function Display(b: Buddy): (t: string)
    ensures !b.active ==> t == ReadyText
    ensures b.active ==> t == Guides[b.guide].text[b.step % 3] + " for "
                               + NatToString(Guides[b.guide].pattern[b.step % 3]) + " seconds"
  {
    if !b.active then ReadyText
    else
      var g := Guides[b.guide];
      g.text[b.step % 3] + " for " + NatToString(g.pattern[b.step % 3]) + " seconds"
  }

  /** What the user and the timer can do. The start button is disabled
      while a session runs and the stop button while none does, so a
      click on a disabled button is ignored. */
  datatype Event = StressInput(level: int) | ChooseGuide(g: GuideIndex) | Start | Stop | Tick

  /** `adaptGuide` after the slider moves: the guide follows the stress
      level and the step restarts. */
  function AdaptGuide(b: Buddy, level: int): (r: Buddy)
    ensures r.stress == level && r.guide == SelectGuideIndex(level) && r.step == 0
    ensures r.active == b.active && r.timer == b.timer
  {
    b.(stress := level, guide := SelectGuideIndex(level), step := 0)
  }

  /** `startSession` followed by `runBreathing`: the interval's period is
      the current phase's length, which at step 0 is the inhale. */
  function StartSession(b: Buddy): (r: Buddy)
    ensures r.active && r.step == 0
    ensures r.timer == Some(Guides[b.guide].pattern[0] * 1000)
    ensures r.guide == b.guide && r.stress == b.stress
  {
    var r := b.(active := true, step := 0);
    r.(timer := Some(Guides[r.guide].pattern[r.step % 3] * 1000))
  }

  /** `stopSession`: inactive, interval cleared. */
  function StopSession(b: Buddy): (r: Buddy)
    ensures !r.active && r.timer.None?
    ensures r.guide == b.guide && r.step == b.step && r.stress == b.stress
  {
    b.(active := false, timer := None)
  }

  /** One firing of the interval: the next step, and the interval clears
      itself once the session is no longer active. */
  function NextPhase(b: Buddy): (r: Buddy)
    ensures r.step == b.step + 1
    ensures r.active == b.active && r.guide == b.guide
    ensures r.timer == (if b.active then b.timer else None)
  {
    var r := b.(step := b.step + 1);
    if !r.active then r.(timer := None) else r
  }

  function Step(b: Buddy, e: Event): Buddy
  {
    match e
    case StressInput(level) => AdaptGuide(b, level)
    case ChooseGuide(g) => b.(guide := g, step := 0)
    case Start => if b.active then b else StartSession(b)
    case Stop => if b.active then StopSession(b) else b
    case Tick => if b.timer.Some? then NextPhase(b) else b
  }

  function Run(b: Buddy, es: seq<Event>): Buddy
    decreases |es|
  {
    if |es| == 0 then b else Step(Run(b, es[..|es| - 1]), es[|es| - 1])
  }

  /** The interval runs exactly while a session is active. */
  predicate TimerWhileActive(b: Buddy)
  {
    b.timer.Some? <==> b.active
  }

  /** Every step keeps the timer running exactly while a session is
      active. */
  lemma {:induction false} RunKeepsTimerWhileActive(b: Buddy, es: seq<Event>)
    requires TimerWhileActive(b)
    ensures TimerWhileActive(Run(b, es))
    decreases |es|
  {
    if |es| > 0 {
      RunKeepsTimerWhileActive(b, es[..|es| - 1]);
    }
  }

  /** No start or stop among the events. */
  predicate NoStartStop(es: seq<Event>)
  {
    forall i :: 0 <= i < |es| ==> !es[i].Start? && !es[i].Stop?
  }

  /** Once a session starts, the tick period stays the inhale length of the
      guide chosen at the start, whatever the slider, the selector and the
      ticks do afterwards: the period is fixed once, not per phase. */
  lemma {:induction false} PeriodFixedAtStart(b: Buddy, es: seq<Event>)
    requires !b.active
    requires NoStartStop(es)
    ensures var r := Run(Step(b, Start), es);
            r.active && r.timer == Some(Guides[b.guide].pattern[0] * 1000)
    decreases |es|
  {
    if |es| > 0 {
      PeriodFixedAtStart(b, es[..|es| - 1]);
    }
  }

  /** A session that ticks `n` times from its start shows phase `n mod 3`
      of its guide, for that phase's length. */
  lemma {:induction false} TicksWalkThePhases(b: Buddy, n: nat)
    requires !b.active
    ensures var r := Run(Step(b, Start), Ticks(n));
            r.active && r.timer.Some? && r.guide == b.guide &&
            r.step == n && Display(r) == Phases[n % 3] + " for "
                                          + NatToString(Guides[b.guide].pattern[n % 3]) + " seconds"
    decreases n
  {
    if n > 0 {
      TicksWalkThePhases(b, n - 1);
      assert Ticks(n)[..n - 1] == Ticks(n - 1);
    }
    GuidesHaveThreePhases(b.guide);
  }

  function Ticks(n: nat): (ts: seq<Event>)
    ensures |ts| == n && forall i :: 0 <= i < n ==> ts[i] == Tick
  {
    seq(n, i => Tick)
  }

  /** Stopping always shows the ready text again, and a later start
      restarts at the inhale. */
  lemma StopThenStart(b: Buddy)
    requires b.active
    ensures Display(Step(b, Stop)) == ReadyText
    ensures var r := Step(Step(b, Stop), Start);
            r.step == 0 && Display(r) == "Inhale for " + NatToString(Guides[b.guide].pattern[0]) + " seconds"
  {
  }
}

=== FILE: cognitive_tracker.dfy ===
/** The cognitive resilience tracker: the user sets a stress level, takes
    math, memory and reaction tasks, and the answers are scored and saved
    in sessions. */
module CognitiveTracker {
  import opened Options
  import opened Seqs
  import opened Strings
  import opened Reals

  /** The stress bands of the indicator row. */
  const Bands: seq<string> := ["1-3", "4-6", "7-10"]

  /** Clicking an indicator: its band's middle value; 5 for anything else. */
  function IndicatorValue(band: string): (v: int)
    ensures band == "1-3" ==> v == 2
    ensures band == "4-6" ==> v == 5
    ensures band == "7-10" ==> v == 8
    ensures band !in Bands ==> v == 5
  {
    if band == "1-3" then 2 else if band == "4-6" then 5 else if band == "7-10" then 8 else 5
  }

  /** Whether an indicator is highlighted for the stress level. */
  predicate Active(band: string, stress: int)
  {
    (band == "1-3" && 1 <= stress <= 3)
    || (band == "4-6" && 4 <= stress <= 6)
    || (band == "7-10" && 7 <= stress <= 10)
  }

  /** For stress between 1 and 10 exactly one band is highlighted: the one
      containing it. */
  lemma ExactlyOneBandActive(stress: int)
    requires 1 <= stress <= 10
    ensures exists b :: b in Bands && Active(b, stress)
    ensures forall b, c :: Active(b, stress) && Active(c, stress) ==> b == c
  {
    if stress <= 3 {
      assert Active(Bands[0], stress);
    } else if stress <= 6 {
      assert Active(Bands[1], stress);
    } else {
      assert Active(Bands[2], stress);
    }
  }

  /** Clicking a band's indicator highlights that band. */
  lemma ClickHighlightsBand(band: string)
    requires band in Bands
    ensures Active(band, IndicatorValue(band))
  {
  }

  // ---------------------------------------------------------------------
  // Tasks

  /** The current task with the answer it expects. */
  datatype Task = Math(answer: int) | Memory(sequence: string) | Reaction

  /** The task `startMathTask` sets: two numbers in 1..20 and one of '+',
      '-', '*', drawn from `a`, `b` and `op`. */
  function MathTask(a: real, b: real, op: real): (t: Task)
    requires 0.0 <= a < 1.0 && 0.0 <= b < 1.0 && 0.0 <= op < 1.0
    ensures t.Math?
    ensures -19 <= t.answer <= 400
  {
    var n1 := RandomInt(a, 20, 1);
    var n2 := RandomInt(b, 20, 1);
    var k := RandomInt(op, 3, 0);
    ProductBound(n1, n2);
    Math(if k == 0 then n1 + n2 else if k == 1 then n1 - n2 else n1 * n2)
  }

  /** Two operands in 1..20 multiply to at most 400. */
  lemma ProductBound(x: int, y: int)
    requires 1 <= x <= 20 && 1 <= y <= 20
    ensures x * y <= 400
  {
    assert x * y <= 20 * y by {
      assert x * y + (20 - x) * y == 20 * y;
      assert (20 - x) * y >= 0;
    }
  }

  predicate IsCapital(c: char) { 'A' <= c <= 'Z' }

  /** `generateMemorySequence`: five capitals, each `65 + floor(x * 26)`. */
  method GenerateMemorySequence(draws: seq<real>) returns (s: string)
    requires |draws| >= 5 && forall i :: 0 <= i < |draws| ==> 0.0 <= draws[i] < 1.0
    ensures |s| == 5
    ensures forall i :: 0 <= i < |s| ==> IsCapital(s[i])
    ensures forall i :: 0 <= i < |s| ==> s[i] as int == 65 + RandomInt(draws[i], 26, 0)
  {
    s := "";
    var i := 0;
    while i < 5
      invariant 0 <= i <= 5 && |s| == i
      invariant forall j :: 0 <= j < i ==> s[j] as int == 65 + RandomInt(draws[j], 26, 0)
      invariant forall j :: 0 <= j < i ==> IsCapital(s[j])
    {
      s := s + [(65 + RandomInt(draws[i], 26, 0)) as char];
      i := i + 1;
    }
  }

  /** Whether a trimmed answer solves the task: the integer parse for math,
      the upper-cased text for memory, the lower-cased text 'ready' for
      reaction. */
  predicate Correct(t: Task, answer: string)
  {
    match t
    case Math(n) => ParseIntAuto(answer) == Some(n)
    case Memory(sequence) => Upper(answer) == sequence
    case Reaction => Lower(answer) == "ready"
  }

  /** Typing the sequence shown, in either case, is correct. */
  lemma MemoryEchoCorrect(s: string)
    requires forall i :: 0 <= i < |s| ==> IsCapital(s[i])
    ensures Correct(Memory(s), s)
    ensures Correct(Memory(s), Lower(s))
  {
    assert Upper(s) == s;
    assert Upper(Lower(s)) == s;
  }

  /** Typing a non-negative math answer in decimal is correct, and so is
      anything after the digits, which `parseInt` ignores, except that
      "0" followed by 'x' or 'X' starts a hexadecimal number. */
  lemma MathEchoCorrect(n: nat, tail: string)
    requires |tail| > 0 ==> !IsDigit(tail[0])
    requires n == 0 && |tail| > 0 ==> tail[0] != 'x' && tail[0] != 'X'
    ensures Correct(Math(n), NatToString(n) + tail)
  {
    ParseIntAutoOfNatToStringThen(n, tail);
  }

  /** The answer "0x1f" solves a math task whose answer is 31, and not one
      whose answer is 0. */
  lemma HexAnswerAccepted()
    ensures Correct(Math(31), "0x1f") && !Correct(Math(0), "0x1f")
  {
    RadixlessReadsHex();
  }

  /** 'READY' counts as ready. */
  lemma ReactionAnyCase()
    ensures Correct(Reaction, "READY") && Correct(Reaction, "ready")
    ensures !Correct(Reaction, "")
  {
    assert Lower("READY") == "ready";
    assert Lower("ready") == "ready";
  }

  // ---------------------------------------------------------------------
  // Responses and sessions

  datatype Response = Response(task: Task, stressLevel: int, responseTime: real, correct: bool, timestamp: int)

  /** A rounded number as JavaScript holds it: an integer, an infinity, or
      not a number. */
  datatype Score = NotANumber | PosInfinity | NegInfinity | Finite(n: int)

  /** The displayed results: accuracy (percent), mean response time, and
      resilience score. */
  datatype Results = Results(accuracy: real, avgResponseTime: real, resilienceScore: Score)

  /** A saved session: the responses, their mean stress, the displayed
      results, and the score as stored (`None` for NaN). */
  datatype Session = Session(id: int, responses: seq<Response>, averageStress: real, shown: Results,
                             storedScore: Option<int>)

  /** The tracker's state. `start` is `None` while no input is shown. */
  datatype Tracker = Tracker(stress: int, task: Option<Task>, start: Option<int>,
                             responses: seq<Response>, sessions: seq<Session>)

  /** Moving the stress slider to `value` (an integer from its range). */
  function SlideStress(st: Tracker, value: int): (r: Tracker)
    ensures r.stress == value
    ensures r.(stress := st.stress) == st
  {
    st.(stress := value)
  }

  /** Clicking the indicator of `band`. */
  function ClickIndicator(st: Tracker, band: string): (r: Tracker)
    ensures band in Bands ==> Active(band, r.stress)
    ensures r.(stress := st.stress) == st
  {
    st.(stress := IndicatorValue(band))
  }

  /** After the slider moves within its range 1 to 10, exactly one band is
      highlighted, the one holding the new level. */
  lemma SlideHighlightsOneBand(st: Tracker, value: int)
    requires 1 <= value <= 10
    ensures exists b :: b in Bands && Active(b, SlideStress(st, value).stress)
    ensures forall b, c :: Active(b, SlideStress(st, value).stress) && Active(c, SlideStress(st, value).stress) ==> b == c
  {
    ExactlyOneBandActive(value);
  }

  /** A task starts: a math task's input shows at once; memory and reaction
      inputs appear later (`ShowInput`), so their start time is not set. */
  function StartTask(st: Tracker, t: Task, now: int): (r: Tracker)
    ensures r.task == Some(t)
    ensures t.Math? ==> r.start == Some(now)
    ensures !t.Math? ==> r.start == st.start
    ensures r.responses == st.responses && r.sessions == st.sessions && r.stress == st.stress
  {
    if t.Math? then st.(task := Some(t), start := Some(now)) else st.(task := Some(t))
  }

  /** The delayed input of a memory or reaction task appears. */
  function ShowInput(st: Tracker, now: int): (r: Tracker)
    ensures r == st.(start := Some(now))
  {
    st.(start := Some(now))
  }

  /** `submitAnswer` with the input text, at time `now` (milliseconds). */
  function Submit(st: Tracker, input: string, now: int): (r: Tracker)
    ensures st.task.None? || st.start.None? ==> r == st
    ensures st.task.Some? && st.start.Some? ==>
              r.responses == st.responses + [Response(st.task.value, st.stress,
                                                      (now - st.start.value) as real / 1000.0,
                                                      Correct(st.task.value, Trim(input)), now)]
              && r.task.None? && r.start.None? && r.sessions == st.sessions && r.stress == st.stress
  {
    if st.task.None? || st.start.None? then st
    else
      var t := st.task.value;
      var resp := Response(t, st.stress, (now - st.start.value) as real / 1000.0, Correct(t, Trim(input)), now);
      st.(responses := st.responses + [resp], task := None, start := None)
  }

  predicate IsCorrect(r: Response) { r.correct }

  function TotalTime(rs: seq<Response>): real
  {
    if |rs| == 0 then 0.0 else rs[0].responseTime + TotalTime(rs[1..])
  }

  function TotalStress(rs: seq<Response>): int
  {
    if |rs| == 0 then 0 else rs[0].stressLevel + TotalStress(rs[1..])
  }

  /** `Math.round`: the nearest integer, halves upwards. */
  function Round(x: real): (n: int)
    ensures x - 0.5 < n as real <= x + 0.5
  {
    (x + 0.5).Floor
  }

  /** `(correct / total) * 100`. */
  function Percent(c: nat, n: nat): (p: real)
    requires c <= n && n > 0
    ensures p * n as real == c as real * 100.0
    ensures 0.0 <= p <= 100.0
    ensures p == 100.0 <==> c == n
    ensures p == 0.0 <==> c == 0
  {
    var q := c as real / n as real;
    var p := q * 100.0;
    assert 0.0 <= p <= 100.0 && p * n as real == c as real * 100.0 && (p == 100.0 <==> c == n) by {
      PercentFacts(c, n);
    }
    p
  }

  /** The facts about `c / n * 100` that `Percent` promises. */
  lemma PercentFacts(c: nat, n: nat)
    requires c <= n && n > 0
    ensures var p := c as real / n as real * 100.0;
            0.0 <= p <= 100.0 && p * n as real == c as real * 100.0 && (p == 100.0 <==> c == n)
  {
    var cr, nr := c as real, n as real;
    var q := cr / nr;
    var p := q * 100.0;
    DivLowerBound(cr, nr, 0.0);
    DivUpperBound(cr, nr, 1.0);
    assert nr * q == cr;
    assert p * nr == (nr * q) * 100.0;
    if c == n {
      assert nr * p == p * nr == cr * 100.0;
      MulCancel(nr, p, 100.0);
      MulCancel(nr, 100.0, p);
    }
  }

  /** `total / n`. */
  function Mean(total: real, n: nat): (m: real)
    requires n > 0
    ensures m * n as real == total
    ensures m == 0.0 <==> total == 0.0
  {
    total / n as real
  }

  /** The mean response time of a non-empty list of responses. */
  function MeanTime(rs: seq<Response>): (m: real)
    requires |rs| > 0
    ensures m * |rs| as real == TotalTime(rs)
    ensures m == 0.0 <==> TotalTime(rs) == 0.0
  {
    Mean(TotalTime(rs), |rs|)
  }

  /** The exact value the score rounds: accuracy times (20 - stress),
      over twice the mean time. */
  function RawScore(accuracy: real, avg: real, stress: int): real
    requires avg != 0.0
  {
    accuracy * (20 - stress) as real / (2.0 * avg)
  }

  /** The resilience score `Math.round(accuracy * (1 / avg) * (1 - stress / 20) * 10)`.
      With a mean time of 0, `1 / avg` is Infinity: times 0 that is not a
      number, and otherwise an infinity of the sign of the product. */
  function Resilience(accuracy: real, avg: real, stress: int): (s: Score)
    ensures s.NotANumber? <==> avg == 0.0 && (accuracy == 0.0 || stress == 20)
    ensures s.PosInfinity? <==> avg == 0.0 && accuracy != 0.0 && stress != 20 && (accuracy > 0.0 <==> stress < 20)
    ensures s.NegInfinity? <==> avg == 0.0 && accuracy != 0.0 && stress != 20 && (accuracy > 0.0 <==> stress > 20)
    ensures s.Finite? ==> avg != 0.0 && s.n == Round(RawScore(accuracy, avg, stress))
  {
    var adjustment := 1.0 - stress as real / 20.0;
    if avg != 0.0 then
      ScoreFormula(accuracy, avg, stress);
      Finite(Round(accuracy * (1.0 / avg) * adjustment * 10.0))
    else if accuracy == 0.0 || adjustment == 0.0 then NotANumber
    else if (accuracy > 0.0) == (adjustment > 0.0) then PosInfinity
    else NegInfinity
  }

  /** The source's product equals the raw score. */
  lemma ScoreFormula(accuracy: real, avg: real, stress: int)
    requires avg != 0.0
    ensures accuracy * (1.0 / avg) * (1.0 - stress as real / 20.0) * 10.0 == RawScore(accuracy, avg, stress)
  {
    var q := 1.0 / avg;
    assert q * avg == 1.0;
    var t := (20 - stress) as real;
    assert (1.0 - stress as real / 20.0) * 10.0 == t / 2.0;
    var raw := RawScore(accuracy, avg, stress);
    assert raw * (2.0 * avg) == accuracy * t;
    calc {
      accuracy * q * (1.0 - stress as real / 20.0) * 10.0;
      accuracy * q * (t / 2.0);
      { assert accuracy * q * (t / 2.0) == (accuracy * t) * q / 2.0; }
      (accuracy * t) * q / 2.0;
      { assert accuracy * t == raw * (2.0 * avg); }
      raw * (2.0 * avg) * q / 2.0;
      { assert raw * (2.0 * avg) * q == raw * 2.0 * (avg * q); }
      raw;
    }
  }

  lemma RoundMonotone(x: real, y: real)
    requires x <= y
    ensures Round(x) <= Round(y)
  {
  }

  /** With a positive mean time and a stress level up to 20, more accuracy
      never lowers the score. */
  lemma ResilienceRisesWithAccuracy(a1: real, a2: real, avg: real, stress: int)
    requires a1 <= a2 && avg > 0.0 && stress <= 20
    ensures Resilience(a1, avg, stress).n <= Resilience(a2, avg, stress).n
  {
    var t := (20 - stress) as real;
    MulMonotone(t, a1, a2);
    assert a1 * t <= a2 * t;
    DivMonotone(a1 * t, a2 * t, 2.0 * avg);
    RoundMonotone(RawScore(a1, avg, stress), RawScore(a2, avg, stress));
  }

  /** With a positive mean time and a non-negative accuracy, more stress
      never raises the score. */
  lemma ResilienceFallsWithStress(accuracy: real, avg: real, s1: int, s2: int)
    requires accuracy >= 0.0 && avg > 0.0 && s1 <= s2
    ensures Resilience(accuracy, avg, s2).n <= Resilience(accuracy, avg, s1).n
  {
    MulMonotone(accuracy, (20 - s2) as real, (20 - s1) as real);
    DivMonotone(accuracy * (20 - s2) as real, accuracy * (20 - s1) as real, 2.0 * avg);
    RoundMonotone(RawScore(accuracy, avg, s2), RawScore(accuracy, avg, s1));
  }

  /** The score as a saved session stores it: `parseInt` of the displayed
      text, which reads "Infinity", "-Infinity" and "NaN" as NaN. */
  function StoredScore(s: Score): (r: Option<int>)
    ensures r.Some? <==> s.Finite?
    ensures s.Finite? ==> r.value == s.n
  {
    if s.Finite? then Some(s.n) else None
  }

  /** `updateResults`: accuracy in percent, mean response time and the
      resilience score. With a total time of 0 the score is not a number
      when nothing is correct or the stress is 20, and otherwise infinite,
      positive below stress 20. */
  function UpdateResults(rs: seq<Response>, stress: int): (r: Results)
    requires |rs| > 0
    ensures 0.0 <= r.accuracy <= 100.0
    ensures r.accuracy == 100.0 <==> Count(rs, IsCorrect) == |rs|
    ensures r.avgResponseTime == MeanTime(rs)
    ensures r.resilienceScore.NotANumber? <==> TotalTime(rs) == 0.0 && (Count(rs, IsCorrect) == 0 || stress == 20)
    ensures r.resilienceScore.PosInfinity? <==> TotalTime(rs) == 0.0 && Count(rs, IsCorrect) > 0 && stress < 20
    ensures r.resilienceScore.NegInfinity? <==> TotalTime(rs) == 0.0 && Count(rs, IsCorrect) > 0 && stress > 20
    ensures r.resilienceScore.Finite? ==>
              TotalTime(rs) != 0.0 && r.resilienceScore.n == Round(RawScore(r.accuracy, r.avgResponseTime, stress))
  {
    var accuracy := Percent(Count(rs, IsCorrect), |rs|);
    var avg := MeanTime(rs);
    Results(accuracy, avg, Resilience(accuracy, avg, stress))
  }

  /** `saveSession`: nothing without responses; otherwise one session with
      a copy of the responses, their mean stress and the displayed results
      is appended, and the responses are cleared. */
  function SaveSession(st: Tracker, id: int, shown: Results): (r: Tracker)
    ensures |st.responses| == 0 ==> r == st
    ensures |st.responses| > 0 ==>
              |r.sessions| == |st.sessions| + 1 && r.sessions[..|st.sessions|] == st.sessions
              && r.sessions[|st.sessions|].id == id && r.sessions[|st.sessions|].shown == shown
              && r.sessions[|st.sessions|].storedScore == StoredScore(shown.resilienceScore)
              && r.sessions[|st.sessions|].responses == st.responses
              && r.sessions[|st.sessions|].averageStress * |st.responses| as real == TotalStress(st.responses) as real
              && r.responses == [] && r.task == st.task && r.start == st.start && r.stress == st.stress
  {
    if |st.responses| == 0 then st
    else
      var avg := TotalStress(st.responses) as real / |st.responses| as real;
      st.(sessions := st.sessions + [Session(id, st.responses, avg, shown, StoredScore(shown.resilienceScore))], responses := [])
  }

  /** Submitting the expected answer of a math task (a non-negative one)
      or of a memory task records a correct response. */
  lemma EchoScoresCorrect(st: Tracker, now: int)
    requires st.task.Some? && st.start.Some?
    requires || (st.task.value.Math? && st.task.value.answer >= 0)
             || (st.task.value.Memory? && forall i :: 0 <= i < |st.task.value.sequence| ==> IsCapital(st.task.value.sequence[i]))
    ensures var input := if st.task.value.Math? then NatToString(st.task.value.answer) else st.task.value.sequence;
            Submit(st, input, now).responses[|st.responses|].correct
  {
    var t := st.task.value;
    if t.Math? {
      var s := NatToString(t.answer);
      TrimUnpadded(s);
      MathEchoCorrect(t.answer, "");
      assert s + "" == s;
    } else {
      TrimUnpadded(t.sequence);
      MemoryEchoCorrect(t.sequence);
    }
  }

  /** Every response submitted since the last save ends up, in order, in
      the next saved session. */
  lemma SubmitThenSave(st: Tracker, input: string, now: int, id: int, shown: Results)
    requires st.task.Some? && st.start.Some?
    ensures var s := SaveSession(Submit(st, input, now), id, shown);
            |s.sessions| == |st.sessions| + 1 &&
            s.sessions[|st.sessions|].responses[..|st.responses|] == st.responses &&
            |s.sessions[|st.sessions|].responses| == |st.responses| + 1
  {
    var sub := Submit(st, input, now);
    assert sub.responses[..|st.responses|] == st.responses;
  }
}

=== FILE: dataset_validator.dfy ===
/** The autonomous dataset validator: an uploaded table (headers and rows of
    cells) is checked for missing values, duplicate rows, invalid data
    types, out-of-range numbers and IQR outliers, producing one issue per
    finding, grouped by check. */
module DatasetValidator {
  import opened Options
  import opened Seqs
  import opened Strings

  // ----- Upload -----

  const AllowedTypes: seq<string> := [".csv", ".json", ".xlsx", ".xls"]

  /** The lowercased name from its last '.' on; the whole lowercased name when
      there is no '.' (a substring from -1 starts at 0). */
  function Extension(name: string): string
  {
    var k := LastIndexOf(name, '.');
    Lower(name)[if k.None? then 0 else k.value..]
  }

  /** Whether an upload with this file name is accepted for parsing. */
  predicate Accepts(name: string)
  {
    Extension(name) in AllowedTypes
  }

  /** A file is accepted iff it has a '.' and the lowercased text from its
      last '.' is one of the four allowed extensions. */
  lemma AcceptsIff(name: string)
    ensures Accepts(name) <==> (LastIndexOf(name, '.').Some? && Lower(name)[LastIndexOf(name, '.').value..] in AllowedTypes)
  {
    if LastIndexOf(name, '.').None? {
      NoDotNoExtension(name);
    }
  }

  /** A name without a '.' is rejected. */
  lemma NoDotNoExtension(name: string)
    requires LastIndexOf(name, '.') == None
    ensures !Accepts(name)
  {
    var e := Extension(name);
    assert e == Lower(name);
    assert forall j :: 0 <= j < |e| ==> e[j] != '.';
    assert forall t :: t in AllowedTypes ==> |t| > 0 && t[0] == '.';
  }

  // ----- Cells and rows -----

  /** A parsed cell: absent (undefined or null), a string, a number (held as
      the text JavaScript prints for it) or a boolean. */
  datatype Cell = Missing | Text(s: string) | Num(repr: string) | Flag(b: bool)

  type Row = map<string, Cell>

  function CellAt(row: Row, column: string): Cell
  {
    if column in row then row[column] else Missing
  }

  /** JavaScript falsiness: undefined, "", 0, NaN and false. */
  predicate Falsy(c: Cell)
  {
    match c
    case Missing => true
    case Text(s) => s == ""
    case Num(repr) => repr == "0" || repr == "NaN"
    case Flag(b) => !b
  }

  /** `parseFloat` of a cell: strings and numbers are parsed from their text;
      undefined and booleans give NaN (`None`). */
  function ParseCell(c: Cell): Option<real>
  {
    match c
    case Text(s) => ParseFloat(s)
    case Num(repr) => ParseFloat(repr)
    case _ => None
  }

  /** The text a cell contributes to `Array.prototype.join`. */
  function KeyText(c: Cell): string
  {
    match c
    case Missing => ""
    case Text(s) => s
    case Num(repr) => repr
    case Flag(b) => if b then "true" else "false"
  }

  // ----- Issues -----

  datatype Kind = MissingValue | Duplicate | DataType | Range | Outlier

  /** Position of a kind in the order the checks run. */
  function KindRank(k: Kind): nat
  {
    match k
    case MissingValue => 0
    case Duplicate => 1
    case DataType => 2
    case Range => 3
    case Outlier => 4
  }

  datatype Value = CellValue(c: Cell) | KeyValue(key: string) | NumValue(x: real)

  /** One reported finding, with its 1-based row number. */
  datatype Issue = Issue(kind: Kind, column: string, row: nat, value: Value)

  /** Row numbers never decrease along `r`. */
  predicate RowOrdered(r: seq<Issue>)
  {
    forall k, l :: 0 <= k < l < |r| ==> r[k].row <= r[l].row
  }

  predicate AllOfKind(r: seq<Issue>, kind: Kind)
  {
    forall k :: 0 <= k < |r| ==> r[k].kind == kind
  }

  // ----- Per-cell checks: missing values and data types -----

  /** The two checks that look at every (row, header) cell. */
  datatype CellTest = FalsyCell | InvalidCell(strict: bool)

  /** `isValidDataType`: anything passes unless strict mode is on; in strict
      mode strings and numbers other than NaN pass (a number parses, a string
      is a string) while booleans and undefined fail, since neither parses as
      a number or a date. */
  predicate ValidDataType(c: Cell, strict: bool)
  {
    !strict || c.Text? || (c.Num? && c.repr != "NaN")
  }

  /** Whether a cell is reported by the test: a falsy value for the missing
      check; a truthy value of an invalid type for the type check. */
  predicate Fails(t: CellTest, c: Cell)
  {
    match t
    case FalsyCell => Falsy(c)
    case InvalidCell(strict) => !Falsy(c) && !ValidDataType(c, strict)
  }

  /** `x` reports a failing cell of `rows` under one of `headers`. */
  predicate IsCellIssue(rows: seq<Row>, headers: seq<string>, t: CellTest, kind: Kind, x: Issue)
  {
    && x.kind == kind
    && 1 <= x.row <= |rows|
    && x.column in headers
    && Fails(t, CellAt(rows[x.row - 1], x.column))
    && x.value == CellValue(CellAt(rows[x.row - 1], x.column))
  }

  /** The issues of one row (row number `no`), in header order. */
  function CellIssuesInRow(row: Row, headers: seq<string>, t: CellTest, kind: Kind, no: nat): (r: seq<Issue>)
    ensures forall k :: 0 <= k < |r| ==>
              (&& r[k].kind == kind && r[k].row == no && r[k].column in headers
               && Fails(t, CellAt(row, r[k].column)) && r[k].value == CellValue(CellAt(row, r[k].column)))
    ensures forall h :: h in headers && Fails(t, CellAt(row, h)) ==> Issue(kind, h, no, CellValue(CellAt(row, h))) in r
  {
    if |headers| == 0 then []
    else
      var h := headers[0];
      var rest := CellIssuesInRow(row, headers[1..], t, kind, no);
      (if Fails(t, CellAt(row, h)) then [Issue(kind, h, no, CellValue(CellAt(row, h)))] else []) + rest
  }

  /** One issue per (row, header) whose cell fails the test, in row-major order. */
  function CellIssues(rows: seq<Row>, headers: seq<string>, t: CellTest, kind: Kind): (r: seq<Issue>)
    ensures forall k :: 0 <= k < |r| ==> IsCellIssue(rows, headers, t, kind, r[k])
    ensures forall i, h :: 0 <= i < |rows| && h in headers && Fails(t, CellAt(rows[i], h)) ==>
              Issue(kind, h, i + 1, CellValue(CellAt(rows[i], h))) in r
    ensures RowOrdered(r)
  {
    if |rows| == 0 then []
    else
      var n := |rows|;
      var init := rows[..n - 1];
      var before := CellIssues(init, headers, t, kind);
      var last := CellIssuesInRow(rows[n - 1], headers, t, kind, n);
      var r := before + last;
      forall k | 0 <= k < |r|
        ensures IsCellIssue(rows, headers, t, kind, r[k])
      {
        if k < |before| {
          assert IsCellIssue(init, headers, t, kind, before[k]);
          assert rows[before[k].row - 1] == init[before[k].row - 1];
        } else {
          assert r[k] == last[k - |before|];
        }
      }
      forall i, h | 0 <= i < |rows| && h in headers && Fails(t, CellAt(rows[i], h))
        ensures Issue(kind, h, i + 1, CellValue(CellAt(rows[i], h))) in r
      {
        if i < n - 1 {
          assert rows[i] == init[i];
        }
      }
      assert forall k :: 0 <= k < |before| ==> before[k].row <= n - 1 by {
        forall k | 0 <= k < |before| ensures before[k].row <= n - 1 {
          assert IsCellIssue(init, headers, t, kind, before[k]);
        }
      }
      r
  }

  /** Missing-value check: one warning per (row, header) whose cell is falsy
      (0 included), in row-major order, with 1-based row numbers. */
  function MissingIssues(rows: seq<Row>, headers: seq<string>): (r: seq<Issue>)
    ensures forall k :: 0 <= k < |r| ==>
              r[k].kind == MissingValue && 1 <= r[k].row <= |rows| && r[k].column in headers
              && Falsy(CellAt(rows[r[k].row - 1], r[k].column))
    ensures forall i, h :: 0 <= i < |rows| && h in headers && Falsy(CellAt(rows[i], h)) ==>
              Issue(MissingValue, h, i + 1, CellValue(CellAt(rows[i], h))) in r
    ensures RowOrdered(r)
  {
    CellIssues(rows, headers, FalsyCell, MissingValue)
  }

  /** Data-type check: one error per truthy cell of an invalid type. */
  function TypeIssues(rows: seq<Row>, headers: seq<string>, strict: bool): (r: seq<Issue>)
    ensures forall k :: 0 <= k < |r| ==>
              r[k].kind == DataType && 1 <= r[k].row <= |rows| && r[k].column in headers
              && !Falsy(CellAt(rows[r[k].row - 1], r[k].column))
              && !ValidDataType(CellAt(rows[r[k].row - 1], r[k].column), strict)
    ensures forall i, h :: (0 <= i < |rows| && h in headers && !Falsy(CellAt(rows[i], h))
                            && !ValidDataType(CellAt(rows[i], h), strict)) ==>
              Issue(DataType, h, i + 1, CellValue(CellAt(rows[i], h))) in r
    ensures RowOrdered(r)
  {
    CellIssues(rows, headers, InvalidCell(strict), DataType)
  }

  /** Outside strict mode no value is of an invalid type, so the type check reports nothing. */
  lemma NonStrictAcceptsAll(rows: seq<Row>, headers: seq<string>)
    ensures TypeIssues(rows, headers, false) == []
  {
    PassingCellsNoIssues(rows, headers, InvalidCell(false), DataType);
  }

  /** A test no cell fails reports nothing. */
  lemma {:induction false} PassingCellsNoIssues(rows: seq<Row>, headers: seq<string>, t: CellTest, kind: Kind)
    requires forall c :: !Fails(t, c)
    ensures CellIssues(rows, headers, t, kind) == []
  {
    if |rows| > 0 {
      PassingCellsNoIssues(rows[..|rows| - 1], headers, t, kind);
      PassingRowNoIssues(rows[|rows| - 1], headers, t, kind, |rows|);
    }
  }

  lemma {:induction false} PassingRowNoIssues(row: Row, headers: seq<string>, t: CellTest, kind: Kind, no: nat)
    requires forall c :: !Fails(t, c)
    ensures CellIssuesInRow(row, headers, t, kind, no) == []
  {
    if |headers| > 0 {
      PassingRowNoIssues(row, headers[1..], t, kind, no);
    }
  }

  // ----- Duplicates -----

  /** The texts `join` makes of the check columns of a row. */
  function KeyParts(row: Row, cols: seq<string>): (r: seq<string>)
    ensures |r| == |cols|
    ensures forall i :: 0 <= i < |cols| ==> r[i] == KeyText(CellAt(row, cols[i]))
  {
    seq(|cols|, i requires 0 <= i < |cols| => KeyText(CellAt(row, cols[i])))
  }

  /** The duplicate key of a row: its check-column values joined by '|'. */
  function RowKey(row: Row, cols: seq<string>): string
  {
    Join(KeyParts(row, cols), "|")
  }

  /** The configured duplicate columns, or every header when none are configured. */
  function CheckColumns(configured: seq<string>, headers: seq<string>): (r: seq<string>)
    ensures |configured| > 0 ==> r == configured
    ensures |configured| == 0 ==> r == headers
  {
    if |configured| > 0 then configured else headers
  }

  /** The key of every row, in row order. */
  function Keys(rows: seq<Row>, cols: seq<string>): (ks: seq<string>)
    ensures |ks| == |rows|
    ensures forall i :: 0 <= i < |rows| ==> ks[i] == RowKey(rows[i], cols)
  {
    seq(|rows|, i requires 0 <= i < |rows| => RowKey(rows[i], cols))
  }

  /** Some earlier row has the same key as row `i`. */
  predicate SeenBefore(ks: seq<string>, i: nat)
    requires i < |ks|
  {
    ks[i] in ks[..i]
  }

  function DupIssue(ks: seq<string>, column: string, i: nat): Issue
    requires i < |ks|
  {
    Issue(Duplicate, column, i + 1, KeyValue(ks[i]))
  }

  /** Row numbers strictly increase along `r`. */
  predicate RowIncreasing(r: seq<Issue>)
  {
    forall k, l :: 0 <= k < l < |r| ==> r[k].row < r[l].row
  }

  /** Duplicate check, as a reference definition over the row keys: one
      error for each row whose key an earlier row already had, in row order. */
  function DuplicateIssues(ks: seq<string>, column: string): (r: seq<Issue>)
    ensures forall k :: 0 <= k < |r| ==> r[k].kind == Duplicate && r[k].column == column
    decreases |ks|
  {
    if |ks| == 0 then [] else DuplicateIssues(ks[..|ks| - 1], column) + LastDuplicate(ks, column)
  }

  /** The issue of the last row when an earlier row had its key. */
  function LastDuplicate(ks: seq<string>, column: string): (r: seq<Issue>)
    requires |ks| > 0
    ensures SeenBefore(ks, |ks| - 1) ==> r == [DupIssue(ks, column, |ks| - 1)]
    ensures !SeenBefore(ks, |ks| - 1) ==> r == []
  {
    if SeenBefore(ks, |ks| - 1) then [DupIssue(ks, column, |ks| - 1)] else []
  }

  /** Every issue in `r` is the issue of a row whose key an earlier row had. */
  predicate DupSound(ks: seq<string>, column: string, r: seq<Issue>)
  {
    forall k :: 0 <= k < |r| ==>
      1 <= r[k].row <= |ks| && SeenBefore(ks, r[k].row - 1) && r[k] == DupIssue(ks, column, r[k].row - 1)
  }

  /** Every row whose key an earlier row had has its issue in `r`. */
  predicate DupComplete(ks: seq<string>, column: string, r: seq<Issue>)
  {
    forall i :: 0 <= i < |ks| && SeenBefore(ks, i) ==> DupIssue(ks, column, i) in r
  }

  /** `r` reports exactly the rows whose key an earlier row already had,
      each with its key, in increasing row order. */
  predicate ReportsDuplicates(ks: seq<string>, column: string, r: seq<Issue>)
  {
    DupSound(ks, column, r) && DupComplete(ks, column, r) && RowIncreasing(r)
  }

  /** The duplicate check reports a row iff an earlier row has the same
      key, once, in row order. */
  lemma {:induction false} DuplicateIssuesCorrect(ks: seq<string>, column: string)
    ensures ReportsDuplicates(ks, column, DuplicateIssues(ks, column))
    decreases |ks|
  {
    if |ks| > 0 {
      var init := ks[..|ks| - 1];
      var before := DuplicateIssues(init, column);
      DuplicateIssuesCorrect(init, column);
      DupSoundExtend(ks, init, column, before);
      DupCompleteExtend(ks, init, column, before);
      DupIncreasingExtend(ks, init, column, before);
    }
  }

  /** Rows before the last have the same earlier keys in `ks` and in `init`. */
  lemma SeenBeforeInit(ks: seq<string>, init: seq<string>, column: string, j: nat)
    requires |ks| > 0 && init == ks[..|ks| - 1] && j < |init|
    ensures SeenBefore(init, j) == SeenBefore(ks, j)
    ensures DupIssue(init, column, j) == DupIssue(ks, column, j)
  {
    assert init[..j] == ks[..j];
  }

  lemma DupSoundExtend(ks: seq<string>, init: seq<string>, column: string, before: seq<Issue>)
    requires |ks| > 0 && init == ks[..|ks| - 1]
    requires DupSound(init, column, before)
    ensures DupSound(ks, column, before + LastDuplicate(ks, column))
  {
    var r := before + LastDuplicate(ks, column);
    forall k | 0 <= k < |r|
      ensures 1 <= r[k].row <= |ks| && SeenBefore(ks, r[k].row - 1) && r[k] == DupIssue(ks, column, r[k].row - 1)
    {
      if k < |before| {
        assert r[k] == before[k];
        SeenBeforeInit(ks, init, column, before[k].row - 1);
      }
    }
  }

  lemma DupCompleteExtend(ks: seq<string>, init: seq<string>, column: string, before: seq<Issue>)
    requires |ks| > 0 && init == ks[..|ks| - 1]
    requires DupComplete(init, column, before)
    ensures DupComplete(ks, column, before + LastDuplicate(ks, column))
  {
    var r := before + LastDuplicate(ks, column);
    forall i | 0 <= i < |ks| && SeenBefore(ks, i)
      ensures DupIssue(ks, column, i) in r
    {
      if i < |init| {
        SeenBeforeInit(ks, init, column, i);
        assert DupIssue(init, column, i) in before;
      } else {
        assert r[|before|] == DupIssue(ks, column, i);
      }
    }
  }

  lemma DupIncreasingExtend(ks: seq<string>, init: seq<string>, column: string, before: seq<Issue>)
    requires |ks| > 0 && init == ks[..|ks| - 1]
    requires DupSound(init, column, before) && RowIncreasing(before)
    ensures RowIncreasing(before + LastDuplicate(ks, column))
  {
    var r := before + LastDuplicate(ks, column);
    forall k, l | 0 <= k < l < |r|
      ensures r[k].row < r[l].row
    {
      assert r[k] == before[k];
      if l < |before| {
        assert r[l] == before[l];
      }
    }
  }

  /** The check as the validator runs it: one pass over the rows with a set
      of the keys seen so far. */
  method FindDuplicates(rows: seq<Row>, cols: seq<string>) returns (r: seq<Issue>)
    ensures r == DuplicateIssues(Keys(rows, cols), Join(cols, ", "))
  {
    r := ScanKeys(Keys(rows, cols), Join(cols, ", "));
  }

  /** The pass itself, over the rows' keys in order. */
  method ScanKeys(ks: seq<string>, column: string) returns (r: seq<Issue>)
    ensures r == DuplicateIssues(ks, column)
  {
    var seen: set<string> := {};
    r := [];
    var i := 0;
    while i < |ks|
      invariant 0 <= i <= |ks|
      invariant forall x :: x in seen <==> x in ks[..i]
      invariant r == DuplicateIssues(ks[..i], column)
    {
      var key := ks[i];
      DuplicateStep(ks, column, i);
      if key in seen {
        r := r + [Issue(Duplicate, column, i + 1, KeyValue(key))];
      }
      seen := seen + {key};
      i := i + 1;
    }
    assert ks[..|ks|] == ks;
  }

  /** One more row extends the reference issues by at most that row's issue. */
  lemma DuplicateStep(ks: seq<string>, column: string, i: nat)
    requires i < |ks|
    ensures ks[..i + 1][..i] == ks[..i]
    ensures forall x :: x in ks[..i + 1] <==> x in ks[..i] || x == ks[i]
    ensures DuplicateIssues(ks[..i + 1], column) ==
            DuplicateIssues(ks[..i], column) + (if ks[i] in ks[..i] then [Issue(Duplicate, column, i + 1, KeyValue(ks[i]))] else [])
  {
    var pre := ks[..i + 1];
    assert pre[..i] == ks[..i];
    assert pre == ks[..i] + [ks[i]];
  }

  /** The first row with a given key is never reported. */
  lemma FirstOccurrenceNotFlagged(ks: seq<string>, column: string, i: nat)
    requires i < |ks| && ks[i] !in ks[..i]
    ensures forall k :: 0 <= k < |DuplicateIssues(ks, column)| ==> DuplicateIssues(ks, column)[k].row != i + 1
  {
    DuplicateIssuesCorrect(ks, column);
  }

  /** Keys are joined text, so rows with different cells can share a key:
      ("a|b", "c") and ("a", "b|c") both give "a|b|c", and the second row
      is reported as a duplicate of the first. */
  lemma JoinedKeysConflate()
    ensures var rows := [map["x" := Text("a|b"), "y" := Text("c")], map["x" := Text("a"), "y" := Text("b|c")]];
            rows[0] != rows[1] && |DuplicateIssues(Keys(rows, ["x", "y"]), "x, y")| == 1
  {
    var rows := [map["x" := Text("a|b"), "y" := Text("c")], map["x" := Text("a"), "y" := Text("b|c")]];
    var cols := ["x", "y"];
    assert KeyParts(rows[0], cols) == ["a|b", "c"];
    assert KeyParts(rows[1], cols) == ["a", "b|c"];
    var ks := Keys(rows, cols);
    assert ks[0] == ks[1];
    assert SeenBefore(ks, 1) && !SeenBefore(ks, 0);
    assert DuplicateIssues(ks[..1], "x, y") == [];
    assert rows[0]["x"] != rows[1]["x"];
  }

  // ----- Ranges -----

  /** A value lies strictly outside [lo, hi]. */
  predicate Outside(v: real, lo: real, hi: real)
  {
    v < lo || v > hi
  }

  /** `parseFloat` of every row's cell in `column`, in row order. */
  function ColumnValues(rows: seq<Row>, column: string): (vs: seq<Option<real>>)
    ensures |vs| == |rows|
    ensures forall i :: 0 <= i < |rows| ==> vs[i] == ParseCell(CellAt(rows[i], column))
  {
    seq(|rows|, i requires 0 <= i < |rows| => ParseCell(CellAt(rows[i], column)))
  }

  /** A parsed value is a number outside [lo, hi]. */
  predicate NumberOutside(v: Option<real>, lo: real, hi: real)
  {
    v.Some? && Outside(v.value, lo, hi)
  }

  /** `x` reports, under `column`, a row whose value is a number outside
      [lo, hi], and carries that number. */
  predicate ReportsOutside(vs: seq<Option<real>>, column: string, kind: Kind, lo: real, hi: real, x: Issue)
  {
    && x.kind == kind && x.column == column && 1 <= x.row <= |vs|
    && x.value.NumValue?
    && vs[x.row - 1] == Some(x.value.x)
    && Outside(x.value.x, lo, hi)
  }

  /** One issue per row whose parsed value in a column is a number outside
      [lo, hi], in row order; values that do not parse are never reported. */
  function OutsideIssues(vs: seq<Option<real>>, column: string, kind: Kind, lo: real, hi: real): (r: seq<Issue>)
    ensures forall k :: 0 <= k < |r| ==> ReportsOutside(vs, column, kind, lo, hi, r[k])
    ensures forall i :: 0 <= i < |vs| && NumberOutside(vs[i], lo, hi) ==>
              Issue(kind, column, i + 1, NumValue(vs[i].value)) in r
    ensures RowIncreasing(r)
  {
    if |vs| == 0 then []
    else
      var n := |vs|;
      var init := vs[..n - 1];
      var before := OutsideIssues(init, column, kind, lo, hi);
      var r := before + (if NumberOutside(vs[n - 1], lo, hi) then [Issue(kind, column, n, NumValue(vs[n - 1].value))] else []);
      assert forall i :: 0 <= i < n - 1 ==> init[i] == vs[i];
      forall k | 0 <= k < |r|
        ensures ReportsOutside(vs, column, kind, lo, hi, r[k])
      {
        if k < |before| {
          assert ReportsOutside(init, column, kind, lo, hi, before[k]);
        }
      }
      assert forall k :: 0 <= k < |before| ==> before[k].row < n by {
        forall k | 0 <= k < |before| ensures before[k].row < n {
          assert ReportsOutside(init, column, kind, lo, hi, before[k]);
        }
      }
      r
  }

  /** An issue is in `OutsideIssues` exactly when it reports a number
      outside [lo, hi] at its own row, under `column`. */
  lemma OutsideIssuesIff(vs: seq<Option<real>>, column: string, kind: Kind, lo: real, hi: real, x: Issue)
    ensures x in OutsideIssues(vs, column, kind, lo, hi) <==> ReportsOutside(vs, column, kind, lo, hi, x)
  {
    var r := OutsideIssues(vs, column, kind, lo, hi);
    if ReportsOutside(vs, column, kind, lo, hi, x) {
      var i := x.row - 1;
      assert NumberOutside(vs[i], lo, hi);
      assert x == Issue(kind, column, i + 1, NumValue(vs[i].value));
    }
  }

  /** A configured range rule: numbers in `column` must lie in [min, max]. */
  datatype RangeRule = RangeRule(column: string, min: real, max: real)

  /** The issues of one range rule, over all rows. */
  function RuleIssues(rows: seq<Row>, rule: RangeRule): seq<Issue>
  {
    OutsideIssues(ColumnValues(rows, rule.column), rule.column, Range, rule.min, rule.max)
  }

  function RuleIssuesOf(rows: seq<Row>): RangeRule -> seq<Issue>
  {
    rule => RuleIssues(rows, rule)
  }

  /** `x` reports a number outside the bounds of one of the rules, at its
      own row and under the rule's column. */
  predicate BreaksSomeRule(rows: seq<Row>, rules: seq<RangeRule>, x: Issue)
  {
    exists j :: 0 <= j < |rules| && x.column == rules[j].column &&
      ReportsOutside(ColumnValues(rows, x.column), x.column, Range, rules[j].min, rules[j].max, x)
  }

  /** Range check: the rules in their configured order, each over all rows. */
  function RangeIssues(rows: seq<Row>, rules: seq<RangeRule>): (r: seq<Issue>)
    ensures forall x :: x in r <==> BreaksSomeRule(rows, rules, x)
    ensures forall k :: 0 <= k < |r| ==> r[k].kind == Range
  {
    var r := ConcatMap(rules, RuleIssuesOf(rows));
    forall x
      ensures x in r <==> BreaksSomeRule(rows, rules, x)
    {
      RangeIssuesCorrect(rows, rules, x);
    }
    assert forall k :: 0 <= k < |r| ==> r[k] in r;
    r
  }

  /** The range check reports exactly the (row, column) cells that parse as
      a number outside the bounds of a rule for that column. */
  lemma RangeIssuesCorrect(rows: seq<Row>, rules: seq<RangeRule>, x: Issue)
    ensures x in ConcatMap(rules, RuleIssuesOf(rows)) <==> BreaksSomeRule(rows, rules, x)
  {
    var f := RuleIssuesOf(rows);
    InConcatMap(rules, f, x);
    if x in ConcatMap(rules, f) {
      var j :| 0 <= j < |rules| && x in f(rules[j]);
      var rule := rules[j];
      OutsideIssuesIff(ColumnValues(rows, rule.column), rule.column, Range, rule.min, rule.max, x);
      assert x.column == rules[j].column;
    }
    if BreaksSomeRule(rows, rules, x) {
      var j :| 0 <= j < |rules| && x.column == rules[j].column &&
        ReportsOutside(ColumnValues(rows, x.column), x.column, Range, rules[j].min, rules[j].max, x);
      var rule := rules[j];
      OutsideIssuesIff(ColumnValues(rows, rule.column), rule.column, Range, rule.min, rule.max, x);
      assert x in f(rules[j]);
    }
  }

  /** A range rule reports row i iff its cell parses as a number strictly
      below min or strictly above max. */
  lemma RangeFlagsIff(rows: seq<Row>, rule: RangeRule, i: nat)
    requires i < |rows|
    ensures var r := OutsideIssues(ColumnValues(rows, rule.column), rule.column, Range, rule.min, rule.max);
            var v := ParseCell(CellAt(rows[i], rule.column));
            (exists k :: 0 <= k < |r| && r[k].row == i + 1) <==> (v.Some? && (v.value < rule.min || v.value > rule.max))
  {
    var vs := ColumnValues(rows, rule.column);
    OutsideFlagsIff(vs, rule.column, Range, rule.min, rule.max, i);
    assert vs[i] == ParseCell(CellAt(rows[i], rule.column));
  }

  /** Row i is reported exactly when its parsed value is a number outside
      [lo, hi]. */
  lemma OutsideFlagsIff(vs: seq<Option<real>>, column: string, kind: Kind, lo: real, hi: real, i: nat)
    requires i < |vs|
    ensures (exists k :: 0 <= k < |OutsideIssues(vs, column, kind, lo, hi)| &&
                         OutsideIssues(vs, column, kind, lo, hi)[k].row == i + 1) <==> NumberOutside(vs[i], lo, hi)
  {
    var r := OutsideIssues(vs, column, kind, lo, hi);
    if NumberOutside(vs[i], lo, hi) {
      var k := RowFound(r, Issue(kind, column, i + 1, NumValue(vs[i].value)));
      assert OutsideIssues(vs, column, kind, lo, hi)[k].row == i + 1;
    } else {
      RowNeverReported(vs, column, kind, lo, hi, r, i);
    }
  }

  lemma RowFound(r: seq<Issue>, x: Issue) returns (k: nat)
    requires x in r
    ensures k < |r| && r[k] == x
  {
    k :| 0 <= k < |r| && r[k] == x;
  }

  lemma RowNeverReported(vs: seq<Option<real>>, column: string, kind: Kind, lo: real, hi: real, r: seq<Issue>, i: nat)
    requires i < |vs| && !NumberOutside(vs[i], lo, hi)
    requires forall k :: 0 <= k < |r| ==> ReportsOutside(vs, column, kind, lo, hi, r[k])
    ensures forall k :: 0 <= k < |r| ==> r[k].row != i + 1
  {
  }

  // ----- Outliers -----

  function Neg(x: real): real { -x }

  predicate SortedAsc(s: seq<real>)
  {
    forall i, j :: 0 <= i < j < |s| ==> s[i] <= s[j]
  }

  /** The numbers in ascending order (`sort((a, b) => a - b)`). */
  function SortAsc(xs: seq<real>): (r: seq<real>)
    ensures SortedAsc(r) && multiset(r) == multiset(xs) && |r| == |xs|
  {
    var r := SortDesc(xs, Neg);
    assert forall i, j :: 0 <= i < j < |r| ==> Neg(r[i]) >= Neg(r[j]);
    r
  }

  /** The IQR fences of an ascending sequence: q1 and q3 are the elements at
      positions floor(n/4) and floor(3n/4). */
  function Fences(sorted: seq<real>, threshold: real): (f: (real, real))
    requires |sorted| > 0
  {
    var n := |sorted|;
    var q1 := sorted[n / 4];
    var q3 := sorted[3 * n / 4];
    (q1 - threshold * (q3 - q1), q3 + threshold * (q3 - q1))
  }

  /** The indices below `n` of `s` whose value lies outside [lo, hi], ascending. */
  function IndicesOutside(s: seq<real>, lo: real, hi: real, n: nat): (r: seq<nat>)
    requires n <= |s|
    ensures forall k :: 0 <= k < |r| ==> r[k] < n && Outside(s[r[k]], lo, hi)
    ensures forall i :: 0 <= i < n && Outside(s[i], lo, hi) ==> i in r
    ensures forall k, l :: 0 <= k < l < |r| ==> r[k] < r[l]
  {
    if n == 0 then []
    else
      var before := IndicesOutside(s, lo, hi, n - 1);
      var r := before + (if Outside(s[n - 1], lo, hi) then [n - 1] else []);
      assert forall k :: 0 <= k < |before| ==> r[k] == before[k];
      r
  }

  /** `detectOutliers`: with the 'iqr' method the values are sorted in place
      and the indices into the sorted values lying outside the fences are
      returned, ascending; any other method returns nothing and leaves the
      values as they were. */
  function DetectOutliers(values: seq<real>, how: string, threshold: real): (res: (seq<real>, seq<nat>))
    ensures how != "iqr" ==> res.0 == values && res.1 == []
    ensures how == "iqr" ==> res.0 == SortAsc(values)
    ensures |values| == 0 ==> res.1 == []
    ensures |res.0| == |values|
    ensures forall k :: 0 <= k < |res.1| ==>
              res.1[k] < |res.0| && Outside(res.0[res.1[k]], Fences(res.0, threshold).0, Fences(res.0, threshold).1)
    ensures how == "iqr" ==> forall i :: 0 <= i < |res.0| && Outside(res.0[i], Fences(res.0, threshold).0, Fences(res.0, threshold).1) ==> i in res.1
    ensures forall k, l :: 0 <= k < l < |res.1| ==> res.1[k] < res.1[l]
  {
    if how != "iqr" then (values, [])
    else
      var sorted := SortAsc(values);
      if |sorted| == 0 then (sorted, [])
      else
        var (lo, hi) := Fences(sorted, threshold);
        (sorted, IndicesOutside(sorted, lo, hi, |sorted|))
  }

  /** The numbers among parsed values, in row order (`filter(v => !isNaN(v))`). */
  function Numbers(vs: seq<Option<real>>): (r: seq<real>)
    ensures |r| <= |vs|
  {
    if |vs| == 0 then []
    else Numbers(vs[..|vs| - 1]) + (if vs[|vs| - 1].Some? then [vs[|vs| - 1].value] else [])
  }

  predicate IsNumber(v: Option<real>)
  {
    v.Some?
  }

  /** Where the number of row `i` lands among the numbers: after those of
      the earlier rows. */
  function NumberRank(vs: seq<Option<real>>, i: nat): nat
    requires i <= |vs|
  {
    Count(vs[..i], IsNumber)
  }

  /** `Numbers` keeps exactly the values that parse, in row order: there are
      as many as parsed values, the number of row `i` sits at its rank, and
      every number kept is the value of some row. */
  lemma NumbersCorrect(vs: seq<Option<real>>)
    ensures |Numbers(vs)| == Count(vs, IsNumber)
    ensures forall i :: 0 <= i < |vs| && vs[i].Some? ==>
              NumberRank(vs, i) < |Numbers(vs)| && Numbers(vs)[NumberRank(vs, i)] == vs[i].value
    ensures forall x :: x in Numbers(vs) ==> Some(x) in vs
  {
    NumbersCount(vs);
    forall i | 0 <= i < |vs| && vs[i].Some?
      ensures NumberRank(vs, i) < |Numbers(vs)| && Numbers(vs)[NumberRank(vs, i)] == vs[i].value
    {
      NumberAtRank(vs, i);
    }
    forall x | x in Numbers(vs)
      ensures Some(x) in vs
    {
      NumberFromRow(vs, x);
    }
  }

  lemma {:induction false} NumbersCount(vs: seq<Option<real>>)
    ensures |Numbers(vs)| == Count(vs, IsNumber)
    decreases |vs|
  {
    if |vs| > 0 {
      NumbersCount(vs[..|vs| - 1]);
      CountSnoc(vs, IsNumber);
    }
  }

  lemma {:induction false} NumberAtRank(vs: seq<Option<real>>, i: nat)
    requires i < |vs| && vs[i].Some?
    ensures NumberRank(vs, i) < |Numbers(vs)| && Numbers(vs)[NumberRank(vs, i)] == vs[i].value
    decreases |vs|
  {
    var n := |vs|;
    var init, last := vs[..n - 1], vs[n - 1];
    var r := Numbers(vs);
    assert r == Numbers(init) + (if last.Some? then [last.value] else []);
    if i < n - 1 {
      NumberAtRank(init, i);
      assert vs[..i] == init[..i];
    } else {
      assert vs[..i] == init;
      NumbersCount(init);
    }
  }

  lemma {:induction false} NumberFromRow(vs: seq<Option<real>>, x: real)
    requires x in Numbers(vs)
    ensures Some(x) in vs
    decreases |vs|
  {
    var n := |vs|;
    var init := vs[..n - 1];
    if x in Numbers(init) {
      NumberFromRow(init, x);
      assert Some(x) in init;
    } else {
      assert Some(x) == vs[n - 1];
    }
  }

  /** The outlier issues of one column as the validator writes them, from
      the column's parsed values: the row number is the outlier's index in
      the sorted numbers plus one. */
  function OutlierIssuesAsWritten(vs: seq<Option<real>>, column: string, how: string, threshold: real): (r: seq<Issue>)
    ensures forall k :: 0 <= k < |r| ==> r[k].kind == Outlier && r[k].column == column
    ensures forall k :: 0 <= k < |r| ==> 1 <= r[k].row <= |Numbers(vs)|
  {
    var values := Numbers(vs);
    if |values| == 0 then []
    else
      var d := DetectOutliers(values, how, threshold);
      IssuesAtIndices(d.0, d.1, column)
  }

  /** One outlier issue per index into `sorted`, numbered by the index plus one. */
  function IssuesAtIndices(sorted: seq<real>, idx: seq<nat>, column: string): (r: seq<Issue>)
    requires forall k :: 0 <= k < |idx| ==> idx[k] < |sorted|
    ensures |r| == |idx|
    ensures forall k :: 0 <= k < |r| ==> r[k] == Issue(Outlier, column, idx[k] + 1, NumValue(sorted[idx[k]]))
  {
    seq(|idx|, k requires 0 <= k < |idx| => Issue(Outlier, column, idx[k] + 1, NumValue(sorted[idx[k]])))
  }

  /** Outlier check with each outlier reported at the row it came from: a
      row is reported iff its number lies outside the fences of its column. */
  function OutlierIssues(vs: seq<Option<real>>, column: string, how: string, threshold: real): (r: seq<Issue>)
    ensures forall k :: 0 <= k < |r| ==> r[k].kind == Outlier && r[k].column == column
    ensures if how == "iqr" && |Numbers(vs)| > 0 then
              var f := Fences(SortAsc(Numbers(vs)), threshold);
              r == OutsideIssues(vs, column, Outlier, f.0, f.1)
            else r == []
  {
    var values := Numbers(vs);
    if how != "iqr" || |values| == 0 then []
    else
      var f := Fences(SortAsc(values), threshold);
      OutsideIssues(vs, column, Outlier, f.0, f.1)
  }

  /** `x` reports, as the validator writes it, a number of the sorted
      column lying outside its fences: its row is that number's index in
      the sorted numbers plus one, and its value is that number. */
  predicate IsRankIssue(vs: seq<Option<real>>, column: string, how: string, threshold: real, x: Issue)
  {
    var sorted := SortAsc(Numbers(vs));
    how == "iqr" && |sorted| > 0 && RankOutside(sorted, column, threshold, x)
  }

  /** `x` reports, numbered by rank in `sorted` plus one, a number of
      `column` lying outside the fences of `sorted`. */
  predicate RankOutside(sorted: seq<real>, column: string, threshold: real, x: Issue)
    requires |sorted| > 0
  {
    && x.kind == Outlier && x.column == column && 1 <= x.row <= |sorted|
    && Outside(sorted[x.row - 1], Fences(sorted, threshold).0, Fences(sorted, threshold).1)
    && x.value == NumValue(sorted[x.row - 1])
  }

  /** `idx` lists, ascending, exactly the indices of `sorted` whose value
      lies outside its fences. */
  predicate ExactlyOutside(sorted: seq<real>, idx: seq<nat>, threshold: real)
    requires |sorted| > 0
  {
    && (forall k :: 0 <= k < |idx| ==> idx[k] < |sorted|)
    && (forall k :: 0 <= k < |idx| ==> Outside(sorted[idx[k]], Fences(sorted, threshold).0, Fences(sorted, threshold).1))
    && (forall i :: 0 <= i < |sorted| && Outside(sorted[i], Fences(sorted, threshold).0, Fences(sorted, threshold).1) ==> i in idx)
    && (forall k, l :: 0 <= k < l < |idx| ==> idx[k] < idx[l])
  }

  /** The check as written reports exactly the sorted ranks of the numbers
      outside the fences, in increasing rank order, and nothing unless the
      method is 'iqr'. */
  lemma AsWrittenReportsRanks(vs: seq<Option<real>>, column: string, how: string, threshold: real, x: Issue)
    ensures x in OutlierIssuesAsWritten(vs, column, how, threshold) <==> IsRankIssue(vs, column, how, threshold, x)
    ensures RowIncreasing(OutlierIssuesAsWritten(vs, column, how, threshold))
  {
    var values := Numbers(vs);
    if |values| > 0 && how == "iqr" {
      AsWrittenIqr(vs, column, threshold, x);
    } else {
      AsWrittenOtherwise(vs, column, how, threshold);
    }
  }

  /** Without numbers, or with a method other than 'iqr', nothing is reported. */
  lemma AsWrittenOtherwise(vs: seq<Option<real>>, column: string, how: string, threshold: real)
    requires |Numbers(vs)| == 0 || how != "iqr"
    ensures OutlierIssuesAsWritten(vs, column, how, threshold) == []
  {
    var values := Numbers(vs);
    if |values| > 0 {
      var d := DetectOutliers(values, how, threshold);
      assert d.1 == [];
    }
  }

  lemma AsWrittenIqr(vs: seq<Option<real>>, column: string, threshold: real, x: Issue)
    requires |Numbers(vs)| > 0
    ensures var r := OutlierIssuesAsWritten(vs, column, "iqr", threshold);
            && RowIncreasing(r)
            && (x in r <==> IsRankIssue(vs, column, "iqr", threshold, x))
  {
    var values := Numbers(vs);
    var d := DetectOutliers(values, "iqr", threshold);
    DetectedExactly(values, threshold);
    RankIssuesAt(d.0, d.1, column, threshold, x);
  }

  /** With 'iqr' the detector sorts the numbers and returns exactly the
      indices outside the fences. */
  lemma DetectedExactly(values: seq<real>, threshold: real)
    requires |values| > 0
    ensures DetectOutliers(values, "iqr", threshold).0 == SortAsc(values)
    ensures ExactlyOutside(SortAsc(values), DetectOutliers(values, "iqr", threshold).1, threshold)
  {
  }

  /** The issues at the indices outside the fences are the rank issues. */
  lemma RankIssuesAt(sorted: seq<real>, idx: seq<nat>, column: string, threshold: real, x: Issue)
    requires |sorted| > 0 && ExactlyOutside(sorted, idx, threshold)
    ensures RowIncreasing(IssuesAtIndices(sorted, idx, column))
    ensures x in IssuesAtIndices(sorted, idx, column) <==> RankOutside(sorted, column, threshold, x)
  {
    if x in IssuesAtIndices(sorted, idx, column) {
      IssueAtIndexIsRank(sorted, idx, column, threshold, x);
    }
    if RankOutside(sorted, column, threshold, x) {
      RankIsIssueAtIndex(sorted, idx, column, threshold, x);
    }
  }

  lemma IssueAtIndexIsRank(sorted: seq<real>, idx: seq<nat>, column: string, threshold: real, x: Issue)
    requires |sorted| > 0 && ExactlyOutside(sorted, idx, threshold)
    requires x in IssuesAtIndices(sorted, idx, column)
    ensures RankOutside(sorted, column, threshold, x)
  {
    var r := IssuesAtIndices(sorted, idx, column);
    var k :| 0 <= k < |r| && r[k] == x;
    assert x == Issue(Outlier, column, idx[k] + 1, NumValue(sorted[idx[k]]));
  }

  lemma RankIsIssueAtIndex(sorted: seq<real>, idx: seq<nat>, column: string, threshold: real, x: Issue)
    requires |sorted| > 0 && ExactlyOutside(sorted, idx, threshold)
    requires RankOutside(sorted, column, threshold, x)
    ensures x in IssuesAtIndices(sorted, idx, column)
  {
    var r := IssuesAtIndices(sorted, idx, column);
    var i := x.row - 1;
    assert i in idx;
    var k :| 0 <= k < |idx| && idx[k] == i;
    assert r[k] == x;
  }

  /** `x` reports, at its own row, a number of `column` lying outside the
      fences of the column's sorted numbers. */
  predicate IsOutlierIssue(vs: seq<Option<real>>, column: string, how: string, threshold: real, x: Issue)
  {
    var values := Numbers(vs);
    && how == "iqr" && |values| > 0
    && var f := Fences(SortAsc(values), threshold);
       ReportsOutside(vs, column, Outlier, f.0, f.1, x)
  }

  /** The corrected check reports exactly the rows whose number lies outside
      the fences, in row order. */
  lemma OutlierIssuesIff(vs: seq<Option<real>>, column: string, how: string, threshold: real, x: Issue)
    ensures x in OutlierIssues(vs, column, how, threshold) <==> IsOutlierIssue(vs, column, how, threshold, x)
    ensures RowIncreasing(OutlierIssues(vs, column, how, threshold))
  {
    var values := Numbers(vs);
    if how == "iqr" && |values| > 0 {
      var f := Fences(SortAsc(values), threshold);
      OutsideIssuesIff(vs, column, Outlier, f.0, f.1, x);
    }
  }

  function OutlierIssuesOf(rows: seq<Row>, how: string, threshold: real): string -> seq<Issue>
  {
    h => OutlierIssues(ColumnValues(rows, h), h, how, threshold)
  }

  function AsWrittenOf(rows: seq<Row>, how: string, threshold: real): string -> seq<Issue>
  {
    h => OutlierIssuesAsWritten(ColumnValues(rows, h), h, how, threshold)
  }

  /** The corrected outlier issues of every header, in header order. */
  function AllOutlierIssues(rows: seq<Row>, headers: seq<string>, how: string, threshold: real): (r: seq<Issue>)
    ensures forall x :: x in r <==> x.column in headers && IsOutlierIssue(ColumnValues(rows, x.column), x.column, how, threshold, x)
    ensures forall k :: 0 <= k < |r| ==> r[k].kind == Outlier
  {
    var r := ConcatMap(headers, OutlierIssuesOf(rows, how, threshold));
    forall x
      ensures x in r <==> x.column in headers && IsOutlierIssue(ColumnValues(rows, x.column), x.column, how, threshold, x)
    {
      InAllOutlierIssues(rows, headers, how, threshold, x);
    }
    assert forall k :: 0 <= k < |r| ==> r[k] in r;
    r
  }

  lemma InAllOutlierIssues(rows: seq<Row>, headers: seq<string>, how: string, threshold: real, x: Issue)
    ensures x in ConcatMap(headers, OutlierIssuesOf(rows, how, threshold)) <==>
            x.column in headers && IsOutlierIssue(ColumnValues(rows, x.column), x.column, how, threshold, x)
  {
    var f := OutlierIssuesOf(rows, how, threshold);
    InConcatMap(headers, f, x);
    if x in ConcatMap(headers, f) {
      var j :| 0 <= j < |headers| && x in f(headers[j]);
      OutlierIssuesIff(ColumnValues(rows, headers[j]), headers[j], how, threshold, x);
    }
    if x.column in headers {
      var j :| 0 <= j < |headers| && headers[j] == x.column;
      OutlierIssuesIff(ColumnValues(rows, headers[j]), headers[j], how, threshold, x);
      assert x in f(headers[j]) <==> IsOutlierIssue(ColumnValues(rows, x.column), x.column, how, threshold, x);
    }
  }

  /** The outlier issues of every header as the validator writes them. */
  function AllOutlierIssuesAsWritten(rows: seq<Row>, headers: seq<string>, how: string, threshold: real): (r: seq<Issue>)
    ensures forall x :: x in r <==> x.column in headers && IsRankIssue(ColumnValues(rows, x.column), x.column, how, threshold, x)
    ensures forall k :: 0 <= k < |r| ==> r[k].kind == Outlier
  {
    var r := ConcatMap(headers, AsWrittenOf(rows, how, threshold));
    forall x
      ensures x in r <==> x.column in headers && IsRankIssue(ColumnValues(rows, x.column), x.column, how, threshold, x)
    {
      InAllOutlierIssuesAsWritten(rows, headers, how, threshold, x);
    }
    assert forall k :: 0 <= k < |r| ==> r[k] in r;
    r
  }

  lemma InAllOutlierIssuesAsWritten(rows: seq<Row>, headers: seq<string>, how: string, threshold: real, x: Issue)
    ensures x in ConcatMap(headers, AsWrittenOf(rows, how, threshold)) <==>
            x.column in headers && IsRankIssue(ColumnValues(rows, x.column), x.column, how, threshold, x)
  {
    var f := AsWrittenOf(rows, how, threshold);
    InConcatMap(headers, f, x);
    if x in ConcatMap(headers, f) {
      var j :| 0 <= j < |headers| && x in f(headers[j]);
      AsWrittenReportsRanks(ColumnValues(rows, headers[j]), headers[j], how, threshold, x);
    }
    if x.column in headers {
      var j :| 0 <= j < |headers| && headers[j] == x.column;
      AsWrittenReportsRanks(ColumnValues(rows, headers[j]), headers[j], how, threshold, x);
      assert x in f(headers[j]) <==> IsRankIssue(ColumnValues(rows, x.column), x.column, how, threshold, x);
    }
  }

  /** The column [100, 1, 2, 3, 4] used to exhibit the outlier row number. */
  const Skewed: seq<Option<real>> := [Some(100.0), Some(1.0), Some(2.0), Some(3.0), Some(4.0)]

  lemma SkewedNumbers()
    ensures Numbers(Skewed) == [100.0, 1.0, 2.0, 3.0, 4.0]
  {
    var vs := Skewed;
    assert vs[..4] == [Some(100.0), Some(1.0), Some(2.0), Some(3.0)];
    assert vs[..4][..3] == [Some(100.0), Some(1.0), Some(2.0)];
    assert vs[..4][..3][..2] == [Some(100.0), Some(1.0)];
    assert vs[..4][..3][..2][..1] == [Some(100.0)];
    assert Numbers([Some(100.0)]) == [100.0];
    assert Numbers([Some(100.0), Some(1.0)]) == [100.0, 1.0];
    assert Numbers([Some(100.0), Some(1.0), Some(2.0)]) == [100.0, 1.0, 2.0];
    assert Numbers([Some(100.0), Some(1.0), Some(2.0), Some(3.0)]) == [100.0, 1.0, 2.0, 3.0];
  }

  /** The first element of an ascending sequence is its least. */
  lemma HeadIsLeast(a: seq<real>, x: real)
    requires SortedAsc(a) && x in a
    ensures |a| > 0 && a[0] <= x
  {
    var j :| 0 <= j < |a| && a[j] == x;
    if j > 0 { assert a[0] <= a[j]; }
  }
  /** An ascending order of a multiset of numbers is unique. */
  lemma {:induction false} SortedUnique(a: seq<real>, b: seq<real>)
    requires SortedAsc(a) && SortedAsc(b) && multiset(a) == multiset(b)
    ensures a == b
  {
    if |a| == 0 {
      assert |b| == |multiset(b)| == 0;
    } else {
      assert a[0] in multiset(b);
      HeadIsLeast(b, a[0]);
      assert b[0] in multiset(a);
      HeadIsLeast(a, b[0]);
      assert a == [a[0]] + a[1..];
      assert b == [b[0]] + b[1..];
      assert multiset(a) == multiset{a[0]} + multiset(a[1..]);
      assert multiset(b) == multiset{b[0]} + multiset(b[1..]);
      assert a[0] == b[0];
      var x := a[0];
      var A := multiset(a[1..]);
      var B := multiset(b[1..]);
      assert multiset{x} + A == multiset{x} + B;
      forall y ensures A[y] == B[y] {
        assert (multiset{x} + A)[y] == multiset{x}[y] + A[y];
        assert (multiset{x} + B)[y] == multiset{x}[y] + B[y];
      }
      assert multiset(a[1..]) == multiset(b[1..]);
      SortedUnique(a[1..], b[1..]);
    }
  }

  /** Sorting numbers that some ascending sequence permutes gives exactly that sequence. */
  lemma SortAscIsUnique(xs: seq<real>, sorted: seq<real>)
    requires SortedAsc(sorted) && multiset(xs) == multiset(sorted)
    ensures SortAsc(xs) == sorted
  {
    SortedUnique(SortAsc(xs), sorted);
  }

  lemma SkewedSorted()
    ensures SortAsc(Numbers(Skewed)) == [1.0, 2.0, 3.0, 4.0, 100.0]
  {
    SkewedNumbers();
    var xs := [100.0, 1.0, 2.0, 3.0, 4.0];
    var sorted := [1.0, 2.0, 3.0, 4.0, 100.0];
    SkewedPermutation(xs, sorted);
    SkewedAscending(sorted);
    SortAscIsUnique(Numbers(Skewed), sorted);
  }

  lemma SkewedPermutation(xs: seq<real>, sorted: seq<real>)
    requires xs == [100.0, 1.0, 2.0, 3.0, 4.0] && sorted == [1.0, 2.0, 3.0, 4.0, 100.0]
    ensures multiset(xs) == multiset(sorted)
  {
    assert xs == [100.0] + sorted[..4];
    assert sorted == sorted[..4] + [100.0];
  }

  lemma SkewedAscending(sorted: seq<real>)
    requires sorted == [1.0, 2.0, 3.0, 4.0, 100.0]
    ensures SortedAsc(sorted)
  {
  }

  lemma SkewedFences()
    ensures Fences([1.0, 2.0, 3.0, 4.0, 100.0], 1.5) == (-1.0, 7.0)
  {
  }

  lemma SkewedIndices()
    ensures IndicesOutside([1.0, 2.0, 3.0, 4.0, 100.0], -1.0, 7.0, 5) == [4]
  {
  }

  /** Only the 100 lies outside the fences [-1, 7] of the sorted column. */
  lemma SkewedOutliers()
    ensures DetectOutliers(Numbers(Skewed), "iqr", 1.5) == ([1.0, 2.0, 3.0, 4.0, 100.0], [4])
  {
    SkewedSorted();
    SkewedFences();
    SkewedIndices();
  }

  /** With a single index outside the fences, the validator as written
      reports one issue, numbered by that index. */
  lemma AsWrittenSingle(vs: seq<Option<real>>, column: string, how: string, threshold: real, sorted: seq<real>, i: nat)
    requires |Numbers(vs)| > 0 && DetectOutliers(Numbers(vs), how, threshold) == (sorted, [i])
    ensures i < |sorted|
    ensures OutlierIssuesAsWritten(vs, column, how, threshold) == [Issue(Outlier, column, i + 1, NumValue(sorted[i]))]
  {
    var d := DetectOutliers(Numbers(vs), how, threshold);
    assert d.1[0] == i;
    assert OutlierIssuesAsWritten(vs, column, how, threshold) == IssuesAtIndices(sorted, [i], column);
    SingleIndexIssue(sorted, i, column);
  }

  /** A single index yields the single issue numbered by it. */
  lemma SingleIndexIssue(sorted: seq<real>, i: nat, column: string)
    requires i < |sorted|
    ensures IssuesAtIndices(sorted, [i], column) == [Issue(Outlier, column, i + 1, NumValue(sorted[i]))]
  {
    var r := IssuesAtIndices(sorted, [i], column);
    assert |r| == 1 && r[0] == Issue(Outlier, column, i + 1, NumValue(sorted[i]));
  }

  /** The validator as written reports the column's 100 at row 5, whose
      value is 4. */
  lemma OutlierRowIsSortedRank()
    ensures OutlierIssuesAsWritten(Skewed, "v", "iqr", 1.5) == [Issue(Outlier, "v", 5, NumValue(100.0))]
    ensures Skewed[4] == Some(4.0)
  {
    SkewedNumbers();
    SkewedOutliers();
    AsWrittenSingle(Skewed, "v", "iqr", 1.5, [1.0, 2.0, 3.0, 4.0, 100.0], 4);
  }

  /** When exactly one value lies outside [lo, hi], exactly its row is reported. */
  lemma OutsideSingle(vs: seq<Option<real>>, column: string, kind: Kind, lo: real, hi: real, i: nat)
    requires i < |vs| && NumberOutside(vs[i], lo, hi)
    requires forall j :: 0 <= j < |vs| && j != i ==> !NumberOutside(vs[j], lo, hi)
    ensures OutsideIssues(vs, column, kind, lo, hi) == [Issue(kind, column, i + 1, NumValue(vs[i].value))]
  {
    var r := OutsideIssues(vs, column, kind, lo, hi);
    var x := Issue(kind, column, i + 1, NumValue(vs[i].value));
    assert x in r;
    forall k | 0 <= k < |r|
      ensures r[k] == x
    {
      assert ReportsOutside(vs, column, kind, lo, hi, r[k]);
    }
    assert |r| > 1 ==> r[0].row < r[1].row;
  }

  lemma SkewedOnlyFirstOutside()
    ensures forall j :: 0 <= j < |Skewed| && j != 0 ==> !NumberOutside(Skewed[j], -1.0, 7.0)
  {
  }

  lemma SkewedOutside()
    ensures OutsideIssues(Skewed, "v", Outlier, -1.0, 7.0) == [Issue(Outlier, "v", 1, NumValue(100.0))]
  {
    SkewedOnlyFirstOutside();
    OutsideSingle(Skewed, "v", Outlier, -1.0, 7.0, 0);
  }

  /** The corrected check reports the 100 at row 1, where it sits. */
  lemma OutlierAtOwnRow()
    ensures OutlierIssues(Skewed, "v", "iqr", 1.5) == [Issue(Outlier, "v", 1, NumValue(100.0))]
  {
    SkewedNumbers();
    SkewedSorted();
    SkewedFences();
    SkewedOutside();
  }

  // ----- The whole validation -----

  /** The validator's configuration. */
  datatype Rules = Rules(missingEnabled: bool, duplicatesEnabled: bool, duplicateColumns: seq<string>,
                         typesEnabled: bool, strict: bool, rangesEnabled: bool, ranges: seq<RangeRule>,
                         outliersEnabled: bool, outlierMethod: string, threshold: real)

  const DefaultRules: Rules := Rules(true, true, [], true, false, true, [], true, "iqr", 1.5)

  /** Kinds never go back to an earlier check along `r`. */
  predicate GroupedByCheck(r: seq<Issue>)
  {
    forall k, l :: 0 <= k < l < |r| ==> KindRank(r[k].kind) <= KindRank(r[l].kind)
  }

  /** The enabled checks in their fixed order, with the outlier issues
      given. */
  function ValidateWith(rules: Rules, headers: seq<string>, rows: seq<Row>, outliers: seq<Issue>): (r: seq<Issue>)
    requires AllOfKind(outliers, Outlier)
    ensures GroupedByCheck(r)
    ensures !rules.missingEnabled ==> forall k :: 0 <= k < |r| ==> r[k].kind != MissingValue
    ensures !rules.duplicatesEnabled ==> forall k :: 0 <= k < |r| ==> r[k].kind != Duplicate
    ensures !rules.typesEnabled ==> forall k :: 0 <= k < |r| ==> r[k].kind != DataType
    ensures !rules.rangesEnabled ==> forall k :: 0 <= k < |r| ==> r[k].kind != Range
    ensures !rules.outliersEnabled ==> forall k :: 0 <= k < |r| ==> r[k].kind != Outlier
  {
    var cols := CheckColumns(rules.duplicateColumns, headers);
    var m := if rules.missingEnabled then MissingIssues(rows, headers) else [];
    var d := if rules.duplicatesEnabled then DuplicateIssues(Keys(rows, cols), Join(cols, ", ")) else [];
    var t := if rules.typesEnabled then TypeIssues(rows, headers, rules.strict) else [];
    var g := if rules.rangesEnabled then RangeIssues(rows, rules.ranges) else [];
    var o := if rules.outliersEnabled then outliers else [];
    ConcatGrouped(m, d, t, g, o)
  }

  /** `performValidation` as written: the outlier rows are sorted ranks. */
  function Validate(rules: Rules, headers: seq<string>, rows: seq<Row>): (r: seq<Issue>)
    ensures GroupedByCheck(r)
    ensures !rules.outliersEnabled ==> forall k :: 0 <= k < |r| ==> r[k].kind != Outlier
  {
    ValidateWith(rules, headers, rows, AllOutlierIssuesAsWritten(rows, headers, rules.outlierMethod, rules.threshold))
  }

  /** `performValidation` with each outlier reported at its own row. */
  function ValidateIntended(rules: Rules, headers: seq<string>, rows: seq<Row>): (r: seq<Issue>)
    ensures GroupedByCheck(r)
    ensures !rules.outliersEnabled ==> forall k :: 0 <= k < |r| ==> r[k].kind != Outlier
  {
    ValidateWith(rules, headers, rows, AllOutlierIssues(rows, headers, rules.outlierMethod, rules.threshold))
  }

  function IsKind(kind: Kind): Issue -> bool
  {
    (x: Issue) => x.kind == kind
  }

  /** Picking one kind out of a block of a single kind gives the block or nothing. */
  lemma PartOfKind(a: seq<Issue>, kind: Kind, k: Kind)
    requires AllOfKind(a, kind)
    ensures Filter(a, IsKind(k)) == if k == kind then a else []
  {
    if k == kind {
      FilterAll(a, IsKind(k));
    } else {
      FilterNone(a, IsKind(k));
    }
  }

  /** Picking one kind out of the five blocks gives that kind's block. */
  lemma FilterGrouped(m: seq<Issue>, d: seq<Issue>, t: seq<Issue>, g: seq<Issue>, o: seq<Issue>, k: Kind)
    requires KindBlocks(m, d, t, g, o)
    ensures Filter(m + d + t + g + o, IsKind(k)) ==
            match k
            case MissingValue => m
            case Duplicate => d
            case DataType => t
            case Range => g
            case Outlier => o
  {
    var p := IsKind(k);
    FilterFive(m, d, t, g, o, p);
    KindOfBlocks(m, d, t, g, o, k);
    PickBlock(Filter(m, p), Filter(d, p), Filter(t, p), Filter(g, p), Filter(o, p), m, d, t, g, o, k);
  }

  /** Joining five picks of which only the one for `k` is kept gives that block. */
  lemma PickBlock(pm: seq<Issue>, pd: seq<Issue>, pt: seq<Issue>, pg: seq<Issue>, po: seq<Issue>,
                  m: seq<Issue>, d: seq<Issue>, t: seq<Issue>, g: seq<Issue>, o: seq<Issue>, k: Kind)
    requires pm == (if k == MissingValue then m else []) && pd == (if k == Duplicate then d else [])
    requires pt == (if k == DataType then t else []) && pg == (if k == Range then g else [])
    requires po == (if k == Outlier then o else [])
    ensures pm + pd + pt + pg + po ==
            match k
            case MissingValue => m
            case Duplicate => d
            case DataType => t
            case Range => g
            case Outlier => o
  {
    match k
    case MissingValue => assert m + [] + [] + [] + [] == m;
    case Duplicate => assert [] + d + [] + [] + [] == d;
    case DataType => assert [] + [] + t + [] + [] == t;
    case Range => assert [] + [] + [] + g + [] == g;
    case Outlier => assert [] + [] + [] + [] + o == o;
  }

  /** The five blocks of one kind each, in check order. */
  predicate KindBlocks(m: seq<Issue>, d: seq<Issue>, t: seq<Issue>, g: seq<Issue>, o: seq<Issue>)
  {
    && AllOfKind(m, MissingValue) && AllOfKind(d, Duplicate) && AllOfKind(t, DataType)
    && AllOfKind(g, Range) && AllOfKind(o, Outlier)
  }

  /** Picking one kind out of each of the five blocks. */
  lemma KindOfBlocks(m: seq<Issue>, d: seq<Issue>, t: seq<Issue>, g: seq<Issue>, o: seq<Issue>, k: Kind)
    requires KindBlocks(m, d, t, g, o)
    ensures Filter(m, IsKind(k)) == (if k == MissingValue then m else [])
    ensures Filter(d, IsKind(k)) == (if k == Duplicate then d else [])
    ensures Filter(t, IsKind(k)) == (if k == DataType then t else [])
    ensures Filter(g, IsKind(k)) == (if k == Range then g else [])
    ensures Filter(o, IsKind(k)) == (if k == Outlier then o else [])
  {
    PartOfKind(m, MissingValue, k);
    PartOfKind(d, Duplicate, k);
    PartOfKind(t, DataType, k);
    PartOfKind(g, Range, k);
    PartOfKind(o, Outlier, k);
  }

  /** Filtering five blocks in a row filters each block. */
  lemma FilterFive(m: seq<Issue>, d: seq<Issue>, t: seq<Issue>, g: seq<Issue>, o: seq<Issue>, p: Issue -> bool)
    ensures Filter(m + d + t + g + o, p) == Filter(m, p) + Filter(d, p) + Filter(t, p) + Filter(g, p) + Filter(o, p)
  {
    FilterAppend(m + d + t + g, o, p);
    FilterAppend(m + d + t, g, p);
    FilterAppend(m + d, t, p);
    FilterAppend(m, d, p);
  }

  /** The issues of each kind are exactly what that check reports when it
      is enabled, and none when it is disabled. */
  lemma ValidateWithByCheck(rules: Rules, headers: seq<string>, rows: seq<Row>, outliers: seq<Issue>)
    requires AllOfKind(outliers, Outlier)
    ensures var r := ValidateWith(rules, headers, rows, outliers);
            var cols := CheckColumns(rules.duplicateColumns, headers);
            && Filter(r, IsKind(MissingValue)) == (if rules.missingEnabled then MissingIssues(rows, headers) else [])
            && Filter(r, IsKind(Duplicate)) == (if rules.duplicatesEnabled then DuplicateIssues(Keys(rows, cols), Join(cols, ", ")) else [])
            && Filter(r, IsKind(DataType)) == (if rules.typesEnabled then TypeIssues(rows, headers, rules.strict) else [])
            && Filter(r, IsKind(Range)) == (if rules.rangesEnabled then RangeIssues(rows, rules.ranges) else [])
            && Filter(r, IsKind(Outlier)) == (if rules.outliersEnabled then outliers else [])
  {
    var cols := CheckColumns(rules.duplicateColumns, headers);
    var m := if rules.missingEnabled then MissingIssues(rows, headers) else [];
    var d := if rules.duplicatesEnabled then DuplicateIssues(Keys(rows, cols), Join(cols, ", ")) else [];
    var t := if rules.typesEnabled then TypeIssues(rows, headers, rules.strict) else [];
    var g := if rules.rangesEnabled then RangeIssues(rows, rules.ranges) else [];
    var o := if rules.outliersEnabled then outliers else [];
    assert ValidateWith(rules, headers, rows, outliers) == m + d + t + g + o;
    assert KindBlocks(m, d, t, g, o);
    EachKindItsBlock(ValidateWith(rules, headers, rows, outliers), m, d, t, g, o);
  }

  /** Five blocks of one kind each, appended: each kind picks out its block. */
  lemma EachKindItsBlock(r: seq<Issue>, m: seq<Issue>, d: seq<Issue>, t: seq<Issue>, g: seq<Issue>, o: seq<Issue>)
    requires KindBlocks(m, d, t, g, o) && r == m + d + t + g + o
    ensures Filter(r, IsKind(MissingValue)) == m && Filter(r, IsKind(Duplicate)) == d
    ensures Filter(r, IsKind(DataType)) == t && Filter(r, IsKind(Range)) == g
    ensures Filter(r, IsKind(Outlier)) == o
  {
    FilterGrouped(m, d, t, g, o, MissingValue);
    FilterGrouped(m, d, t, g, o, Duplicate);
    FilterGrouped(m, d, t, g, o, DataType);
    FilterGrouped(m, d, t, g, o, Range);
    FilterGrouped(m, d, t, g, o, Outlier);
  }

  /** The validator as written: each check's issues, the outliers numbered
      by their rank in the sorted column. */
  lemma ValidateByCheck(rules: Rules, headers: seq<string>, rows: seq<Row>)
    ensures var r := Validate(rules, headers, rows);
            var cols := CheckColumns(rules.duplicateColumns, headers);
            && Filter(r, IsKind(MissingValue)) == (if rules.missingEnabled then MissingIssues(rows, headers) else [])
            && Filter(r, IsKind(Duplicate)) == (if rules.duplicatesEnabled then DuplicateIssues(Keys(rows, cols), Join(cols, ", ")) else [])
            && Filter(r, IsKind(DataType)) == (if rules.typesEnabled then TypeIssues(rows, headers, rules.strict) else [])
            && Filter(r, IsKind(Range)) == (if rules.rangesEnabled then RangeIssues(rows, rules.ranges) else [])
            && Filter(r, IsKind(Outlier)) ==
               (if rules.outliersEnabled then AllOutlierIssuesAsWritten(rows, headers, rules.outlierMethod, rules.threshold) else [])
  {
    ValidateWithByCheck(rules, headers, rows, AllOutlierIssuesAsWritten(rows, headers, rules.outlierMethod, rules.threshold));
  }

  /** The corrected validator: the same issues of every other kind, and
      outlier issues that sit at the rows they came from. */
  lemma ValidateIntendedByCheck(rules: Rules, headers: seq<string>, rows: seq<Row>)
    ensures var r := ValidateIntended(rules, headers, rows);
            var cols := CheckColumns(rules.duplicateColumns, headers);
            && Filter(r, IsKind(MissingValue)) == (if rules.missingEnabled then MissingIssues(rows, headers) else [])
            && Filter(r, IsKind(Duplicate)) == (if rules.duplicatesEnabled then DuplicateIssues(Keys(rows, cols), Join(cols, ", ")) else [])
            && Filter(r, IsKind(DataType)) == (if rules.typesEnabled then TypeIssues(rows, headers, rules.strict) else [])
            && Filter(r, IsKind(Range)) == (if rules.rangesEnabled then RangeIssues(rows, rules.ranges) else [])
            && Filter(r, IsKind(Outlier)) ==
               (if rules.outliersEnabled then AllOutlierIssues(rows, headers, rules.outlierMethod, rules.threshold) else [])
  {
    ValidateWithByCheck(rules, headers, rows, AllOutlierIssues(rows, headers, rules.outlierMethod, rules.threshold));
  }

  /** The five check results in order, each of its own kind. */
  function ConcatGrouped(m: seq<Issue>, d: seq<Issue>, t: seq<Issue>, g: seq<Issue>, o: seq<Issue>): (r: seq<Issue>)
    requires AllOfKind(m, MissingValue) && AllOfKind(d, Duplicate) && AllOfKind(t, DataType)
    requires AllOfKind(g, Range) && AllOfKind(o, Outlier)
    ensures r == m + d + t + g + o
    ensures GroupedByCheck(r)
    ensures forall k :: 0 <= k < |r| ==>
              && (r[k].kind == MissingValue ==> |m| > 0) && (r[k].kind == Duplicate ==> |d| > 0)
              && (r[k].kind == DataType ==> |t| > 0) && (r[k].kind == Range ==> |g| > 0)
              && (r[k].kind == Outlier ==> |o| > 0)
  {
    var r := m + d + t + g + o;
    assert forall k :: 0 <= k < |r| ==> KindRank(r[k].kind) == BlockOf(k, |m|, |d|, |t|, |g|);
    r
  }

  /** The block (0 to 4) of position `k` in a five-part concatenation. */
  function BlockOf(k: nat, a: nat, b: nat, c: nat, d: nat): nat
  {
    if k < a then 0 else if k < a + b then 1 else if k < a + b + c then 2 else if k < a + b + c + d then 3 else 4
  }

  /** With the default rules (no strict typing, no range rules) no type or
      range issue is ever reported. */
  lemma DefaultsReportNoTypeOrRange(headers: seq<string>, rows: seq<Row>)
    ensures forall k :: 0 <= k < |Validate(DefaultRules, headers, rows)| ==>
              Validate(DefaultRules, headers, rows)[k].kind !in {DataType, Range}
  {
    NonStrictAcceptsAll(rows, headers);
  }
}

=== FILE: energy_optimizer.dfy ===
/** The energy consumption optimizer: devices with a power rating and daily
    hours of use, usage entries priced at peak or standard rate, optimisation
    suggestions, an efficiency score card and a top-consumers report. */
module EnergyOptimizer {
  import opened Options
  import opened Seqs
  import opened Strings
  import opened Assoc
  import opened Reals

  /** A device as entered in the device form. */
  datatype Device = Device(id: int, name: string, category: string, powerRating: real,
                           dailyHours: real, efficiency: real, smart: bool)

  /** A usage entry. `hour` is the local hour of its timestamp; `deviceId`
      is `None` when the selected device value did not parse (NaN). */
  datatype Entry = Entry(id: int, deviceId: Option<int>, consumption: real, duration: real,
                         hour: int, cost: real, carbon: real)

  /** The tariff settings. The peak window's two hour fields are kept as
      numbers; `None` stands for a field that does not read as a number
      (NaN), which makes every comparison with it false. */
  datatype Settings = Settings(electricityRate: real, peakRate: real, offPeakRate: real,
                               peakStart: Option<int>, peakEnd: Option<int>,
                               carbonFactor: real, renewablePercentage: real)

  /** The defaults: 0.12 / 0.18 / 0.08 per kWh, peak 17:00-21:00,
      0.429 kg CO2 per kWh, 25 % renewable. */
  const DefaultSettings: Settings :=
    Settings(0.12, 0.18, 0.08, Some(17), Some(21), 0.429, 25.0)

  /** Daily consumption in kWh: watts times hours, over 1000. */
  function DailyConsumption(d: Device): (kwh: real)
    ensures kwh * 1000.0 == d.powerRating * d.dailyHours
    ensures d.powerRating >= 0.0 && d.dailyHours >= 0.0 ==> kwh >= 0.0
  {
    d.powerRating * d.dailyHours / 1000.0
  }

  /** Whether an hour falls in the peak window; only the hour parts of the
      window are compared. */
  predicate IsPeakHour(s: Settings, hour: int)
  {
    s.peakStart.Some? && s.peakEnd.Some? && hour >= s.peakStart.value && hour < s.peakEnd.value
  }

  /** A window that wraps past midnight (start after end) contains no hour. */
  lemma WrapAroundNeverPeak(s: Settings, hour: int)
    requires s.peakStart.Some? && s.peakEnd.Some? && s.peakStart.value > s.peakEnd.value
    ensures !IsPeakHour(s, hour)
  {
  }

  /** The default window holds exactly the hours 17, 18, 19 and 20. */
  lemma DefaultPeakHours(hour: int)
    ensures IsPeakHour(DefaultSettings, hour) <==> 17 <= hour <= 20
  {
  }

  /** Prices one entry: peak rate inside the window, standard rate outside;
      carbon scales with the non-renewable share. */
  function PriceEntry(s: Settings, e: Entry): (r: Entry)
    ensures r.(cost := e.cost, carbon := e.carbon) == e
    ensures IsPeakHour(s, e.hour) ==> r.cost == e.consumption * s.peakRate
    ensures !IsPeakHour(s, e.hour) ==> r.cost == e.consumption * s.electricityRate
    ensures r.carbon == e.consumption * s.carbonFactor * (1.0 - s.renewablePercentage / 100.0)
  {
    var rate := if IsPeakHour(s, e.hour) then s.peakRate else s.electricityRate;
    e.(cost := e.consumption * rate,
       carbon := e.consumption * s.carbonFactor * (1.0 - s.renewablePercentage / 100.0))
  }

  /** `calculateEntryCosts`: reprices every entry from the settings. */
  function CalculateEntryCosts(s: Settings, es: seq<Entry>): (r: seq<Entry>)
    ensures |r| == |es|
    ensures forall i :: 0 <= i < |es| ==> r[i] == PriceEntry(s, es[i])
  {
    seq(|es|, i requires 0 <= i < |es| => PriceEntry(s, es[i]))
  }

  /** The off-peak rate setting never affects any price. */
  lemma OffPeakRateUnused(s: Settings, es: seq<Entry>, rate: real)
    ensures CalculateEntryCosts(s.(offPeakRate := rate), es) == CalculateEntryCosts(s, es)
  {
    var a := CalculateEntryCosts(s.(offPeakRate := rate), es);
    var b := CalculateEntryCosts(s, es);
    forall i | 0 <= i < |es|
      ensures a[i] == b[i]
    {
      assert IsPeakHour(s.(offPeakRate := rate), es[i].hour) == IsPeakHour(s, es[i].hour);
    }
  }

  /** Pricing depends only on the settings, so repricing is idempotent. */
  lemma RepricingIdempotent(s: Settings, es: seq<Entry>)
    ensures CalculateEntryCosts(s, CalculateEntryCosts(s, es)) == CalculateEntryCosts(s, es)
  {
    var a := CalculateEntryCosts(s, es);
    assert forall i :: 0 <= i < |es| ==> CalculateEntryCosts(s, a)[i] == a[i];
  }

  // ---------------------------------------------------------------------
  // Optimisation suggestions

  /** A suggestion's id: `efficiency-<device id>`, `usage-<device id>`,
      `smart-<device id>` or `peak-hours`. */
  datatype SuggestionId = UpgradeId(device: int) | UsageId(device: int) | SmartId(device: int) | PeakId

  datatype Impact = High | Medium

  datatype Suggestion = Suggestion(id: SuggestionId, impact: Impact, monthlySavings: real,
                                   energyReduction: real, co2Reduction: real)

  /** Replacing a device of efficiency e saves (10 - e) / 10 of its use. */
  function UpgradeSuggestion(s: Settings, d: Device): (x: Suggestion)
    ensures x.id == UpgradeId(d.id) && x.impact == High
    ensures x.energyReduction == DailyConsumption(d) * ((10.0 - d.efficiency) / 10.0) * 30.0
    ensures x.monthlySavings == x.energyReduction * s.electricityRate
    ensures x.co2Reduction == x.energyReduction * s.carbonFactor
  {
    var gain := (10.0 - d.efficiency) / 10.0;
    var daily := DailyConsumption(d);
    Suggestion(UpgradeId(d.id), High, daily * gain * 30.0 * s.electricityRate,
               daily * gain * 30.0, daily * gain * 30.0 * s.carbonFactor)
  }

  /** Cutting a heavy device's use saves a month of its consumption. */
  function UsageSuggestion(s: Settings, d: Device): (x: Suggestion)
    ensures x.id == UsageId(d.id) && x.impact == Medium
    ensures x.energyReduction == DailyConsumption(d) * 30.0
    ensures x.monthlySavings == x.energyReduction * s.electricityRate
    ensures x.co2Reduction == x.energyReduction * s.carbonFactor
  {
    var daily := DailyConsumption(d);
    Suggestion(UsageId(d.id), Medium, daily * 30.0 * s.electricityRate,
               daily * 30.0, daily * 30.0 * s.carbonFactor)
  }

  /** Making an appliance smart saves a fifth of a month's consumption. */
  function SmartSuggestion(s: Settings, d: Device): (x: Suggestion)
    ensures x.id == SmartId(d.id) && x.impact == Medium
    ensures x.energyReduction == DailyConsumption(d) * 30.0 / 5.0
    ensures x.monthlySavings == x.energyReduction * s.electricityRate
    ensures x.co2Reduction == x.energyReduction * s.carbonFactor
  {
    var daily := DailyConsumption(d);
    Suggestion(SmartId(d.id), Medium, daily * 30.0 * s.electricityRate * 0.2,
               daily * 30.0 * 0.2, daily * 30.0 * 0.2 * s.carbonFactor)
  }

  /** The suggestions one device earns, in the order the source pushes them. */
  function DeviceSuggestions(s: Settings, d: Device): (r: seq<Suggestion>)
    ensures |r| <= 3
    ensures UpgradeSuggestion(s, d) in r <==> d.efficiency < 6.0
    ensures UsageSuggestion(s, d) in r <==> DailyConsumption(d) > 5.0
    ensures SmartSuggestion(s, d) in r <==> !d.smart && d.category == "appliances"
    ensures forall x :: x in r ==> x == UpgradeSuggestion(s, d) || x == UsageSuggestion(s, d) || x == SmartSuggestion(s, d)
  {
    (if d.efficiency < 6.0 then [UpgradeSuggestion(s, d)] else [])
    + (if DailyConsumption(d) > 5.0 then [UsageSuggestion(s, d)] else [])
    + (if !d.smart && d.category == "appliances" then [SmartSuggestion(s, d)] else [])
  }

  /** The per-device suggestions of a list of devices, device by device. */
  function AllDeviceSuggestions(s: Settings, ds: seq<Device>): (r: seq<Suggestion>)
    ensures |r| <= 3 * |ds|
    decreases |ds|
  {
    if |ds| == 0 then []
    else AllDeviceSuggestions(s, ds[..|ds| - 1]) + DeviceSuggestions(s, ds[|ds| - 1])
  }

  /** Whether some device of `ds` earns suggestion `x`. */
  predicate EarnedBySome(s: Settings, ds: seq<Device>, x: Suggestion)
  {
    exists i :: 0 <= i < |ds| && x in DeviceSuggestions(s, ds[i])
  }

  /** A suggestion is in the per-device list exactly when some device earns it. */
  lemma {:induction false} AllDeviceSuggestionsIff(s: Settings, ds: seq<Device>, x: Suggestion)
    ensures x in AllDeviceSuggestions(s, ds) <==> EarnedBySome(s, ds, x)
    decreases |ds|
  {
    if |ds| > 0 {
      AllDeviceSuggestionsIff(s, ds[..|ds| - 1], x);
      EarnedSplit(s, ds, x);
    }
  }

  /** Some device earns `x` exactly when the last one does or some device
      before it does. */
  lemma EarnedSplit(s: Settings, ds: seq<Device>, x: Suggestion)
    requires |ds| > 0
    ensures EarnedBySome(s, ds, x) <==>
            EarnedBySome(s, ds[..|ds| - 1], x) || x in DeviceSuggestions(s, ds[|ds| - 1])
  {
    InSomeBlockSplit(ds, ds[..|ds| - 1], Suggests(s), x);
  }

  function Suggests(s: Settings): Device -> seq<Suggestion>
  {
    d => DeviceSuggestions(s, d)
  }

  function AtPeak(s: Settings): Entry -> bool
  {
    (e: Entry) => IsPeakHour(s, e.hour)
  }

  /** Entries whose timestamp falls in the peak window. */
  function PeakEntries(s: Settings, es: seq<Entry>): (r: seq<Entry>)
    ensures forall i :: 0 <= i < |r| ==> IsPeakHour(s, r[i].hour) && r[i] in es
    ensures forall i :: 0 <= i < |es| && IsPeakHour(s, es[i].hour) ==> es[i] in r
  {
    Filter(es, AtPeak(s))
  }

  function TotalCost(es: seq<Entry>): real
  {
    if |es| == 0 then 0.0 else es[0].cost + TotalCost(es[1..])
  }

  function TotalConsumption(es: seq<Entry>): real
  {
    if |es| == 0 then 0.0 else es[0].consumption + TotalConsumption(es[1..])
  }

  function TotalCarbon(es: seq<Entry>): real
  {
    if |es| == 0 then 0.0 else es[0].carbon + TotalCarbon(es[1..])
  }

  /** Shifting peak use away is assumed to save 30 % of its cost, energy and carbon. */
  function PeakSuggestion(s: Settings, es: seq<Entry>): (x: Suggestion)
    ensures x.id == PeakId && x.impact == High
    ensures x.monthlySavings == TotalCost(PeakEntries(s, es)) * 0.3
    ensures x.energyReduction == TotalConsumption(PeakEntries(s, es)) * 0.3
    ensures x.co2Reduction == TotalCarbon(PeakEntries(s, es)) * 0.3
  {
    var p := PeakEntries(s, es);
    Suggestion(PeakId, High, TotalCost(p) * 0.3, TotalConsumption(p) * 0.3, TotalCarbon(p) * 0.3)
  }

  /** Every entry is charged `rate` per kWh. */
  predicate AtRate(es: seq<Entry>, rate: real)
  {
    forall i :: 0 <= i < |es| ==> es[i].cost == es[i].consumption * rate
  }

  /** Entries all charged at one rate cost that rate times their consumption. */
  lemma {:induction false} PricedAtRate(es: seq<Entry>, rate: real)
    requires AtRate(es, rate)
    ensures TotalCost(es) == rate * TotalConsumption(es)
  {
    if |es| > 0 {
      PricedAtRate(es[1..], rate);
    }
  }

  /** On priced entries, the peak suggestion saves 30 % of the peak entries'
      consumption charged at the peak rate. */
  lemma PeakSavingsAtPeakRate(s: Settings, raw: seq<Entry>)
    ensures PeakSuggestion(s, CalculateEntryCosts(s, raw)).monthlySavings ==
            0.3 * s.peakRate * TotalConsumption(PeakEntries(s, CalculateEntryCosts(s, raw)))
  {
    RepricedAtPeakRate(s, raw);
    SavingsOfPeakPriced(s, CalculateEntryCosts(s, raw));
  }

  /** Every peak-hour entry of `es` is charged the peak rate. */
  predicate PeakPriced(s: Settings, es: seq<Entry>)
  {
    forall i :: 0 <= i < |es| && IsPeakHour(s, es[i].hour) ==> es[i].cost == es[i].consumption * s.peakRate
  }

  /** Repricing charges every peak-hour entry the peak rate. */
  lemma RepricedAtPeakRate(s: Settings, raw: seq<Entry>)
    ensures PeakPriced(s, CalculateEntryCosts(s, raw))
  {
    var es := CalculateEntryCosts(s, raw);
    forall i | 0 <= i < |es| && IsPeakHour(s, es[i].hour)
      ensures es[i].cost == es[i].consumption * s.peakRate
    {
      PricedAtPeak(s, raw[i], es[i]);
    }
  }

  /** When every peak-hour entry is charged the peak rate, the peak
      suggestion saves 30 % of their consumption at that rate. */
  lemma SavingsOfPeakPriced(s: Settings, es: seq<Entry>)
    requires PeakPriced(s, es)
    ensures PeakSuggestion(s, es).monthlySavings == 0.3 * s.peakRate * TotalConsumption(PeakEntries(s, es))
  {
    var p := PeakEntries(s, es);
    PeakPricedAtRate(s, es, p);
    ThirtyPercent(TotalCost(p), s.peakRate, TotalConsumption(p), PeakSuggestion(s, es).monthlySavings);
  }

  /** The peak entries of peak-priced entries cost the peak rate times
      their consumption. */
  lemma PeakPricedAtRate(s: Settings, es: seq<Entry>, p: seq<Entry>)
    requires p == PeakEntries(s, es) && PeakPriced(s, es)
    ensures TotalCost(p) == s.peakRate * TotalConsumption(p)
  {
    PeakEntriesAtRate(s, es);
    PricedAtRate(p, s.peakRate);
  }

  lemma PeakEntriesAtRate(s: Settings, es: seq<Entry>)
    requires PeakPriced(s, es)
    ensures AtRate(PeakEntries(s, es), s.peakRate)
  {
    PeakPartAtRate(s, es, PeakEntries(s, es));
  }

  lemma PeakPartAtRate(s: Settings, es: seq<Entry>, p: seq<Entry>)
    requires PeakPriced(s, es)
    requires forall i :: 0 <= i < |p| ==> IsPeakHour(s, p[i].hour) && p[i] in es
    ensures AtRate(p, s.peakRate)
  {
    forall k | 0 <= k < |p|
      ensures p[k].cost == p[k].consumption * s.peakRate
    {
      PeakEntryPriced(s, es, p[k]);
    }
  }

  lemma PeakEntryPriced(s: Settings, es: seq<Entry>, x: Entry)
    requires PeakPriced(s, es) && x in es && IsPeakHour(s, x.hour)
    ensures x.cost == x.consumption * s.peakRate
  {
    var j :| 0 <= j < |es| && es[j] == x;
  }

  lemma ThirtyPercent(cost: real, rate: real, kwh: real, savings: real)
    requires cost == rate * kwh && savings == cost * 0.3
    ensures savings == 0.3 * rate * kwh
  {
  }

  lemma PricedAtPeak(s: Settings, x: Entry, e: Entry)
    requires e == PriceEntry(s, x) && IsPeakHour(s, e.hour)
    ensures e.cost == e.consumption * s.peakRate
  {
    assert e.hour == x.hour && e.consumption == x.consumption;
  }

  /** `runOptimization`: the per-device suggestions, then the peak-hours
      suggestion when some entry falls in the peak window. */
  function RunOptimization(s: Settings, ds: seq<Device>, es: seq<Entry>): (r: seq<Suggestion>)
    ensures |r| <= 3 * |ds| + 1
    ensures PeakSuggestion(s, es) in r <==> |PeakEntries(s, es)| > 0
    ensures forall x :: x in r && x.id != PeakId ==> EarnedBySome(s, ds, x)
    ensures forall i :: 0 <= i < |ds| ==> forall x :: x in DeviceSuggestions(s, ds[i]) ==> x in r
  {
    var dev := AllDeviceSuggestions(s, ds);
    var r := dev + (if |PeakEntries(s, es)| > 0 then [PeakSuggestion(s, es)] else []);
    forall x | x in dev
      ensures x.id != PeakId && EarnedBySome(s, ds, x)
    {
      AllDeviceSuggestionsIff(s, ds, x);
      var i :| 0 <= i < |ds| && x in DeviceSuggestions(s, ds[i]);
      DeviceSuggestionNotPeak(s, ds[i], x);
    }
    forall i, x | 0 <= i < |ds| && x in DeviceSuggestions(s, ds[i])
      ensures x in r
    {
      AllDeviceSuggestionsIff(s, ds, x);
    }
    r
  }

  /** A device's suggestions never carry the peak-hours id. */
  lemma DeviceSuggestionNotPeak(s: Settings, d: Device, x: Suggestion)
    requires x in DeviceSuggestions(s, d)
    ensures x.id != PeakId
  {
  }

  /** The upgrade rule of `runOptimization`, both ways: a device's upgrade
      suggestion is offered exactly when its efficiency is below 6. */
  lemma UpgradeOfferedIff(s: Settings, ds: seq<Device>, es: seq<Entry>, d: Device)
    requires d in ds
    requires forall i :: 0 <= i < |ds| && ds[i].id == d.id ==> ds[i] == d
    ensures UpgradeSuggestion(s, d) in RunOptimization(s, ds, es) <==> d.efficiency < 6.0
  {
    var r := RunOptimization(s, ds, es);
    var x := UpgradeSuggestion(s, d);
    if x in r {
      assert x.id != PeakId;
      var i :| 0 <= i < |ds| && x in DeviceSuggestions(s, ds[i]);
      UpgradeFromDevice(s, ds[i], d);
      assert ds[i] == d;
    }
    if d.efficiency < 6.0 {
      var j :| 0 <= j < |ds| && ds[j] == d;
      assert x in DeviceSuggestions(s, ds[j]);
    }
  }

  /** The only suggestion of device `e` that can be `d`'s upgrade
      suggestion is `e`'s own upgrade suggestion, so the ids agree. */
  lemma UpgradeFromDevice(s: Settings, e: Device, d: Device)
    requires UpgradeSuggestion(s, d) in DeviceSuggestions(s, e)
    ensures e.id == d.id
  {
    var x := UpgradeSuggestion(s, d);
    assert x == UpgradeSuggestion(s, e) || x == UsageSuggestion(s, e) || x == SmartSuggestion(s, e);
  }

  // ---------------------------------------------------------------------
  // Efficiency score card

  /** The five sub-scores of `calculateEfficiencyScore`. */
  datatype Score = Score(energy: real, cost: real, carbon: real, smart: real, usage: real)

  function MinR(a: real, b: real): real { if a <= b then a else b }

  function MaxR(a: real, b: real): real { if a >= b then a else b }

  function TotalEfficiency(ds: seq<Device>): real
  {
    if |ds| == 0 then 0.0 else ds[0].efficiency + TotalEfficiency(ds[1..])
  }

  predicate IsSmart(d: Device) { d.smart }

  /** `k / Math.max(1, n)`: the share of `n` items that `k` of them make up. */
  function Share(k: nat, n: nat): (r: real)
    ensures r >= 0.0
    ensures r == 0.0 <==> k == 0
    ensures k <= n ==> r <= 1.0
    ensures n > 0 && k <= n ==> (r == 1.0 <==> k == n)
  {
    var m := if n > 1 then n else 1;
    assert k < m ==> k as real / m as real < 1.0 by {
      if k < m {
        BelowOne(k as real, m as real);
      }
    }
    k as real / m as real
  }

  /** The energy sub-score: the mean efficiency, capped at 10. */
  function EnergyScore(ds: seq<Device>): real
  {
    var n := if |ds| > 1 then |ds| else 1;
    MinR(10.0, TotalEfficiency(ds) / n as real)
  }

  /** `calculateEfficiencyScore`: each sub-score on a 0-10 scale. */
  function EfficiencyScore(s: Settings, ds: seq<Device>, es: seq<Entry>): (r: Score)
    ensures 0.0 <= r.cost <= 10.0 && 0.0 <= r.usage <= 10.0 && 0.0 <= r.smart <= 10.0
    ensures r.energy <= 10.0 && r.carbon <= 10.0
    ensures r.energy == EnergyScore(ds)
    ensures (forall i :: 0 <= i < |ds| ==> ds[i].efficiency >= 0.0) ==> r.energy >= 0.0
    ensures s.renewablePercentage >= 0.0 && s.carbonFactor <= 10.0 ==> r.carbon >= 0.0
  {
    EfficiencyNonNegative(ds);
    var energy := EnergyScore(ds);
    var totalCost := TotalCost(es);
    var totalKwh := TotalConsumption(es);
    var avgCost := if totalKwh > 0.0 then totalCost / totalKwh else s.electricityRate;
    var cost := MaxR(0.0, MinR(10.0, 10.0 - (avgCost - s.electricityRate) * 10.0));
    var carbon := MinR(10.0, s.renewablePercentage / 100.0 * 10.0 + (10.0 - s.carbonFactor) / 0.5);
    var smart := MinR(10.0, Share(Count(ds, IsSmart), |ds|) * 10.0);
    var usage := MaxR(0.0, MinR(10.0, 10.0 - Share(|PeakEntries(s, es)|, |es|) * 10.0));
    Score(energy, cost, carbon, smart, usage)
  }

  lemma {:induction false} EfficiencyNonNegative(ds: seq<Device>)
    ensures (forall i :: 0 <= i < |ds| ==> ds[i].efficiency >= 0.0) ==> TotalEfficiency(ds) >= 0.0
  {
    if |ds| > 0 {
      EfficiencyNonNegative(ds[1..]);
      assert forall i :: 0 <= i < |ds[1..]| ==> ds[1..][i] == ds[i + 1];
    }
  }

  /** The energy score is the mean device efficiency capped at 10: never
      above the mean, and equal to it whenever it is below 10. */
  lemma EnergyIsCappedMean(ds: seq<Device>)
    requires |ds| > 0
    ensures EnergyScore(ds) * |ds| as real <= TotalEfficiency(ds)
    ensures EnergyScore(ds) < 10.0 ==> EnergyScore(ds) * |ds| as real == TotalEfficiency(ds)
  {
    CappedMean(TotalEfficiency(ds), |ds| as real, EnergyScore(ds));
  }

  lemma CappedMean(total: real, n: real, e: real)
    requires n >= 1.0 && e == MinR(10.0, total / n)
    ensures e * n <= total && (e < 10.0 ==> e * n == total)
  {
    var mean := total / n;
    assert mean * n == total;
    MulMonotone(n, e, mean);
  }

  /** A larger renewable share or a smaller carbon factor never lowers the
      carbon score. */
  lemma CarbonMonotone(s: Settings, t: Settings, ds: seq<Device>, es: seq<Entry>)
    requires s.renewablePercentage <= t.renewablePercentage && t.carbonFactor <= s.carbonFactor
    ensures EfficiencyScore(s, ds, es).carbon <= EfficiencyScore(t, ds, es).carbon
  {
  }

  /** With a non-negative renewable share, any carbon factor up to 5 already
      gives the top carbon score, whatever the renewable share. */
  lemma CarbonSaturates(s: Settings, ds: seq<Device>, es: seq<Entry>)
    requires s.renewablePercentage >= 0.0 && s.carbonFactor <= 5.0
    ensures EfficiencyScore(s, ds, es).carbon == 10.0
  {
  }

  /** When every entry is priced off the peak window, the average price is
      the standard rate and the cost score is a perfect 10. */
  lemma CostPerfectOffPeak(s: Settings, ds: seq<Device>, raw: seq<Entry>)
    requires |PeakEntries(s, CalculateEntryCosts(s, raw))| == 0
    ensures EfficiencyScore(s, ds, CalculateEntryCosts(s, raw)).cost == 10.0
  {
    var es := CalculateEntryCosts(s, raw);
    OffPeakAtStandardRate(s, raw);
    PricedAtRate(es, s.electricityRate);
    var kwh := TotalConsumption(es);
    if kwh > 0.0 {
      AverageOfRate(TotalCost(es), kwh, s.electricityRate);
    }
  }

  /** Without peak-hour entries, repricing charges every entry the standard rate. */
  lemma OffPeakAtStandardRate(s: Settings, raw: seq<Entry>)
    requires |PeakEntries(s, CalculateEntryCosts(s, raw))| == 0
    ensures AtRate(CalculateEntryCosts(s, raw), s.electricityRate)
  {
    var es := CalculateEntryCosts(s, raw);
    forall i | 0 <= i < |es|
      ensures es[i].cost == es[i].consumption * s.electricityRate
    {
      assert !IsPeakHour(s, es[i].hour);
    }
  }

  lemma AverageOfRate(cost: real, kwh: real, rate: real)
    requires cost == rate * kwh && kwh > 0.0
    ensures cost / kwh == rate
  {
  }

  /** The usage score is a perfect 10 exactly when no entry is at peak time. */
  lemma UsagePerfectIffNoPeak(s: Settings, ds: seq<Device>, es: seq<Entry>)
    ensures EfficiencyScore(s, ds, es).usage == 10.0 <==> |PeakEntries(s, es)| == 0
  {
    var x := Share(|PeakEntries(s, es)|, |es|);
    assert x == 0.0 <==> x * 10.0 == 0.0;
  }

  /** The usage score is 0 exactly when there are entries and all of them
      are at peak time. */
  lemma UsageZeroIffAllPeak(s: Settings, ds: seq<Device>, es: seq<Entry>)
    ensures EfficiencyScore(s, ds, es).usage == 0.0 <==> |es| > 0 && |PeakEntries(s, es)| == |es|
  {
    PeakEntriesBound(s, es);
    var x := Share(|PeakEntries(s, es)|, |es|);
    assert x == 1.0 <==> x * 10.0 == 10.0;
  }

  lemma PeakEntriesBound(s: Settings, es: seq<Entry>)
    ensures |PeakEntries(s, es)| <= |es|
  {
  }

  /** The smart score is a perfect 10 exactly when there are devices and
      all of them are smart. */
  lemma SmartPerfectIffAllSmart(s: Settings, ds: seq<Device>, es: seq<Entry>)
    ensures EfficiencyScore(s, ds, es).smart == 10.0 <==> |ds| > 0 && Count(ds, IsSmart) == |ds|
  {
    var x := Share(Count(ds, IsSmart), |ds|);
    assert x == 1.0 <==> x * 10.0 == 10.0;
  }

  /** A proper fraction of a positive number is below 1. */
  lemma BelowOne(a: real, b: real)
    requires 0.0 <= a < b
    ensures a / b < 1.0
  {
    var q := a / b;
    assert q * b == a;
  }

  /** With no entries the average price is the standard rate, so the cost score is 10. */
  lemma NoEntriesFullCostScore(s: Settings, ds: seq<Device>)
    ensures EfficiencyScore(s, ds, []).cost == 10.0
  {
  }

  // ---------------------------------------------------------------------
  // Top consumers

  /** Consumption recorded for one device across all entries. */
  function DeviceKwh(d: Device, es: seq<Entry>): real
  {
    if |es| == 0 then 0.0
    else (if es[0].deviceId == Some(d.id) then es[0].consumption else 0.0) + DeviceKwh(d, es[1..])
  }

  /** The consumption the last device named `k` has recorded; `None` when
      no device has that name. */
  function KwhOfLastNamed(ds: seq<Device>, es: seq<Entry>, k: string): Option<real>
    decreases |ds|
  {
    if |ds| == 0 then None
    else if ds[|ds| - 1].name == k then Some(DeviceKwh(ds[|ds| - 1], es))
    else KwhOfLastNamed(ds[..|ds| - 1], es, k)
  }

  /** The per-name consumption object built by `getTopConsumers`: one entry
      per distinct device name, the last device of a name winning. */
  function ConsumptionTable(ds: seq<Device>, es: seq<Entry>): (t: seq<(string, real)>)
    ensures UniqueKeys(t)
    ensures forall k :: Lookup(t, k) == KwhOfLastNamed(ds, es, k)
    decreases |ds|
  {
    if |ds| == 0 then []
    else
      var d := ds[|ds| - 1];
      Upsert(ConsumptionTable(ds[..|ds| - 1], es), d.name, DeviceKwh(d, es))
  }

  function Kwh(p: (string, real)): real { p.1 }

  /** `getTopConsumers`: the table sorted by consumption, largest first
      (stably), cut to five. */
  function TopConsumers(ds: seq<Device>, es: seq<Entry>): (r: seq<(string, real)>)
    ensures |r| <= 5
    ensures |r| == if |ConsumptionTable(ds, es)| < 5 then |ConsumptionTable(ds, es)| else 5
    ensures Descending(r, Kwh)
    ensures multiset(r) <= multiset(ConsumptionTable(ds, es))
    ensures forall i :: 0 <= i < |r| ==> KwhOfLastNamed(ds, es, r[i].0) == Some(r[i].1)
  {
    var t := ConsumptionTable(ds, es);
    var sorted := SortDesc(t, Kwh);
    var k := if |sorted| < 5 then |sorted| else 5;
    var r := sorted[..k];
    PrefixSubMultiset(sorted, k);
    forall i | 0 <= i < |r|
      ensures KwhOfLastNamed(ds, es, r[i].0) == Some(r[i].1)
    {
      TableRowIsLastNamed(ds, es, r[i]);
    }
    r
  }

  /** Every row of the consumption table holds the consumption of the last
      device of its name. */
  lemma TableRowIsLastNamed(ds: seq<Device>, es: seq<Entry>, p: (string, real))
    requires p in multiset(ConsumptionTable(ds, es))
    ensures KwhOfLastNamed(ds, es, p.0) == Some(p.1)
  {
    var t := ConsumptionTable(ds, es);
    var j :| 0 <= j < |t| && t[j] == p;
    LookupMember(t, j);
  }

  /** Nothing left out of the report consumed more than anything in it. */
  lemma TopAreLargest(ds: seq<Device>, es: seq<Entry>, p: (string, real), q: (string, real))
    requires p in multiset(ConsumptionTable(ds, es)) - multiset(TopConsumers(ds, es))
    requires q in TopConsumers(ds, es)
    ensures p.1 <= q.1
  {
    var t := ConsumptionTable(ds, es);
    var sorted := SortDesc(t, Kwh);
    var k := if |sorted| < 5 then |sorted| else 5;
    assert TopConsumers(ds, es) == sorted[..k];
    PrefixDominates(sorted, k, Kwh, p, q);
  }

  /** The sort is stable: the rows of any one consumption come first in
      table order, so the report holds the first of them. */
  lemma TopConsumersStable(ds: seq<Device>, es: seq<Entry>, v: real)
    ensures IsPrefix(Filter(TopConsumers(ds, es), KeyIs(Kwh, v)), Filter(ConsumptionTable(ds, es), KeyIs(Kwh, v)))
  {
    var t := ConsumptionTable(ds, es);
    var sorted := SortDesc(t, Kwh);
    var k := if |sorted| < 5 then |sorted| else 5;
    assert TopConsumers(ds, es) == sorted[..k];
    SortDescStable(t, Kwh, v);
    FilterPrefix(sorted, k, KeyIs(Kwh, v));
  }

  // ---------------------------------------------------------------------
  // Entries and suggestions lists

  datatype AddResult = Rejected | Added(entries: seq<Entry>)

  /** A form value JavaScript treats as false: NaN (`None`) or zero. */
  predicate FalsyNumber(v: Option<real>)
  {
    v.None? || v.value == 0.0
  }

  /** `addEntry`: the form is refused when no device is selected or the
      consumption or duration is 0 or not a number; otherwise the new entry
      is put first and every entry is repriced. `consumption` and `duration`
      are the `parseFloat` readings of the two number fields (`None` for
      NaN), `now` is `Date.now()` and `hour` the local hour of the entered
      (or current) date. The device id is read by `parseInt` without a
      radix. */
  function AddEntry(s: Settings, es: seq<Entry>, device: string, consumption: Option<real>,
                    duration: Option<real>, hour: int, now: int): (r: AddResult)
    ensures r.Rejected? <==> device == "" || FalsyNumber(consumption) || FalsyNumber(duration)
    ensures r.Added? ==> |r.entries| == |es| + 1 && r.entries[1..] == CalculateEntryCosts(s, es)
    ensures r.Added? ==> r.entries[0].id == now && r.entries[0].deviceId == ParseIntAuto(device)
    ensures r.Added? ==> r.entries[0].consumption == consumption.value
    ensures r.Added? ==> r.entries[0].duration == duration.value
    ensures r.Added? ==> r.entries[0] == PriceEntry(s, r.entries[0])
  {
    var c := consumption;
    var t := duration;
    if device == "" || FalsyNumber(c) || FalsyNumber(t) then Rejected
    else
      var e := Entry(now, ParseIntAuto(device), c.value, t.value, hour, 0.0, 0.0);
      var r := CalculateEntryCosts(s, [e] + es);
      assert r[1..] == CalculateEntryCosts(s, es);
      Added(r)
  }

  function OtherEntry(id: int): Entry -> bool
  {
    (e: Entry) => e.id != id
  }

  /** `deleteEntry`: drops every entry with the id and keeps the rest in order. */
  function DeleteEntry(es: seq<Entry>, id: int): (r: seq<Entry>)
    ensures forall i :: 0 <= i < |r| ==> r[i].id != id
    ensures forall i :: 0 <= i < |es| && es[i].id != id ==> es[i] in r
    ensures forall i :: 0 <= i < |r| ==> r[i] in es
  {
    Filter(es, OtherEntry(id))
  }

  /** Deleting distributes over concatenation, so the kept entries stay in order. */
  lemma DeleteKeepsOrder(a: seq<Entry>, b: seq<Entry>, id: int)
    ensures DeleteEntry(a + b, id) == DeleteEntry(a, id) + DeleteEntry(b, id)
  {
    FilterAppend(a, b, OtherEntry(id));
  }

  /** Deleting an id no entry has changes nothing. */
  lemma DeleteUnknownIsNoOp(es: seq<Entry>, id: int)
    requires forall i :: 0 <= i < |es| ==> es[i].id != id
    ensures DeleteEntry(es, id) == es
  {
    FilterAll(es, OtherEntry(id));
  }

  function OtherSuggestion(id: SuggestionId): Suggestion -> bool
  {
    (x: Suggestion) => x.id != id
  }

  /** The first suggestion with the id, if any (`Array.prototype.find`). */
  function FindSuggestion(xs: seq<Suggestion>, id: SuggestionId): (r: Option<Suggestion>)
    ensures r.None? <==> forall i :: 0 <= i < |xs| ==> xs[i].id != id
    ensures r.Some? ==> r.value in xs && r.value.id == id
  {
    if |xs| == 0 then None
    else if xs[0].id == id then Some(xs[0])
    else FindSuggestion(xs[1..], id)
  }

  /** `applySuggestion`: an unknown id changes nothing; otherwise every
      suggestion with the id is removed and the applied one is returned. */
  function ApplySuggestion(xs: seq<Suggestion>, id: SuggestionId): (r: (seq<Suggestion>, Option<Suggestion>))
    ensures r.1 == FindSuggestion(xs, id)
    ensures r.1.None? ==> r.0 == xs
    ensures forall i :: 0 <= i < |r.0| ==> r.0[i].id != id && r.0[i] in xs
    ensures forall i :: 0 <= i < |xs| && xs[i].id != id ==> xs[i] in r.0
  {
    var found := FindSuggestion(xs, id);
    if found.None? then
      FilterAll(xs, OtherSuggestion(id));
      (xs, None)
    else
      (Filter(xs, OtherSuggestion(id)), found)
  }
}

=== FILE: habit_tracker.dfy ===
/** The social habit tracker: users with habits, groups with members,
    challenges and rewards, and progress shared by a user. Objects refer to
    each other, so users, groups and habits are named by identities (the
    JavaScript object references) rather than copied; a group lists its
    challenges by identity too, so it sees a later participant or completion. */
module HabitTracker {
  import opened Seqs

  type UserId = nat
  type GroupId = nat
  type HabitId = nat
  type ChallengeId = nat

  datatype Reward = Reward(name: string, description: string)

  /** A progress report: the habit, the value and the report date. */
  datatype Share = Share(habit: HabitId, value: int, date: int)

  datatype User = User(name: string, habits: seq<HabitId>, groups: seq<GroupId>, progress: seq<Share>)

  datatype Group = Group(name: string, members: seq<UserId>, challenges: seq<ChallengeId>, rewards: seq<Reward>)

  datatype Habit = Habit(name: string, goal: int, progress: int)

  datatype Challenge = Challenge(name: string, description: string, reward: Reward,
                                 participants: seq<UserId>, completed: bool)

  function NewUser(name: string): (u: User)
    ensures u.name == name && u.habits == [] && u.groups == [] && u.progress == []
  {
    User(name, [], [], [])
  }

  function NewGroup(name: string): (g: Group)
    ensures g.name == name && g.members == [] && g.challenges == [] && g.rewards == []
  {
    Group(name, [], [], [])
  }

  function NewHabit(name: string, goal: int): (h: Habit)
    ensures h.name == name && h.goal == goal && h.progress == 0
  {
    Habit(name, goal, 0)
  }

  function NewChallenge(name: string, description: string, reward: Reward): (c: Challenge)
    ensures c.name == name && c.description == description && c.reward == reward
    ensures c.participants == [] && !c.completed
  {
    Challenge(name, description, reward, [], false)
  }

  /** `if (!xs.includes(x)) xs.push(x)`: add an identity unless present. */
  function AddOnce(xs: seq<UserId>, x: UserId): (r: seq<UserId>)
    ensures x in r
    ensures x in xs ==> r == xs
    ensures x !in xs ==> r == xs + [x]
    ensures NoDup(xs) ==> NoDup(r)
  {
    if x in xs then xs else xs + [x]
  }

  /** Adding the same identity again changes nothing. */
  lemma AddOnceIdempotent(xs: seq<UserId>, x: UserId)
    ensures AddOnce(AddOnce(xs, x), x) == AddOnce(xs, x)
  {
  }

  /** `Group.addMember`. */
  function AddMember(g: Group, u: UserId): (r: Group)
    ensures u in r.members
    ensures u in g.members ==> r == g
    ensures u !in g.members ==> r.members == g.members + [u]
    ensures r.(members := g.members) == g
  {
    g.(members := AddOnce(g.members, u))
  }

  /** `Challenge.addParticipant`. */
  function AddParticipant(c: Challenge, u: UserId): (r: Challenge)
    ensures u in r.participants
    ensures u in c.participants ==> r == c
    ensures u !in c.participants ==> r.participants == c.participants + [u]
    ensures r.(participants := c.participants) == c
  {
    c.(participants := AddOnce(c.participants, u))
  }

  /** Adding a participant twice is adding it once. */
  lemma AddParticipantIdempotent(c: Challenge, u: UserId)
    ensures AddParticipant(AddParticipant(c, u), u) == AddParticipant(c, u)
  {
  }

  /** Membership never holds a user twice, however often members are added. */
  lemma {:induction false} MembersStayDistinct(g: Group, us: seq<UserId>)
    requires NoDup(g.members)
    ensures NoDup(AddMembers(g, us).members)
    ensures forall i :: 0 <= i < |us| ==> us[i] in AddMembers(g, us).members
    decreases |us|
  {
    if |us| > 0 {
      var init := us[..|us| - 1];
      MembersStayDistinct(g, init);
      assert forall i :: 0 <= i < |init| ==> init[i] == us[i];
    }
  }

  /** The group after adding `us` in order. */
  function AddMembers(g: Group, us: seq<UserId>): Group
    decreases |us|
  {
    if |us| == 0 then g else AddMember(AddMembers(g, us[..|us| - 1]), us[|us| - 1])
  }

  /** `User.joinGroup`: the group is always appended to the user's list (so
      joining twice lists it twice), while the group adds the user only once. */
  function JoinGroup(u: User, uid: UserId, gid: GroupId, g: Group): (r: (User, Group))
    ensures r.0 == u.(groups := u.groups + [gid])
    ensures uid in r.1.members
    ensures r.1 == AddMember(g, uid)
    ensures NoDup(g.members) ==> NoDup(r.1.members)
  {
    (u.(groups := u.groups + [gid]), AddMember(g, uid))
  }

  /** Joining the same group twice: listed twice on the user's side, once
      on the group's side. */
  lemma JoinTwice(u: User, uid: UserId, gid: GroupId, g: Group)
    requires uid !in g.members
    ensures var (u1, g1) := JoinGroup(u, uid, gid, g);
            var (u2, g2) := JoinGroup(u1, uid, gid, g1);
            u2.groups == u.groups + [gid, gid] && g2.members == g.members + [uid]
  {
  }

  function AddHabit(u: User, h: HabitId): (r: User)
    ensures r.habits == u.habits + [h]
    ensures r.(habits := u.habits) == u
  {
    u.(habits := u.habits + [h])
  }

  function ShareProgress(u: User, h: HabitId, value: int, date: int): (r: User)
    ensures r.progress == u.progress + [Share(h, value, date)]
    ensures r.(progress := u.progress) == u
  {
    u.(progress := u.progress + [Share(h, value, date)])
  }

  function AddChallenge(g: Group, c: ChallengeId): (r: Group)
    ensures r.challenges == g.challenges + [c]
    ensures r.(challenges := g.challenges) == g
  {
    g.(challenges := g.challenges + [c])
  }

  function AddReward(g: Group, w: Reward): (r: Group)
    ensures r.rewards == g.rewards + [w]
    ensures r.(rewards := g.rewards) == g
  {
    g.(rewards := g.rewards + [w])
  }

  /** `Habit.updateProgress`: adds the value. */
  function UpdateProgress(h: Habit, value: int): (r: Habit)
    ensures r.progress - h.progress == value
    ensures r.(progress := h.progress) == h
  {
    h.(progress := h.progress + value)
  }

  /** Two updates are one update by their sum. */
  lemma UpdatesAdd(h: Habit, a: int, b: int)
    ensures UpdateProgress(UpdateProgress(h, a), b) == UpdateProgress(h, a + b)
  {
  }

  /** `Challenge.complete`. */
  function Complete(c: Challenge): (r: Challenge)
    ensures r.completed
    ensures r.(completed := c.completed) == c
  {
    c.(completed := true)
  }

  lemma CompleteIdempotent(c: Challenge)
    ensures Complete(Complete(c)) == Complete(c)
  {
  }

  // ---------------------------------------------------------------------
  // The demo page

  /** The page's objects. */
  datatype Demo = Demo(user: User, group: Group, habit: Habit, challenge: Challenge)

  const TheUser: UserId := 0
  const TheGroup: GroupId := 0
  const TheHabit: HabitId := 0
  const TheChallenge: ChallengeId := 0

  /** The demo data as the script sets it up. */
  function Setup(): (d: Demo)
    ensures d.user.habits == [TheHabit] && d.user.groups == [TheGroup]
    ensures d.group.members == [TheUser] && d.group.challenges == [TheChallenge]
    ensures d.challenge.participants == [TheUser]
    ensures d.group.rewards == [d.challenge.reward]
    ensures d.habit.progress == 0 && d.user.progress == [] && !d.challenge.completed
  {
    var reward := Reward("Group Badge", "Awarded for 7-day streak");
    var c := NewChallenge("7-Day Streak", "Wake up at 6am for 7 days", reward);
    var u := AddHabit(NewUser("Ayaanshaikh"), TheHabit);
    var (u1, g1) := JoinGroup(u, TheUser, TheGroup, NewGroup("Morning Routine Warriors"));
    var g2 := AddReward(AddChallenge(g1, TheChallenge), c.reward);
    Demo(u1, g2, NewHabit("Wake up at 6am", 30), AddParticipant(c, TheUser))
  }

  /** The 'Mark as Done' button at date `date`: the habit gains one and
      the user shares one progress report of value 1. */
  function UpdateHabitProgress(d: Demo, date: int): (r: Demo)
    ensures r.habit.progress == d.habit.progress + 1
    ensures r.user.progress == d.user.progress + [Share(TheHabit, 1, date)]
    ensures r.group == d.group && r.challenge == d.challenge
  {
    d.(habit := UpdateProgress(d.habit, 1), user := ShareProgress(d.user, TheHabit, 1, date))
  }

  /** The 'Complete Challenge' button. */
  function CompleteChallenge(d: Demo): (r: Demo)
    ensures r.challenge.completed
    ensures r.(challenge := d.challenge) == d
  {
    d.(challenge := Complete(d.challenge))
  }

  /** Total value of the reports about habit `h`. */
  function Reported(ps: seq<Share>, h: HabitId): int
    decreases |ps|
  {
    if |ps| == 0 then 0
    else Reported(ps[..|ps| - 1], h) + (if ps[|ps| - 1].habit == h then ps[|ps| - 1].value else 0)
  }

  /** The habit's progress equals the total the user has reported on it. */
  predicate InSync(d: Demo)
  {
    d.habit.progress == Reported(d.user.progress, TheHabit)
  }

  datatype Click = Done(date: int) | CompleteClick

  function Clicks(d: Demo, cs: seq<Click>): Demo
    decreases |cs|
  {
    if |cs| == 0 then d
    else
      var d' := Clicks(d, cs[..|cs| - 1]);
      match cs[|cs| - 1]
      case Done(date) => UpdateHabitProgress(d', date)
      case CompleteClick => CompleteChallenge(d')
  }

  /** From the demo set-up, whatever the clicks, the habit's progress is
      the sum of the shared reports, and it counts the 'Mark as Done' clicks. */
  lemma ProgressMatchesReports(cs: seq<Click>)
    ensures InSync(Clicks(Setup(), cs))
    ensures Clicks(Setup(), cs).habit.progress == Count(cs, IsDone)
  {
    var d := Setup();
    assert InSync(d);
    ClicksKeepSync(d, cs);
  }

  /** Clicking keeps the habit in step with the reports, and each 'Mark as
      Done' click adds exactly one to the progress. */
  lemma {:induction false} ClicksKeepSync(d: Demo, cs: seq<Click>)
    requires InSync(d)
    ensures InSync(Clicks(d, cs))
    ensures Clicks(d, cs).habit.progress == d.habit.progress + Count(cs, IsDone)
    decreases |cs|
  {
    if |cs| > 0 {
      ClicksKeepSync(d, cs[..|cs| - 1]);
      CountSnoc(cs, IsDone);
    }
  }

  predicate IsDone(c: Click) { c.Done? }

  /** The challenge the group lists is the page's one challenge: whatever
      the clicks, it keeps the user as its participant, and it is completed
      exactly when 'Complete Challenge' has been clicked. */
  lemma {:induction false} GroupSeesChallenge(cs: seq<Click>)
    ensures var d := Clicks(Setup(), cs);
            d.group.challenges == [TheChallenge] && d.challenge.participants == [TheUser] &&
            (d.challenge.completed <==> exists i :: 0 <= i < |cs| && cs[i].CompleteClick?)
    decreases |cs|
  {
    if |cs| > 0 {
      var init := cs[..|cs| - 1];
      GroupSeesChallenge(init);
      assert forall i :: 0 <= i < |init| ==> init[i] == cs[i];
    }
  }
}

=== FILE: harmonic_orb.dfy ===
/** The harmonic orb's sound parameters: a base frequency, a number of
    harmonics, a timbre shift and a dynamics factor, which drive one
    oscillator per harmonic; dragging the orb, presets and sliders change
    them, and the wheel zooms the camera within bounds. The 3-D scene and
    the audio graph are not modelled. */
module HarmonicOrb {
  import opened Options
  import opened Strings

  datatype Params = Params(baseFrequency: real, harmonicCount: int, timbreShift: real, dynamics: real)

  const InitialParams: Params := Params(220.0, 3, 0.0, 1.0)

  const Waveforms: seq<string> := ["sine", "triangle", "sawtooth", "square"]

  /** `getWaveformForHarmonic`. */
  function Waveform(i: nat): (w: string)
    ensures w in Waveforms
    ensures w == Waveforms[i % 4]
  {
    Waveforms[i % |Waveforms|]
  }

  /** The waveforms repeat every four harmonics, and four neighbours all
      differ. */
  lemma WaveformCycle(i: nat)
    ensures Waveform(i + 4) == Waveform(i)
    ensures forall j :: i < j < i + 4 ==> Waveform(j) != Waveform(i)
  {
    assert (i + 4) % 4 == i % 4;
    forall j | i < j < i + 4
      ensures Waveform(j) != Waveform(i)
    {
      assert j % 4 != i % 4;
    }
  }

  datatype Oscillator = Oscillator(waveform: string, frequency: real, amplitude: real, harmonic: nat)

  /** Frequency of harmonic number `h` (1-based). */
  function Frequency(p: Params, h: nat): real
  {
    p.baseFrequency * h as real * (1.0 + p.timbreShift * 0.01)
  }

  /** Amplitude of harmonic number `h` (1-based). */
  function Amplitude(p: Params, h: nat): real
    requires h > 0
  {
    (0.3 / h as real) * p.dynamics
  }

  /** `createOscillators`: one oscillator per harmonic, numbered from 1;
      none when the count is not positive. */
  method CreateOscillators(p: Params) returns (os: seq<Oscillator>)
    ensures |os| == if p.harmonicCount > 0 then p.harmonicCount else 0
    ensures forall i :: 0 <= i < |os| ==>
              os[i] == Oscillator(Waveform(i), Frequency(p, i + 1), Amplitude(p, i + 1), i + 1)
  {
    os := [];
    var i := 0;
    while i < p.harmonicCount
      invariant 0 <= i && |os| == i
      invariant i <= if p.harmonicCount > 0 then p.harmonicCount else 0
      invariant forall j :: 0 <= j < i ==>
                  os[j] == Oscillator(Waveform(j), Frequency(p, j + 1), Amplitude(p, j + 1), j + 1)
    {
      os := os + [Oscillator(Waveform(i), Frequency(p, i + 1), Amplitude(p, i + 1), i + 1)];
      i := i + 1;
    }
  }

  /** The oscillator bank built from `p`. */
  predicate IsBank(p: Params, os: seq<Oscillator>)
  {
    forall i :: 0 <= i < |os| ==>
      os[i] == Oscillator(Waveform(i), Frequency(p, i + 1), Amplitude(p, i + 1), i + 1)
  }

  /** In a bank every frequency is a whole multiple of the first, and the
      amplitude falls off as one over the harmonic number. */
  lemma BankIsHarmonic(p: Params, os: seq<Oscillator>, i: nat)
    requires IsBank(p, os) && i < |os|
    ensures os[i].frequency == (i + 1) as real * os[0].frequency
    ensures os[i].amplitude * (i + 1) as real == os[0].amplitude
  {
    var k := (i + 1) as real;
    assert os[i].amplitude * k == (0.3 / k) * p.dynamics * k;
    assert (0.3 / k) * k == 0.3;
  }

  /** With positive dynamics, higher harmonics are quieter. */
  lemma HigherHarmonicsQuieter(p: Params, os: seq<Oscillator>, i: nat, j: nat)
    requires IsBank(p, os) && i < j < |os| && p.dynamics > 0.0
    ensures os[j].amplitude < os[i].amplitude
  {
    var a, b := (i + 1) as real, (j + 1) as real;
    assert 0.3 / b < 0.3 / a by {
      assert (0.3 / b) * b == 0.3 && (0.3 / a) * a == 0.3;
    }
  }

  /** `updateOscillators`: each existing oscillator gets the frequency and
      amplitude of its position under `p`; the count and the waveforms
      stay. */
  function UpdateOscillators(p: Params, os: seq<Oscillator>): (r: seq<Oscillator>)
    ensures |r| == |os|
    ensures forall i :: 0 <= i < |os| ==>
              r[i] == os[i].(frequency := Frequency(p, i + 1), amplitude := Amplitude(p, i + 1))
  {
    seq(|os|, i requires 0 <= i < |os| => os[i].(frequency := Frequency(p, i + 1), amplitude := Amplitude(p, i + 1)))
  }

  /** Updating a bank for new parameters with the same harmonic count is
      the same as rebuilding it. */
  lemma UpdateIsRebuild(p: Params, q: Params, os: seq<Oscillator>)
    requires IsBank(q, os)
    ensures IsBank(p, UpdateOscillators(p, os))
  {
  }

  // ---------------------------------------------------------------------
  // Dragging

  function MinR(a: real, b: real): real { if a <= b then a else b }
  function MaxI(a: int, b: int): int { if a >= b then a else b }
  function MinI(a: int, b: int): int { if a <= b then a else b }

  /** `updateAudioFromMorph` with the drag speed and the drag direction
      divided by pi (`turn`): more speed, more harmonics and more
      dynamics; the direction sets the timbre. The base frequency stays. */
  function FromMorph(p: Params, speed: real, turn: real): (r: Params)
    ensures 1 <= r.harmonicCount <= 12
    ensures speed >= 0.0 ==> 3 <= r.harmonicCount <= 9 && 1.0 <= r.dynamics <= 2.0
    ensures r.timbreShift == turn * 50.0
    ensures -1.0 <= turn <= 1.0 ==> -50.0 <= r.timbreShift <= 50.0
    ensures r.baseFrequency == p.baseFrequency
  {
    var speedFactor := MinR(speed * 0.1, 2.0);
    var count := MaxI(1, MinI(12, 3 + (speedFactor * 3.0).Floor));
    Params(p.baseFrequency, count, turn * 50.0, 1.0 + speedFactor * 0.5)
  }

  /** Faster drags never mean fewer harmonics. */
  lemma FasterMeansMore(p: Params, s1: real, s2: real, turn: real)
    requires s1 <= s2
    ensures FromMorph(p, s1, turn).harmonicCount <= FromMorph(p, s2, turn).harmonicCount
    ensures FromMorph(p, s1, turn).dynamics <= FromMorph(p, s2, turn).dynamics
  {
    var f1, f2 := MinR(s1 * 0.1, 2.0), MinR(s2 * 0.1, 2.0);
    assert f1 <= f2;
    assert (f1 * 3.0).Floor <= (f2 * 3.0).Floor;
  }

  // ---------------------------------------------------------------------
  // Labels

  const TimbreLabels: seq<string> := ["Cold", "Neutral", "Warm", "Bright", "Harsh"]
  const DynamicsLabels: seq<string> := ["Soft", "Medium", "Loud", "Punchy", "Crushing"]

  /** `Math.max(0, Math.min(4, n))`. */
  function Clamp4(n: int): (i: nat)
    ensures i <= 4
    ensures 0 <= n <= 4 ==> i == n
    ensures n < 0 ==> i == 0
    ensures n > 4 ==> i == 4
  {
    if n < 0 then 0 else if n > 4 then 4 else n
  }

  function TimbreIndex(t: real): (i: nat)
    ensures i <= 4
  {
    Clamp4(((t + 50.0) / 25.0).Floor)
  }

  function DynamicsIndex(d: real): (i: nat)
    ensures i <= 4
  {
    Clamp4(((d - 0.1) / 0.4).Floor)
  }

  /** The labels of `updateParameterDisplay`: always one of the five. */
  function TimbreLabel(t: real): (s: string)
    ensures s in TimbreLabels
  {
    TimbreLabels[TimbreIndex(t)]
  }

  function DynamicsLabel(d: real): (s: string)
    ensures s in DynamicsLabels
  {
    DynamicsLabels[DynamicsIndex(d)]
  }

  /** More timbre shift or more dynamics never moves the label down the
      list. */
  lemma LabelsMonotone(t1: real, t2: real, d1: real, d2: real)
    requires t1 <= t2 && d1 <= d2
    ensures TimbreIndex(t1) <= TimbreIndex(t2)
    ensures DynamicsIndex(d1) <= DynamicsIndex(d2)
  {
    assert (t1 + 50.0) / 25.0 <= (t2 + 50.0) / 25.0;
    assert (d1 - 0.1) / 0.4 <= (d2 - 0.1) / 0.4;
  }

  /** The timbre sliders' extremes read 'Cold' and 'Harsh'. */
  lemma TimbreExtremes()
    ensures TimbreLabel(-50.0) == "Cold" && TimbreLabel(50.0) == "Harsh"
  {
    assert ((-50.0 + 50.0) / 25.0).Floor == 0;
    assert ((50.0 + 50.0) / 25.0).Floor == 4;
  }

  // ---------------------------------------------------------------------
  // Presets

  const Presets: seq<(string, Params)> := [
    ("bell", Params(523.0, 5, 10.0, 1.2)),
    ("pad", Params(220.0, 8, -20.0, 0.8)),
    ("lead", Params(330.0, 3, 30.0, 1.5)),
    ("bass", Params(110.0, 4, -10.0, 2.0)),
    ("noise", Params(200.0, 12, 50.0, 0.5)),
    ("pulse", Params(440.0, 2, 0.0, 1.8))
  ]

  function FindPreset(ps: seq<(string, Params)>, name: string): (r: Option<Params>)
    ensures r.None? <==> forall i :: 0 <= i < |ps| ==> ps[i].0 != name
    ensures r.Some? ==> exists i :: 0 <= i < |ps| && ps[i] == (name, r.value)
  {
    if |ps| == 0 then None
    else if ps[0].0 == name then Some(ps[0].1)
    else
      var r := FindPreset(ps[1..], name);
      assert forall i :: 1 <= i < |ps| ==> ps[i] == ps[1..][i - 1];
      r
  }

  /** `loadPreset`: a known name sets all four parameters; any other name
      changes nothing. */
  function LoadPreset(p: Params, name: string): (r: Params)
    ensures (forall i :: 0 <= i < |Presets| ==> Presets[i].0 != name) ==> r == p
    ensures forall i :: 0 <= i < |Presets| && Presets[i].0 == name ==> r == Presets[i].1
  {
    var found := FindPreset(Presets, name);
    assert forall i, j :: 0 <= i < j < |Presets| ==> Presets[i].0 != Presets[j].0;
    if found.Some? then found.value else p
  }

  /** Every preset keeps the harmonic count within the slider's 1 to 12. */
  lemma PresetsInRange(name: string)
    ensures 1 <= LoadPreset(InitialParams, name).harmonicCount <= 12
  {
    assert forall i :: 0 <= i < |Presets| ==> 1 <= Presets[i].1.harmonicCount <= 12;
  }

  // ---------------------------------------------------------------------
  // The orb

  /** The sound state: parameters, whether audio has been enabled, the
      oscillators and the camera distance. */
  datatype Orb = Orb(params: Params, audio: bool, oscillators: seq<Oscillator>, cameraZ: real)

  /** `handleWheel`: the camera moves by a thousandth of the wheel delta
      and stays between 2 and 10. */
  function Wheel(o: Orb, deltaY: real): (r: Orb)
    ensures 2.0 <= r.cameraZ <= 10.0
    ensures 2.0 <= o.cameraZ + deltaY * 0.001 <= 10.0 ==> r.cameraZ == o.cameraZ + deltaY * 0.001
    ensures r.(cameraZ := o.cameraZ) == o
  {
    var z := o.cameraZ + deltaY * 0.1 * 0.01;
    o.(cameraZ := if z < 2.0 then 2.0 else if z > 10.0 then 10.0 else z)
  }

  /** Parameters change and the oscillators are rebuilt, when audio runs. */
  method Rebuild(o: Orb, p: Params) returns (r: Orb)
    ensures r.params == p && r.audio == o.audio && r.cameraZ == o.cameraZ
    ensures o.audio ==> IsBank(p, r.oscillators) &&
                        |r.oscillators| == (if p.harmonicCount > 0 then p.harmonicCount else 0)
    ensures !o.audio ==> r.oscillators == []
    ensures Consistent(r)
  {
    if o.audio {
      var os := CreateOscillators(p);
      r := o.(params := p, oscillators := os);
    } else {
      r := o.(params := p, oscillators := []);
    }
  }

  /** The orb as constructed: the initial parameters, no audio, no
      oscillators, and the camera at distance 5. */
  const InitialOrb: Orb := Orb(InitialParams, false, [], 5.0)

  /** The constructed orb is consistent and its camera within the zoom range. */
  lemma InitialConsistent()
    ensures Consistent(InitialOrb) && 2.0 <= InitialOrb.cameraZ <= 10.0
  {
  }

  /** The enable-audio button (`initializeAudio`): audio runs and the bank
      of the current parameters is built, replacing any earlier one. */
  method EnableAudio(o: Orb) returns (r: Orb)
    ensures r.audio && r.params == o.params && r.cameraZ == o.cameraZ
    ensures IsBank(o.params, r.oscillators)
    ensures |r.oscillators| == if o.params.harmonicCount > 0 then o.params.harmonicCount else 0
    ensures Consistent(r)
  {
    r := Rebuild(o.(audio := true), o.params);
  }

  /** A drag step: without audio nothing changes. */
  method Drag(o: Orb, speed: real, turn: real) returns (r: Orb)
    ensures !o.audio ==> r == o
    ensures o.audio ==> r.params == FromMorph(o.params, speed, turn) && IsBank(r.params, r.oscillators)
    ensures o.audio ==> |r.oscillators| == r.params.harmonicCount
    ensures r.audio == o.audio && r.cameraZ == o.cameraZ
    ensures Consistent(o) ==> Consistent(r)
  {
    if !o.audio {
      return o;
    }
    r := Rebuild(o, FromMorph(o.params, speed, turn));
  }

  /** A preset button. */
  method Preset(o: Orb, name: string) returns (r: Orb)
    ensures (forall i :: 0 <= i < |Presets| ==> Presets[i].0 != name) ==> r == o
    ensures (exists i :: 0 <= i < |Presets| && Presets[i].0 == name) ==>
              r.params == LoadPreset(o.params, name) && (o.audio ==> IsBank(r.params, r.oscillators))
    ensures (exists i :: 0 <= i < |Presets| && Presets[i].0 == name) && o.audio ==>
              |r.oscillators| == r.params.harmonicCount
    ensures r.audio == o.audio && r.cameraZ == o.cameraZ
    ensures Consistent(o) ==> Consistent(r)
  {
    if FindPreset(Presets, name).None? {
      return o;
    }
    r := Rebuild(o, LoadPreset(o.params, name));
  }

  /** The orb's oscillators are the bank of its parameters, and there are
      none before audio is enabled. */
  predicate Consistent(o: Orb)
  {
    IsBank(o.params, o.oscillators) && (!o.audio ==> o.oscillators == [])
  }

  /** The base-frequency, timbre and dynamics sliders: the parameters
      change and existing oscillators are retuned in place (nothing
      happens to them without audio or without oscillators). */
  function Slide(o: Orb, p: Params): (r: Orb)
    ensures r.params == p && r.audio == o.audio && r.cameraZ == o.cameraZ
    ensures |r.oscillators| == |o.oscillators|
    ensures Consistent(o) ==> Consistent(r)
  {
    if !o.audio || |o.oscillators| == 0 then o.(params := p)
    else o.(params := p, oscillators := UpdateOscillators(p, o.oscillators))
  }

  function SetBaseFrequency(o: Orb, v: real): (r: Orb)
    ensures r.params == o.params.(baseFrequency := v)
    ensures Consistent(o) ==> Consistent(r)
  {
    Slide(o, o.params.(baseFrequency := v))
  }

  function SetTimbreShift(o: Orb, v: real): (r: Orb)
    ensures r.params == o.params.(timbreShift := v)
    ensures Consistent(o) ==> Consistent(r)
  {
    Slide(o, o.params.(timbreShift := v))
  }

  function SetDynamics(o: Orb, v: real): (r: Orb)
    ensures r.params == o.params.(dynamics := v)
    ensures Consistent(o) ==> Consistent(r)
  {
    Slide(o, o.params.(dynamics := v))
  }

  /** The harmonic-count slider rebuilds the bank. */
  method SetHarmonicCount(o: Orb, n: int) returns (r: Orb)
    ensures r.params == o.params.(harmonicCount := n)
    ensures Consistent(r)
    ensures o.audio ==> |r.oscillators| == if n > 0 then n else 0
  {
    r := Rebuild(o, o.params.(harmonicCount := n));
  }
}

=== FILE: hydration.dfy ===
/** Hydration hero: a daily water intake against a fixed goal, a
    suggestion from the intake and a (random) weather and activity, and a
    reminder flag. */
module Hydration {
  import opened Options
  import opened Seqs
  import opened Strings

  /** Millilitres per day. */
  const Goal: int := 2000

  /** The amount the popup refuses to log below. */
  const MinimumLog: int := 50

  datatype Tracker = Tracker(intake: int, reminderSet: bool)

  const Initial: Tracker := Tracker(0, false)

  /** `logWater`. */
  function LogWater(t: Tracker, amount: int): (r: Tracker)
    ensures r.intake - t.intake == amount
    ensures r.reminderSet == t.reminderSet
  {
    t.(intake := t.intake + amount)
  }

  datatype Progress = Progress(total: int, goal: int)

  /** `getProgress`. */
  function GetProgress(t: Tracker): (p: Progress)
    ensures p.total == t.intake && p.goal == Goal
  {
    Progress(t.intake, Goal)
  }

  const Weathers: seq<string> := ["hot", "cold", "humid", "dry"]
  const Activities: seq<string> := ["active", "sedentary"]

  const IncreaseAdvice := "Increase your water intake today."
  const DrinkMoreAdvice := "Try to drink more water."
  const KeepAdvice := "Keep hydrated!"

  /** The advice for a weather and activity: hot weather or activity asks
      for more; otherwise less than half the goal asks to drink more. */
  function Advice(intake: int, weather: string, activity: string): (s: string)
    ensures weather == "hot" || activity == "active" ==> s == IncreaseAdvice
    ensures weather != "hot" && activity != "active" && intake < Goal / 2 ==> s == DrinkMoreAdvice
    ensures weather != "hot" && activity != "active" && intake >= Goal / 2 ==> s == KeepAdvice
  {
    if weather == "hot" || activity == "active" then IncreaseAdvice
    else if intake < Goal / 2 then DrinkMoreAdvice
    else KeepAdvice
  }

  /** `getSuggestion` with the two draws of `Math.random()`. */
  function GetSuggestion(t: Tracker, xw: real, xa: real): (s: string)
    requires 0.0 <= xw < 1.0 && 0.0 <= xa < 1.0
    ensures exists w, a :: w in Weathers && a in Activities &&
              s == "Weather: " + w + ", Activity: " + a + ". " + Advice(t.intake, w, a)
  {
    var w := Weathers[RandomIndex(xw, 4)];
    var a := Activities[RandomIndex(xa, 2)];
    "Weather: " + w + ", Activity: " + a + ". " + Advice(t.intake, w, a)
  }

  /** Below half the goal the suggestion never says to keep going as is. */
  lemma LowIntakeNeverKeep(intake: int, weather: string, activity: string)
    requires intake < Goal / 2
    ensures Advice(intake, weather, activity) != KeepAdvice
  {
  }

  /** `setReminder` (the message it sends to the background page is left
      out). */
  function SetReminder(t: Tracker): (r: Tracker)
    ensures r.reminderSet && r.intake == t.intake
  {
    t.(reminderSet := true)
  }

  lemma SetReminderIdempotent(t: Tracker)
    ensures SetReminder(SetReminder(t)) == SetReminder(t)
  {
  }

  /** `getReminderStatus`. */
  function ReminderStatus(t: Tracker): (s: string)
    ensures t.reminderSet <==> s == "Reminder is set!"
    ensures !t.reminderSet <==> s == "No reminder set."
  {
    if t.reminderSet then "Reminder is set!" else "No reminder set."
  }

  /** The amount the log button accepts from the typed text: the parsed
      integer, unless it is NaN, 0 or below 50. */
  function Accepted(input: string): (a: Option<int>)
    ensures a.Some? <==> ParseInt(input).Some? && ParseInt(input).value >= MinimumLog
    ensures a.Some? ==> a == ParseInt(input)
  {
    var amount := ParseInt(input);
    if amount.None? || amount.value == 0 || amount.value < MinimumLog then None else amount
  }

  /** The log button. */
  function LogClick(t: Tracker, input: string): (r: Tracker)
    ensures Accepted(input).None? ==> r == t
    ensures Accepted(input).Some? ==> r == LogWater(t, Accepted(input).value)
  {
    var a := Accepted(input);
    if a.None? then t else LogWater(t, a.value)
  }

  function LogClicks(t: Tracker, inputs: seq<string>): Tracker
    decreases |inputs|
  {
    if |inputs| == 0 then t else LogClick(LogClicks(t, inputs[..|inputs| - 1]), inputs[|inputs| - 1])
  }

  /** The amounts accepted from a sequence of typed texts, in order. */
  function AcceptedAmounts(inputs: seq<string>): (ms: seq<int>)
    ensures forall i :: 0 <= i < |ms| ==> ms[i] >= MinimumLog
    decreases |inputs|
  {
    if |inputs| == 0 then []
    else
      var a := Accepted(inputs[|inputs| - 1]);
      AcceptedAmounts(inputs[..|inputs| - 1]) + (if a.Some? then [a.value] else [])
  }

  /** Through the popup the intake is the sum of the accepted amounts, so
      it is 0 or at least 50 and never decreases. */
  lemma {:induction false} IntakeIsAcceptedSum(inputs: seq<string>)
    ensures LogClicks(Initial, inputs).intake == SumBack(AcceptedAmounts(inputs))
    ensures LogClicks(Initial, inputs).intake == 0 || LogClicks(Initial, inputs).intake >= MinimumLog
    decreases |inputs|
  {
    if |inputs| > 0 {
      IntakeIsAcceptedSum(inputs[..|inputs| - 1]);
      var a := Accepted(inputs[|inputs| - 1]);
      var ms := AcceptedAmounts(inputs[..|inputs| - 1]);
      if a.Some? {
        assert (ms + [a.value])[..|ms|] == ms;
      } else {
        assert ms + [] == ms;
      }
    }
  }

  /** Sum from the back, matching the order amounts are logged in. */
  function SumBack(s: seq<int>): int
  {
    if |s| == 0 then 0 else SumBack(s[..|s| - 1]) + s[|s| - 1]
  }

  /** More clicks never lower the intake. */
  lemma {:induction false} IntakeNeverDecreases(inputs: seq<string>, more: seq<string>)
    ensures LogClicks(Initial, inputs + more).intake >= LogClicks(Initial, inputs).intake
    decreases |more|
  {
    if |more| > 0 {
      var init := more[..|more| - 1];
      IntakeNeverDecreases(inputs, init);
      assert (inputs + more)[..|inputs + more| - 1] == inputs + init;
    } else {
      assert inputs + more == inputs;
    }
  }
}

=== FILE: narrative_gen.dfy ===
/** The narrative loom: the user selects a thread (a mood), pulls story
    elements drawn from fragment lists, and the page weaves them into a
    sentence or into a tale set in the past, present or future. */
module NarrativeGen {
  import opened Options
  import opened Seqs
  import opened Strings
  import opened Assoc

  /** The fragment lists, by mood thread and by element type. */
  const Fragments: seq<(string, seq<string>)> := [
    ("passion", ["burning", "fierce", "intense", "yearning", "fiery"]),
    ("melancholy", ["whispering", "fading", "distant", "haunting", "silent"]),
    ("hope", ["glowing", "rising", "blooming", "promising", "warm"]),
    ("mystery", ["shadowed", "hidden", "ancient", "cryptic", "veiled"]),
    ("dreams", ["floating", "ethereal", "shifting", "illusory", "dreamlike"]),
    ("character", ["a wanderer", "the weaver", "a child", "an oracle", "the keeper"]),
    ("place", ["in a forgotten library", "beneath silver stars", "within a crystal cave", "by the endless sea", "at the edge of time"]),
    ("object", ["a glowing thread", "an ancient key", "a broken mirror", "a whispering shell", "a frozen moment"]),
    ("emotion", ["with quiet hope", "carrying sorrow", "filled with wonder", "burning with purpose", "drifting in peace"]),
    ("event", ["as dawn breaks", "when the veil thins", "during the eclipse", "while the world sleeps", "at the turning tide"])
  ]

  /** The selected thread (`None` for null), the pulled elements and the
      text shown. */
  datatype Loom = Loom(thread: Option<string>, elements: seq<string>, text: string)

  const Initial: Loom := Loom(None, [], "")

  const SelectFirst := "\U{1F4AB} select a thread first..."
  const PullPrompt := "pull threads to weave your tale..."
  const WeaveFirst := "weave some elements first..."
  const ResetPrompt := "Pull the threads to weave a tale..."

  /** Clicking a spool selects its thread. */
  function SelectThread(l: Loom, thread: string): (r: Loom)
    ensures r.thread == Some(thread) && r.elements == l.elements && r.text == l.text
  {
    l.(thread := Some(thread))
  }

  /** The opening sentence: the first three elements make one sentence,
      one or two elements make a shorter one. */
  function Opening(es: seq<string>): string
    requires |es| > 0
  {
    if |es| >= 3 then "Once, " + es[0] + " came to " + es[1] + ", " + es[2] + "."
    else if |es| == 2 then es[0] + " met " + es[1] + "..."
    else es[0] + " awaits..."
  }

  /** The sentences the fourth and fifth elements add. */
  function Coda(es: seq<string>): string
  {
    (if |es| >= 4 then " There, " + es[3] + " was found." else "")
    + (if |es| >= 5 then " And " + es[4] + " changed everything." else "")
  }

  /** `weaveStory`. */
  function Weave(es: seq<string>): (t: string)
    ensures |es| == 0 ==> t == PullPrompt
  {
    if |es| == 0 then PullPrompt else Opening(es) + Coda(es)
  }

  /** Elements after the fifth never reach the story. */
  lemma OnlyFiveWoven(es: seq<string>)
    requires |es| >= 5
    ensures Weave(es) == Weave(es[..5])
  {
  }

  /** Every one of the first five elements appears in the story. */
  lemma FirstFiveAppear(es: seq<string>, i: nat)
    requires i < |es| && i < 5
    ensures Contains(Weave(es), es[i])
  {
    if i < 3 {
      OpeningMentions(es, i);
      ContainsExtend(Opening(es), Coda(es), es[i]);
    } else {
      CodaMentions(es, i);
      ContainsPrefixed(Opening(es), Coda(es), es[i]);
    }
  }

  lemma OpeningMentions(es: seq<string>, i: nat)
    requires i < |es| && i < 3
    ensures Contains(Opening(es), es[i])
  {
    if |es| >= 3 {
      OpeningOfThree(es, i);
    } else if |es| == 2 {
      if i == 0 {
        ContainsSuffixed("", es[0]);
        assert "" + es[0] == es[0];
        ContainsExtend(es[0], " met ", es[0]);
        ContainsExtend(es[0] + " met ", es[1], es[0]);
        ContainsExtend(es[0] + " met " + es[1], "...", es[0]);
      } else {
        ContainsSuffixed(es[0] + " met ", es[1]);
        ContainsExtend(es[0] + " met " + es[1], "...", es[1]);
      }
    } else {
      ContainsSuffixed("", es[0]);
      assert "" + es[0] == es[0];
      ContainsExtend(es[0], " awaits...", es[0]);
    }
  }

  lemma OpeningOfThree(es: seq<string>, i: nat)
    requires 3 <= |es| && i < 3
    ensures Contains(Opening(es), es[i])
  {
    var x := es[i];
    if i == 0 {
      ContainsSuffixed("Once, ", x);
      ContainsExtend("Once, " + es[0], " came to ", x);
      ContainsExtend("Once, " + es[0] + " came to ", es[1], x);
    } else if i == 1 {
      ContainsSuffixed("Once, " + es[0] + " came to ", es[1]);
    }
    if i <= 1 {
      ContainsExtend("Once, " + es[0] + " came to " + es[1], ", ", x);
      ContainsExtend("Once, " + es[0] + " came to " + es[1] + ", ", es[2], x);
    } else {
      ContainsSuffixed("Once, " + es[0] + " came to " + es[1] + ", ", es[2]);
    }
    ContainsExtend("Once, " + es[0] + " came to " + es[1] + ", " + es[2], ".", x);
  }

  lemma CodaMentions(es: seq<string>, i: nat)
    requires 3 <= i < |es| && i < 5
    ensures Contains(Coda(es), es[i])
  {
    var four := " There, " + es[3] + " was found.";
    var five := if |es| >= 5 then " And " + es[4] + " changed everything." else "";
    assert Coda(es) == four + five;
    if i == 3 {
      ContainsSuffixed(" There, ", es[3]);
      ContainsExtend(" There, " + es[3], " was found.", es[3]);
      ContainsExtend(four, five, es[3]);
    } else {
      ContainsSuffixed(" And ", es[4]);
      ContainsExtend(" And " + es[4], " changed everything.", es[4]);
      ContainsPrefixed(four, five, es[4]);
    }
  }

  /** `storyFragments[type] || storyFragments[selectedThread]`. */
  function ListFor(kind: string, thread: string): (r: Option<seq<string>>)
    ensures Lookup(Fragments, kind).Some? ==> r == Lookup(Fragments, kind)
    ensures Lookup(Fragments, kind).None? ==> r == Lookup(Fragments, thread)
  {
    var byKind := Lookup(Fragments, kind);
    if byKind.Some? then byKind else Lookup(Fragments, thread)
  }

  /** Every fragment list has five entries. */
  lemma ListsHaveFive(k: string)
    ensures Lookup(Fragments, k).Some? ==> |Lookup(Fragments, k).value| == 5
  {
    if Lookup(Fragments, k).Some? {
      var h := LookupSome(Fragments, k);
      assert forall i :: 0 <= i < |Fragments| ==> |Fragments[i].1| == 5;
    }
  }

  /** `addElement(type)` with the draw `x` = `Math.random()`. */
  function AddElement(l: Loom, kind: string, x: real): (r: Loom)
    requires 0.0 <= x < 1.0
    ensures l.thread.None? || l.thread == Some("") ==> r == l.(text := SelectFirst)
    ensures r.thread == l.thread
    ensures l.thread.Some? && l.thread.value != "" && ListFor(kind, l.thread.value).None? ==> r == l
    ensures l.thread.Some? && l.thread.value != "" && ListFor(kind, l.thread.value).Some? ==>
              |r.elements| == |l.elements| + 1 && r.elements[..|l.elements|] == l.elements &&
              r.elements[|l.elements|] in ListFor(kind, l.thread.value).value &&
              r.text == Weave(r.elements)
  {
    if l.thread.None? || l.thread.value == "" then l.(text := SelectFirst)
    else
      var list := ListFor(kind, l.thread.value);
      if list.Some? then
        ListsHaveFive(kind);
        ListsHaveFive(l.thread.value);
        var es := l.elements + [list.value[RandomIndex(x, |list.value|)]];
        assert es[..|l.elements|] == l.elements;
        l.(elements := es, text := Weave(es))
      else l
  }

  /** `weaveTime(time)`: the elements joined by spaces inside a frame for
      the tense; an unknown tense leaves the text empty. */
  function WeaveTime(l: Loom, time: string): (r: Loom)
    ensures r.elements == l.elements && r.thread == l.thread
    ensures |l.elements| == 0 ==> r.text == WeaveFirst
    ensures |l.elements| > 0 && time !in {"past", "present", "future"} ==> r.text == ""
  {
    if |l.elements| == 0 then l.(text := WeaveFirst)
    else
      var all := Join(l.elements, " ");
      var t :=
        if time == "past" then "Long ago, " + all + "... This memory still echoes."
        else if time == "present" then "Now, " + all + " unfolds in the eternal now."
        else if time == "future" then "Someday, " + all + " will be remembered as prophecy."
        else "";
      l.(text := t)
  }

  /** A tale in any of the three tenses mentions every element pulled. */
  lemma TimeTaleMentionsAll(l: Loom, time: string, i: nat)
    requires time in {"past", "present", "future"} && i < |l.elements|
    ensures Contains(WeaveTime(l, time).text, l.elements[i])
  {
    var all := Join(l.elements, " ");
    JoinContains(l.elements, " ", i);
    if time == "past" {
      ContainsWithin("Long ago, ", all, "... This memory still echoes.", l.elements[i]);
    } else if time == "present" {
      ContainsWithin("Now, ", all, " unfolds in the eternal now.", l.elements[i]);
    } else {
      ContainsWithin("Someday, ", all, " will be remembered as prophecy.", l.elements[i]);
    }
  }

  /** The double-click reset. */
  function ResetWeave(l: Loom): (r: Loom)
    ensures r.elements == [] && r.thread == l.thread && r.text == ResetPrompt
  {
    l.(elements := [], text := ResetPrompt)
  }
}

=== FILE: notification_filter.dfy ===
/** The mindful notification filter: a fixed list of notifications is split
    into the ones let through and the ones held back, according to the
    user's focus level and stress level. */
module NotificationFilter {
  import opened Options
  import opened Seqs
  import opened Strings

  datatype Notification = Notification(title: string, important: bool)

  predicate IsImportant(n: Notification) { n.important }

  predicate IsRoutine(n: Notification) { !n.important }

  /** The demo's built-in notifications. */
  const Inbox: seq<Notification> := [
    Notification("Meeting at 2pm", true),
    Notification("New email from boss", true),
    Notification("Social media update", false),
    Notification("System update available", false),
    Notification("Project deadline tomorrow", true),
    Notification("Friend sent a meme", false)
  ]

  /** Whether `n` is let through at the given levels: the rule applied to
      each notification, branch by branch. */
  predicate Admits(n: Notification, focus: string, stress: string)
  {
    if focus == "deep" && stress == "high" then n.important
    else if focus == "deep" then n.important || stress == "low"
    else if stress == "high" then n.important
    else true
  }

  /** The allowed list, as a reference definition: the notifications `Admits`
      lets through, in their original order. */
  function AllowedOf(ns: seq<Notification>, focus: string, stress: string): (r: seq<Notification>)
    ensures forall i :: 0 <= i < |r| ==> r[i] in ns && Admits(r[i], focus, stress)
  {
    if |ns| == 0 then []
    else (if Admits(ns[0], focus, stress) then [ns[0]] else []) + AllowedOf(ns[1..], focus, stress)
  }

  /** The filtered (held back) list, as a reference definition. */
  function HeldOf(ns: seq<Notification>, focus: string, stress: string): (r: seq<Notification>)
    ensures forall i :: 0 <= i < |r| ==> r[i] in ns && !Admits(r[i], focus, stress)
  {
    if |ns| == 0 then []
    else (if Admits(ns[0], focus, stress) then [] else [ns[0]]) + HeldOf(ns[1..], focus, stress)
  }

  lemma {:induction false} SplitAppend(a: seq<Notification>, n: Notification, focus: string, stress: string)
    ensures AllowedOf(a + [n], focus, stress) == AllowedOf(a, focus, stress) + (if Admits(n, focus, stress) then [n] else [])
    ensures HeldOf(a + [n], focus, stress) == HeldOf(a, focus, stress) + (if Admits(n, focus, stress) then [] else [n])
  {
    if |a| > 0 {
      assert (a + [n])[1..] == a[1..] + [n];
      var x := if Admits(a[0], focus, stress) then [a[0]] else [];
      var y := if Admits(a[0], focus, stress) then [] else [a[0]];
      SplitAppend(a[1..], n, focus, stress);
      AppendAssoc(x, AllowedOf(a[1..], focus, stress), if Admits(n, focus, stress) then [n] else []);
      AppendAssoc(y, HeldOf(a[1..], focus, stress), if Admits(n, focus, stress) then [] else [n]);
    }
  }

  /** One pass over the notifications that pushes each onto exactly one of
      two lists, both started empty. */
  method FilterNotifications(ns: seq<Notification>, focus: string, stress: string)
    returns (allowed: seq<Notification>, held: seq<Notification>)
    ensures allowed == AllowedOf(ns, focus, stress)
    ensures held == HeldOf(ns, focus, stress)
  {
    allowed := [];
    held := [];
    var i := 0;
    while i < |ns|
      invariant 0 <= i <= |ns|
      invariant allowed == AllowedOf(ns[..i], focus, stress)
      invariant held == HeldOf(ns[..i], focus, stress)
    {
      var n := ns[i];
      assert ns[..i + 1] == ns[..i] + [n];
      SplitAppend(ns[..i], n, focus, stress);
      if focus == "deep" && stress == "high" {
        if n.important { allowed := allowed + [n]; } else { held := held + [n]; }
      } else if focus == "deep" {
        if n.important || stress == "low" { allowed := allowed + [n]; } else { held := held + [n]; }
      } else if stress == "high" {
        if n.important { allowed := allowed + [n]; } else { held := held + [n]; }
      } else {
        allowed := allowed + [n];
      }
      i := i + 1;
    }
    assert ns[..|ns|] == ns;
  }

  /** Every notification lands in exactly one of the two lists. */
  lemma {:induction false} Partition(ns: seq<Notification>, focus: string, stress: string)
    ensures |AllowedOf(ns, focus, stress)| + |HeldOf(ns, focus, stress)| == |ns|
    ensures multiset(AllowedOf(ns, focus, stress)) + multiset(HeldOf(ns, focus, stress)) == multiset(ns)
  {
    if |ns| > 0 {
      assert ns == [ns[0]] + ns[1..];
      Partition(ns[1..], focus, stress);
    }
  }

  /** Each list keeps the original relative order: the allowed list is a
      subsequence of the input, picked by increasing indices. */
  lemma {:induction false} AllowedKeepsOrder(ns: seq<Notification>, focus: string, stress: string)
    ensures exists idx: seq<nat> :: IsPick(ns, idx, AllowedOf(ns, focus, stress))
  {
    if |ns| == 0 {
      var none: seq<nat> := [];
      assert IsPick(ns, none, AllowedOf(ns, focus, stress));
    } else {
      AllowedKeepsOrder(ns[1..], focus, stress);
      var idx: seq<nat> :| IsPick(ns[1..], idx, AllowedOf(ns[1..], focus, stress));
      var shifted := PickTail(ns, idx, AllowedOf(ns[1..], focus, stress));
      if Admits(ns[0], focus, stress) {
        PickHead(ns, shifted, AllowedOf(ns[1..], focus, stress));
        assert AllowedOf(ns, focus, stress) == [ns[0]] + AllowedOf(ns[1..], focus, stress);
        assert IsPick(ns, [0] + shifted, AllowedOf(ns, focus, stress));
      } else {
        assert AllowedOf(ns, focus, stress) == AllowedOf(ns[1..], focus, stress);
        assert IsPick(ns, shifted, AllowedOf(ns, focus, stress));
      }
    }
  }

  /** A pick from the tail of `ns` is a pick from `ns` at positions one further on. */
  lemma PickTail(ns: seq<Notification>, idx: seq<nat>, r: seq<Notification>) returns (shifted: seq<nat>)
    requires |ns| > 0 && IsPick(ns[1..], idx, r)
    ensures IsPick(ns, shifted, r)
    ensures forall k :: 0 <= k < |shifted| ==> shifted[k] > 0
  {
    shifted := seq(|idx|, k requires 0 <= k < |idx| => idx[k] + 1);
  }

  /** Position 0 can be put in front of a pick that avoids it. */
  lemma PickHead(ns: seq<Notification>, idx: seq<nat>, r: seq<Notification>)
    requires |ns| > 0 && IsPick(ns, idx, r)
    requires forall k :: 0 <= k < |idx| ==> idx[k] > 0
    ensures IsPick(ns, [0] + idx, [ns[0]] + r)
  {
  }

  /** `r` is `ns` read at the strictly increasing positions `idx`. */
  predicate IsPick(ns: seq<Notification>, idx: seq<nat>, r: seq<Notification>)
  {
    && |idx| == |r|
    && (forall k :: 0 <= k < |idx| ==> idx[k] < |ns| && ns[idx[k]] == r[k])
    && (forall k, l :: 0 <= k < l < |idx| ==> idx[k] < idx[l])
  }

  /** An important notification is let through whatever the levels. */
  lemma {:induction false} ImportantAlwaysAllowed(ns: seq<Notification>, focus: string, stress: string, i: nat)
    requires i < |ns| && ns[i].important
    ensures ns[i] in AllowedOf(ns, focus, stress)
  {
    if i > 0 {
      ImportantAlwaysAllowed(ns[1..], focus, stress, i - 1);
    }
  }

  /** With focus other than 'deep' and stress other than 'high', nothing is held back. */
  lemma {:induction false} RelaxedAllowsAll(ns: seq<Notification>, focus: string, stress: string)
    requires focus != "deep" && stress != "high"
    ensures AllowedOf(ns, focus, stress) == ns
    ensures HeldOf(ns, focus, stress) == []
  {
    if |ns| > 0 {
      RelaxedAllowsAll(ns[1..], focus, stress);
    }
  }

  /** Under high stress exactly the important notifications are let through, at any focus. */
  lemma {:induction false} HighStressOnlyImportant(ns: seq<Notification>, focus: string)
    ensures AllowedOf(ns, focus, "high") == Filter(ns, IsImportant)
    ensures HeldOf(ns, focus, "high") == Filter(ns, IsRoutine)
  {
    if |ns| > 0 {
      HighStressOnlyImportant(ns[1..], focus);
    }
  }

  /** In deep focus, low stress lets everything through. */
  lemma {:induction false} DeepLowAllowsAll(ns: seq<Notification>)
    ensures AllowedOf(ns, "deep", "low") == ns
    ensures HeldOf(ns, "deep", "low") == []
  {
    if |ns| > 0 {
      DeepLowAllowsAll(ns[1..]);
    }
  }

  /** In deep focus, any stress other than 'low' lets only important notifications through. */
  lemma {:induction false} DeepOtherOnlyImportant(ns: seq<Notification>, stress: string)
    requires stress != "low"
    ensures AllowedOf(ns, "deep", stress) == Filter(ns, IsImportant)
    ensures HeldOf(ns, "deep", stress) == Filter(ns, IsRoutine)
  {
    if |ns| > 0 {
      DeepOtherOnlyImportant(ns[1..], stress);
    }
  }

  /** The extension's state: current levels and the last computed lists. */
  datatype State = State(focus: string, stress: string, notifications: seq<Notification>,
                         allowed: seq<Notification>, held: seq<Notification>)

  const Initial: State := State("normal", "low", Inbox, [], [])

  /** A stored level, or the default when it is missing or empty (falsy). */
  function StoredOr(v: Option<string>, default: string): (r: string)
    ensures v.Some? && v.value != "" ==> r == v.value
    ensures v.None? || v.value == "" ==> r == default
  {
    if v.Some? && v.value != "" then v.value else default
  }

  /** Recomputes both lists from scratch for the state's current levels. */
  function Refilter(st: State): (r: State)
    ensures r.allowed == AllowedOf(st.notifications, st.focus, st.stress)
    ensures r.held == HeldOf(st.notifications, st.focus, st.stress)
    ensures r.focus == st.focus && r.stress == st.stress && r.notifications == st.notifications
  {
    st.(allowed := AllowedOf(st.notifications, st.focus, st.stress),
        held := HeldOf(st.notifications, st.focus, st.stress))
  }

  /** The 'updateFilter' message: read the stored levels (defaulting to
      'normal' and 'low') and refilter. */
  function UpdateFilter(st: State, storedFocus: Option<string>, storedStress: Option<string>): (r: State)
    ensures r.focus == StoredOr(storedFocus, "normal") && r.stress == StoredOr(storedStress, "low")
    ensures r.allowed == AllowedOf(st.notifications, r.focus, r.stress)
    ensures r.held == HeldOf(st.notifications, r.focus, r.stress)
  {
    Refilter(st.(focus := StoredOr(storedFocus, "normal"), stress := StoredOr(storedStress, "low")))
  }

  /** Installation refilters with the in-memory levels (the stored levels
      are set to 'normal' and 'low' at the same time). */
  function OnInstalled(st: State): (r: State)
    ensures r.focus == st.focus && r.stress == st.stress
    ensures r.allowed == AllowedOf(st.notifications, st.focus, st.stress)
    ensures r.held == HeldOf(st.notifications, st.focus, st.stress)
  {
    Refilter(st)
  }

  /** Both lists are rebuilt, so a repeated update with the same stored
      levels gives the same state. */
  lemma UpdateIdempotent(st: State, f: Option<string>, s: Option<string>)
    ensures UpdateFilter(UpdateFilter(st, f, s), f, s) == UpdateFilter(st, f, s)
  {
  }

  /** With nothing stored, an update lets every notification through. */
  lemma MissingLevelsAllowAll(st: State)
    ensures UpdateFilter(st, None, None).allowed == st.notifications
    ensures UpdateFilter(st, None, None).held == []
  {
    RelaxedAllowsAll(st.notifications, "normal", "low");
  }
}

=== FILE: nutrient_risk.dfy ===
/** The nutrient deficiency risk scanner: food-frequency answers are scored
    per nutrient against a fixed weight table, banded into risk levels,
    averaged into an overall score, and turned into dietary advice. */
module NutrientRisk {
  import opened Strings
  import opened Reals

  /** Form answers: field name to chosen value. A missing field reads as "". */
  type Responses = map<string, string>

  function Get(resp: Responses, key: string): string
  {
    if key in resp then resp[key] else ""
  }

  /** One nutrient of the table: its food sources, in order, and for each
      source the risk weight of each answered frequency. */
  datatype Nutrient = Nutrient(key: string, name: string, sources: seq<string>,
                               weights: map<string, map<string, int>>)

  const Full: map<string, int> := map["daily" := 0, "weekly" := 1, "monthly" := 3, "rarely" := 5]
  const Mid4: map<string, int> := map["daily" := 0, "weekly" := 1, "monthly" := 2, "rarely" := 4]
  const Mid3: map<string, int> := map["daily" := 0, "weekly" := 1, "monthly" := 2, "rarely" := 3]
  const Fish: map<string, int> := map["weekly" := 0, "monthly" := 2, "rarely" := 4]

  /** The nine nutrients, in the table's key order. */
  const Table: seq<Nutrient> := [
    Nutrient("vitaminA", "Vitamin A", ["leafyGreens", "citrus", "fish"],
             map["leafyGreens" := Full, "citrus" := Mid4, "fish" := Fish]),
    Nutrient("vitaminC", "Vitamin C", ["citrus", "berries", "cruciferous"],
             map["citrus" := Full, "berries" := Mid4, "cruciferous" := Mid3]),
    Nutrient("vitaminD", "Vitamin D", ["fish", "fortified", "dairy"],
             map["fish" := Fish, "fortified" := Mid3, "dairy" := Mid3]),
    Nutrient("vitaminB12", "Vitamin B12", ["redMeat", "fish", "eggs", "dairy"],
             map["redMeat" := Full, "fish" := Fish, "eggs" := Mid3, "dairy" := Mid3]),
    Nutrient("iron", "Iron", ["redMeat", "leafyGreens", "legumes"],
             map["redMeat" := Full, "leafyGreens" := Mid4, "legumes" := Mid3]),
    Nutrient("calcium", "Calcium", ["dairy", "leafyGreens", "fortified"],
             map["dairy" := Full, "leafyGreens" := Mid4, "fortified" := Mid3]),
    Nutrient("iodine", "Iodine", ["fish", "dairy"],
             map["fish" := Fish, "dairy" := Mid3]),
    Nutrient("zinc", "Zinc", ["redMeat", "legumes", "nuts"],
             map["redMeat" := Full, "legumes" := Mid3, "nuts" := Mid3]),
    Nutrient("folate", "Folate", ["leafyGreens", "legumes", "citrus"],
             map["leafyGreens" := Full, "legumes" := Mid4, "citrus" := Mid3])
  ]

  /** The weight one source contributes: nothing when the source is
      unanswered, and 0 for a frequency the table has no entry for. */
  function Weight(n: Nutrient, resp: Responses, source: string): int
  {
    var freq := Get(resp, source);
    if freq != "" && source in n.weights && freq in n.weights[source] then n.weights[source][freq] else 0
  }

  /** Sum of the weights of `sources`. */
  function SourceScore(n: Nutrient, resp: Responses, sources: seq<string>): int
  {
    if |sources| == 0 then 0 else Weight(n, resp, sources[0]) + SourceScore(n, resp, sources[1..])
  }

  /** Lifestyle adjustment: +1 for heavy alcohol, +1 for heavy coffee, +2 for
      a medication affecting absorption. */
  function Lifestyle(resp: Responses): (b: int)
    ensures 0 <= b <= 4
  {
    (if Get(resp, "alcohol") == "heavy" then 1 else 0)
    + (if Get(resp, "coffee") == "heavy" then 1 else 0)
    + (if Get(resp, "medications") == "absorption" then 2 else 0)
  }

  function Clamp(x: int, lo: int, hi: int): int
    requires lo <= hi
  {
    if x < lo then lo else if x > hi then hi else x
  }

  /** A nutrient's risk score on the 0-10 scale. */
  function Score(n: Nutrient, resp: Responses): (s: int)
    ensures 0 <= s <= 10
    ensures var raw := SourceScore(n, resp, n.sources) + Lifestyle(resp);
            (0 <= raw <= 10 ==> s == raw) && (raw > 10 ==> s == 10) && (raw < 0 ==> s == 0)
  {
    Clamp(SourceScore(n, resp, n.sources) + Lifestyle(resp), 0, 10)
  }

  /** The text recorded for a heavily weighted source. */
  function FactorText(source: string, freq: string): string
  {
    source + " consumption is " + freq
  }

  /** Whether `source` weighs at least 3, which makes it a risk factor. */
  predicate Heavy(n: Nutrient, resp: Responses, source: string)
  {
    Weight(n, resp, source) >= 3
  }

  /** `t` is the factor text of some heavy source among `sources`. */
  predicate IsFactor(n: Nutrient, resp: Responses, sources: seq<string>, t: string)
  {
    exists j :: 0 <= j < |sources| && Heavy(n, resp, sources[j]) && t == FactorText(sources[j], Get(resp, sources[j]))
  }

  /** The risk factors: one text per source whose weight is at least 3, in source order. */
  function Factors(n: Nutrient, resp: Responses, sources: seq<string>): (r: seq<string>)
    ensures |r| <= |sources|
  {
    if |sources| == 0 then []
    else
      (if Heavy(n, resp, sources[0]) then [FactorText(sources[0], Get(resp, sources[0]))] else [])
      + Factors(n, resp, sources[1..])
  }

  /** The factors listed are texts of heavy sources, and every heavy source
      has its text listed. */
  lemma {:induction false} FactorsCorrect(n: Nutrient, resp: Responses, sources: seq<string>)
    ensures forall k :: 0 <= k < |Factors(n, resp, sources)| ==> IsFactor(n, resp, sources, Factors(n, resp, sources)[k])
    ensures forall j :: 0 <= j < |sources| && Heavy(n, resp, sources[j]) ==>
              FactorText(sources[j], Get(resp, sources[j])) in Factors(n, resp, sources)
  {
    if |sources| > 0 {
      FactorsCorrect(n, resp, sources[1..]);
      var rest := Factors(n, resp, sources[1..]);
      var t := FactorText(sources[0], Get(resp, sources[0]));
      var head := if Heavy(n, resp, sources[0]) then [t] else [];
      var r := Factors(n, resp, sources);
      assert r == head + rest;
      forall k | 0 <= k < |r|
        ensures IsFactor(n, resp, sources, r[k])
      {
        if k < |head| {
          assert r[k] == t;
        } else {
          assert r[k] == rest[k - |head|];
          assert IsFactor(n, resp, sources[1..], rest[k - |head|]);
          var j :| 0 <= j < |sources[1..]| && Heavy(n, resp, sources[1..][j]) && r[k] == FactorText(sources[1..][j], Get(resp, sources[1..][j]));
          assert sources[j + 1] == sources[1..][j];
        }
      }
      forall j | 0 <= j < |sources| && Heavy(n, resp, sources[j])
        ensures FactorText(sources[j], Get(resp, sources[j])) in r
      {
        if j > 0 {
          assert sources[j] == sources[1..][j - 1];
        }
      }
    }
  }

  datatype Level = Low | Moderate | High | VeryHigh

  /** Rank of a level, for comparing bands. */
  function Rank(l: Level): nat
  {
    match l
    case Low => 0
    case Moderate => 1
    case High => 2
    case VeryHigh => 3
  }

  /** The band of a nutrient score. */
  function RiskLevel(score: int): (l: Level)
    ensures l == Low <==> score <= 2
    ensures l == Moderate <==> 2 < score <= 5
    ensures l == High <==> 5 < score <= 8
    ensures l == VeryHigh <==> score > 8
  {
    if score <= 2 then Low
    else if score <= 5 then Moderate
    else if score <= 8 then High
    else VeryHigh
  }

  /** A higher score never gets a lower band. */
  lemma RiskLevelMonotone(s: int, t: int)
    requires s <= t
    ensures Rank(RiskLevel(s)) <= Rank(RiskLevel(t))
  {
  }

  /** The band of the average score. */
  function OverallLevel(avg: real): (l: Level)
    ensures l == Low <==> avg <= 2.0
    ensures l == Moderate <==> 2.0 < avg <= 4.0
    ensures l == High <==> 4.0 < avg <= 6.0
    ensures l == VeryHigh <==> avg > 6.0
  {
    if avg <= 2.0 then Low
    else if avg <= 4.0 then Moderate
    else if avg <= 6.0 then High
    else VeryHigh
  }

  lemma OverallLevelMonotone(a: real, b: real)
    requires a <= b
    ensures Rank(OverallLevel(a)) <= Rank(OverallLevel(b))
  {
  }

  /** The label shown for an overall band. */
  function OverallLabel(l: Level): string
  {
    match l
    case Low => "Low Risk"
    case Moderate => "Moderate Risk"
    case High => "High Risk"
    case VeryHigh => "Very High Risk"
  }

  datatype NutrientRisk = NutrientRisk(key: string, name: string, score: int, level: Level, factors: seq<string>)

  datatype Assessment = Assessment(risks: seq<NutrientRisk>, overallScore: real, overallLevel: Level,
                                   highRisk: seq<string>)

  /** The assessment of one nutrient. */
  function Assess(n: Nutrient, resp: Responses): (r: NutrientRisk)
    ensures r.key == n.key && r.name == n.name
    ensures r.score == Score(n, resp) && r.factors == Factors(n, resp, n.sources)
    ensures 0 <= r.score <= 10 && r.level == RiskLevel(r.score)
  {
    var s := Score(n, resp);
    NutrientRisk(n.key, n.name, s, RiskLevel(s), Factors(n, resp, n.sources))
  }

  function TotalScore(ns: seq<Nutrient>, resp: Responses): (t: int)
    ensures 0 <= t <= 10 * |ns|
  {
    if |ns| == 0 then 0 else TotalScore(ns[..|ns| - 1], resp) + Score(ns[|ns| - 1], resp)
  }

  /** Math.round(x) for the non-negative reals: the nearest integer, halves rounded up. */
  function Round(x: real): int
  {
    (x + 0.5).Floor
  }

  /** `name` belongs to some nutrient assessed at exactly High. */
  predicate IsHighRisk(risks: seq<NutrientRisk>, name: string)
  {
    exists j :: 0 <= j < |risks| && risks[j].level == High && risks[j].name == name
  }

  /** The names of the nutrients whose level is exactly High, in table order. */
  function HighRiskNames(risks: seq<NutrientRisk>): (r: seq<string>)
    ensures |r| <= |risks|
    ensures forall k :: 0 <= k < |r| ==> IsHighRisk(risks, r[k])
    ensures forall j :: 0 <= j < |risks| && risks[j].level == High ==> risks[j].name in r
  {
    if |risks| == 0 then []
    else
      var rest := HighRiskNames(risks[1..]);
      var head := if risks[0].level == High then [risks[0].name] else [];
      var r := head + rest;
      forall k | 0 <= k < |r|
        ensures IsHighRisk(risks, r[k])
      {
        if k >= |head| {
          assert r[k] == rest[k - |head|];
          var j :| 0 <= j < |risks[1..]| && risks[1..][j].level == High && risks[1..][j].name == r[k];
          assert risks[j + 1] == risks[1..][j];
        }
      }
      forall j | 0 <= j < |risks| && risks[j].level == High
        ensures risks[j].name in r
      {
        if j > 0 {
          assert risks[j] == risks[1..][j - 1];
        }
      }
      r
  }

  /** Scores every nutrient of `ns` in order and summarises them: the mean
      score, rounded to one decimal, its band, and the High nutrients. */
  method CalculateRisks(ns: seq<Nutrient>, resp: Responses) returns (a: Assessment)
    requires |ns| > 0
    ensures |a.risks| == |ns|
    ensures forall i :: 0 <= i < |ns| ==> a.risks[i] == Assess(ns[i], resp)
    ensures a.overallLevel == OverallLevel(TotalScore(ns, resp) as real / |ns| as real)
    ensures a.overallScore == OverallScore(TotalScore(ns, resp), |ns|)
    ensures 0.0 <= a.overallScore <= 10.0
    ensures forall k :: 0 <= k < |a.highRisk| ==> IsHighRisk(a.risks, a.highRisk[k])
    ensures forall j :: 0 <= j < |a.risks| && a.risks[j].level == High ==> a.risks[j].name in a.highRisk
  {
    var risks: seq<NutrientRisk> := [];
    var total := 0;
    var i := 0;
    while i < |ns|
      invariant 0 <= i <= |ns|
      invariant |risks| == i
      invariant forall j :: 0 <= j < i ==> risks[j] == Assess(ns[j], resp)
      invariant total == TotalScore(ns[..i], resp)
    {
      var r := Assess(ns[i], resp);
      TotalScoreStep(ns, i, resp);
      risks := risks + [r];
      total := total + r.score;
      i := i + 1;
    }
    assert ns[..|ns|] == ns;
    a := Assessment(risks, OverallScore(total, |ns|), OverallLevel(total as real / |ns| as real), HighRiskNames(risks));
  }

  /** Adding the next nutrient adds its score to the running total. */
  lemma TotalScoreStep(ns: seq<Nutrient>, i: nat, resp: Responses)
    requires i < |ns|
    ensures TotalScore(ns[..i + 1], resp) == TotalScore(ns[..i], resp) + Score(ns[i], resp)
  {
    assert ns[..i + 1][..i] == ns[..i];
  }

  /** The scanner's assessment: the nine nutrients of the table, one entry each. */
  method CalculateNutrientRisks(resp: Responses) returns (a: Assessment)
    ensures |a.risks| == 9
    ensures forall i :: 0 <= i < 9 ==> a.risks[i] == Assess(Table[i], resp)
    ensures a.overallScore == OverallScore(TotalScore(Table, resp), |Table|)
    ensures 0.0 <= a.overallScore <= 10.0
    ensures a.overallLevel == OverallLevel(TotalScore(Table, resp) as real / |Table| as real)
    ensures forall k :: 0 <= k < |a.highRisk| ==> IsHighRisk(a.risks, a.highRisk[k])
    ensures forall j :: 0 <= j < 9 && a.risks[j].level == High ==> a.risks[j].name in a.highRisk
  {
    NineNutrients();
    a := CalculateRisks(Table, resp);
  }

  lemma NineNutrients()
    ensures |Table| == 9
  {
  }

  /** The mean of `n` scores totalling `total`, rounded to one decimal. A mean
      of scores in [0,10] stays in [0,10] after rounding, and lies within
      0.05 of the exact mean. */
  function OverallScore(total: int, n: nat): (r: real)
    requires n > 0
    ensures 0 <= total <= 10 * n ==> 0.0 <= r <= 10.0
    ensures -0.05 < r - total as real / n as real <= 0.05
  {
    var avg := total as real / n as real;
    var r := Round(avg * 10.0) as real / 10.0;
    assert 0 <= total <= 10 * n ==> 0.0 <= r <= 10.0 by {
      if 0 <= total <= 10 * n {
        MeanInRange(total, n);
        RoundInRange(avg * 10.0);
      }
    }
    r
  }

  /** The mean of `n` scores of at most 10 each lies in [0, 10]. */
  lemma MeanInRange(total: int, n: nat)
    requires n > 0 && 0 <= total <= 10 * n
    ensures 0.0 <= total as real / n as real <= 10.0
  {
    DivLowerBound(total as real, n as real, 0.0);
    DivUpperBound(total as real, n as real, 10.0);
  }

  /** Rounding keeps a value of [0, 100] within [0, 100]. */
  lemma RoundInRange(x: real)
    requires 0.0 <= x <= 100.0
    ensures 0 <= Round(x) <= 100
  {
  }

  /** A frequency the table has no weight for (fish eaten daily) adds nothing. */
  lemma UnlistedFrequencyCountsZero(resp: Responses)
    requires Get(resp, "fish") == "daily"
    ensures forall i :: 0 <= i < |Table| ==> Weight(Table[i], resp, "fish") == 0
  {
  }

  /** An unanswered questionnaire with no lifestyle flags scores every nutrient 0 (Low). */
  lemma EmptyAnswersAreLowRisk(n: Nutrient)
    ensures Score(n, map[]) == 0 && RiskLevel(Score(n, map[])) == Low
    ensures Factors(n, map[], n.sources) == []
  {
    EmptySources(n, n.sources);
  }

  lemma {:induction false} EmptySources(n: Nutrient, sources: seq<string>)
    ensures SourceScore(n, map[], sources) == 0
    ensures Factors(n, map[], sources) == []
  {
    if |sources| > 0 {
      EmptySources(n, sources[1..]);
    }
  }

  // ----- Dietary advice -----

  const Fallback: string := "Your dietary variety appears good. Continue with balanced eating patterns."

  /** The seven advice sentences, in the order they are considered. */
  const Sentences: seq<string> := [
    "Increase consumption of leafy green vegetables",
    "Include fatty fish at least once per week",
    "Add citrus fruits or other vitamin C-rich foods daily",
    "Ensure adequate protein sources, including both animal and plant-based options",
    "Include calcium-rich foods or fortified alternatives",
    "Incorporate whole grains into meals regularly",
    "Add nuts and seeds as healthy snacks"
  ]

  function RarelyOrMonthly(v: string): bool { v == "rarely" || v == "monthly" }

  /** Whether advice rule `i` fires for the answers. */
  predicate Fires(i: nat, resp: Responses)
    requires i < 7
  {
    match i
    case 0 => RarelyOrMonthly(Get(resp, "leafyGreens"))
    case 1 => Get(resp, "fish") == "rarely"
    case 2 => RarelyOrMonthly(Get(resp, "citrus"))
    case 3 => Get(resp, "redMeat") == "rarely" && Get(resp, "legumes") == "rarely"
    case 4 => Get(resp, "dairy") == "rarely" && Get(resp, "fortified") == "rarely"
    case 5 => Get(resp, "wholeGrains") == "rarely"
    case 6 => Get(resp, "nuts") == "rarely"
  }

  /** Whether each of the seven rules fires, by rule number. */
  function FireFlags(resp: Responses): (f: seq<bool>)
    ensures |f| == 7 && forall i :: 0 <= i < 7 ==> f[i] == Fires(i, resp)
  {
    seq(7, i requires 0 <= i < 7 => Fires(i, resp))
  }

  /** The positions from `from` on where `flags` holds, in increasing order. */
  function TrueIndices(flags: seq<bool>, from: nat): (r: seq<nat>)
    requires from <= |flags|
    ensures |r| <= |flags| - from
    ensures forall k :: 0 <= k < |r| ==> from <= r[k] < |flags|
    decreases |flags| - from
  {
    if from == |flags| then []
    else (if flags[from] then [from] else []) + TrueIndices(flags, from + 1)
  }

  /** Every position listed holds. */
  lemma {:induction false} TrueIndicesSound(flags: seq<bool>, from: nat, k: nat)
    requires from <= |flags| && k < |TrueIndices(flags, from)|
    ensures flags[TrueIndices(flags, from)[k]]
    decreases |flags| - from
  {
    var rest := TrueIndices(flags, from + 1);
    if flags[from] {
      assert TrueIndices(flags, from) == [from] + rest;
      if k > 0 {
        TrueIndicesSound(flags, from + 1, k - 1);
      }
    } else {
      TrueIndicesSound(flags, from + 1, k);
    }
  }

  /** Every position from `from` on that holds is listed. */
  lemma {:induction false} TrueIndicesComplete(flags: seq<bool>, from: nat, i: nat)
    requires from <= i < |flags| && flags[i]
    ensures i in TrueIndices(flags, from)
    decreases |flags| - from
  {
    if i > from {
      TrueIndicesComplete(flags, from + 1, i);
    }
  }

  /** The positions are listed in strictly increasing order. */
  lemma {:induction false} TrueIndicesIncrease(flags: seq<bool>, from: nat, a: nat, b: nat)
    requires from <= |flags| && a < b < |TrueIndices(flags, from)|
    ensures TrueIndices(flags, from)[a] < TrueIndices(flags, from)[b]
    decreases |flags| - from
  {
    var rest := TrueIndices(flags, from + 1);
    if flags[from] {
      assert TrueIndices(flags, from) == [from] + rest;
      if a > 0 {
        TrueIndicesIncrease(flags, from + 1, a - 1, b - 1);
      }
    } else {
      TrueIndicesIncrease(flags, from + 1, a, b);
    }
  }

  /** The numbers of the rules that fire, in rule order. */
  function FiredRules(resp: Responses): (r: seq<nat>)
    ensures |r| <= 7 && forall k :: 0 <= k < |r| ==> r[k] < 7
  {
    TrueIndices(FireFlags(resp), 0)
  }

  /** The rules listed are exactly those that fire, each once and in
      increasing order. */
  lemma FiredRulesCorrect(resp: Responses)
    ensures forall k :: 0 <= k < |FiredRules(resp)| ==> Fires(FiredRules(resp)[k], resp)
    ensures forall i :: 0 <= i < 7 && Fires(i, resp) ==> i in FiredRules(resp)
    ensures forall a, b :: 0 <= a < b < |FiredRules(resp)| ==> FiredRules(resp)[a] < FiredRules(resp)[b]
  {
    var flags := FireFlags(resp);
    forall k | 0 <= k < |FiredRules(resp)|
      ensures Fires(FiredRules(resp)[k], resp)
    {
      TrueIndicesSound(flags, 0, k);
    }
    forall i | 0 <= i < 7 && Fires(i, resp)
      ensures i in FiredRules(resp)
    {
      TrueIndicesComplete(flags, 0, i);
    }
    forall a, b | 0 <= a < b < |FiredRules(resp)|
      ensures FiredRules(resp)[a] < FiredRules(resp)[b]
    {
      TrueIndicesIncrease(flags, 0, a, b);
    }
  }

  /** The advice sentences of the rules that fire, in rule order. */
  function Fired(resp: Responses): (r: seq<string>)
    ensures |r| == |FiredRules(resp)|
    ensures forall k :: 0 <= k < |r| ==> r[k] == Sentences[FiredRules(resp)[k]]
  {
    var rules := FiredRules(resp);
    seq(|rules|, k requires 0 <= k < |rules| => Sentences[rules[k]])
  }

  /** The advice paragraph: the fallback when no rule fires,
      otherwise the fired sentences joined with ". " and closed by a period. */
  function DietaryAdvice(resp: Responses): (r: string)
    ensures (forall i :: 0 <= i < 7 ==> !Fires(i, resp)) ==> r == Fallback
    ensures (exists i :: 0 <= i < 7 && Fires(i, resp)) ==>
              |Fired(resp)| > 0 && r == Join(Fired(resp), ". ") + "."
  {
    var fired := Fired(resp);
    FiredRulesCorrect(resp);
    if |fired| > 0 then
      Join(fired, ". ") + "."
    else
      Fallback
  }
}

=== FILE: options.dfy ===
/** The optional value shared by every module: a lookup that may find
    nothing, a parse that may fail, a JavaScript value that may be
    `undefined`. */
module Options {
  datatype Option<+T> = None | Some(value: T)
}

=== FILE: prob_oracle.dfy ===
/** The probability oracle: three percentages (yes, no, maybe) that are
    redrawn, nudged, jittered and renormalised so they always add up to 100,
    and that can collapse onto a single outcome. */
module ProbOracle {
  import opened Reals

  datatype Outcome = Yes | No | Maybe

  /** The three displayed percentages. */
  datatype Probabilities = Probabilities(yes: int, no: int, maybe: int)

  /** The invariant every operation keeps: three non-negative percentages
      summing to 100. */
  predicate Valid(p: Probabilities)
  {
    p.yes >= 0 && p.no >= 0 && p.maybe >= 0 && p.yes + p.no + p.maybe == 100
  }

  const Initial: Probabilities := Probabilities(34, 33, 33)

  /** `Math.floor(x)` on a real. */
  function Floor(x: real): (n: int)
    ensures n as real <= x < n as real + 1.0
  {
    x.Floor
  }

  /** Scales three weights to percentages: yes and no are rounded down and
      maybe takes the rest. The weights are the ones the callers pass: their
      total is positive (the source divides by it). */
  function Normalise(y: real, n: real, m: real): (p: Probabilities)
    requires y + n + m > 0.0
    ensures p.yes + p.no + p.maybe == 100
    ensures p.yes as real <= y * 100.0 / (y + n + m) < p.yes as real + 1.0
    ensures p.no as real <= n * 100.0 / (y + n + m) < p.no as real + 1.0
    ensures y >= 0.0 && n >= 0.0 && m >= 0.0 ==> Valid(p)
  {
    var t := y + n + m;
    var yes := Floor((y / t) * 100.0);
    var no := Floor((n / t) * 100.0);
    assert (y / t) * 100.0 == y * 100.0 / t;
    assert (n / t) * 100.0 == n * 100.0 / t;
    assert y >= 0.0 && n >= 0.0 && m >= 0.0 ==>
             y * 100.0 / t >= 0.0 && n * 100.0 / t >= 0.0 && y * 100.0 / t + n * 100.0 / t <= 100.0 by {
      if y >= 0.0 && n >= 0.0 && m >= 0.0 {
        DivLowerBound(y * 100.0, t, 0.0);
        DivLowerBound(n * 100.0, t, 0.0);
        DivAdd(y * 100.0, n * 100.0, t);
        DivUpperBound(y * 100.0 + n * 100.0, t, 100.0);
      }
    }
    Probabilities(yes, no, 100 - yes - no)
  }

  /** Percentages that already add up to 100 are left as they are. */
  lemma NormaliseValidIsIdentity(p: Probabilities)
    requires Valid(p)
    ensures Normalise(p.yes as real, p.no as real, p.maybe as real) == p
  {
    var r := Normalise(p.yes as real, p.no as real, p.maybe as real);
    assert (p.yes + p.no + p.maybe) as real == 100.0;
    assert p.yes as real * 100.0 / 100.0 == p.yes as real;
    assert p.no as real * 100.0 / 100.0 == p.no as real;
  }

  /** `Math.floor(20 + x * 60)` for a draw `x` in [0, 1): a weight in [20, 79]. */
  function RawWeight(x: real): (w: int)
    requires 0.0 <= x < 1.0
    ensures 20 <= w <= 79
  {
    Floor(20.0 + x * 60.0)
  }

  /** `consult`: three fresh weights in [20, 79], normalised. `dy`, `dn`
      and `dm` stand for the `Math.random()` draws. */
  function Consult(dy: real, dn: real, dm: real): (p: Probabilities)
    requires 0.0 <= dy < 1.0 && 0.0 <= dn < 1.0 && 0.0 <= dm < 1.0
    ensures Valid(p)
  {
    Normalise(RawWeight(dy) as real, RawWeight(dn) as real, RawWeight(dm) as real)
  }

  /** The state in which `o` is certain. */
  function Certain(o: Outcome): (p: Probabilities)
    ensures Valid(p)
  {
    match o
    case Yes => Probabilities(100, 0, 0)
    case No => Probabilities(0, 100, 0)
    case Maybe => Probabilities(0, 0, 100)
  }

  /** `collapse` with the draw `r` = `Math.random() * 100`: yes below the yes
      share, no below yes + no, maybe otherwise; the chosen outcome becomes
      certain. */
  function Collapse(p: Probabilities, r: real): (res: (Probabilities, Outcome))
    ensures res.0 == Certain(res.1)
    ensures res.1 == Yes <==> r < p.yes as real
    ensures res.1 == No <==> p.yes as real <= r < (p.yes + p.no) as real
    ensures res.1 == Maybe <==> p.yes as real <= r && (p.yes + p.no) as real <= r
  {
    if r < p.yes as real then (Certain(Yes), Yes)
    else if r < (p.yes + p.no) as real then (Certain(No), No)
    else (Certain(Maybe), Maybe)
  }

  /** Once collapsed, the oracle keeps giving the same answer for every draw
      in [0, 100). */
  lemma CollapseIsStable(p: Probabilities, r: real, r2: real)
    requires 0.0 <= r2 < 100.0
    ensures Collapse(Collapse(p, r).0, r2) == Collapse(p, r)
  {
  }

  /** `reset` restores 34 / 33 / 33. */
  function Reset(p: Probabilities): (r: Probabilities)
    ensures Valid(r) && r.yes == 34 && r.no == 33 && r.maybe == 33
  {
    Initial
  }

  function Min(a: int, b: int): int { if a <= b then a else b }

  function Max(a: int, b: int): int { if a >= b then a else b }

  /** Focusing on an outcome card: the chosen share rises by 10 (at most
      90), each other share drops by 5 (at least 5); then normalisation.
      Any card other than 'yes' and 'no' counts as 'maybe'. */
  function Nudge(p: Probabilities, card: string): (r: Probabilities)
    requires p.yes >= 0 && p.no >= 0 && p.maybe >= 0
    ensures Valid(r)
  {
    var w := NudgedWeights(p, card);
    Normalise(w.yes as real, w.no as real, w.maybe as real)
  }

  /** The weights after a card click, before normalisation. */
  function NudgedWeights(p: Probabilities, card: string): (w: Probabilities)
    requires p.yes >= 0 && p.no >= 0 && p.maybe >= 0
    ensures w.yes >= 5 && w.no >= 5 && w.maybe >= 5
    ensures card == "yes" ==> w.yes == Min(90, p.yes + 10) && w.no == Max(5, p.no - 5) && w.maybe == Max(5, p.maybe - 5)
    ensures card == "no" ==> w.no == Min(90, p.no + 10) && w.yes == Max(5, p.yes - 5) && w.maybe == Max(5, p.maybe - 5)
    ensures card != "yes" && card != "no" ==>
              w.maybe == Min(90, p.maybe + 10) && w.yes == Max(5, p.yes - 5) && w.no == Max(5, p.no - 5)
  {
    if card == "yes" then Probabilities(Min(90, p.yes + 10), Max(5, p.no - 5), Max(5, p.maybe - 5))
    else if card == "no" then Probabilities(Max(5, p.yes - 5), Min(90, p.no + 10), Max(5, p.maybe - 5))
    else Probabilities(Max(5, p.yes - 5), Max(5, p.no - 5), Min(90, p.maybe + 10))
  }

  /** Focusing on 'yes' never lowers its displayed share while that share
      is at most 80 (above that the cap at 90 can pull it down). */
  lemma NudgeRaisesChosen(p: Probabilities)
    requires Valid(p) && p.yes <= 80
    ensures Nudge(p, "yes").yes >= p.yes
  {
    var w := NudgedWeights(p, "yes");
    assert w.yes == p.yes + 10;
    assert w.yes + w.no + w.maybe <= 110;
    ShareAtLeast(p.yes, w.yes + w.no + w.maybe);
    assert (w.yes + w.no + w.maybe) as real == w.yes as real + w.no as real + w.maybe as real;
  }

  /** A weight raised by 10 out of a total of at most 110 is still at
      least the old percentage. */
  lemma ShareAtLeast(a: int, t: int)
    requires 0 <= a <= 80 && 10 < t <= 110
    ensures a as real <= (a + 10) as real * 100.0 / t as real
  {
    var ar, tr := a as real, t as real;
    var x := (a + 10) as real * 100.0;
    MulMonotone(ar, tr, 110.0);
    DivLowerBound(x, tr, ar);
  }

  function ClampReal(x: real): (r: real)
    ensures 5.0 <= r <= 90.0
    ensures 5.0 <= x <= 90.0 ==> r == x
  {
    if x < 5.0 then 5.0 else if x > 90.0 then 90.0 else x
  }

  /** One interval tick: each share moves by `(draw - 0.5) * 2`, is clamped
      to [5, 90] and the three are normalised. Any draws are accepted, since
      clamping bounds the weights whatever they are. */
  function Tick(p: Probabilities, dy: real, dn: real, dm: real): (r: Probabilities)
    ensures Valid(r)
  {
    Normalise(ClampReal(p.yes as real + (dy - 0.5) * 2.0),
              ClampReal(p.no as real + (dn - 0.5) * 2.0),
              ClampReal(p.maybe as real + (dm - 0.5) * 2.0))
  }

  /** The oracle's events. */
  datatype Event = ConsultE(dy: real, dn: real, dm: real) | CollapseE(r: real) | ResetE
                 | CardE(card: string) | TickE(ty: real, tn: real, tm: real)

  /** Draws the source can produce: `Math.random()` results in [0, 1). */
  predicate WellDrawn(e: Event)
  {
    e.ConsultE? ==> 0.0 <= e.dy < 1.0 && 0.0 <= e.dn < 1.0 && 0.0 <= e.dm < 1.0
  }

  /** The effect of one event on a valid state. */
  function Step(p: Probabilities, e: Event): (r: Probabilities)
    requires Valid(p) && WellDrawn(e)
    ensures Valid(r)
  {
    match e
    case ConsultE(dy, dn, dm) => Consult(dy, dn, dm)
    case CollapseE(x) => Collapse(p, x).0
    case ResetE => Reset(p)
    case CardE(card) => Nudge(p, card)
    case TickE(ty, tn, tm) => Tick(p, ty, tn, tm)
  }

  /** Starting from 34 / 33 / 33, any run of events leaves three non-negative
      percentages that sum to 100. */
  lemma {:induction false} RunKeepsValid(es: seq<Event>)
    requires forall i :: 0 <= i < |es| ==> WellDrawn(es[i])
    ensures Valid(Run(Initial, es))
  {
    RunFromValid(Initial, es);
  }

  lemma {:induction false} RunFromValid(p: Probabilities, es: seq<Event>)
    requires Valid(p)
    requires forall i :: 0 <= i < |es| ==> WellDrawn(es[i])
    ensures Valid(Run(p, es))
    decreases |es|
  {
    if |es| > 0 {
      assert forall i :: 0 <= i < |es| - 1 ==> es[1..][i] == es[i + 1];
      RunFromValid(Step(p, es[0]), es[1..]);
    }
  }

  /** The state after applying the events in order. */
  function Run(p: Probabilities, es: seq<Event>): Probabilities
    requires Valid(p)
    requires forall i :: 0 <= i < |es| ==> WellDrawn(es[i])
    decreases |es|
  {
    if |es| == 0 then p else Run(Step(p, es[0]), es[1..])
  }
}

=== FILE: quantum_typewriter.dfy ===
/** The quantum typewriter: on-screen and physical keys edit a text held as
    JavaScript holds strings, a sequence of UTF-16 code units. Five effect
    keys raise a 'reality distortion' counter, one of them reverses the
    text and one doubles it, and after any key a random draw may overwrite
    one code unit with a symbol. */
module QuantumTypewriter {
  import opened Options
  import opened Seqs
  import opened Strings

  /** A UTF-16 code unit. */
  newtype Unit = x: int | 0 <= x < 0x1_0000

  predicate IsHigh(u: Unit) { 0xD800 <= u <= 0xDBFF }
  predicate IsLow(u: Unit) { 0xDC00 <= u <= 0xDFFF }

  /** The code units of one character: one below U+10000, otherwise a
      high and a low surrogate. */
  function CharUnits(c: char): (u: seq<Unit>)
    ensures |u| == 1 <==> c as int < 0x1_0000
    ensures |u| == 1 || |u| == 2
    ensures |u| == 1 ==> u[0] as int == c as int && !IsHigh(u[0]) && !IsLow(u[0])
    ensures |u| == 2 ==> IsHigh(u[0]) && IsLow(u[1])
  {
    var n := c as int;
    if n < 0x1_0000 then [n as Unit]
    else [(0xD800 + (n - 0x1_0000) / 0x400) as Unit, (0xDC00 + (n - 0x1_0000) % 0x400) as Unit]
  }

  /** The UTF-16 encoding of a string. */
  function Utf16(s: string): (u: seq<Unit>)
    ensures |s| <= |u| <= 2 * |s|
    decreases |s|
  {
    if |s| == 0 then [] else CharUnits(s[0]) + Utf16(s[1..])
  }

  lemma {:induction false} Utf16Append(a: string, b: string)
    ensures Utf16(a + b) == Utf16(a) + Utf16(b)
    decreases |a|
  {
    if |a| > 0 {
      assert (a + b)[0] == a[0] && (a + b)[1..] == a[1..] + b;
      Utf16Append(a[1..], b);
    } else {
      assert a + b == b;
    }
  }

  /** The character a surrogate pair stands for. */
  function Pair(h: Unit, l: Unit): (c: char)
    requires IsHigh(h) && IsLow(l)
    ensures c as int >= 0x1_0000
  {
    ((h as int - 0xD800) * 0x400 + (l as int - 0xDC00) + 0x1_0000) as char
  }

  /** Decoding: `None` when a surrogate is unpaired, which happens to a
      JavaScript string cut or reversed inside a pair. */
  function Decode(u: seq<Unit>): (r: Option<string>)
    decreases |u|
  {
    if |u| == 0 then Some("")
    else if IsLow(u[0]) then None
    else if IsHigh(u[0]) then
      if |u| >= 2 && IsLow(u[1]) then
        match Decode(u[2..])
        case Some(t) => Some([Pair(u[0], u[1])] + t)
        case None => None
      else None
    else
      match Decode(u[1..])
      case Some(t) => Some([u[0] as int as char] + t)
      case None => None
  }

  lemma CharRoundTrip(c: char, rest: seq<Unit>)
    ensures Decode(CharUnits(c) + rest) ==
              match Decode(rest) case Some(t) => Some([c] + t) case None => None
  {
    var u := CharUnits(c) + rest;
    var n := c as int;
    if n >= 0x1_0000 {
      var q, m := (n - 0x1_0000) / 0x400, (n - 0x1_0000) % 0x400;
      assert q * 0x400 + m == n - 0x1_0000;
      assert u[2..] == rest;
      assert Pair(u[0], u[1]) == c;
    } else {
      assert u[1..] == rest;
    }
  }

  /** Decoding an encoded string gives it back. */
  lemma {:induction false} DecodeUtf16(s: string)
    ensures Decode(Utf16(s)) == Some(s)
    decreases |s|
  {
    if |s| > 0 {
      DecodeUtf16(s[1..]);
      CharRoundTrip(s[0], Utf16(s[1..]));
      assert [s[0]] + s[1..] == s;
    }
  }

  /** A sequence that decodes is the encoding of what it decodes to. */
  lemma {:induction false} Utf16Decode(u: seq<Unit>)
    requires Decode(u).Some?
    ensures Utf16(Decode(u).value) == u
    decreases |u|
  {
    if |u| > 0 {
      var t := Decode(u).value;
      if IsHigh(u[0]) {
        Utf16Decode(u[2..]);
        var c := Pair(u[0], u[1]);
        assert t == [c] + Decode(u[2..]).value;
        assert t[1..] == Decode(u[2..]).value;
        var n := c as int;
        assert n - 0x1_0000 == (u[0] as int - 0xD800) * 0x400 + (u[1] as int - 0xDC00);
        assert CharUnits(c) == u[..2];
      } else {
        Utf16Decode(u[1..]);
        assert t[1..] == Decode(u[1..]).value;
        assert CharUnits(t[0]) == u[..1];
      }
    }
  }

  /** Decoding distributes over a well-formed prefix. */
  lemma DecodeAppend(a: seq<Unit>, b: seq<Unit>)
    requires Decode(a).Some?
    ensures Decode(a + b) ==
              match Decode(b) case Some(t) => Some(Decode(a).value + t) case None => None
  {
    Utf16Decode(a);
    DecodeEncodedPrefix(Decode(a).value, b);
  }

  /** Decoding the encoding of `s` followed by `b` gives `s` followed by
      the decoding of `b`, or fails when `b` does. */
  lemma {:induction false} DecodeEncodedPrefix(s: string, b: seq<Unit>)
    ensures Decode(Utf16(s) + b) ==
              match Decode(b) case Some(t) => Some(s + t) case None => None
    decreases |s|
  {
    if |s| > 0 {
      var rest := Utf16(s[1..]);
      EncodeCons(s, b);
      DecodeEncodedPrefix(s[1..], b);
      CharRoundTrip(s[0], rest + b);
      if Decode(b).Some? {
        ConsSplit(s, Decode(b).value);
      }
    } else {
      assert Utf16(s) + b == b;
      if Decode(b).Some? {
        assert s + Decode(b).value == Decode(b).value;
      }
    }
  }

  /** The encoding of a non-empty string, followed by `b`, is its first
      character's units before the rest's encoding followed by `b`. */
  lemma EncodeCons(s: string, b: seq<Unit>)
    requires |s| > 0
    ensures Utf16(s) + b == CharUnits(s[0]) + (Utf16(s[1..]) + b)
  {
    var c, u := CharUnits(s[0]), Utf16(s[1..]);
    assert Utf16(s) == c + u;
    AppendAssoc(c, u, b);
  }

  /** A non-empty string is its first character before the rest. */
  lemma ConsSplit(s: string, t: string)
    requires |s| > 0
    ensures [s[0]] + (s[1..] + t) == s + t
  {
  }

  // ---------------------------------------------------------------------
  // Keys

  const EnterKey := "\U{23CE}"
  const BackspaceKey := "\U{232B}"
  const SpaceKey := "\U{2423}"

  const BoltKey := "\U{26A1}"
  const SpiralKey := "\U{1F300}"
  const CrystalKey := "\U{1F52E}"
  const InfinityKey := "\U{221E}"
  const CommandKey := "\U{2318}"

  /** The keys that raise the distortion instead of typing. */
  const EffectKeys: seq<string> := [BoltKey, SpiralKey, CrystalKey, InfinityKey, CommandKey]

  /** The symbols a fluctuation writes. */
  const Symbols: seq<string> := [InfinityKey, BoltKey, SpiralKey, CrystalKey, CommandKey, "?", "!", "~"]

  const LineBreak := "<br>"

  /** The text and the distortion counter. */
  datatype Typewriter = Typewriter(text: seq<Unit>, distortion: real)

  const Initial := Typewriter([], 0.0)

  predicate IsEffect(key: string) { key in EffectKeys }

  predicate Ordinary(key: string)
  {
    key != EnterKey && key != BackspaceKey && key != SpaceKey && !IsEffect(key)
  }

  /** `slice(0, -1)`: the text without its last code unit. */
  function DropLast(u: seq<Unit>): (r: seq<Unit>)
    ensures |u| > 0 ==> r + [u[|u| - 1]] == u
    ensures |u| == 0 ==> r == []
  {
    if |u| == 0 then [] else u[..|u| - 1]
  }

  /** `applyQuantumEffect`: the spiral reverses the code units, infinity
      doubles the text, the other effect keys leave it alone. */
  function ApplyEffect(text: seq<Unit>, key: string): (r: seq<Unit>)
    ensures key == SpiralKey ==> |r| == |text| && forall i :: 0 <= i < |r| ==> r[i] == text[|text| - 1 - i]
    ensures key == InfinityKey ==> |r| == 2 * |text| && r[..|text|] == text && r[|text|..] == text
    ensures key != SpiralKey && key != InfinityKey ==> r == text
  {
    if key == SpiralKey then Reverse(text)
    else if key == InfinityKey then text + text
    else text
  }

  /** `handleKeyPress` up to the random fluctuation. */
  function PressKey(t: Typewriter, key: string): (r: Typewriter)
    ensures IsEffect(key) ==> r.distortion == t.distortion + 0.1
    ensures !IsEffect(key) ==> r.distortion == t.distortion
    ensures key == EnterKey ==> r.text == t.text + Utf16(LineBreak)
    ensures key == SpaceKey ==> r.text == t.text + Utf16(" ")
    ensures Ordinary(key) ==> r.text == t.text + Utf16(key)
    ensures key == BackspaceKey ==> r.text == DropLast(t.text)
    ensures IsEffect(key) ==> r.text == ApplyEffect(t.text, key)
  {
    if key == EnterKey then t.(text := t.text + Utf16(LineBreak))
    else if key == BackspaceKey then t.(text := DropLast(t.text))
    else if key == SpaceKey then t.(text := t.text + Utf16(" "))
    else if IsEffect(key) then Typewriter(ApplyEffect(t.text, key), t.distortion + 0.1)
    else t.(text := t.text + Utf16(key))
  }

  /** Backspace undoes an ordinary key of one code unit. */
  lemma BackspaceUndoes(t: Typewriter, key: string)
    requires Ordinary(key) && |Utf16(key)| == 1
    ensures PressKey(PressKey(t, key), BackspaceKey) == t
  {
    var u := PressKey(t, key).text;
    assert u[..|u| - 1] == t.text;
  }

  /** Backspace after a character outside the basic plane leaves its high
      surrogate behind, and the text no longer decodes. */
  lemma BackspaceSplitsPair(text: seq<Unit>, c: char)
    requires Decode(text).Some? && c as int >= 0x1_0000
    ensures DropLast(text + CharUnits(c)) == text + [CharUnits(c)[0]]
    ensures Decode(DropLast(text + CharUnits(c))).None?
  {
    var u := CharUnits(c);
    assert (text + u)[..|text| + 1] == text + [u[0]];
    DecodeAppend(text, [u[0]]);
  }

  /** ⏎ then ⌫ leaves the line break's first three code units, `<br`, in
      the buffer (the source's HTML parser would drop that partial tag). */
  lemma EnterThenBackspace(t: Typewriter)
    ensures PressKey(PressKey(t, EnterKey), BackspaceKey).text == t.text + Utf16("<br")
  {
    assert Utf16(LineBreak) == Utf16("<br") + Utf16(">") by { Utf16Append("<br", ">"); assert "<br" + ">" == LineBreak; }
    var u := t.text + Utf16(LineBreak);
    assert u[..|u| - 1] == t.text + Utf16("<br");
  }

  /** The spiral twice gives the text back, two tenths more distorted. */
  lemma SpiralTwice(t: Typewriter)
    ensures PressKey(PressKey(t, SpiralKey), SpiralKey) == Typewriter(t.text, t.distortion + 0.2)
  {
    ReverseReverse(t.text);
  }

  /** The spiral on a character outside the basic plane puts the low
      surrogate first: the reversed text does not decode. */
  lemma SpiralBreaksPair(c: char)
    requires c as int >= 0x1_0000
    ensures Decode(PressKey(Typewriter(CharUnits(c), 0.0), SpiralKey).text).None?
  {
    var u := CharUnits(c);
    assert Reverse(u)[0] == u[1];
  }

  /** Infinity keeps a well-formed text well formed: it decodes to the old
      text twice. */
  lemma InfinityDoubles(t: Typewriter)
    requires Decode(t.text).Some?
    ensures Decode(PressKey(t, InfinityKey).text) == Some(Decode(t.text).value + Decode(t.text).value)
  {
    DecodeAppend(t.text, t.text);
  }

  /** The key presses in order, without fluctuations. */
  function PressKeys(t: Typewriter, keys: seq<string>): Typewriter
    decreases |keys|
  {
    if |keys| == 0 then t else PressKey(PressKeys(t, keys[..|keys| - 1]), keys[|keys| - 1])
  }

  /** The distortion is a tenth of the number of effect keys pressed. */
  lemma {:induction false} DistortionCountsEffects(t: Typewriter, keys: seq<string>)
    ensures PressKeys(t, keys).distortion == t.distortion + 0.1 * Count(keys, IsEffect) as real
    decreases |keys|
  {
    if |keys| > 0 {
      var init := keys[..|keys| - 1];
      DistortionCountsEffects(t, init);
      CountSnoc(keys, IsEffect);
    }
  }

  /** Ordinary keys alone type their concatenation. */
  lemma {:induction false} OrdinaryKeysType(t: Typewriter, keys: seq<string>)
    requires forall i :: 0 <= i < |keys| ==> Ordinary(keys[i])
    ensures PressKeys(t, keys).text == t.text + Utf16(Concat(keys))
    decreases |keys|
  {
    if |keys| > 0 {
      var init, last := keys[..|keys| - 1], keys[|keys| - 1];
      OrdinaryKeysType(t, init);
      assert keys == init + [last];
      TypeOneMore(t, init, last);
    }
  }

  lemma TypeOneMore(t: Typewriter, init: seq<string>, last: string)
    requires Ordinary(last) && PressKeys(t, init).text == t.text + Utf16(Concat(init))
    ensures PressKeys(t, init + [last]).text == t.text + Utf16(Concat(init + [last]))
  {
    PressOrdinarySnoc(t, init, last);
    ConcatSnoc(init, last);
    Utf16Append(Concat(init), last);
    AppendAssoc(t.text, Utf16(Concat(init)), Utf16(last));
  }

  lemma PressOrdinarySnoc(t: Typewriter, init: seq<string>, last: string)
    requires Ordinary(last)
    ensures PressKeys(t, init + [last]).text == PressKeys(t, init).text + Utf16(last)
  {
    var keys := init + [last];
    assert keys[..|keys| - 1] == init;
  }

  lemma ConcatSnoc(init: seq<string>, last: string)
    ensures Concat(init + [last]) == Concat(init) + last
  {
    var keys := init + [last];
    assert keys[..|keys| - 1] == init;
  }

  /** The keys' strings one after the other. */
  function Concat(keys: seq<string>): (s: string)
    decreases |keys|
  {
    if |keys| == 0 then "" else Concat(keys[..|keys| - 1]) + keys[|keys| - 1]
  }

  // ---------------------------------------------------------------------
  // Fluctuations

  /** `quantumFluctuation` with the draws `x` (position) and `y`
      (symbol): short texts stay; otherwise one code unit is overwritten by
      a symbol's code units. */
  function Fluctuate(text: seq<Unit>, x: real, y: real): (r: seq<Unit>)
    requires 0.0 <= x < 1.0 && 0.0 <= y < 1.0
    ensures |text| <= 5 ==> r == text
    ensures |text| > 5 ==> (exists pos, k :: 0 <= pos < |text| && 0 <= k < |Symbols| &&
                                             r == text[..pos] + Utf16(Symbols[k]) + text[pos + 1..])
    ensures |text| > 5 ==> |text| <= |r| <= |text| + 1
  {
    if |text| <= 5 then text
    else
      var pos := RandomIndex(x, |text|);
      var k := RandomIndex(y, |Symbols|);
      assert forall i :: 0 <= i < |Symbols| ==> |Symbols[i]| == 1;
      text[..pos] + Utf16(Symbols[k]) + text[pos + 1..]
  }

  /** A fluctuation keeps every code unit before the position it hits,
      and every one after it, shifted by the symbol's width. */
  lemma FluctuationIsLocal(text: seq<Unit>, x: real, y: real)
    requires 0.0 <= x < 1.0 && 0.0 <= y < 1.0 && |text| > 5
    ensures var r := Fluctuate(text, x, y);
            var pos := RandomIndex(x, |text|);
            r[..pos] == text[..pos] &&
            r[|r| - (|text| - pos - 1)..] == text[pos + 1..]
  {
  }

  /** `handleKeyPress` in full: the key, then, when the first draw exceeds
      0.7, a fluctuation with the other two draws. */
  function Press(t: Typewriter, key: string, x0: real, x1: real, x2: real): (r: Typewriter)
    requires 0.0 <= x1 < 1.0 && 0.0 <= x2 < 1.0
    ensures r.distortion == PressKey(t, key).distortion
    ensures x0 <= 0.7 ==> r == PressKey(t, key)
    ensures x0 > 0.7 ==> r.text == Fluctuate(PressKey(t, key).text, x1, x2)
  {
    var p := PressKey(t, key);
    if x0 > 0.7 then p.(text := Fluctuate(p.text, x1, x2)) else p
  }

  // ---------------------------------------------------------------------
  // The physical keyboard

  /** The `keydown` handler's choice of key: a one-unit key is typed upper
      cased, Backspace and Enter map to their keys, anything else is
      ignored. The space bar is a one-unit key, so its own branch is never
      reached and it types a plain space. */
  function KeyFor(eventKey: string): (r: Option<string>)
    ensures |Utf16(eventKey)| == 1 ==> r == Some(Upper(eventKey))
    ensures |Utf16(eventKey)| != 1 && eventKey == "Backspace" ==> r == Some(BackspaceKey)
    ensures |Utf16(eventKey)| != 1 && eventKey == "Enter" ==> r == Some(EnterKey)
    ensures |Utf16(eventKey)| != 1 && eventKey != "Backspace" && eventKey != "Enter" ==> r.None?
  {
    if |Utf16(eventKey)| == 1 then Some(Upper(eventKey))
    else if eventKey == "Backspace" then Some(BackspaceKey)
    else if eventKey == "Enter" then Some(EnterKey)
    else if eventKey == " " then Some(SpaceKey)
    else None
  }

  /** The space bar and the on-screen space key type the same text. */
  lemma SpaceBarTypesSpace(t: Typewriter)
    ensures KeyFor(" ") == Some(" ")
    ensures PressKey(t, KeyFor(" ").value) == PressKey(t, SpaceKey)
  {
    assert Utf16(" ") == [32 as Unit];
    assert Upper(" ") == " ";
  }
}

=== FILE: reals.dfy ===
/** Facts about multiplication and division of reals that the solver does
    not find unaided; each is stated once here for the modules that average
    or normalise. */
module Reals {
  /** `y <= x / d` follows from `y * d <= x` when `d` is positive. */
  lemma DivLowerBound(x: real, d: real, y: real)
    requires d > 0.0 && y * d <= x
    ensures y <= x / d
  {
    var q := x / d;
    assert d * q == x;
    MulCancel(d, y, q);
  }

  /** A positive factor can be cancelled from both sides of `<=`. */
  lemma MulCancel(c: real, u: real, v: real)
    requires c > 0.0 && c * u <= c * v
    ensures u <= v
  {
    if u > v {
      MulMonotone(c, v, u);
      assert false;
    }
  }

  /** `x / d <= z` follows from `x <= z * d` when `d` is positive. */
  lemma DivUpperBound(x: real, d: real, z: real)
    requires d > 0.0 && x <= z * d
    ensures x / d <= z
  {
    var q := x / d;
    assert d * q == x;
    MulCancel(d, q, z);
  }

  /** Division by a positive number distributes over a sum. */
  lemma DivAdd(a: real, b: real, d: real)
    requires d > 0.0
    ensures a / d + b / d == (a + b) / d
  {
    var qa, qb, q := a / d, b / d, (a + b) / d;
    assert d * qa == a && d * qb == b && d * q == a + b;
    assert d * (qa + qb) == d * qa + d * qb;
    MulCancel(d, q, qa + qb);
    MulCancel(d, qa + qb, q);
  }

  /** Multiplying by a non-negative factor keeps the order. */
  lemma MulMonotone(c: real, u: real, v: real)
    requires c >= 0.0 && u <= v
    ensures c * u <= c * v
    ensures c > 0.0 && u < v ==> c * u < c * v
  {
    assert c * v - c * u == c * (v - u);
  }

  /** Dividing by a positive number keeps the order. */
  lemma DivMonotone(u: real, v: real, d: real)
    requires d > 0.0 && u <= v
    ensures u / d <= v / d
  {
    var qu, qv := u / d, v / d;
    assert d * qu == u && d * qv == v;
    MulCancel(d, qu, qv);
  }
}

=== FILE: resonance_archive.dfy ===
/** The resonance archive: uploaded and recorded audio pieces
    ("resonances") that gain play counts, can be blended three at a time
    into new pieces, and are listed filtered and sorted; a log keeps the
    newest twenty events. Audio buffers and their processing are not
    modelled: a resonance keeps only its duration. */
module ResonanceArchive {
  import opened Options
  import opened Seqs
  import opened Strings

  datatype Resonance = Resonance(
    id: real,
    title: string,
    duration: real,
    accessCount: nat,
    blendCount: nat,
    stage: string,
    createdAt: int,
    tags: seq<string>,
    sources: seq<real>)

  /** The archive. `selected` holds the blend's sources as positions in
      `resonances` (the list only grows, so positions identify pieces);
      `blend` is the duration of the current blend buffer, if any;
      `history` is the evolution log, newest first. */
  datatype Archive = Archive(resonances: seq<Resonance>, selected: seq<nat>, blend: Option<real>, history: seq<string>)

  const Empty: Archive := Archive([], [], None, [])

  /** The log keeps this many events. */
  const HistoryLimit: nat := 20

  // ---------------------------------------------------------------------
  // Durations

  /** `n.toString()`. */
  function IntToString(n: int): string
  {
    if n < 0 then "-" + NatToString(-n) else NatToString(n)
  }

  /** `padStart(2, '0')`. */
  function PadTwo(s: string): (r: string)
    ensures |s| >= 2 ==> r == s
    ensures |s| < 2 ==> |r| == 2 && r[2 - |s|..] == s
  {
    if |s| >= 2 then s else if |s| == 1 then "0" + s else "00"
  }

  /** JavaScript's `%` on numbers: the remainder takes the dividend's sign. */
  function JsRem(x: real, m: real): real
    requires m > 0.0
  {
    var q := x / m;
    var t := if q >= 0.0 then q.Floor else -((-q).Floor);
    x - m * t as real
  }

  /** `formatDuration`: whole minutes, a colon and the whole seconds left
      over as two digits. */
  function FormatDuration(seconds: real): (t: string)
    ensures seconds >= 0.0 ==>
              exists m: nat, sec: nat :: sec < 60 && m * 60 + sec == seconds.Floor &&
                t == NatToString(m) + ":" + [DigitChar(sec / 10), DigitChar(sec % 10)]
  {
    var minutes := (seconds / 60.0).Floor;
    var rest := JsRem(seconds, 60.0).Floor;
    var t := IntToString(minutes) + ":" + PadTwo(IntToString(rest));
    assert seconds >= 0.0 ==> 0 <= rest < 60 && minutes * 60 + rest == seconds.Floor;
    assert seconds >= 0.0 ==> PadTwo(IntToString(rest)) == [DigitChar(rest / 10), DigitChar(rest % 10)] by {
      if seconds >= 0.0 {
        TwoDigits(rest);
      }
    }
    t
  }

  lemma TwoDigits(n: nat)
    requires n < 60
    ensures PadTwo(NatToString(n)) == [DigitChar(n / 10), DigitChar(n % 10)]
  {
    if n >= 10 {
      assert NatToString(n) == NatToString(n / 10) + [DigitChar(n % 10)];
    }
  }

  // ---------------------------------------------------------------------
  // The evolution log

  /** `addEvolutionEvent`: newest first, at most twenty kept. */
  function AddEvent(h: seq<string>, e: string): (r: seq<string>)
    ensures |r| == if |h| < HistoryLimit then |h| + 1 else HistoryLimit
    ensures r[0] == e
    ensures r[1..] == h[..|r| - 1]
  {
    var r := ([e] + h)[..if |h| + 1 < HistoryLimit then |h| + 1 else HistoryLimit];
    assert r[1..] == h[..|r| - 1];
    r
  }

  /** The log after events `es`, logged in order from `h`. */
  function AddEvents(h: seq<string>, es: seq<string>): seq<string>
    decreases |es|
  {
    if |es| == 0 then h else AddEvent(AddEvents(h, es[..|es| - 1]), es[|es| - 1])
  }

  /** From an empty log, the log is the last twenty events, newest first. */
  lemma {:induction false} LogIsNewestTwenty(es: seq<string>)
    ensures var n := if |es| < HistoryLimit then |es| else HistoryLimit;
            AddEvents([], es) == Reverse(es)[..n]
    decreases |es|
  {
    if |es| > 0 {
      LogIsNewestTwenty(es[..|es| - 1]);
    }
  }

  // ---------------------------------------------------------------------
  // Adding pieces

  /** `name` ends in a '.' at `p` followed by one or more characters none
      of which is '.' or '/': the text the pattern `/\.[^/.]+$/` matches. */
  predicate ExtensionAt(name: string, p: nat)
  {
    && p + 1 < |name| && name[p] == '.'
    && forall i :: p < i < |name| ==> name[i] != '.' && name[i] != '/'
  }

  /** `name.replace(/\.[^/.]+$/, '')`: the name loses its extension when it
      has one, and is otherwise unchanged. */
  function StripExtension(name: string): (r: string)
    ensures forall p: nat :: ExtensionAt(name, p) ==> r == name[..p]
    ensures (forall p: nat :: !ExtensionAt(name, p)) ==> r == name
  {
    var p := LastIndexOf(name, '.');
    var r := if p.Some? && p.value + 1 < |name| && '/' !in name[p.value + 1..] then name[..p.value] else name;
    forall q: nat | ExtensionAt(name, q)
      ensures r == name[..q]
    {
      LastIndexOfIs(name, '.', q);
      var tail := name[q + 1..];
      assert forall i :: 0 <= i < |tail| ==> tail[i] == name[q + 1 + i];
    }
    StrippedHasExtension(name, p);
    r
  }

  /** Where the last dot is stripped, it starts an extension. */
  lemma StrippedHasExtension(name: string, p: Option<nat>)
    requires p == LastIndexOf(name, '.')
    ensures p.Some? && p.value + 1 < |name| && '/' !in name[p.value + 1..] ==> ExtensionAt(name, p.value)
  {
    if p.Some? && p.value + 1 < |name| && '/' !in name[p.value + 1..] {
      forall i | p.value < i < |name|
        ensures name[i] != '/'
      {
        assert name[i] == name[p.value + 1..][i - p.value - 1];
      }
    }
  }

  /** A file name with one extension loses exactly the extension. */
  lemma StripsExtension(base: string, ext: string)
    requires |ext| > 0 && '.' !in ext && '/' !in ext
    ensures StripExtension(base + "." + ext) == base
  {
    var name := base + "." + ext;
    assert forall i :: |base| < i < |name| ==> name[i] == ext[i - |base| - 1];
    assert ExtensionAt(name, |base|);
    assert name[..|base|] == base;
  }

  /** A decoded upload (`processAudioFiles` for one file). */
  function AddUpload(a: Archive, fileName: string, duration: real, id: real, now: int): (r: Archive)
    ensures r.resonances == a.resonances + [Resonance(id, StripExtension(fileName), duration, 0, 0,
                                                      "Original", now, ["user-contributed"], [])]
    ensures r.history == AddEvent(a.history, "Added resonance: " + StripExtension(fileName))
    ensures r.selected == a.selected && r.blend == a.blend
  {
    var res := Resonance(id, StripExtension(fileName), duration, 0, 0, "Original", now, ["user-contributed"], []);
    a.(resonances := a.resonances + [res], history := AddEvent(a.history, "Added resonance: " + res.title))
  }

  const RecordingTitle := "Live Recording"

  /** A finished live recording. */
  function AddRecording(a: Archive, duration: real, id: real, now: int): (r: Archive)
    ensures r.resonances == a.resonances + [Resonance(id, RecordingTitle, duration, 0, 0,
                                                      "Original", now, ["live-recorded"], [])]
    ensures r.history == AddEvent(a.history, "Recorded live resonance: " + RecordingTitle)
    ensures r.selected == a.selected && r.blend == a.blend
  {
    var res := Resonance(id, RecordingTitle, duration, 0, 0, "Original", now, ["live-recorded"], []);
    a.(resonances := a.resonances + [res], history := AddEvent(a.history, "Recorded live resonance: " + res.title))
  }

  // ---------------------------------------------------------------------
  // Playing

  /** `playResonance`: the piece's play count goes up by one; nothing else
      changes. */
  function PlayResonance(a: Archive, i: nat): (r: Archive)
    requires i < |a.resonances|
    ensures |r.resonances| == |a.resonances|
    ensures r.resonances[i].accessCount == a.resonances[i].accessCount + 1
    ensures r.resonances[i].(accessCount := a.resonances[i].accessCount) == a.resonances[i]
    ensures forall j :: 0 <= j < |a.resonances| && j != i ==> r.resonances[j] == a.resonances[j]
    ensures r.selected == a.selected && r.blend == a.blend && r.history == a.history
  {
    var res := a.resonances[i];
    a.(resonances := a.resonances[i := res.(accessCount := res.accessCount + 1)])
  }

  /** Sum of the first `k` weights. */
  function PrefixSum(ws: seq<nat>, k: nat): nat
    requires k <= |ws|
  {
    if k == 0 then 0 else PrefixSum(ws, k - 1) + ws[k - 1]
  }

  /** The weighted pick of `playArchive`: subtract the weights in order
      from `r` and stop at the first that brings it to 0 or below. */
  method WeightedPick(ws: seq<nat>, r: real) returns (sel: Option<nat>)
    ensures sel.Some? ==> sel.value < |ws| && r <= PrefixSum(ws, sel.value + 1) as real
    ensures sel.Some? ==> forall k :: 1 <= k <= sel.value ==> (PrefixSum(ws, k) as real) < r
    ensures sel.None? <==> |ws| == 0 || PrefixSum(ws, |ws|) as real < r
  {
    var random := r;
    var i := 0;
    while i < |ws|
      invariant 0 <= i <= |ws|
      invariant random == r - PrefixSum(ws, i) as real
      invariant forall k :: 1 <= k <= i ==> (PrefixSum(ws, k) as real) < r
    {
      random := random - ws[i] as real;
      if random <= 0.0 {
        PrefixSumMonotone(ws, i + 1, |ws|);
        return Some(i);
      }
      i := i + 1;
    }
    return None;
  }

  function Weights(rs: seq<Resonance>): (ws: seq<nat>)
    ensures |ws| == |rs| && forall i :: 0 <= i < |rs| ==> ws[i] == rs[i].accessCount + 1
  {
    seq(|rs|, i requires 0 <= i < |rs| => rs[i].accessCount + 1)
  }

  lemma {:induction false} PrefixSumMonotone(ws: seq<nat>, i: nat, j: nat)
    requires i <= j <= |ws|
    ensures PrefixSum(ws, i) <= PrefixSum(ws, j)
    decreases j
  {
    if i < j {
      PrefixSumMonotone(ws, i, j - 1);
    }
  }

  /** `Math.random() * total`: a draw in [0, 1) scales a positive total
      to something below it. */
  function Scaled(x: real, total: nat): (r: real)
    requires 0.0 <= x < 1.0
    ensures 0.0 <= r && (total > 0 ==> r < total as real)
  {
    x * total as real
  }

  lemma {:induction false} PrefixSumPositive(ws: seq<nat>, k: nat)
    requires 0 < k <= |ws| && forall i :: 0 <= i < |ws| ==> ws[i] > 0
    ensures PrefixSum(ws, k) >= k
  {
    if k > 1 {
      PrefixSumPositive(ws, k - 1);
    }
  }

  /** `playArchive` with the draw `x` for the weighted pick: nothing on an
      empty archive; otherwise the piece the weighted pick selects is
      played. The uniform fallback is never taken, so its draw is not a
      parameter. */
  method PlayArchive(a: Archive, x: real) returns (r: Archive, played: Option<nat>)
    requires 0.0 <= x < 1.0
    ensures |a.resonances| == 0 ==> r == a && played.None?
    ensures |a.resonances| > 0 ==> played.Some? && played.value < |a.resonances| && r == PlayResonance(a, played.value)
    ensures |a.resonances| > 0 ==>
              var ws := Weights(a.resonances);
              var target := Scaled(x, PrefixSum(ws, |ws|));
              target <= PrefixSum(ws, played.value + 1) as real &&
              forall k :: 1 <= k <= played.value ==> (PrefixSum(ws, k) as real) < target
  {
    if |a.resonances| == 0 {
      return a, None;
    }
    var ws := Weights(a.resonances);
    var total := PrefixSum(ws, |ws|);
    PrefixSumPositive(ws, |ws|);
    var target := Scaled(x, total);
    var pick := WeightedPick(ws, target);
    var i: nat := 0;
    if pick.Some? {
      i := pick.value;
    } else {
      // The uniform fallback `floor(random * n)`: never reached.
      assert false;
    }
    r := PlayResonance(a, i);
    played := Some(i);
  }

  // ---------------------------------------------------------------------
  // Blending

  /** `order` is a shuffle of the positions `0 .. n-1`. */
  predicate IsShuffle(order: seq<nat>, n: nat)
  {
    |order| == n && NoDup(order) && forall k :: 0 <= k < |order| ==> order[k] < n
  }

  /** Longest duration among the selected pieces. */
  function MaxDuration(rs: seq<Resonance>, sel: seq<nat>): (d: real)
    requires |sel| > 0 && forall k :: 0 <= k < |sel| ==> sel[k] < |rs|
    ensures forall k :: 0 <= k < |sel| ==> rs[sel[k]].duration <= d
    ensures exists k :: 0 <= k < |sel| && rs[sel[k]].duration == d
  {
    if |sel| == 1 then rs[sel[0]].duration
    else
      var rest := MaxDuration(rs, sel[1..]);
      assert forall k :: 1 <= k < |sel| ==> sel[k] == sel[1..][k - 1];
      if rs[sel[0]].duration >= rest then rs[sel[0]].duration else rest
  }

  /** Every selected position names a piece. */
  predicate SelectionValid(a: Archive)
  {
    forall k :: 0 <= k < |a.selected| ==> a.selected[k] < |a.resonances|
  }

  /** `createBlend`: nothing without sources; otherwise a blend buffer as
      long as the longest source. */
  function CreateBlend(a: Archive): (r: Archive)
    requires SelectionValid(a)
    ensures |a.selected| == 0 ==> r == a
    ensures |a.selected| > 0 ==> r == a.(blend := Some(MaxDuration(a.resonances, a.selected)))
  {
    if |a.selected| == 0 then a else a.(blend := Some(MaxDuration(a.resonances, a.selected)))
  }

  /** Moving a blend slider rebuilds an existing blend from the current
      selection; with the selection emptied the old blend stays. */
  function ChangeBlendParameter(a: Archive): (r: Archive)
    requires SelectionValid(a)
    ensures a.blend.None? || |a.selected| == 0 ==> r == a
    ensures a.blend.Some? && |a.selected| > 0 ==> r.blend == Some(MaxDuration(a.resonances, a.selected))
    ensures r.resonances == a.resonances && r.selected == a.selected
  {
    if a.blend.Some? then CreateBlend(a) else a
  }

  /** `generateBlend` with the shuffled order of the pieces: fewer than two
      pieces is refused; otherwise the first three of the shuffle (or all
      of them) are selected and blended. */
  function GenerateBlend(a: Archive, order: seq<nat>): (r: Archive)
    requires IsShuffle(order, |a.resonances|)
    ensures |a.resonances| < 2 ==> r == a
    ensures |a.resonances| >= 2 ==>
              |r.selected| == (if |a.resonances| < 3 then |a.resonances| else 3) &&
              NoDup(r.selected) && SelectionValid(r) && r.blend.Some? &&
              r.resonances == a.resonances && r.history == a.history
    ensures |a.resonances| >= 2 ==>
              r.selected == order[..|r.selected|] &&
              r.blend == Some(MaxDuration(a.resonances, r.selected))
  {
    if |a.resonances| < 2 then a
    else
      var n := if |order| < 3 then |order| else 3;
      CreateBlend(a.(selected := order[..n]))
  }

  /** The remove button of a listed source. */
  function RemoveSource(a: Archive, k: nat): (r: Archive)
    ensures k >= |a.selected| ==> r == a
    ensures k < |a.selected| ==> r.selected == a.selected[..k] + a.selected[k + 1..]
    ensures r.resonances == a.resonances && r.blend == a.blend
    ensures NoDup(a.selected) ==> NoDup(r.selected)
    ensures SelectionValid(a) ==> SelectionValid(r)
  {
    if k < |a.selected| then
      var s := a.selected[..k] + a.selected[k + 1..];
      assert forall i :: 0 <= i < |s| ==> s[i] == a.selected[if i < k then i else i + 1];
      a.(selected := s)
    else a
  }

  /** How often `i` is selected. */
  function Occurrences(sel: seq<nat>, i: nat): (n: nat)
    ensures n == 0 <==> i !in sel
  {
    if |sel| == 0 then 0 else (if sel[0] == i then 1 else 0) + Occurrences(sel[1..], i)
  }

  /** Each selected piece is counted once more as a blend source. */
  function CountBlendSources(rs: seq<Resonance>, sel: seq<nat>): (r: seq<Resonance>)
    ensures |r| == |rs|
    ensures forall j :: 0 <= j < |rs| ==>
              r[j] == rs[j].(blendCount := rs[j].blendCount + Occurrences(sel, j))
  {
    seq(|rs|, j requires 0 <= j < |rs| => rs[j].(blendCount := rs[j].blendCount + Occurrences(sel, j)))
  }

  function SourceIds(rs: seq<Resonance>, sel: seq<nat>): (ids: seq<real>)
    requires forall k :: 0 <= k < |sel| ==> sel[k] < |rs|
    ensures |ids| == |sel| && forall k :: 0 <= k < |sel| ==> ids[k] == rs[sel[k]].id
  {
    seq(|sel|, k requires 0 <= k < |sel| => rs[sel[k]].id)
  }

  /** `saveBlend`: nothing without a blend buffer; otherwise the blend is
      added as a new piece that records its sources, each source's blend
      count goes up, the event is logged and the selection is cleared.
      The blend buffer itself stays. */
  function SaveBlend(a: Archive, id: real, title: string, now: int): (r: Archive)
    requires SelectionValid(a)
    ensures a.blend.None? ==> r == a
    ensures a.blend.Some? ==>
              |r.resonances| == |a.resonances| + 1 &&
              r.resonances[|a.resonances|] == Resonance(id, title, a.blend.value, 0, |a.selected|, "Blended",
                                                        now, ["algorithmic-blend"], SourceIds(a.resonances, a.selected)) &&
              (forall j :: 0 <= j < |a.resonances| ==>
                 r.resonances[j].blendCount == a.resonances[j].blendCount + Occurrences(a.selected, j) &&
                 r.resonances[j].(blendCount := a.resonances[j].blendCount) == a.resonances[j]) &&
              r.selected == [] && r.blend == a.blend &&
              r.history == AddEvent(a.history, "Created blend: " + title)
  {
    if a.blend.None? then a
    else
      var b := Resonance(id, title, a.blend.value, 0, |a.selected|, "Blended", now,
                         ["algorithmic-blend"], SourceIds(a.resonances, a.selected));
      Archive(CountBlendSources(a.resonances, a.selected) + [b], [], a.blend,
              AddEvent(a.history, "Created blend: " + title))
  }

  /** With distinct sources, saving raises each source's blend count by
      exactly one and leaves the others alone. */
  lemma SaveRaisesSourcesByOne(a: Archive, id: real, title: string, now: int, j: nat)
    requires SelectionValid(a) && NoDup(a.selected) && a.blend.Some? && j < |a.resonances|
    ensures SaveBlend(a, id, title, now).resonances[j].blendCount ==
              a.resonances[j].blendCount + (if j in a.selected then 1 else 0)
  {
    OccursOnce(a.selected, j);
  }

  lemma {:induction false} OccursOnce(sel: seq<nat>, i: nat)
    requires NoDup(sel)
    ensures Occurrences(sel, i) <= 1
  {
    if |sel| > 0 {
      OccursOnce(sel[1..], i);
      if sel[0] == i {
        assert i !in sel[1..] by {
          assert forall k :: 0 <= k < |sel[1..]| ==> sel[1..][k] == sel[k + 1];
        }
      }
    }
  }

  /** Saving the same blend twice adds a second piece with no sources. */
  lemma SaveTwice(a: Archive, id1: real, id2: real, title: string, now: int)
    requires SelectionValid(a) && a.blend.Some?
    ensures var r := SaveBlend(SaveBlend(a, id1, title, now), id2, title, now);
            |r.resonances| == |a.resonances| + 2 &&
            r.resonances[|a.resonances| + 1].blendCount == 0 &&
            r.resonances[|a.resonances| + 1].sources == []
  {
  }

  // ---------------------------------------------------------------------
  // Listing

  /** Whether a piece matches the search text: its lower-cased title or one
      of its lower-cased tags contains the lower-cased term. */
  predicate Matches(r: Resonance, term: string)
  {
    Contains(Lower(r.title), Lower(term)) || exists k :: 0 <= k < |r.tags| && Contains(Lower(r.tags[k]), Lower(term))
  }

  function MatchesTerm(term: string): Resonance -> bool
  {
    (r: Resonance) => Matches(r, term)
  }

  function ByCreated(r: Resonance): real { r.createdAt as real }
  function ByAccess(r: Resonance): real { r.accessCount as real }
  function ByBlends(r: Resonance): real { r.blendCount as real }
  function ByDuration(r: Resonance): real { r.duration }

  /** The sort key for a sort option, if it is one of the four. */
  function SortKey(sortBy: string): Option<Resonance -> real>
  {
    if sortBy == "recent" then Some(ByCreated)
    else if sortBy == "popular" then Some(ByAccess)
    else if sortBy == "blended" then Some(ByBlends)
    else if sortBy == "duration" then Some(ByDuration)
    else None
  }

  /** `getFilteredResonances`: the matching pieces, largest key first for a
      known sort option, in archive order otherwise. */
  function Filtered(rs: seq<Resonance>, term: string, sortBy: string): (r: seq<Resonance>)
    ensures multiset(r) == multiset(Filter(rs, MatchesTerm(term)))
    ensures forall i :: 0 <= i < |r| ==> Matches(r[i], term) && r[i] in rs
    ensures forall i :: 0 <= i < |rs| && Matches(rs[i], term) ==> rs[i] in r
    ensures SortKey(sortBy).Some? ==> Descending(r, SortKey(sortBy).value)
    ensures SortKey(sortBy).None? ==> r == Filter(rs, MatchesTerm(term))
  {
    var kept := Filter(rs, MatchesTerm(term));
    var key := SortKey(sortBy);
    var r := if key.Some? then SortDesc(kept, key.value) else kept;
    RearrangedFilterPasses(rs, MatchesTerm(term), r);
    RearrangedFilterKeeps(rs, MatchesTerm(term), r);
    r
  }

  /** Sorting keeps the matching pieces of equal key in archive order. */
  lemma FilteredStable(rs: seq<Resonance>, term: string, sortBy: string, v: real)
    requires SortKey(sortBy).Some?
    ensures var key := SortKey(sortBy).value;
            Filter(Filtered(rs, term, sortBy), KeyIs(key, v)) == Filter(Filter(rs, MatchesTerm(term)), KeyIs(key, v))
  {
    SortDescStable(Filter(rs, MatchesTerm(term)), SortKey(sortBy).value, v);
  }

  /** An empty search matches everything. */
  lemma EmptySearchMatchesAll(r: Resonance)
    ensures Matches(r, "")
  {
    ContainsEmpty(Lower(r.title));
  }
}

=== FILE: seqs.dfy ===
/** Generic sequence helpers shared by the demo models: filtering, counting,
    sums, duplicate-freedom and a stable insertion sort by a numeric key. */
module Seqs {

  /** The elements of `s` satisfying `p`, in their original order
      (JavaScript's `Array.prototype.filter`). */
  function Filter<T>(s: seq<T>, p: T -> bool): (r: seq<T>)
    ensures |r| <= |s|
    ensures forall i :: 0 <= i < |r| ==> p(r[i]) && r[i] in s
    ensures forall i :: 0 <= i < |s| && p(s[i]) ==> s[i] in r
  {
    if |s| == 0 then []
    else if p(s[0]) then [s[0]] + Filter(s[1..], p)
    else Filter(s[1..], p)
  }

  lemma {:induction false} FilterAppend<T>(a: seq<T>, b: seq<T>, p: T -> bool)
    ensures Filter(a + b, p) == Filter(a, p) + Filter(b, p)
  {
    if |a| == 0 {
      assert a + b == b;
    } else {
      assert (a + b)[1..] == a[1..] + b;
      FilterAppend(a[1..], b, p);
    }
  }

  /** Counting distributes over concatenation. */
  lemma {:induction false} CountAppend<T>(a: seq<T>, b: seq<T>, p: T -> bool)
    ensures Count(a + b, p) == Count(a, p) + Count(b, p)
  {
    if |a| == 0 {
      assert a + b == b;
    } else {
      assert (a + b)[1..] == a[1..] + b;
      CountAppend(a[1..], b, p);
    }
  }

  /** Counting a sequence with one more element at its end. */
  lemma CountSnoc<T>(s: seq<T>, p: T -> bool)
    requires |s| > 0
    ensures Count(s, p) == Count(s[..|s| - 1], p) + (if p(s[|s| - 1]) then 1 else 0)
  {
    var init, last := s[..|s| - 1], s[|s| - 1];
    assert s == init + [last];
    CountAppend(init, [last], p);
    assert Count([last], p) == if p(last) then 1 else 0;
  }

  /** Filtering with a predicate every element satisfies changes nothing. */
  lemma {:induction false} FilterAll<T>(s: seq<T>, p: T -> bool)
    requires forall i :: 0 <= i < |s| ==> p(s[i])
    ensures Filter(s, p) == s
  {
    if |s| > 0 {
      FilterAll(s[1..], p);
    }
  }

  /** Filtering with a predicate no element satisfies gives the empty sequence. */
  lemma {:induction false} FilterNone<T>(s: seq<T>, p: T -> bool)
    requires forall i :: 0 <= i < |s| ==> !p(s[i])
    ensures Filter(s, p) == []
  {
    if |s| > 0 {
      FilterNone(s[1..], p);
    }
  }

  /** Filters with predicates that agree on every element of `s` agree. */
  lemma {:induction false} FilterCongruent<T>(s: seq<T>, p: T -> bool, q: T -> bool)
    requires forall i :: 0 <= i < |s| ==> p(s[i]) == q(s[i])
    ensures Filter(s, p) == Filter(s, q)
  {
    if |s| > 0 {
      FilterCongruent(s[1..], p, q);
    }
  }

  /** The first element a filter keeps is the first element satisfying `p`. */
  lemma {:induction false} FilterFirst<T>(s: seq<T>, p: T -> bool, i: nat)
    requires i < |s| && p(s[i])
    requires forall j :: 0 <= j < i ==> !p(s[j])
    ensures |Filter(s, p)| > 0 && Filter(s, p)[0] == s[i]
  {
    if i > 0 {
      FilterFirst(s[1..], p, i - 1);
    }
  }

  /** A filter and its complementary filter together keep every element once. */
  lemma {:induction false} FilterPartition<T>(s: seq<T>, p: T -> bool)
    ensures |Filter(s, p)| + |Filter(s, x => !p(x))| == |s|
    ensures multiset(Filter(s, p)) + multiset(Filter(s, x => !p(x))) == multiset(s)
  {
    if |s| > 0 {
      FilterPartition(s[1..], p);
      assert s == [s[0]] + s[1..];
    }
  }

  /** Number of elements satisfying `p`. */
  function Count<T>(s: seq<T>, p: T -> bool): (n: nat)
    ensures n == |Filter(s, p)|
  {
    if |s| == 0 then 0 else (if p(s[0]) then 1 else 0) + Count(s[1..], p)
  }

  function Sum(s: seq<int>): int
  {
    if |s| == 0 then 0 else s[0] + Sum(s[1..])
  }

  function SumReal(s: seq<real>): real
  {
    if |s| == 0 then 0.0 else s[0] + SumReal(s[1..])
  }

  lemma {:induction false} SumRealAppend(a: seq<real>, b: seq<real>)
    ensures SumReal(a + b) == SumReal(a) + SumReal(b)
  {
    if |a| == 0 {
      assert a + b == b;
    } else {
      assert (a + b)[1..] == a[1..] + b;
      SumRealAppend(a[1..], b);
    }
  }

  lemma {:induction false} SumAppend(a: seq<int>, b: seq<int>)
    ensures Sum(a + b) == Sum(a) + Sum(b)
  {
    if |a| == 0 {
      assert a + b == b;
    } else {
      assert (a + b)[1..] == a[1..] + b;
      SumAppend(a[1..], b);
    }
  }

  /** Sequences with the same multiset have the same members. */
  lemma SameMembers<T>(a: seq<T>, b: seq<T>)
    requires multiset(a) == multiset(b)
    ensures forall x :: x in a <==> x in b
  {
    forall x
      ensures x in a <==> x in b
    {
      assert x in a <==> x in multiset(a);
      assert x in b <==> x in multiset(b);
    }
  }

  /** A rearrangement of a filtered sequence holds only elements of the
      original that pass the filter ... */
  lemma RearrangedFilterPasses<T>(s: seq<T>, p: T -> bool, r: seq<T>)
    requires multiset(r) == multiset(Filter(s, p))
    ensures forall i :: 0 <= i < |r| ==> p(r[i]) && r[i] in s
  {
    var kept := Filter(s, p);
    SameMembers(r, kept);
    forall i | 0 <= i < |r|
      ensures p(r[i]) && r[i] in s
    {
      assert r[i] in kept;
      var j :| 0 <= j < |kept| && kept[j] == r[i];
    }
  }

  /** ... and every element that passes. */
  lemma RearrangedFilterKeeps<T>(s: seq<T>, p: T -> bool, r: seq<T>)
    requires multiset(r) == multiset(Filter(s, p))
    ensures forall i :: 0 <= i < |s| && p(s[i]) ==> s[i] in r
  {
    SameMembers(r, Filter(s, p));
  }

  /** No element occurs twice. */
  predicate NoDup<T(==)>(s: seq<T>)
  {
    forall i, j :: 0 <= i < j < |s| ==> s[i] != s[j]
  }

  /** `s` is ordered non-increasingly by `key`. */
  predicate Descending<T>(s: seq<T>, key: T -> real)
  {
    forall i, j :: 0 <= i < j < |s| ==> key(s[i]) >= key(s[j])
  }

  /** In a descending sequence, what lies past the first `k` elements has no
      larger key than anything among them. */
  lemma PrefixDominates<T>(s: seq<T>, k: nat, key: T -> real, p: T, q: T)
    requires Descending(s, key) && k <= |s|
    requires p in multiset(s) - multiset(s[..k]) && q in s[..k]
    ensures key(p) <= key(q)
  {
    assert s == s[..k] + s[k..];
    assert multiset(s) == multiset(s[..k]) + multiset(s[k..]);
    assert p in s[k..];
    var a :| 0 <= a < |s[k..]| && s[k..][a] == p;
    var b :| 0 <= b < k && s[b] == q;
    assert s[k + a] == p;
  }

  /** Inserts `x` after every element whose key is at least `x`'s, so equal
      keys keep their arrival order (a stable descending insertion). */
  function InsertDesc<T>(x: T, s: seq<T>, key: T -> real): (r: seq<T>)
    requires Descending(s, key)
    ensures Descending(r, key)
    ensures multiset(r) == multiset(s) + multiset{x}
    ensures |r| == |s| + 1
  {
    if |s| == 0 then [x]
    else if key(s[0]) >= key(x) then
      assert s == [s[0]] + s[1..];
      var rest := InsertDesc(x, s[1..], key);
      InsertDescHead(x, s, rest, key);
      ConsDescending(s[0], rest, key);
      [s[0]] + rest
    else
      [x] + s
  }

  /** An element with a key at least every key of a descending sequence
      can go in front of it. */
  lemma ConsDescending<T>(h: T, rest: seq<T>, key: T -> real)
    requires Descending(rest, key)
    requires forall i :: 0 <= i < |rest| ==> key(rest[i]) <= key(h)
    ensures Descending([h] + rest, key)
  {
    var r := [h] + rest;
    forall i, j | 0 <= i < j < |r|
      ensures key(r[i]) >= key(r[j])
    {
      assert r[j] == rest[j - 1];
      if i > 0 {
        assert r[i] == rest[i - 1];
      }
    }
  }

  /** Every element of the insertion into the tail of `s` has a key no larger than `s[0]`'s. */
  lemma InsertDescHead<T>(x: T, s: seq<T>, rest: seq<T>, key: T -> real)
    requires |s| > 0 && Descending(s, key) && key(s[0]) >= key(x)
    requires multiset(rest) == multiset(s[1..]) + multiset{x}
    ensures forall i :: 0 <= i < |rest| ==> key(rest[i]) <= key(s[0])
  {
    forall i | 0 <= i < |rest|
      ensures key(rest[i]) <= key(s[0])
    {
      var y := rest[i];
      assert y in multiset(rest);
      if y != x {
        assert y in multiset(s[1..]);
        var j :| 0 <= j < |s[1..]| && s[1..][j] == y;
        assert s[j + 1] == y;
      }
    }
  }

  /** Stable sort by `key`, largest first: the behaviour of JavaScript's
      (stable) `Array.prototype.sort` with comparator `(a, b) => key(b) - key(a)`. */
  function SortDesc<T>(s: seq<T>, key: T -> real): (r: seq<T>)
    ensures Descending(r, key)
    ensures multiset(r) == multiset(s)
    ensures |r| == |s|
    decreases |s|
  {
    if |s| == 0 then []
    else
      var sorted := SortDesc(s[..|s| - 1], key);
      assert s == s[..|s| - 1] + [s[|s| - 1]];
      InsertDesc(s[|s| - 1], sorted, key)
  }

  /** `a` is an initial part of `b`. */
  ghost predicate IsPrefix<T>(a: seq<T>, b: seq<T>)
  {
    |a| <= |b| && b[..|a|] == a
  }

  /** Filtering a prefix gives a prefix of the filtered sequence. */
  lemma FilterPrefix<T>(s: seq<T>, k: nat, p: T -> bool)
    requires k <= |s|
    ensures IsPrefix(Filter(s[..k], p), Filter(s, p))
  {
    var a, b := s[..k], s[k..];
    JoinSlices(s, k);
    FilterAppend(a, b, p);
    PrefixOfAppend(Filter(a, p), Filter(b, p), Filter(a + b, p));
  }

  /** The two slices of `s` at `k` join back to `s`. */
  lemma JoinSlices<T>(s: seq<T>, k: nat)
    requires k <= |s|
    ensures s[..k] + s[k..] == s
  {
  }

  /** The front part of a concatenation is a prefix of it. */
  lemma PrefixOfAppend<T>(a: seq<T>, b: seq<T>, c: seq<T>)
    requires c == a + b
    ensures IsPrefix(a, c)
  {
    assert c[..|a|] == a;
  }

  /** A prefix holds no more of any element than the whole. */
  lemma PrefixSubMultiset<T>(s: seq<T>, k: nat)
    requires k <= |s|
    ensures multiset(s[..k]) <= multiset(s)
  {
    assert s == s[..k] + s[k..];
  }

  /** Holds of the elements whose key is `v`. */
  function KeyIs<T>(key: T -> real, v: real): T -> bool
  {
    y => key(y) == v
  }

  /** Inserting `x` puts it after every element with its key: the elements
      of any one key keep their order, with `x` last among its own. */
  lemma {:induction false} InsertDescStable<T>(x: T, s: seq<T>, key: T -> real, v: real)
    requires Descending(s, key)
    ensures Filter(InsertDesc(x, s, key), KeyIs(key, v))
         == Filter(s, KeyIs(key, v)) + (if key(x) == v then [x] else [])
  {
    var p := KeyIs(key, v);
    if |s| == 0 {
    } else if key(s[0]) >= key(x) {
      var rest := InsertDesc(x, s[1..], key);
      InsertDescStable(x, s[1..], key, v);
      assert InsertDesc(x, s, key) == [s[0]] + rest;
      assert ([s[0]] + rest)[1..] == rest;
    } else {
      if key(x) == v {
        FilterNone(s, p);
      }
      assert ([x] + s)[1..] == s;
    }
  }

  /** `SortDesc` is stable: the elements of any one key appear in the
      sorted sequence in the order they had in `s`. */
  lemma {:induction false} SortDescStable<T>(s: seq<T>, key: T -> real, v: real)
    ensures Filter(SortDesc(s, key), KeyIs(key, v)) == Filter(s, KeyIs(key, v))
    decreases |s|
  {
    if |s| > 0 {
      var init, last := s[..|s| - 1], s[|s| - 1];
      assert s == init + [last];
      var p := KeyIs(key, v);
      var sortedInit := SortDesc(init, key);
      assert SortDesc(s, key) == InsertDesc(last, sortedInit, key);
      SortDescStable(init, key, v);
      InsertDescStable(last, sortedInit, key, v);
      FilterAppend(init, [last], p);
      FilterOneKey(last, key, v);
      SameTail(Filter(SortDesc(s, key), p), Filter(sortedInit, p), Filter(s, p), Filter(init, p),
               if key(last) == v then [last] else []);
    }
  }

  /** Two sequences that extend equal sequences by the same tail are equal. */
  lemma SameTail<T>(a: seq<T>, b: seq<T>, c: seq<T>, d: seq<T>, tail: seq<T>)
    requires a == b + tail && c == d + tail && b == d
    ensures a == c
  {
  }

  /** Filtering a single element by its key. */
  lemma FilterOneKey<T>(x: T, key: T -> real, v: real)
    ensures Filter([x], KeyIs(key, v)) == if key(x) == v then [x] else []
  {
    assert [x][1..] == [];
  }

  /** `y` is in the block of some element of `xs` exactly when it is in the
      last element's block or in the block of one before it. */
  lemma InSomeBlockSplit<A, B>(xs: seq<A>, init: seq<A>, f: A -> seq<B>, y: B)
    requires |xs| > 0 && init == xs[..|xs| - 1]
    ensures (exists i :: 0 <= i < |xs| && y in f(xs[i])) <==>
            (exists i :: 0 <= i < |init| && y in f(init[i])) || y in f(xs[|xs| - 1])
  {
    if exists i :: 0 <= i < |init| && y in f(init[i]) {
      var i :| 0 <= i < |init| && y in f(init[i]);
      assert init[i] == xs[i];
    }
    if (exists i :: 0 <= i < |xs| && y in f(xs[i])) && y !in f(xs[|xs| - 1]) {
      var i :| 0 <= i < |xs| && y in f(xs[i]);
      assert i < |xs| - 1 && xs[i] == init[i];
    }
  }

  /** `xs.flatMap(f)`: the blocks `f(x)` for the elements of `xs`, in order. */
  function ConcatMap<A, B>(xs: seq<A>, f: A -> seq<B>): (r: seq<B>)
    ensures |xs| == 1 ==> r == f(xs[0])
  {
    if |xs| == 0 then [] else f(xs[0]) + ConcatMap(xs[1..], f)
  }

  /** An element of a `ConcatMap` is an element of one of its blocks. */
  lemma {:induction false} InConcatMap<A, B>(xs: seq<A>, f: A -> seq<B>, y: B)
    ensures y in ConcatMap(xs, f) <==> exists j :: 0 <= j < |xs| && y in f(xs[j])
  {
    if |xs| > 0 {
      InConcatMap(xs[1..], f, y);
      if y in f(xs[0]) {
        assert 0 < |xs| && y in f(xs[0]);
      }
      if exists j :: 0 < j < |xs| && y in f(xs[j]) {
        var j :| 0 < j < |xs| && y in f(xs[j]);
        assert xs[1..][j - 1] == xs[j];
      }
      if exists j :: 0 <= j < |xs[1..]| && y in f(xs[1..][j]) {
        var j :| 0 <= j < |xs[1..]| && y in f(xs[1..][j]);
        assert xs[j + 1] == xs[1..][j];
      }
    }
  }

  /** `Math.floor(x * n)` for a draw `x` = `Math.random()` in [0, 1): an
      index below `n`. */
  function RandomIndex(x: real, n: nat): (i: nat)
    requires 0.0 <= x < 1.0 && n > 0
    ensures i < n
  {
    assert x * n as real < n as real;
    (x * n as real).Floor
  }

  /** `Math.floor(x * n) + lo`: an integer in [lo, lo + n). */
  function RandomInt(x: real, n: nat, lo: int): (v: int)
    requires 0.0 <= x < 1.0 && n > 0
    ensures lo <= v < lo + n
  {
    RandomIndex(x, n) + lo
  }

  /** `s` back to front. */
  function Reverse<T>(s: seq<T>): (r: seq<T>)
    ensures |r| == |s| && forall i :: 0 <= i < |s| ==> r[i] == s[|s| - 1 - i]
  {
    if |s| == 0 then [] else [s[|s| - 1]] + Reverse(s[..|s| - 1])
  }

  /** Concatenation is associative; stated once so that callers need not
      re-derive it element by element. */
  lemma AppendAssoc<T>(a: seq<T>, b: seq<T>, c: seq<T>)
    ensures (a + b) + c == a + (b + c)
  {
  }

  /** Reversing twice gives the sequence back. */
  lemma ReverseReverse<T>(s: seq<T>)
    ensures Reverse(Reverse(s)) == s
  {
    assert forall i :: 0 <= i < |s| ==> Reverse(Reverse(s))[i] == s[i];
  }
}

=== FILE: space_slingshot.dfy ===
/** Space slingshot: a rocket is dragged back and launched, flies under the
    pull of planets and black holes, and ends crashed, lost off screen or at
    the goal; a sandbox mode places new bodies instead. The gravity force
    itself is computed outside this model and enters as a velocity change. */
module SpaceSlingshot {

  datatype Phase = Aiming | Flight | Sandbox | Crashed | Lost | Won

  datatype Point = Point(x: real, y: real)

  datatype BodyKind = Planet | BlackHole

  datatype Body = Body(pos: Point, radius: real, mass: real, kind: BodyKind)

  const RocketRadius: real := 6.0
  const GoalRadius: real := 20.0
  const TrailLimit: nat := 50
  const Power: real := 0.05

  datatype Rocket = Rocket(start: Point, pos: Point, vx: real, vy: real, trail: seq<Point>)

  /** The mouse: pressed or not, and where the drag started. */
  datatype Mouse = Mouse(isDown: bool, start: Point)

  datatype World = World(phase: Phase, tool: string, mouse: Mouse, bodies: seq<Body>,
                         rocket: Rocket, goal: Point, width: real, height: real)

  /** The rocket keeps at most 50 trail points. */
  predicate TrailBounded(w: World)
  {
    |w.rocket.trail| <= TrailLimit
  }

  /** `initLevel` on a canvas of the given size. */
  function InitLevel(width: real, height: real): (w: World)
    ensures w.phase == Aiming && TrailBounded(w) && |w.bodies| == 2
    ensures w.rocket.trail == [] && w.rocket.pos == w.rocket.start && w.rocket.vx == 0.0 && w.rocket.vy == 0.0
    ensures !w.mouse.isDown && w.width == width && w.height == height
  {
    var start := Point(100.0, height - 100.0);
    World(Aiming, "PLANET", Mouse(false, Point(0.0, 0.0)),
          [Body(Point(width / 2.0, height / 2.0), 40.0, 1500.0, Planet),
           Body(Point(width * 0.75, height * 0.3), 25.0, 800.0, Planet)],
          Rocket(start, start, 0.0, 0.0, []), Point(width - 100.0, 100.0), width, height)
  }

  /** The window's resize handler: the canvas takes the new size, while
      the bodies, the goal and the rocket keep their coordinates. */
  function Resize(w: World, width: real, height: real): (r: World)
    ensures r.width == width && r.height == height
    ensures r.(width := w.width, height := w.height) == w
  {
    w.(width := width, height := height)
  }

  /** A resize can take a rocket that was on the canvas off it; the next
      flight frame then ends LOST. */
  lemma ShrinkLoses(w: World)
    requires w.phase == Flight && !Crashes(w) && w.rocket.vx == 0.0 && w.rocket.vy == 0.0
    requires w.rocket.pos.x > 1.0 && !InGoal(w.goal, w.rocket.pos)
    ensures Frame(Resize(w, 1.0, w.height), 0.0, 0.0).phase == Lost
  {
    var v := Resize(w, 1.0, w.height);
    assert FramePos(v, 0.0, 0.0) == w.rocket.pos;
  }

  /** `Rocket.reset`: back to the start, at rest, with no trail, aiming. */
  function Reset(w: World): (r: World)
    ensures r.phase == Aiming
    ensures r.rocket.pos == w.rocket.start && r.rocket.start == w.rocket.start
    ensures r.rocket.vx == 0.0 && r.rocket.vy == 0.0 && r.rocket.trail == []
    ensures r.bodies == w.bodies && r.goal == w.goal && r.mouse == w.mouse && r.tool == w.tool
  {
    w.(phase := Aiming, rocket := Rocket(w.rocket.start, w.rocket.start, 0.0, 0.0, []))
  }

  /** A fresh level is already in the state a reset gives. */
  lemma FreshLevelIsReset(width: real, height: real)
    ensures Reset(InitLevel(width, height)) == InitLevel(width, height)
  {
  }

  /** On a canvas at least 100 wide and 100 high the rocket starts on it. */
  lemma StartsOnScreen(width: real, height: real)
    requires width >= 100.0 && height >= 100.0
    ensures !OffScreen(InitLevel(width, height).rocket.pos, width, height)
  {
  }

  function DistSq(a: Point, b: Point): real
  {
    (a.x - b.x) * (a.x - b.x) + (a.y - b.y) * (a.y - b.y)
  }

  /** The rocket touches a body: its distance is below the sum of the radii
      (compared squared, as both sides are non-negative). */
  predicate Collides(rocket: Rocket, b: Body)
  {
    DistSq(b.pos, rocket.pos) < (b.radius + RocketRadius) * (b.radius + RocketRadius)
  }

  /** The collision test of `applyGravity`: the phase becomes CRASHED iff
      some body is touched; the velocity changes by `dv`, the pull of the
      bodies computed outside. The `return` inside the per-body callback
      only skips that body, so the other bodies still pull. */
  function ApplyGravity(w: World, dvx: real, dvy: real): (r: World)
    ensures (exists i :: 0 <= i < |w.bodies| && Collides(w.rocket, w.bodies[i])) ==> r.phase == Crashed
    ensures (forall i :: 0 <= i < |w.bodies| ==> !Collides(w.rocket, w.bodies[i])) ==> r.phase == w.phase
    ensures r.rocket.pos == w.rocket.pos && r.rocket.trail == w.rocket.trail
    ensures r.bodies == w.bodies && r.goal == w.goal
  {
    var crashed := exists i :: 0 <= i < |w.bodies| && Collides(w.rocket, w.bodies[i]);
    w.(phase := if crashed then Crashed else w.phase,
       rocket := w.rocket.(vx := w.rocket.vx + dvx, vy := w.rocket.vy + dvy))
  }

  /** The trail after recording `p`: appended, and the oldest point dropped
      when there are more than 50. */
  function PushTrail(trail: seq<Point>, p: Point): (r: seq<Point>)
    ensures |trail| <= TrailLimit ==> |r| <= TrailLimit
    ensures |r| > 0 && r[|r| - 1] == p
    ensures |trail| < TrailLimit ==> r == trail + [p]
    ensures |trail| >= TrailLimit ==> |r| == |trail| && r[..|r| - 1] == trail[1..]
  {
    var t := trail + [p];
    if |t| > TrailLimit then t[1..] else
      assert t == t[0..];
      t
  }

  /** The trail after recording the positions `ps` in order. */
  function PushAll(trail: seq<Point>, ps: seq<Point>): seq<Point>
    decreases |ps|
  {
    if |ps| == 0 then trail else PushTrail(PushAll(trail, ps[..|ps| - 1]), ps[|ps| - 1])
  }

  /** From an empty trail, the trail holds the last 50 positions recorded
      (all of them while there are fewer), oldest first. */
  lemma {:induction false} TrailIsLastFifty(ps: seq<Point>)
    ensures var n := if |ps| < TrailLimit then |ps| else TrailLimit;
            PushAll([], ps) == ps[|ps| - n..]
    decreases |ps|
  {
    if |ps| > 0 {
      var init := ps[..|ps| - 1];
      TrailIsLastFifty(init);
      var t := PushAll([], init);
      var m := if |init| < TrailLimit then |init| else TrailLimit;
      assert t == init[|init| - m..];
      var r := PushTrail(t, ps[|ps| - 1]);
      var n := if |ps| < TrailLimit then |ps| else TrailLimit;
      if |t| < TrailLimit {
        assert r == t + [ps[|ps| - 1]];
        assert ps[|ps| - n..] == init[|init| - m..] + [ps[|ps| - 1]];
      } else {
        assert |r| == n;
        forall k | 0 <= k < n
          ensures r[k] == ps[|ps| - n..][k]
        {
          if k < n - 1 {
            assert r[k] == t[k + 1];
          }
        }
      }
    }
  }

  predicate OffScreen(p: Point, width: real, height: real)
  {
    p.x < 0.0 || p.x > width || p.y < 0.0 || p.y > height
  }

  /** `Rocket.update`: only in flight, record the old position, move by the
      velocity, and become LOST iff the new position is off the canvas. */
  function Update(w: World): (r: World)
    ensures w.phase != Flight ==> r == w
    ensures w.phase == Flight ==>
              && r.rocket.pos == Point(w.rocket.pos.x + w.rocket.vx, w.rocket.pos.y + w.rocket.vy)
              && r.rocket.trail == PushTrail(w.rocket.trail, w.rocket.pos)
              && (r.phase == Lost <==> OffScreen(r.rocket.pos, w.width, w.height))
              && (r.phase != Lost ==> r.phase == Flight)
    ensures TrailBounded(w) ==> TrailBounded(r)
    ensures r.bodies == w.bodies && r.goal == w.goal
  {
    if w.phase != Flight then w
    else
      var p := Point(w.rocket.pos.x + w.rocket.vx, w.rocket.pos.y + w.rocket.vy);
      var rocket := w.rocket.(pos := p, trail := PushTrail(w.rocket.trail, w.rocket.pos));
      w.(rocket := rocket, phase := if OffScreen(p, w.width, w.height) then Lost else Flight)
  }

  /** `Goal.checkWin`: WON whenever the rocket is inside the goal, whatever
      the phase was. */
  function CheckWin(w: World): (r: World)
    ensures DistSq(w.goal, w.rocket.pos) < GoalRadius * GoalRadius ==> r.phase == Won
    ensures DistSq(w.goal, w.rocket.pos) >= GoalRadius * GoalRadius ==> r == w
    ensures r.rocket == w.rocket
  {
    if DistSq(w.goal, w.rocket.pos) < GoalRadius * GoalRadius then w.(phase := Won) else w
  }

  /** The position is inside the goal's radius. */
  predicate InGoal(goal: Point, p: Point)
  {
    DistSq(goal, p) < GoalRadius * GoalRadius
  }

  /** Some body touches the rocket. */
  predicate Crashes(w: World)
  {
    exists i :: 0 <= i < |w.bodies| && Collides(w.rocket, w.bodies[i])
  }

  /** Where a flight frame leaves the rocket: in place after a crash,
      otherwise moved by the velocity the pull `dv` has changed. */
  function FramePos(w: World, dvx: real, dvy: real): Point
  {
    if Crashes(w) then w.rocket.pos
    else Point(w.rocket.pos.x + (w.rocket.vx + dvx), w.rocket.pos.y + (w.rocket.vy + dvy))
  }

  /** One frame of `gameLoop`: in flight, gravity, then the move, then the
      goal test; otherwise nothing changes. In flight the frame ends WON
      inside the goal; otherwise CRASHED after a collision, and LOST or
      still in flight as the new position is off or on the canvas. */
  function Frame(w: World, dvx: real, dvy: real): (r: World)
    ensures w.phase != Flight ==> r == w
    ensures TrailBounded(w) ==> TrailBounded(r)
    ensures r.bodies == w.bodies && r.goal == w.goal
    ensures w.phase == Flight ==> r.rocket.pos == FramePos(w, dvx, dvy)
    ensures w.phase == Flight && InGoal(w.goal, FramePos(w, dvx, dvy)) ==> r.phase == Won
    ensures w.phase == Flight && !InGoal(w.goal, FramePos(w, dvx, dvy)) && Crashes(w) ==> r.phase == Crashed
    ensures w.phase == Flight && !InGoal(w.goal, FramePos(w, dvx, dvy)) && !Crashes(w) ==>
              (r.phase == Lost <==> OffScreen(FramePos(w, dvx, dvy), w.width, w.height)) &&
              (r.phase == Lost || r.phase == Flight)
    ensures w.phase == Flight && !Crashes(w) ==> r.rocket.trail == PushTrail(w.rocket.trail, w.rocket.pos)
  {
    if w.phase != Flight then w
    else CheckWin(Update(ApplyGravity(w, dvx, dvy)))
  }

  /** A crash ends the flight before the move (the update only acts in
      flight), yet a crash inside the goal still counts as a win. */
  lemma CrashInGoalWins(w: World, dvx: real, dvy: real, i: nat)
    requires w.phase == Flight && i < |w.bodies| && Collides(w.rocket, w.bodies[i])
    ensures Frame(w, dvx, dvy).rocket.pos == w.rocket.pos
    ensures DistSq(w.goal, w.rocket.pos) < GoalRadius * GoalRadius ==> Frame(w, dvx, dvy).phase == Won
    ensures DistSq(w.goal, w.rocket.pos) >= GoalRadius * GoalRadius ==> Frame(w, dvx, dvy).phase == Crashed
  {
  }

  /** A flight frame without a crash records exactly the old position as
      the newest trail point. */
  lemma FrameRecordsTrail(w: World, dvx: real, dvy: real)
    requires w.phase == Flight
    requires forall i :: 0 <= i < |w.bodies| ==> !Collides(w.rocket, w.bodies[i])
    ensures var t := Frame(w, dvx, dvy).rocket.trail; |t| > 0 && t[|t| - 1] == w.rocket.pos
  {
  }

  /** Mouse down at `p`: in the sandbox, place a planet (radius 30, mass
      1000), a black hole (15, 3000) or move the goal, by tool; when aiming
      or after a flight ended, reset the rocket and start a drag; in flight
      nothing happens. */
  function MouseDown(w: World, p: Point): (r: World)
    ensures w.phase == Sandbox ==> r.rocket == w.rocket && r.phase == Sandbox && r.mouse == w.mouse
    ensures w.phase == Sandbox && w.tool == "PLANET" ==> r.bodies == w.bodies + [Body(p, 30.0, 1000.0, Planet)] && r.goal == w.goal
    ensures w.phase == Sandbox && w.tool == "BLACKHOLE" ==> r.bodies == w.bodies + [Body(p, 15.0, 3000.0, BlackHole)] && r.goal == w.goal
    ensures w.phase == Sandbox && w.tool == "GOAL" ==> r.bodies == w.bodies && r.goal == p
    ensures w.phase == Sandbox && w.tool !in {"PLANET", "BLACKHOLE", "GOAL"} ==> r == w
    ensures w.phase in {Aiming, Crashed, Lost, Won} ==> r == Reset(w).(mouse := Mouse(true, p))
    ensures w.phase == Flight ==> r == w
  {
    if w.phase == Sandbox then
      if w.tool == "PLANET" then w.(bodies := w.bodies + [Body(p, 30.0, 1000.0, Planet)])
      else if w.tool == "BLACKHOLE" then w.(bodies := w.bodies + [Body(p, 15.0, 3000.0, BlackHole)])
      else if w.tool == "GOAL" then w.(goal := p)
      else w
    else if w.phase != Flight then
      Reset(w).(mouse := Mouse(true, p))
    else w
  }

  /** Mouse up at `p`: a drag started while aiming launches the rocket with
      velocity (start - release) * 0.05. */
  function MouseUp(w: World, p: Point): (r: World)
    ensures w.mouse.isDown && w.phase == Aiming ==>
              && r.phase == Flight && !r.mouse.isDown
              && r.rocket.vx == (w.mouse.start.x - p.x) * Power && r.rocket.vy == (w.mouse.start.y - p.y) * Power
              && r.rocket.pos == w.rocket.pos && r.rocket.trail == w.rocket.trail
    ensures !(w.mouse.isDown && w.phase == Aiming) ==> r == w
  {
    if w.mouse.isDown && w.phase == Aiming then
      w.(mouse := w.mouse.(isDown := false),
         rocket := w.rocket.(vx := (w.mouse.start.x - p.x) * Power, vy := (w.mouse.start.y - p.y) * Power),
         phase := Flight)
    else w
  }

  /** `setMode` as written: the phase is assigned first and the rocket is
      then reset, and the reset sets AIMING. */
  function SetModeAsWritten(w: World, mode: string): (r: World)
    ensures r.phase == Aiming
    ensures r == Reset(w)
  {
    Reset(w.(phase := if mode == "PLAY" then Aiming else Sandbox))
  }

  /** With `setMode` as written, the sandbox button leaves the game aiming,
      and the next click resets the rocket instead of placing a body. */
  lemma SandboxButtonIgnored(w: World, p: Point)
    ensures SetModeAsWritten(w, "SANDBOX").phase == Aiming
    ensures MouseDown(SetModeAsWritten(w, "SANDBOX"), p).bodies == w.bodies
  {
  }

  /** `setMode` as intended: the rocket is reset and then the phase is
      AIMING for 'PLAY' and SANDBOX for anything else. */
  function SetMode(w: World, mode: string): (r: World)
    ensures mode == "PLAY" ==> r.phase == Aiming
    ensures mode != "PLAY" ==> r.phase == Sandbox
    ensures r.rocket == Reset(w).rocket && r.bodies == w.bodies && r.goal == w.goal
  {
    Reset(w).(phase := if mode == "PLAY" then Aiming else Sandbox)
  }

  /** With the corrected `setMode`, a click after choosing the sandbox and
      the planet tool places one planet where clicked. */
  lemma SandboxPlacesPlanet(w: World, p: Point)
    requires w.tool == "PLANET"
    ensures MouseDown(SetMode(w, "SANDBOX"), p).bodies == w.bodies + [Body(p, 30.0, 1000.0, Planet)]
  {
  }

  /** `setTool`. */
  function SetTool(w: World, tool: string): World
  {
    w.(tool := tool)
  }

  /** The player's inputs and the animation frames. */
  datatype Event = Down(p: Point) | Up(p: Point) | ModeE(mode: string) | ToolE(tool: string)
                 | FrameE(dvx: real, dvy: real) | ResetLevel

  /** One event, with `setMode` as written or as corrected. */
  function Step(w: World, e: Event, corrected: bool): (r: World)
  {
    match e
    case Down(p) => MouseDown(w, p)
    case Up(p) => MouseUp(w, p)
    case ModeE(mode) => if corrected then SetMode(w, mode) else SetModeAsWritten(w, mode)
    case ToolE(tool) => SetTool(w, tool)
    case FrameE(dvx, dvy) => Frame(w, dvx, dvy)
    case ResetLevel => Reset(w)
  }

  function Run(w: World, es: seq<Event>, corrected: bool): World
    decreases |es|
  {
    if |es| == 0 then w else Run(Step(w, es[0], corrected), es[1..], corrected)
  }

  /** With `setMode` as written the sandbox is unreachable: from a world not
      in the sandbox, no sequence of events ever enters it. */
  lemma {:induction false} SandboxUnreachable(w: World, es: seq<Event>)
    requires w.phase != Sandbox
    ensures Run(w, es, false).phase != Sandbox
    decreases |es|
  {
    if |es| > 0 {
      SandboxUnreachable(Step(w, es[0], false), es[1..]);
    }
  }

  /** Whatever the events, the trail never holds more than 50 points. */
  lemma {:induction false} TrailStaysBounded(w: World, es: seq<Event>, corrected: bool)
    requires TrailBounded(w)
    ensures TrailBounded(Run(w, es, corrected))
    decreases |es|
  {
    if |es| > 0 {
      TrailStaysBounded(Step(w, es[0], corrected), es[1..], corrected);
    }
  }
}

=== FILE: strings.dfy ===
/** String helpers shared by the demo models: JavaScript's `trim`, ASCII case
    mapping, substring search, `join`, decimal formatting and the prefix
    parsers behind `parseInt` and `parseFloat`. */
module Strings {
  import opened Options

  /** JavaScript's WhiteSpace and LineTerminator characters, the set `trim`
      and the number parsers skip. */
  predicate IsSpace(c: char)
  {
    var u := c as int;
    || (0x09 <= u <= 0x0D) || u == 0x20 || u == 0xA0 || u == 0x1680
    || (0x2000 <= u <= 0x200A) || u == 0x2028 || u == 0x2029
    || u == 0x202F || u == 0x205F || u == 0x3000 || u == 0xFEFF
  }

  predicate AllSpace(s: string)
  {
    forall i :: 0 <= i < |s| ==> IsSpace(s[i])
  }

  function TrimStart(s: string): (r: string)
    ensures |r| <= |s| && r == s[|s| - |r|..]
    ensures AllSpace(s[..|s| - |r|])
    ensures |r| > 0 ==> !IsSpace(r[0])
  {
    if |s| > 0 && IsSpace(s[0]) then
      var t := s[1..];
      var r := TrimStart(t);
      assert t[|t| - |r|..] == s[|s| - |r|..];
      var skipped, rest := s[..|s| - |r|], t[..|t| - |r|];
      assert AllSpace(rest);
      assert forall i :: 0 < i < |skipped| ==> skipped[i] == rest[i - 1];
      r
    else s
  }

  function TrimEnd(s: string): (r: string)
    ensures |r| <= |s| && r == s[..|r|]
    ensures AllSpace(s[|r|..])
    ensures |r| > 0 ==> !IsSpace(r[|r| - 1])
  {
    if |s| > 0 && IsSpace(s[|s| - 1]) then
      var r := TrimEnd(s[..|s| - 1]);
      assert s[|r|..] == s[..|s| - 1][|r|..] + [s[|s| - 1]];
      r
    else s
  }

  /** JavaScript's `String.prototype.trim`. */
  function Trim(s: string): (r: string)
    ensures exists i, j :: 0 <= i <= j <= |s| && r == s[i..j] && AllSpace(s[..i]) && AllSpace(s[j..])
    ensures |r| > 0 ==> !IsSpace(r[0]) && !IsSpace(r[|r| - 1])
  {
    var t := TrimStart(s);
    var r := TrimEnd(t);
    TrimCuts(s, |s| - |t|, t, r);
    r
  }

  /** Cutting leading whitespace off `s` to get `t`, then trailing
      whitespace off `t` to get `r`, leaves a slice of `s` with only
      whitespace on either side. */
  lemma TrimCuts(s: string, i: nat, t: string, r: string)
    requires i <= |s| && t == s[i..] && AllSpace(s[..i])
    requires |r| <= |t| && r == t[..|r|] && AllSpace(t[|r|..])
    ensures i + |r| <= |s| && r == s[i..i + |r|]
    ensures AllSpace(s[..i]) && AllSpace(s[i + |r|..])
  {
    assert s[i + |r|..] == t[|r|..];
  }

  /** A string that neither starts nor ends with whitespace trims to itself. */
  lemma TrimUnpadded(s: string)
    requires |s| > 0 ==> !IsSpace(s[0]) && !IsSpace(s[|s| - 1])
    ensures Trim(s) == s
  {
    assert TrimStart(s) == s;
    assert TrimEnd(s) == s;
  }

  /** A string made only of whitespace trims to the empty string, and only such a string does. */
  lemma TrimEmptyIffAllSpace(s: string)
    ensures Trim(s) == "" <==> AllSpace(s)
  {
    var r := Trim(s);
    var i, j :| 0 <= i <= j <= |s| && r == s[i..j] && AllSpace(s[..i]) && AllSpace(s[j..]);
    EmptyCutIffAllSpace(s, r, i, j);
  }

  /** A slice with only whitespace around it that does not itself start
      with whitespace is empty exactly when the whole text is whitespace. */
  lemma EmptyCutIffAllSpace(s: string, r: string, i: nat, j: nat)
    requires i <= j <= |s| && r == s[i..j] && AllSpace(s[..i]) && AllSpace(s[j..])
    requires |r| > 0 ==> !IsSpace(r[0])
    ensures r == "" <==> AllSpace(s)
  {
    if !AllSpace(s) {
      var k :| 0 <= k < |s| && !IsSpace(s[k]);
      if i <= k < j {
        assert r[k - i] == s[k];
      }
    }
  }

  function LowerChar(c: char): char
  {
    if 'A' <= c <= 'Z' then (c as int + 32) as char else c
  }

  function UpperChar(c: char): char
  {
    if 'a' <= c <= 'z' then (c as int - 32) as char else c
  }

  /** `toLowerCase` restricted to the ASCII letters. */
  function Lower(s: string): (r: string)
    ensures |r| == |s|
    ensures forall i :: 0 <= i < |s| ==> r[i] == LowerChar(s[i])
  {
    seq(|s|, i requires 0 <= i < |s| => LowerChar(s[i]))
  }

  /** `toUpperCase` restricted to the ASCII letters. */
  function Upper(s: string): (r: string)
    ensures |r| == |s|
    ensures forall i :: 0 <= i < |s| ==> r[i] == UpperChar(s[i])
  {
    seq(|s|, i requires 0 <= i < |s| => UpperChar(s[i]))
  }

  /** `s.includes(sub)`. */
  predicate Contains(s: string, sub: string)
  {
    exists i :: 0 <= i <= |s| && OccursAt(s, sub, i)
  }

  /** `sub` occurs in `s` starting at position `i`. */
  predicate OccursAt(s: string, sub: string, i: nat)
  {
    i + |sub| <= |s| && s[i..i + |sub|] == sub
  }

  lemma ContainsEmpty(s: string)
    ensures Contains(s, "")
  {
    assert OccursAt(s, "", 0);
  }

  /** `parts.join(sep)`. */
  function Join(parts: seq<string>, sep: string): string
  {
    if |parts| == 0 then ""
    else if |parts| == 1 then parts[0]
    else parts[0] + sep + Join(parts[1..], sep)
  }

  /** Text found in `s` is still found after anything is put around `s`. */
  lemma ContainsWithin(pre: string, s: string, post: string, sub: string)
    requires Contains(s, sub)
    ensures Contains(pre + s + post, sub)
  {
    var i :| 0 <= i <= |s| && OccursAt(s, sub, i);
    var t := pre + s + post;
    assert t[|pre| + i..|pre| + i + |sub|] == s[i..i + |sub|];
    assert OccursAt(t, sub, |pre| + i);
  }

  /** `x` occurs at the end of `a + x`. */
  lemma ContainsSuffixed(a: string, x: string)
    ensures Contains(a + x, x)
  {
    assert (a + x)[|a|..|a| + |x|] == x;
    assert OccursAt(a + x, x, |a|);
  }

  /** Appending keeps an occurrence. */
  lemma ContainsExtend(s: string, y: string, x: string)
    requires Contains(s, x)
    ensures Contains(s + y, x)
  {
    var i :| 0 <= i <= |s| && OccursAt(s, x, i);
    assert (s + y)[i..i + |x|] == s[i..i + |x|];
    assert OccursAt(s + y, x, i);
  }

  /** Prepending keeps an occurrence. */
  lemma ContainsPrefixed(y: string, s: string, x: string)
    requires Contains(s, x)
    ensures Contains(y + s, x)
  {
    var i :| 0 <= i <= |s| && OccursAt(s, x, i);
    assert (y + s)[|y| + i..|y| + i + |x|] == s[i..i + |x|];
    assert OccursAt(y + s, x, |y| + i);
  }

  /** Every part of a join occurs in it. */
  lemma {:induction false} JoinContains(parts: seq<string>, sep: string, i: nat)
    requires i < |parts|
    ensures Contains(Join(parts, sep), parts[i])
  {
    if |parts| == 1 {
      assert OccursAt(parts[0], parts[0], 0);
    } else if i == 0 {
      assert OccursAt(parts[0], parts[0], 0);
      ContainsWithin("", parts[0], sep + Join(parts[1..], sep), parts[0]);
      assert "" + parts[0] + (sep + Join(parts[1..], sep)) == Join(parts, sep);
    } else {
      JoinContains(parts[1..], sep, i - 1);
      ContainsWithin(parts[0] + sep, Join(parts[1..], sep), "", parts[i]);
      assert parts[0] + sep + Join(parts[1..], sep) + "" == Join(parts, sep);
    }
  }

  predicate IsDigit(c: char)
  {
    '0' <= c <= '9'
  }

  predicate AllDigits(s: string)
  {
    forall i :: 0 <= i < |s| ==> IsDigit(s[i])
  }

  function DigitChar(d: nat): char
    requires d < 10
  {
    ('0' as int + d) as char
  }

  /** Decimal representation of a natural number, as `String(n)` prints it. */
  function NatToString(n: nat): (r: string)
    ensures |r| > 0 && AllDigits(r)
    ensures n < 10 <==> |r| == 1
  {
    if n < 10 then [DigitChar(n)] else NatToString(n / 10) + [DigitChar(n % 10)]
  }

  /** Value of a string of decimal digits. */
  function DigitsValue(s: string): nat
    requires AllDigits(s)
  {
    if |s| == 0 then 0 else DigitsValue(s[..|s| - 1]) * 10 + (s[|s| - 1] as int - '0' as int)
  }

  lemma {:induction false} DigitsValueOfNatToString(n: nat)
    ensures DigitsValue(NatToString(n)) == n
  {
    if n >= 10 {
      var s := NatToString(n);
      assert s[..|s| - 1] == NatToString(n / 10);
      DigitsValueOfNatToString(n / 10);
    }
  }

  /** Number of leading decimal digits of `s`. */
  function LeadingDigits(s: string): (k: nat)
    ensures k <= |s| && AllDigits(s[..k])
    ensures k < |s| ==> !IsDigit(s[k])
  {
    if |s| > 0 && IsDigit(s[0]) then
      var k := 1 + LeadingDigits(s[1..]);
      assert s[..k] == [s[0]] + s[1..][..k - 1];
      k
    else 0
  }

  /** Sign and remaining text of a number literal: a leading '-' or '+' is consumed. */
  function SplitSign(s: string): (bool, string)
  {
    if |s| > 0 && s[0] == '-' then (true, s[1..])
    else if |s| > 0 && s[0] == '+' then (false, s[1..])
    else (false, s)
  }

  /** `parseInt(s, 10)`: skip leading whitespace, an optional sign, then
      the longest digit prefix; `None` stands for NaN. */
  function ParseInt(s: string): (r: Option<int>)
    ensures r.None? <==> LeadingDigits(SplitSign(TrimStart(s)).1) == 0
  {
    var (neg, rest) := SplitSign(TrimStart(s));
    var k := LeadingDigits(rest);
    if k == 0 then None
    else
      var v: int := DigitsValue(rest[..k]);
      Some(if neg then -v else v)
  }

  predicate IsHexDigit(c: char)
  {
    IsDigit(c) || 'a' <= c <= 'f' || 'A' <= c <= 'F'
  }

  predicate AllHexDigits(s: string)
  {
    forall i :: 0 <= i < |s| ==> IsHexDigit(s[i])
  }

  function HexDigitValue(c: char): (d: nat)
    requires IsHexDigit(c)
    ensures d < 16
    ensures IsDigit(c) ==> d == c as int - '0' as int
  {
    if IsDigit(c) then c as int - '0' as int
    else if 'a' <= c <= 'f' then c as int - 'a' as int + 10
    else c as int - 'A' as int + 10
  }

  /** Value of a string of hexadecimal digits. */
  function HexValue(s: string): nat
    requires AllHexDigits(s)
  {
    if |s| == 0 then 0 else HexValue(s[..|s| - 1]) * 16 + HexDigitValue(s[|s| - 1])
  }

  /** Number of leading hexadecimal digits of `s`. */
  function LeadingHexDigits(s: string): (k: nat)
    ensures k <= |s| && AllHexDigits(s[..k])
    ensures k < |s| ==> !IsHexDigit(s[k])
  {
    if |s| > 0 && IsHexDigit(s[0]) then
      var k := 1 + LeadingHexDigits(s[1..]);
      assert s[..k] == [s[0]] + s[1..][..k - 1];
      k
    else 0
  }

  /** The text starts with "0x" or "0X". */
  predicate HexPrefixed(s: string)
  {
    |s| >= 2 && s[0] == '0' && (s[1] == 'x' || s[1] == 'X')
  }

  /** `parseInt(s)` without a radix: as `parseInt(s, 10)`, except that after
      the sign a "0x" or "0X" prefix switches to hexadecimal, and then NaN
      unless a hexadecimal digit follows the prefix. */
  function ParseIntAuto(s: string): (r: Option<int>)
    ensures !HexPrefixed(SplitSign(TrimStart(s)).1) ==> r == ParseInt(s)
    ensures HexPrefixed(SplitSign(TrimStart(s)).1) ==>
              (r.None? <==> LeadingHexDigits(SplitSign(TrimStart(s)).1[2..]) == 0)
  {
    var (neg, rest) := SplitSign(TrimStart(s));
    if HexPrefixed(rest) then
      var h := rest[2..];
      var k := LeadingHexDigits(h);
      if k == 0 then None
      else
        var v: int := HexValue(h[..k]);
        Some(if neg then -v else v)
    else ParseInt(s)
  }

  /** Without a radix "0x1f" is read as hexadecimal, 31. */
  lemma RadixlessReadsHex()
    ensures ParseIntAuto("0x1f") == Some(31)
  {
    var s := "0x1f";
    PlainNumeral(s);
    var h := s[2..];
    assert h == "1f";
    assert LeadingHexDigits(h) == 2 by {
      assert h[1..] == "f" && "f"[1..] == "";
    }
    assert h[..2] == h;
    assert HexValue(h) == 31 by {
      assert h[..1] == "1" && "1"[..0] == "";
    }
  }

  /** The decimal parse stops at the 'x' of "0x1f" and reads 0. */
  lemma DecimalStopsAtX()
    ensures ParseInt("0x1f") == Some(0)
  {
    var s := "0x1f";
    PlainNumeral(s);
    assert LeadingDigits(s) == 1 by {
      assert s[1..] == "x1f";
    }
    assert s[..1] == "0";
    assert "0"[..0] == "";
  }

  /** A bare "0x" is NaN without a radix. */
  lemma BarePrefixIsNaN()
    ensures ParseIntAuto("0x") == None
  {
    var s := "0x";
    PlainNumeral(s);
    assert s[2..] == "";
    assert LeadingHexDigits(s[2..]) == 0;
  }

  /** Text that starts with neither whitespace nor a sign is its own
      numeral part. */
  lemma PlainNumeral(s: string)
    requires |s| > 0 ==> !IsSpace(s[0]) && s[0] != '-' && s[0] != '+'
    ensures SplitSign(TrimStart(s)) == (false, s)
  {
    assert TrimStart(s) == s;
  }

  /** A decimal numeral, whatever non-digit follows it, is hex-prefixed only
      when it is "0" followed by 'x' or 'X'. */
  lemma NatToStringHexPrefixed(n: nat, tail: string)
    requires |tail| > 0 ==> !IsDigit(tail[0])
    ensures HexPrefixed(NatToString(n) + tail) ==> n == 0 && |tail| > 0 && (tail[0] == 'x' || tail[0] == 'X')
  {
    var s := NatToString(n);
    if n >= 10 {
      assert s == NatToString(n / 10) + [DigitChar(n % 10)];
      assert IsDigit((s + tail)[1]);
    } else {
      assert s == [DigitChar(n)];
      assert (s + tail)[0] == DigitChar(n);
    }
  }

  /** Value of the digits after a decimal point. */
  function FractionValue(s: string): (r: real)
    requires AllDigits(s)
    ensures 0.0 <= r <= 1.0
  {
    if |s| == 0 then 0.0 else ((s[0] as int - '0' as int) as real + FractionValue(s[1..])) / 10.0
  }

  /** `parseFloat(s)` for plain decimal literals: skip leading whitespace, an
      optional sign, digits, an optional '.' and more digits; at least one
      digit must be present. `None` stands for NaN. */
  function ParseFloat(s: string): (r: Option<real>)
  {
    var (neg, rest) := SplitSign(TrimStart(s));
    var k := LeadingDigits(rest);
    var after := rest[k..];
    var frac := if |after| > 0 && after[0] == '.' then after[1..][..LeadingDigits(after[1..])] else "";
    if k == 0 && |frac| == 0 then None
    else
      var v := DigitsValue(rest[..k]) as real + FractionValue(frac);
      Some(if neg then -v else v)
  }

  /** A formatted natural number parses back to itself. */
  lemma ParseIntOfNatToString(n: nat)
    ensures ParseInt(NatToString(n)) == Some(n)
  {
    var s := NatToString(n);
    assert !IsSpace(s[0]);
    PlainNumeral(s);
    LeadingDigitsAll(s);
    assert s[..|s|] == s;
    DigitsValueOfNatToString(n);
  }

  /** A formatted natural number parses back to itself whatever follows
      it, as long as that does not start with a digit. */
  lemma ParseIntOfNatToStringThen(n: nat, tail: string)
    requires |tail| > 0 ==> !IsDigit(tail[0])
    ensures ParseInt(NatToString(n) + tail) == Some(n)
  {
    ParseIntOfDigitsThen(NatToString(n), tail);
    DigitsValueOfNatToString(n);
  }

  /** A digit string parses to its value whatever non-digit follows it. */
  lemma ParseIntOfDigitsThen(s: string, tail: string)
    requires |s| > 0 && AllDigits(s)
    requires |tail| > 0 ==> !IsDigit(tail[0])
    ensures ParseInt(s + tail) == Some(DigitsValue(s))
  {
    var t := s + tail;
    assert t[0] == s[0];
    assert SplitSign(TrimStart(t)) == (false, t);
    LeadingDigitsStop(s, tail);
    assert t[..|s|] == s;
  }

  lemma {:induction false} LeadingDigitsStop(s: string, tail: string)
    requires AllDigits(s) && (|tail| > 0 ==> !IsDigit(tail[0]))
    ensures LeadingDigits(s + tail) == |s|
  {
    if |s| > 0 {
      assert (s + tail)[1..] == s[1..] + tail;
      LeadingDigitsStop(s[1..], tail);
    } else {
      assert s + tail == tail;
    }
  }

  /** A decimal numeral parses, without a radix too, to its value whatever
      follows it, unless what follows starts with a digit, or the numeral
      is "0" and what follows starts with 'x' or 'X'. */
  lemma ParseIntAutoOfNatToStringThen(n: nat, tail: string)
    requires |tail| > 0 ==> !IsDigit(tail[0])
    requires n == 0 && |tail| > 0 ==> tail[0] != 'x' && tail[0] != 'X'
    ensures ParseIntAuto(NatToString(n) + tail) == Some(n)
  {
    var s := NatToString(n) + tail;
    assert s[0] == NatToString(n)[0];
    PlainNumeral(s);
    NatToStringHexPrefixed(n, tail);
    ParseIntOfNatToStringThen(n, tail);
  }

  lemma {:induction false} LeadingDigitsAll(s: string)
    requires AllDigits(s)
    ensures LeadingDigits(s) == |s|
  {
    if |s| > 0 {
      LeadingDigitsAll(s[1..]);
    }
  }

  /** `s.lastIndexOf(c)`: the position of the last `c` in `s`, if any. */
  function LastIndexOf(s: string, c: char): (p: Option<nat>)
    ensures p.None? ==> forall i :: 0 <= i < |s| ==> s[i] != c
    ensures p.Some? ==> p.value < |s| && s[p.value] == c &&
                        forall i :: p.value < i < |s| ==> s[i] != c
    decreases |s|
  {
    if |s| == 0 then None
    else if s[|s| - 1] == c then Some(|s| - 1)
    else LastIndexOf(s[..|s| - 1], c)
  }

  /** A `c` with no `c` after it is the one found. */
  lemma {:induction false} LastIndexOfIs(s: string, c: char, p: nat)
    requires p < |s| && s[p] == c && forall i :: p < i < |s| ==> s[i] != c
    ensures LastIndexOf(s, c) == Some(p)
    decreases |s|
  {
    if p < |s| - 1 {
      LastIndexOfIs(s[..|s| - 1], c, p);
    }
  }
}

=== FILE: wallpaper_rotator.dfy ===
/** The mood-boosting wallpaper rotator: a fixed gallery of images tagged
    with a mood and a time of day, a background worker that picks the
    wallpaper for the current mood and time and keeps a history, and the
    analysis that compares the chosen mood with the most used one. */
module WallpaperRotator {
  import opened Options
  import opened Seqs
  import opened Strings
  import opened Assoc

  datatype Image = Image(url: string, mood: string, time: string)

  /** The gallery shipped with the extension. Two pairs of entries share a
      URL: 'sad' reuses the 'calm' picture and 'stressed' the 'energized' one. */
  const Gallery: seq<Image> := [
    Image("https://images.unsplash.com/photo-1506744038136-46273834b3fb", "happy", "morning"),
    Image("https://images.unsplash.com/photo-1465101046530-73398c7f28ca", "calm", "afternoon"),
    Image("https://images.unsplash.com/photo-1519125323398-675f0ddb6308", "energized", "evening"),
    Image("https://images.unsplash.com/photo-1500530855697-b586d89ba3ee", "focused", "night"),
    Image("https://images.unsplash.com/photo-1465101178521-c1a2b3cfd7d4", "relaxed", "morning"),
    Image("https://images.unsplash.com/photo-1465101046530-73398c7f28ca", "sad", "afternoon"),
    Image("https://images.unsplash.com/photo-1519125323398-675f0ddb6308", "stressed", "evening")
  ]

  /** `getTimeOfDay` for the local hour. */
  function TimeOfDay(hour: int): (t: string)
    ensures t == "morning" <==> hour < 12
    ensures t == "afternoon" <==> 12 <= hour < 17
    ensures t == "evening" <==> 17 <= hour < 21
    ensures t == "night" <==> hour >= 21
  {
    if hour < 12 then "morning"
    else if hour < 17 then "afternoon"
    else if hour < 21 then "evening"
    else "night"
  }

  predicate Exact(img: Image, mood: string, time: string)
  {
    img.mood == mood && img.time == time
  }

  function ExactMatch(mood: string, time: string): Image -> bool
  {
    (img: Image) => Exact(img, mood, time)
  }

  function MoodMatch(mood: string): Image -> bool
  {
    (img: Image) => img.mood == mood
  }

  /** No image before position `k` matches both mood and time. */
  predicate NoExactBefore(g: seq<Image>, k: int, mood: string, time: string)
  {
    forall j :: 0 <= j < k && j < |g| ==> !Exact(g[j], mood, time)
  }

  /** No image before position `k` has the mood. */
  predicate NoMoodBefore(g: seq<Image>, k: int, mood: string)
  {
    forall j :: 0 <= j < k && j < |g| ==> g[j].mood != mood
  }

  /** Some image of the gallery has this URL. */
  predicate InGallery(g: seq<Image>, url: string)
  {
    exists i :: 0 <= i < |g| && g[i].url == url
  }

  /** `selectWallpaper` / `recommendWallpaper` on gallery `g`: the first
      image with both the mood and the time, else the first with the mood,
      else the first image. `None` stands for the TypeError an empty gallery
      raises when its first element is dereferenced. */
  function Pick(g: seq<Image>, mood: string, time: string): (r: Option<string>)
    ensures r.None? <==> |g| == 0
    ensures r.Some? ==> InGallery(g, r.value)
    ensures forall i :: 0 <= i < |g| && Exact(g[i], mood, time) && NoExactBefore(g, i, mood, time) ==>
              r == Some(g[i].url)
    ensures NoExactBefore(g, |g|, mood, time) ==>
              forall i :: 0 <= i < |g| && g[i].mood == mood && NoMoodBefore(g, i, mood) ==> r == Some(g[i].url)
    ensures |g| > 0 && NoMoodBefore(g, |g|, mood) ==> r == Some(g[0].url)
  {
    var exact := Filter(g, ExactMatch(mood, time));
    if |exact| > 0 then
      forall i | 0 <= i < |g| && Exact(g[i], mood, time) && NoExactBefore(g, i, mood, time)
        ensures exact[0] == g[i]
      {
        FilterFirst(g, ExactMatch(mood, time), i);
      }
      assert exact[0] in g;
      Some(exact[0].url)
    else
      assert forall j :: 0 <= j < |g| ==> (Exact(g[j], mood, time) ==> g[j] in exact);
      var byMood := Filter(g, MoodMatch(mood));
      if |byMood| > 0 then
        forall i | 0 <= i < |g| && g[i].mood == mood && NoMoodBefore(g, i, mood)
          ensures byMood[0] == g[i]
        {
          FilterFirst(g, MoodMatch(mood), i);
        }
        assert byMood[0] in g;
        Some(byMood[0].url)
      else if |g| > 0 then
        Some(g[0].url)
      else
        None
  }

  // ---------------------------------------------------------------------
  // The background worker

  datatype Record = Record(time: int, url: string)

  datatype Rotator = Rotator(mood: string, wallpaper: string, history: seq<Record>)

  const Initial: Rotator := Rotator("happy", Gallery[0].url, [])

  /** `selectWallpaper` over the shipped gallery; never empty-handed. */
  function SelectWallpaper(mood: string, time: string): (url: string)
    ensures InGallery(Gallery, url)
    ensures Some(url) == Pick(Gallery, mood, time)
  {
    Pick(Gallery, mood, time).value
  }

  /** `rotateWallpaper` at local hour `hour` and time `now`: the wallpaper
      for the mood and time of day becomes current and one history record
      carrying it is appended. */
  function Rotate(st: Rotator, hour: int, now: int): (r: Rotator)
    ensures r.mood == st.mood
    ensures r.wallpaper == SelectWallpaper(st.mood, TimeOfDay(hour))
    ensures r.history == st.history + [Record(now, r.wallpaper)]
  {
    var url := SelectWallpaper(st.mood, TimeOfDay(hour));
    Rotator(st.mood, url, st.history + [Record(now, url)])
  }

  datatype Action = SetMood(mood: string) | RotateNow | Other(name: string)

  /** A message with the clock readings of its handling. */
  datatype Message = Message(action: Action, hour: int, now: int)

  /** The message listener: 'setMood' stores the mood, then rotates;
      'rotateWallpaper' rotates; anything else is ignored. */
  function Handle(st: Rotator, m: Message): (r: Rotator)
    ensures m.action.SetMood? ==> r == Rotate(st.(mood := m.action.mood), m.hour, m.now)
    ensures m.action.RotateNow? ==> r == Rotate(st, m.hour, m.now)
    ensures m.action.Other? ==> r == st
  {
    match m.action
    case SetMood(mood) => Rotate(st.(mood := mood), m.hour, m.now)
    case RotateNow => Rotate(st, m.hour, m.now)
    case Other(_) => st
  }

  /** Every wallpaper shown, current or in the history, is a gallery image. */
  predicate Shown(st: Rotator)
  {
    InGallery(Gallery, st.wallpaper) && forall i :: 0 <= i < |st.history| ==> InGallery(Gallery, st.history[i].url)
  }

  function Run(st: Rotator, ms: seq<Message>): Rotator
    decreases |ms|
  {
    if |ms| == 0 then st else Run(Handle(st, ms[0]), ms[1..])
  }

  /** Whatever messages arrive, only gallery images are ever shown, and
      the history grows by one record per mood or rotate message. */
  lemma {:induction false} RunShowsGalleryOnly(st: Rotator, ms: seq<Message>)
    requires Shown(st)
    ensures Shown(Run(st, ms))
    ensures |Run(st, ms).history| == |st.history| + Count(ms, Rotates)
    decreases |ms|
  {
    if |ms| > 0 {
      var next := Handle(st, ms[0]);
      assert Shown(next);
      RunShowsGalleryOnly(next, ms[1..]);
    }
  }

  predicate Rotates(m: Message)
  {
    !m.action.Other?
  }

  lemma InitialShown()
    ensures Shown(Initial)
  {
    assert Gallery[0].url == Initial.wallpaper;
  }

  // ---------------------------------------------------------------------
  // Mood analysis

  /** The first gallery image with this URL (`Array.prototype.find`). */
  function FindByUrl(g: seq<Image>, url: string): (r: Option<Image>)
    ensures r.None? <==> forall i :: 0 <= i < |g| ==> g[i].url != url
    ensures r.Some? ==> exists i :: 0 <= i < |g| && g[i] == r.value && r.value.url == url &&
                          forall j :: 0 <= j < i ==> g[j].url != url
  {
    if |g| == 0 then None
    else if g[0].url == url then Some(g[0])
    else
      var r := FindByUrl(g[1..], url);
      FindByUrlTail(g, url, r);
      r
  }

  /** A first match in the tail of `g`, when `g[0]` does not match, is a
      first match in `g`. */
  lemma FindByUrlTail(g: seq<Image>, url: string, r: Option<Image>)
    requires |g| > 0 && g[0].url != url
    requires r.Some? ==> exists i :: 0 <= i < |g[1..]| && g[1..][i] == r.value && r.value.url == url &&
                           forall j :: 0 <= j < i ==> g[1..][j].url != url
    ensures r.Some? ==> exists i :: 0 <= i < |g| && g[i] == r.value && r.value.url == url &&
                          forall j :: 0 <= j < i ==> g[j].url != url
  {
    if r.Some? {
      var i :| 0 <= i < |g[1..]| && g[1..][i] == r.value && r.value.url == url &&
               forall j :: 0 <= j < i ==> g[1..][j].url != url;
      assert g[i + 1] == r.value;
      forall j | 0 < j < i + 1
        ensures g[j].url != url
      {
        assert g[j] == g[1..][j - 1];
      }
    }
  }

  /** Whether a history record is attributed to `mood`: its URL's first
      gallery image has that mood. */
  predicate AttributedTo(g: seq<Image>, h: Record, mood: string)
  {
    var img := FindByUrl(g, h.url);
    img.Some? && img.value.mood == mood
  }

  /** Reference count: the records of `hs` attributed to `mood`. */
  function MoodTally(g: seq<Image>, hs: seq<Record>, mood: string): nat
    decreases |hs|
  {
    if |hs| == 0 then 0
    else MoodTally(g, hs[..|hs| - 1], mood) + (if AttributedTo(g, hs[|hs| - 1], mood) then 1 else 0)
  }

  /** The position of the first record of `hs` attributed to `mood`, or
      `|hs|` when there is none. */
  function FirstAttributed(g: seq<Image>, hs: seq<Record>, mood: string): (f: nat)
    ensures f <= |hs|
    ensures f < |hs| ==> AttributedTo(g, hs[f], mood)
    ensures forall k :: 0 <= k < f && k < |hs| ==> !AttributedTo(g, hs[k], mood)
    decreases |hs|
  {
    if |hs| == 0 then 0
    else
      var init := hs[..|hs| - 1];
      var f := FirstAttributed(g, init, mood);
      assert forall k :: 0 <= k < |init| ==> init[k] == hs[k];
      if f < |init| then f
      else if AttributedTo(g, hs[|hs| - 1], mood) then |init|
      else |hs|
  }

  /** A mood has a positive tally exactly when some record is attributed to it. */
  lemma {:induction false} TallyIffAttributed(g: seq<Image>, hs: seq<Record>, mood: string)
    ensures MoodTally(g, hs, mood) > 0 <==> FirstAttributed(g, hs, mood) < |hs|
    decreases |hs|
  {
    if |hs| > 0 {
      TallyIffAttributed(g, hs[..|hs| - 1], mood);
    }
  }

  /** `FirstAttributed` as a function of the mood. */
  function FirstOf(g: seq<Image>, hs: seq<Record>): string -> nat
  {
    m => FirstAttributed(g, hs, m)
  }

  /** The keys of `t` are the strings ranked below `n` by `f`, in increasing
      rank. */
  ghost predicate OrderedBy(t: seq<(string, nat)>, f: string -> nat, n: nat)
  {
    && (forall m :: Lookup(t, m).Some? <==> f(m) < n)
    && (forall i, j :: 0 <= i < j < |t| ==> f(t[i].0) < f(t[j].0))
  }

  /** The keys of `t` are the moods with a record in `hs`, in the order of
      their first attributed records: the insertion order of a JavaScript
      object's keys. */
  ghost predicate FirstUseOrder(g: seq<Image>, hs: seq<Record>, t: seq<(string, nat)>)
  {
    OrderedBy(t, FirstOf(g, hs), |hs|)
  }

  /** One more record moves no earlier first attribution; it is the first
      for its own mood if that mood had none. */
  lemma FirstSnoc(g: seq<Image>, hs: seq<Record>, m: string)
    requires |hs| > 0
    ensures FirstAttributed(g, hs, m) ==
              if FirstAttributed(g, hs[..|hs| - 1], m) < |hs| - 1 then FirstAttributed(g, hs[..|hs| - 1], m)
              else if AttributedTo(g, hs[|hs| - 1], m) then |hs| - 1
              else |hs|
  {
  }

  /** Ranks below `n` are kept and the rest move to `n` or beyond: the same
      keys are ordered by the new ranks with bound `n + 1`. */
  lemma OrderedKept(t: seq<(string, nat)>, f: string -> nat, f': string -> nat, n: nat)
    requires UniqueKeys(t) && OrderedBy(t, f, n)
    requires forall m :: f(m) < n ==> f'(m) == f(m)
    requires forall m :: f(m) >= n && Lookup(t, m).None? ==> f'(m) > n
    ensures forall m :: Lookup(t, m).Some? ==> f'(m) == f(m)
    ensures OrderedBy(t, f', n + 1)
  {
    forall i | 0 <= i < |t|
      ensures f'(t[i].0) == f(t[i].0)
    {
      LookupMember(t, i);
    }
  }

  /** Rewriting values in place keeps the key order. */
  lemma OrderedSameKeys(t: seq<(string, nat)>, r: seq<(string, nat)>, f: string -> nat, n: nat)
    requires OrderedBy(t, f, n)
    requires |r| == |t| && forall i :: 0 <= i < |t| ==> r[i].0 == t[i].0
    requires forall m :: Lookup(r, m).Some? <==> Lookup(t, m).Some?
    ensures OrderedBy(r, f, n)
  {
    forall i, j | 0 <= i < j < |r|
      ensures f(r[i].0) < f(r[j].0)
    {
      assert r[i].0 == t[i].0 && r[j].0 == t[j].0;
    }
  }

  /** A new key ranked `n`, after keys ranked below `n`, goes at the end. */
  lemma OrderedAppend(t: seq<(string, nat)>, r: seq<(string, nat)>, k: string, f: string -> nat, f': string -> nat, n: nat)
    requires UniqueKeys(t) && OrderedBy(t, f, n) && Lookup(t, k).None?
    requires |r| == |t| + 1 && r[|t|].0 == k && forall i :: 0 <= i < |t| ==> r[i] == t[i]
    requires Lookup(r, k).Some? && forall m :: m != k ==> Lookup(r, m) == Lookup(t, m)
    requires f'(k) == n
    requires forall m :: f(m) < n ==> f'(m) == f(m)
    requires forall m :: m != k && f(m) >= n ==> f'(m) > n
    ensures OrderedBy(r, f', n + 1)
  {
    forall m
      ensures Lookup(r, m).Some? <==> f'(m) < n + 1
    {
      if m != k {
        assert Lookup(r, m) == Lookup(t, m);
      }
    }
    forall i | 0 <= i < |t|
      ensures f'(t[i].0) == f(t[i].0) < n
    {
      RankOfKey(t, f, n, i);
    }
    AppendInOrder(t, r, f', n);
  }

  lemma AppendInOrder(t: seq<(string, nat)>, r: seq<(string, nat)>, f: string -> nat, n: nat)
    requires |r| == |t| + 1 && f(r[|t|].0) == n && forall i :: 0 <= i < |t| ==> r[i] == t[i]
    requires forall i :: 0 <= i < |t| ==> f(t[i].0) < n
    requires forall i, j :: 0 <= i < j < |t| ==> f(t[i].0) < f(t[j].0)
    ensures forall i, j :: 0 <= i < j < |r| ==> f(r[i].0) < f(r[j].0)
  {
    forall i, j | 0 <= i < j < |r|
      ensures f(r[i].0) < f(r[j].0)
    {
      assert r[i] == t[i];
      if j < |t| {
        assert r[j] == t[j];
      }
    }
  }

  /** Every key of an ordered list is ranked below the bound. */
  lemma RankOfKey(t: seq<(string, nat)>, f: string -> nat, n: nat, i: nat)
    requires UniqueKeys(t) && OrderedBy(t, f, n) && i < |t|
    ensures f(t[i].0) < n
  {
    LookupMember(t, i);
  }

  /** Counting one more record keeps the keys in first-use order: a mood
      already counted keeps its place, a new one is appended. */
  lemma FirstUseStep(g: seq<Image>, hs: seq<Record>, prev: seq<(string, nat)>, img: Option<Image>, r: seq<(string, nat)>)
    requires |hs| > 0 && UniqueKeys(prev) && FirstUseOrder(g, hs[..|hs| - 1], prev)
    requires img == FindByUrl(g, hs[|hs| - 1].url)
    requires r == if img.Some? then Bump(prev, img.value.mood) else prev
    ensures FirstUseOrder(g, hs, r)
  {
    var n := |hs| - 1;
    var f, f' := FirstOf(g, hs[..n]), FirstOf(g, hs);
    SnocRanks(g, hs, img);
    if img.None? {
      OrderedKept(prev, f, f', n);
    } else {
      BumpInOrder(prev, img.value.mood, f, f', n);
    }
  }

  /** The first attributions after one more record, whose URL finds `img`. */
  lemma SnocRanks(g: seq<Image>, hs: seq<Record>, img: Option<Image>)
    requires |hs| > 0 && img == FindByUrl(g, hs[|hs| - 1].url)
    ensures forall m :: FirstOf(g, hs)(m) ==
              if FirstOf(g, hs[..|hs| - 1])(m) < |hs| - 1 then FirstOf(g, hs[..|hs| - 1])(m)
              else if img.Some? && img.value.mood == m then |hs| - 1
              else |hs|
  {
    forall m
      ensures FirstOf(g, hs)(m) ==
                if FirstOf(g, hs[..|hs| - 1])(m) < |hs| - 1 then FirstOf(g, hs[..|hs| - 1])(m)
                else if img.Some? && img.value.mood == m then |hs| - 1
                else |hs|
    {
      FirstSnoc(g, hs, m);
    }
  }

  /** Counting a record for mood `k` keeps the key order: an old key stays
      in place, a new one is ranked `n` and goes at the end. */
  lemma BumpInOrder(t: seq<(string, nat)>, k: string, f: string -> nat, f': string -> nat, n: nat)
    requires UniqueKeys(t) && OrderedBy(t, f, n)
    requires forall m :: f'(m) == if f(m) < n then f(m) else if k == m then n else n + 1
    ensures OrderedBy(Bump(t, k), f', n + 1)
  {
    if Lookup(t, k).Some? {
      BumpKnown(t, k, f, f', n);
    } else {
      BumpNew(t, k, f, f', n);
    }
  }

  lemma BumpKnown(t: seq<(string, nat)>, k: string, f: string -> nat, f': string -> nat, n: nat)
    requires UniqueKeys(t) && OrderedBy(t, f, n) && Lookup(t, k).Some?
    requires forall m :: f'(m) == if f(m) < n then f(m) else if k == m then n else n + 1
    ensures OrderedBy(Bump(t, k), f', n + 1)
  {
    var r := Bump(t, k);
    UpsertKeys(t, k, if Lookup(t, k).Some? then Lookup(t, k).value + 1 else 1);
    forall m | f(m) >= n && Lookup(t, m).None?
      ensures f'(m) > n
    {
      assert m != k;
    }
    OrderedKept(t, f, f', n);
    SameLookupKeys(t, r, k);
    OrderedSameKeys(t, r, f', n + 1);
  }

  /** Bumping a key already present leaves the set of present keys alone. */
  lemma SameLookupKeys(t: seq<(string, nat)>, r: seq<(string, nat)>, k: string)
    requires Lookup(t, k).Some? && Lookup(r, k).Some?
    requires forall m :: m != k ==> Lookup(r, m) == Lookup(t, m)
    ensures forall m :: Lookup(r, m).Some? <==> Lookup(t, m).Some?
  {
  }

  lemma BumpNew(t: seq<(string, nat)>, k: string, f: string -> nat, f': string -> nat, n: nat)
    requires UniqueKeys(t) && OrderedBy(t, f, n) && Lookup(t, k).None?
    requires forall m :: f'(m) == if f(m) < n then f(m) else if k == m then n else n + 1
    ensures OrderedBy(Bump(t, k), f', n + 1)
  {
    UpsertKeys(t, k, 1);
    OrderedAppend(t, Bump(t, k), k, f, f', n);
  }

  /** `(moodCount[m] || 0) + 1` stored back under `m`. */
  function Bump(t: seq<(string, nat)>, m: string): (r: seq<(string, nat)>)
    requires UniqueKeys(t)
    ensures UniqueKeys(r)
    ensures Lookup(r, m) == Some(if Lookup(t, m).Some? then Lookup(t, m).value + 1 else 1)
    ensures forall k :: k != m ==> Lookup(r, k) == Lookup(t, k)
  {
    Upsert(t, m, if Lookup(t, m).Some? then Lookup(t, m).value + 1 else 1)
  }

  /** The `moodCount` object of `analyzeMood`: records whose URL is not in
      the gallery are skipped; every other record counts once for the mood
      of the first image with its URL. */
  function MoodCounts(g: seq<Image>, hs: seq<Record>): (t: seq<(string, nat)>)
    ensures UniqueKeys(t)
    ensures forall m :: Lookup(t, m) == if MoodTally(g, hs, m) > 0 then Some(MoodTally(g, hs, m)) else None
    decreases |hs|
  {
    if |hs| == 0 then []
    else
      var prev := MoodCounts(g, hs[..|hs| - 1]);
      var img := FindByUrl(g, hs[|hs| - 1].url);
      if img.Some? then Bump(prev, img.value.mood) else prev
  }

  /** The keys of `moodCount` are the counted moods in the order of their
      first attributed records, which decides ties in `analyzeMood`. */
  lemma {:induction false} MoodCountsFirstUseOrder(g: seq<Image>, hs: seq<Record>)
    ensures FirstUseOrder(g, hs, MoodCounts(g, hs))
    decreases |hs|
  {
    if |hs| > 0 {
      var init := hs[..|hs| - 1];
      MoodCountsFirstUseOrder(g, init);
      var img := FindByUrl(g, hs[|hs| - 1].url);
      FirstUseStep(g, hs, MoodCounts(g, init), img, MoodCounts(g, hs));
    }
  }

  /** JavaScript's `>` on counts where a missing key reads as undefined:
      any comparison with undefined is false. */
  predicate Greater(a: Option<nat>, b: Option<nat>)
  {
    a.Some? && b.Some? && a.value > b.value
  }

  /** The reduction over the first `k` keys of `t`, starting from 'happy':
      the accumulator survives only if its count is strictly greater. */
  function Fold(t: seq<(string, nat)>, k: nat): string
    requires k <= |t|
  {
    if k == 0 then "happy"
    else
      var a := Fold(t, k - 1);
      if Greater(Lookup(t, a), Some(t[k - 1].1)) then a else t[k - 1].0
  }

  /** The most used mood. */
  function MostUsed(t: seq<(string, nat)>): string
  {
    Fold(t, |t|)
  }

  /** Entry `i` has the largest count among the first `k`, and every later
      one of them has a strictly smaller count. */
  predicate LastMaxIn(t: seq<(string, nat)>, k: nat, i: int)
    requires k <= |t|
  {
    0 <= i < k && (forall j :: 0 <= j < k ==> t[j].1 <= t[i].1) && (forall j :: i < j < k ==> t[j].1 < t[i].1)
  }

  /** 'happy' is a key whose count beats each of the first `k` counts. */
  predicate HappyAhead(t: seq<(string, nat)>, k: nat)
    requires k <= |t|
  {
    exists h :: 0 <= h < |t| && t[h].0 == "happy" && forall j :: 0 <= j < k ==> t[j].1 < t[h].1
  }

  /** What the accumulator is after the first `k` keys: the last of them
      with the largest count, or 'happy' while its own count is ahead. */
  predicate FoldState(t: seq<(string, nat)>, k: nat, a: string)
    requires k <= |t|
  {
    (exists i :: 0 <= i < k && LastMaxIn(t, k, i) && a == t[i].0) || (a == "happy" && HappyAhead(t, k))
  }

  lemma {:induction false} FoldInvariant(t: seq<(string, nat)>, k: nat)
    requires UniqueKeys(t) && 1 <= k <= |t|
    ensures FoldState(t, k, Fold(t, k))
  {
    if k > 1 {
      FoldInvariant(t, k - 1);
    }
    FoldFrom(t, k);
  }

  /** One step of the reduction, from the start or from the state after
      the first `k - 1` keys. */
  lemma FoldFrom(t: seq<(string, nat)>, k: nat)
    requires UniqueKeys(t) && 1 <= k <= |t|
    requires k == 1 || FoldState(t, k - 1, Fold(t, k - 1))
    ensures FoldState(t, k, Fold(t, k))
  {
    if k == 1 {
      FoldFirst(t);
    } else {
      FoldStep(t, k);
    }
  }

  lemma FoldFirst(t: seq<(string, nat)>)
    requires UniqueKeys(t) && 1 <= |t|
    ensures FoldState(t, 1, Fold(t, 1))
  {
    assert Fold(t, 0) == "happy";
    if Greater(Lookup(t, "happy"), Some(t[0].1)) {
      var h := LookupSome(t, "happy");
      assert HappyAhead(t, 1);
    } else {
      assert LastMaxIn(t, 1, 0);
    }
  }

  lemma FoldStep(t: seq<(string, nat)>, k: nat)
    requires UniqueKeys(t) && 2 <= k <= |t|
    requires FoldState(t, k - 1, Fold(t, k - 1))
    ensures FoldState(t, k, Fold(t, k))
  {
    var a := Fold(t, k - 1);
    if exists i :: 0 <= i < k - 1 && LastMaxIn(t, k - 1, i) && a == t[i].0 {
      var i :| 0 <= i < k - 1 && LastMaxIn(t, k - 1, i) && a == t[i].0;
      FoldStepFromMax(t, k, i);
    } else {
      var h :| 0 <= h < |t| && t[h].0 == "happy" && forall j :: 0 <= j < k - 1 ==> t[j].1 < t[h].1;
      FoldStepFromHappy(t, k, h);
    }
  }

  /** A step from the last maximum of the first `k - 1` keys. */
  lemma FoldStepFromMax(t: seq<(string, nat)>, k: nat, i: nat)
    requires UniqueKeys(t) && 2 <= k <= |t|
    requires LastMaxIn(t, k - 1, i) && Fold(t, k - 1) == t[i].0
    ensures FoldState(t, k, Fold(t, k))
  {
    LookupMember(t, i);
    if t[i].1 > t[k - 1].1 {
      assert Fold(t, k) == t[i].0;
      assert LastMaxIn(t, k, i);
    } else {
      assert Fold(t, k) == t[k - 1].0;
      assert LastMaxIn(t, k, k - 1);
    }
  }

  /** A step while 'happy' (entry `h`) is still ahead. */
  lemma FoldStepFromHappy(t: seq<(string, nat)>, k: nat, h: nat)
    requires UniqueKeys(t) && 2 <= k <= |t|
    requires h < |t| && t[h].0 == "happy" && forall j :: 0 <= j < k - 1 ==> t[j].1 < t[h].1
    requires Fold(t, k - 1) == "happy"
    ensures FoldState(t, k, Fold(t, k))
  {
    LookupMember(t, h);
    if t[h].1 > t[k - 1].1 {
      assert Fold(t, k) == "happy";
      assert HappyAhead(t, k);
    } else {
      assert Fold(t, k) == t[k - 1].0;
      assert LastMaxIn(t, k, k - 1);
    }
  }

  /** The reduction picks the last of the keys with the largest count; with
      no keys it stays at 'happy'. */
  lemma MostUsedIsLastMaximum(t: seq<(string, nat)>)
    requires UniqueKeys(t)
    ensures |t| == 0 ==> MostUsed(t) == "happy"
    ensures |t| > 0 ==> exists i :: LastMaxIn(t, |t|, i) && MostUsed(t) == t[i].0
  {
    if |t| > 0 {
      FoldInvariant(t, |t|);
      assert !HappyAhead(t, |t|);
    }
  }

  const PreferMessage := "You seem to prefer wallpapers matching your current mood."
  const TryOtherMessage := "Try a wallpaper for a different mood to boost your spirits!"

  /** `analyzeMood`: whether the given mood is the most used one. */
  function AnalyzeMood(g: seq<Image>, mood: string, hs: seq<Record>): (r: string)
    ensures r == PreferMessage || r == TryOtherMessage
    ensures r == PreferMessage <==> mood == MostUsed(MoodCounts(g, hs))
  {
    if mood == MostUsed(MoodCounts(g, hs)) then PreferMessage else TryOtherMessage
  }

  /** With no record attributed to any mood, only 'happy' is preferred. */
  lemma EmptyHistoryPrefersHappy(g: seq<Image>, mood: string)
    ensures AnalyzeMood(g, mood, []) == PreferMessage <==> mood == "happy"
  {
  }

  /** The prefer message means the mood has the largest count, and no mood
      counted after it in first-use order ties with it. */
  lemma PreferMeansMostCounted(g: seq<Image>, mood: string, hs: seq<Record>)
    requires |MoodCounts(g, hs)| > 0
    requires AnalyzeMood(g, mood, hs) == PreferMessage
    ensures MoodTally(g, hs, mood) > 0
    ensures forall m :: MoodTally(g, hs, m) <= MoodTally(g, hs, mood)
    ensures forall m :: m != mood && MoodTally(g, hs, m) == MoodTally(g, hs, mood) ==>
              FirstAttributed(g, hs, m) < FirstAttributed(g, hs, mood)
  {
    var t := MoodCounts(g, hs);
    MostUsedIsLastMaximum(t);
    var i :| LastMaxIn(t, |t|, i) && MostUsed(t) == t[i].0;
    LookupMember(t, i);
    MoodCountsFirstUseOrder(g, hs);
    forall m
      ensures MoodTally(g, hs, m) <= MoodTally(g, hs, mood)
      ensures m != mood && MoodTally(g, hs, m) == MoodTally(g, hs, mood) ==>
                FirstAttributed(g, hs, m) < FirstAttributed(g, hs, mood)
    {
      if MoodTally(g, hs, m) > 0 {
        var j := LookupSome(t, m);
        if m != mood && MoodTally(g, hs, m) == MoodTally(g, hs, mood) {
          TieIsEarlier(t, FirstOf(g, hs), |hs|, i, j);
        }
      }
    }
  }

  /** A key tying with the last maximum comes before it. */
  lemma TieIsEarlier(t: seq<(string, nat)>, f: string -> nat, n: nat, i: nat, j: nat)
    requires UniqueKeys(t) && OrderedBy(t, f, n) && LastMaxIn(t, |t|, i)
    requires j < |t| && j != i && t[j].1 == t[i].1
    ensures f(t[j].0) < f(t[i].0)
  {
  }

  /** The mood `analyzeMood` prefers once some record is counted: the
      largest tally, and among moods tying for it the one counted last. */
  ghost predicate MostCountedLastUsed(g: seq<Image>, hs: seq<Record>, mood: string)
  {
    && MoodTally(g, hs, mood) > 0
    && (forall m :: MoodTally(g, hs, m) <= MoodTally(g, hs, mood))
    && (forall m :: m != mood && MoodTally(g, hs, m) == MoodTally(g, hs, mood) ==>
          FirstAttributed(g, hs, m) < FirstAttributed(g, hs, mood))
  }

  /** The prefer message, exactly: 'happy' when no record is counted,
      otherwise the most counted mood, ties going to the one counted last. */
  lemma AnalyzeMoodIff(g: seq<Image>, mood: string, hs: seq<Record>)
    ensures AnalyzeMood(g, mood, hs) == PreferMessage <==>
              if forall m :: MoodTally(g, hs, m) == 0 then mood == "happy"
              else MostCountedLastUsed(g, hs, mood)
  {
    var t := MoodCounts(g, hs);
    if |t| > 0 {
      LookupMember(t, 0);
      assert MoodTally(g, hs, t[0].0) > 0;
      if AnalyzeMood(g, mood, hs) == PreferMessage {
        PreferMeansMostCounted(g, mood, hs);
      }
      if MostCountedLastUsed(g, hs, mood) {
        MostCountedIsMostUsed(g, mood, hs);
      }
    }
  }

  /** The reduction lands on the most counted mood counted last. */
  lemma MostCountedIsMostUsed(g: seq<Image>, mood: string, hs: seq<Record>)
    requires MostCountedLastUsed(g, hs, mood)
    ensures MostUsed(MoodCounts(g, hs)) == mood
  {
    var t := MoodCounts(g, hs);
    var h := LookupSome(t, mood);
    MostUsedIsLastMaximum(t);
    var i :| LastMaxIn(t, |t|, i) && MostUsed(t) == t[i].0;
    LookupMember(t, i);
    MoodCountsFirstUseOrder(g, hs);
    assert t[h].1 == t[i].1;
    assert t[i].0 != mood ==> FirstAttributed(g, hs, t[i].0) < FirstAttributed(g, hs, mood);
    WinnerIsKey(t, FirstOf(g, hs), |hs|, i, h);
  }

  /** A key tying with the last maximum, and ranked after it unless it is
      that maximum, is that maximum. */
  lemma WinnerIsKey(t: seq<(string, nat)>, f: string -> nat, n: nat, i: nat, h: nat)
    requires UniqueKeys(t) && OrderedBy(t, f, n) && LastMaxIn(t, |t|, i)
    requires h < |t| && t[h].1 == t[i].1
    requires t[i].0 != t[h].0 ==> f(t[i].0) < f(t[h].0)
    ensures t[i].0 == t[h].0
  {
  }

  /** A mood counted strictly more often than every other gets the prefer
      message. */
  lemma StrictMaxPreferred(g: seq<Image>, mood: string, hs: seq<Record>)
    requires forall m :: m != mood ==> MoodTally(g, hs, m) < MoodTally(g, hs, mood)
    ensures AnalyzeMood(g, mood, hs) == PreferMessage
  {
    var other := if mood == "" then "a" else "";
    assert MoodTally(g, hs, other) < MoodTally(g, hs, mood);
    StrictMaxIsMostCounted(g, hs, mood);
    AnalyzeMoodIff(g, mood, hs);
  }

  lemma StrictMaxIsMostCounted(g: seq<Image>, hs: seq<Record>, mood: string)
    requires MoodTally(g, hs, mood) > 0
    requires forall m :: m != mood ==> MoodTally(g, hs, m) < MoodTally(g, hs, mood)
    ensures MostCountedLastUsed(g, hs, mood)
  {
  }

  /** 'sad' shares its URL with the earlier 'calm' image, so no record is
      ever attributed to it. */
  lemma SadNeverCounted(hs: seq<Record>)
    ensures MoodTally(Gallery, hs, "sad") == 0
    decreases |hs|
  {
    if |hs| > 0 {
      SadNeverCounted(hs[..|hs| - 1]);
      NeverFoundSad(hs[|hs| - 1]);
    }
  }

  /** No lookup by URL in the gallery ever finds the 'sad' image. */
  lemma NeverFoundSad(h: Record)
    ensures !AttributedTo(Gallery, h, "sad")
  {
    ShadowedNeverFound(Gallery, 1, 5, h.url);
  }

  /** When the only image of some mood shares its URL with an earlier image,
      no lookup by URL finds that mood. */
  lemma ShadowedNeverFound(g: seq<Image>, a: nat, b: nat, url: string)
    requires a < b < |g| && g[a].url == g[b].url
    requires forall k :: 0 <= k < |g| && g[k].mood == g[b].mood ==> k == b
    ensures FindByUrl(g, url).Some? ==> FindByUrl(g, url).value.mood != g[b].mood
  {
    var img := FindByUrl(g, url);
    if img.Some? {
      var i :| 0 <= i < |g| && g[i] == img.value && img.value.url == url &&
               forall j :: 0 <= j < i ==> g[j].url != url;
      assert i != b;
    }
  }
}
